=== FILE: README.md ===
# Nutil protocol core in Dafny

This project models the protocol codecs and state machines of Nutil, a Swift networking library:

- **HTTP/2 frames.** The big-endian integer codecs, the nine-octet frame header, the ten frame payloads, and the resumable frame assembler that enforces the maximum frame size (RFC 7540 sections 4 and 6).
- **HPACK.** The static table, the dynamic table with its eviction and size accounting, the prefix-integer and string-literal codecs, and block encoding and decoding (RFC 7541).
- **HTTP/2 streams and connection.** Window accounting, the per-stream state machine, and the connection's frame dispatch (sections 5.1, 6 and 6.9 of RFC 7540). This covers SETTINGS validation and retroactive INITIAL_WINDOW_SIZE changes, the CONTINUATION lock, the odd and even stream tables, and incremental preface matching.
- **HTTP/1.x.** The header map and its framing (Content-Length or chunked), message-head serialisation, the incremental parser for start line, header lines and body (chunked coding included), and chunk framing on send (RFC 7230 sections 3 and 4.1). From the HTTP/2 request, only the header transforms and the Content-Length clamp are modelled.
- **WebSocket framing.** The frame header encoder, the resumable frame decoder and payload masking (RFC 6455 sections 5.2 and 5.3).

There is one Dafny module per Swift file. The exceptions:

- `H2Stream` and `H2Connection` share the module `H2Connection`, because each refers to the other.
- `HttpChunked` holds the end-to-end lemma that joins `HttpMessage` (the chunked writer) to `HttpParser` (the chunked reader).
- `HPackVectors` states the RFC 7541 Appendix C examples that use no Huffman coding as decodings by the `HPacker` model: the octets of each block, the header list it yields and the dynamic table it leaves.
- `Common` holds the integer, text and octet helpers shared by several files. These stand in for Swift's `Int(_:radix:)`, `String(_:radix:)`, `trimmingCharacters`, `components(separatedBy:)` and `utf8`.

Modelling conventions:

- Swift classes whose fields change become Dafny classes; value types become datatypes.
- The buffers the encoders write into (`UnsafeMutablePointer<UInt8>`) are Dafny arrays, and so is the payload `handleDataMask` unmasks. The encoders' contracts state what they write and that they touch nothing else. The input of `decodeFrame`, which the source unmasks in place, is a sequence (see `WSHandler.WSHandler.DecodeFrame` under "Left out").
- Callbacks become ghost event logs, or a value the caller passes in that stands for the callback's answer.
- Sockets become a "send buffer empty" flag, a "writable" flag and a log of the frames handed to the transport.
- Text is a `string` of characters that each stand for one octet. `utf8.count` is the length, and the conversion to octets is `Common.OctetsOf`.
- Integer widths are written out: `byte`, `uint16`, `uint32` and `uint64` subset types, with explicit `%` wherever the source truncates.

## Model

| member | source | states |
|---|---|---|
| `Common.Quot` | Sources/http/v2/H2Connection.swift:78 | Swift's `/`: the quotient of a non-negative by a positive number is Dafny's, that of a negative one is truncated toward zero |
| `Common.OctetsTextRoundTrip` | Sources/http/HttpParser.swift:459 | octets read as text and turned back into octets are the same octets |
| `Common.TextOctetsRoundTrip` | Sources/http/HttpMessage.swift:53-58 | text of one-octet characters sent as octets and read back is the same text |
| `Common.AsciiTextOf` | Sources/http/v2/hpack/HPacker.swift:418-419 | octets read as text give ASCII text exactly when every octet is below 0x80, the octets the `.ascii` conversion accepts |
| `Common.Lower` | Sources/http/HttpParser.swift:116 | case folding keeps the length |
| `Common.LowerFolds` | Sources/http/HttpParser.swift:116 | folded text holds no upper-case ASCII letter, every other character is kept, and folding twice is folding once |
| `Common.TrimLeft` | Sources/http/HttpParser.swift:127 | `trimmingCharacters(in: .whitespaces)` on the left: a suffix of the text that starts with no blank |
| `Common.TrimRight` | Sources/http/HttpParser.swift:127 | the same on the right: a prefix that ends with no blank |
| `Common.IndexOf` | Sources/http/HttpParser.swift:306-310 | the first occurrence of the character, or none when it does not occur |
| `Common.Split` | Sources/http/HttpParser.swift:263 | `components(separatedBy:)` always yields at least one part |
| `Common.SplitJoins` | Sources/http/HttpParser.swift:263 | no part holds the separator, and the parts joined with it give the text back |
| `Common.ParseInt` | Sources/http/HttpParser.swift:288 | `Int(_:radix:)` is nil for empty text and otherwise within 64 bits |
| `Common.HexString` | Sources/http/HttpMessage.swift:53 | `String(n, radix: 16)` is non-empty and unsigned |
| `Common.DecimalString` | Sources/http/HttpHeader.swift:28-30 | `String(n)` of a non-negative number is non-empty and unsigned |
| `Common.DigitsOfRadixString` | Sources/http/HttpMessage.swift:53 | the digits of a printed number spell the number |
| `Common.ParseHexString` | Sources/http/HttpParser.swift:335 | `Int(String(n, radix: 16), radix: 16)` is `n` |
| `Common.ParseDecimalString` | Sources/http/HttpHeader.swift:39 | `Int(String(n))` is `n` |
| `Common.RadixStringDigits` | Sources/http/HttpMessage.swift:53 | a printed number uses only '0' to '9' in decimal, and only '0' to '9' and 'a' to 'f' in hexadecimal |
| `Common.OctetsOfAt` | Sources/http/HttpMessage.swift:79 | each character becomes the octet of its code, modulo 256 |
| `H2Utils.U32RoundTrip` | Sources/http/v2/H2Utils.swift:13-27 | decoding the four octets `encode_u32` writes gives back any 32-bit value, with octet 0 the most significant |
| `H2Utils.DecodeU32Bytes` | Sources/http/v2/H2Utils.swift:20-27 | the other direction: encoding what `decode_u32` reads gives back the four octets it read |
| `H2Utils.DecodeU32` | Sources/http/v2/H2Utils.swift:20-27 | `decode_u32` reads the first four octets as one big-endian number (`BigEndian`) |
| `H2Utils.U24RoundTrip` | Sources/http/v2/H2Utils.swift:29-41 | decoding what `encode_u24` writes gives the value modulo 2^24: the encoder drops the bits above 24 |
| `H2Utils.DecodeU24Bytes` | Sources/http/v2/H2Utils.swift:35-41 | encoding what `decode_u24` reads gives back the three octets it read |
| `H2Utils.DecodeU24` | Sources/http/v2/H2Utils.swift:35-41 | a decoded 24-bit value is below 2^24 |
| `H2Utils.U16RoundTrip` | Sources/http/v2/H2Utils.swift:43-53 | decoding what `encode_u16` writes gives back any 16-bit value |
| `H2Utils.DecodeU16Bytes` | Sources/http/v2/H2Utils.swift:48-53 | encoding what `decode_u16` reads gives back the two octets it read |
| `H2Utils.DecodeU16` | Sources/http/v2/H2Utils.swift:48-53 | `decode_u16` reads the first two octets as one big-endian number |
| `H2Utils.EncodeU32` | Sources/http/v2/H2Utils.swift:13-18 | writes exactly the four big-endian octets at the offset and leaves every other position of the buffer unchanged |
| `H2Utils.EncodeU24` | Sources/http/v2/H2Utils.swift:29-33 | writes exactly the three big-endian octets at the offset and nothing else |
| `H2Utils.EncodeU16` | Sources/http/v2/H2Utils.swift:43-46 | writes exactly the two big-endian octets at the offset and nothing else |
| `H2Utils.PromisedStreamParity` | Sources/http/v2/H2Utils.swift:55-57 | `isPromisedStream` (the even identifiers): identifiers two apart fall on the same side and neighbouring ones on different sides |
| `H2Frame.FrameTypeOf` | Sources/http/v2/H2Frame.swift:31-42 | a type octet names a frame type exactly when it is at most 9, and the type's code is that octet |
| `H2Frame.FrameTypeOfCode` | Sources/http/v2/H2Frame.swift:31-42 | every frame type is read back from its own code |
| `H2Frame.WithFlag` | Sources/http/v2/H2Frame.swift:145-147 | `addFlags` makes the flag present |
| `H2Frame.WithoutFlag` | Sources/http/v2/H2Frame.swift:149-151 | `clearFlags` makes the flag absent |
| `H2Frame.FrameHeaderRoundTrip` | Sources/http/v2/H2Frame.swift:108-131 | `FrameHeader.decode` reads back what `encode` wrote, for any length below 2^24 |
| `H2Frame.DecodeFrameHeaderBytes` | Sources/http/v2/H2Frame.swift:119-131 | re-encoding a decoded header gives back the nine octets it was read from |
| `H2Frame.EncodeFrameHeader` | Sources/http/v2/H2Frame.swift:108-117 | returns -1 below nine octets of room; otherwise writes the 24-bit length, type, flags and 32-bit stream id, big-endian, returns 9 and touches nothing past them |
| `H2Frame.Stamp` | Sources/http/v2/H2Frame.swift:197-201 | `encodeHeader` sets the header's type to the frame's own and its length to the payload size, leaving flags and stream id as they were |
| `H2Frame.PriorityRoundTrip` | Sources/http/v2/H2Frame.swift:203-228 | decoding an encoded priority gives the dependency masked to 31 bits, the exclusive bit, and the weight as `(weight & 0xFF) + 1` |
| `H2Frame.DecodePriority` | Sources/http/v2/H2Frame.swift:218-228 | under five octets gives frameSizeError and the default priority; otherwise the weight is 1 to 256 and the dependency fits 31 bits |
| `H2Frame.EncodePriority` | Sources/http/v2/H2Frame.swift:203-216 | returns -1 below five octets of room; otherwise writes the five priority octets and nothing else |
| `H2Frame.SettingsRoundTrip` | Sources/http/v2/H2Frame.swift:490-541 | decoding the payload `encodePayload` writes gives back the parameters in order |
| `H2Frame.SettingsBytesOfParams` | Sources/http/v2/H2Frame.swift:519-541 | the other direction: every payload of a multiple of six octets is the encoding of the parameters it decodes to |
| `H2Frame.SettingsParams` | Sources/http/v2/H2Frame.swift:519-541 | a SETTINGS payload holds length/6 parameters |
| `H2Frame.EncodeSettingsPayload` | Sources/http/v2/H2Frame.swift:490-502 | returns -1 when the parameters do not fit; otherwise writes six octets per parameter and nothing outside the room given |
| `H2Frame.Unpadded` | Sources/http/v2/H2Frame.swift:273-280 | without PADDED the payload is used whole; with it, an empty payload or a pad length of at least the frame length fails, and otherwise the usable part is length − padLen − 1 octets |
| `H2Frame.Decode` | Sources/http/v2/H2Frame.swift:231-800 | the payload decoder of each of the ten frame types; the decoded frame keeps its type and takes the header |
| `H2Frame.DecodeStreamScope` | Sources/http/v2/H2Frame.swift:265-800 | DATA, HEADERS, PRIORITY, RST_STREAM, PUSH_PROMISE and CONTINUATION on stream 0, and SETTINGS, PING and GOAWAY on any other stream, are protocolErrors; WINDOW_UPDATE decodes exactly when its length is 4 |
| `H2Frame.DecodeFrameSizeErrors` | Sources/http/v2/H2Frame.swift:450-752 | on the right stream, RST_STREAM length ≠ 4, PING ≠ 8, WINDOW_UPDATE ≠ 4, GOAWAY < 8, and SETTINGS with ACK and a payload or a length not a multiple of 6 are exactly the frameSizeErrors for these types |
| `H2Frame.DecodePadding` | Sources/http/v2/H2Frame.swift:265-285 | a padded DATA, HEADERS or PUSH_PROMISE frame whose pad length is not below its length is a protocolError; a padded DATA frame otherwise carries the octets between the pad length and the padding |
| `H2Frame.DecodeMasks` | Sources/http/v2/H2Frame.swift:544-752 | the WINDOW_UPDATE increment and the GOAWAY last stream id are the first 32-bit field of the payload masked to 31 bits, and the PUSH_PROMISE promised id is the 32-bit field after the pad length, masked to 31 bits |
| `H2Frame.WireSplit` | Sources/http/v2/H2Frame.swift:177-201 | the wire form of a frame is its stamped header followed by its payload |
| `H2Frame.DecodeWireExact` | Sources/http/v2/H2Frame.swift:231-752 | DATA, RST_STREAM, SETTINGS, PING and WINDOW_UPDATE frames decode from their own wire form to themselves |
| `H2Frame.DecodeWireHeaders` | Sources/http/v2/H2Frame.swift:287-388 | a HEADERS frame decodes from its wire form to its header and block; the priority and the decoded header list of the reused object are left as they were |
| `H2Frame.DecodeWirePriority` | Sources/http/v2/H2Frame.swift:390-425 | a PRIORITY frame decodes from its wire form with the weight shifted as `PriorityRoundTrip` says |
| `H2Frame.DecodeWirePushPromise` | Sources/http/v2/H2Frame.swift:544-604 | a PUSH_PROMISE frame decodes from its wire form; with an empty block the reused object keeps its earlier block |
| `H2Frame.DecodeWireGoaway` | Sources/http/v2/H2Frame.swift:659-716 | a GOAWAY frame decodes from its wire form; with no debug data the reused object keeps its earlier data |
| `H2Frame.DecodeWireContinuation` | Sources/http/v2/H2Frame.swift:754-800 | a CONTINUATION frame decodes from its wire form; with an empty block the reused object keeps its earlier block |
| `H2Frame.EncodeData` | Sources/http/v2/H2Frame.swift:248-263 | returns -1 when the frame does not fit the room, and otherwise writes exactly the frame's wire form and returns its length |
| `H2Frame.EncodeHeaders` | Sources/http/v2/H2Frame.swift:320-340 | the same for HEADERS, with the priority part when the PRIORITY flag is set |
| `H2Frame.EncodePriorityFrame` | Sources/http/v2/H2Frame.swift:401-414 | the same for PRIORITY |
| `H2Frame.EncodeRstStream` | Sources/http/v2/H2Frame.swift:438-448 | fails exactly below nine octets of room: the payload is written without checking that its four octets fit |
| `H2Frame.EncodeSettings` | Sources/http/v2/H2Frame.swift:504-517 | the same as `EncodeData` for SETTINGS |
| `H2Frame.EncodePushPromise` | Sources/http/v2/H2Frame.swift:557-574 | the same for PUSH_PROMISE |
| `H2Frame.EncodePing` | Sources/http/v2/H2Frame.swift:630-643 | the same for PING |
| `H2Frame.EncodeGoaway` | Sources/http/v2/H2Frame.swift:673-692 | the same for GOAWAY |
| `H2Frame.EncodeWindowUpdate` | Sources/http/v2/H2Frame.swift:729-742 | the same for WINDOW_UPDATE |
| `H2Frame.EncodeContinuation` | Sources/http/v2/H2Frame.swift:773-788 | the same for CONTINUATION |
| `H2Frame.Encode` | Sources/http/v2/H2Frame.swift:177-179 | the dispatching `encode`: any successful encoding writes exactly the frame's wire form |
| `H2Frame.EncodeHeadersPrefix` | Sources/http/v2/H2Frame.swift:342-358 | the HEADERS encoder that leaves room for a block of a given size: writes the header and the priority part, or returns -1 when they do not fit |
| `H2Frame.HeadersPrefixThenBlock` | Sources/http/v2/H2Frame.swift:342-358 | that prefix followed by the block is the wire form of the HEADERS frame carrying the block |
| `H2Frame.FixedFrameSizes` | Sources/http/v2/H2Frame.swift:725-742 | a successful encode of WINDOW_UPDATE or RST_STREAM is 13 octets, of PRIORITY 14 and of PING 17 |
| `H2Frame.HeaderBytes` | Sources/http/v2/H2Frame.swift:108-117 | the frame header is nine octets |
| `H2Frame.DecodeFrameHeader` | Sources/http/v2/H2Frame.swift:119-132 | the decoded length fits 24 bits |
| `H2Frame.NewFrame` | Sources/http/v2/FrameParser.swift:169-178 | a fresh frame object of each type has that type and an empty header |
| `H2Frame.PriorityBytes` | Sources/http/v2/H2Frame.swift:203-216 | the PRIORITY fields are five octets |
| `H2Frame.SettingsBytes` | Sources/http/v2/H2Frame.swift:490-502 | six octets per parameter |
| `H2Frame.SettingRoundTrip` | Sources/http/v2/H2Frame.swift:490-541 | a parameter's key and value read back from its six octets |
| `H2Frame.PayloadSizeIsLength` | Sources/http/v2/H2Frame.swift:165-167 | `calcPayloadSize` is the length of the payload `encode` writes |
| `H2Frame.Wire` | Sources/http/v2/H2Frame.swift:185-187 | the wire form is nine octets plus the payload size (`calcFrameSize`) |
| `H2Frame.WithHeader` | Sources/http/v2/H2Frame.swift:189-191 | `setFrameHeader` keeps the type and takes the header |
| `H2Frame.WriteBytes` | Sources/http/v2/H2Frame.swift:248-263 | `memcpy`: the octets land at the offset and nothing else changes |
| `H2Frame.EncodeSetting` | Sources/http/v2/H2Frame.swift:490-502 | one parameter's six octets at the offset, nothing else changed |
| `FrameParser.IsStreamError` | Sources/http/v2/FrameParser.swift:151-167 | stream 0 and protocolError are connection errors; frameSizeError is a connection error only for HEADERS, SETTINGS, PUSH_PROMISE and WINDOW_UPDATE; any other error is a stream error |
| `FrameParser.ParseFrameOutcome` | Sources/http/v2/FrameParser.swift:108-149 | an unknown type is skipped with success; a decode error is reported as a connection error and fails; a decoded frame is delivered and the callback's answer decides between success and stopped |
| `FrameParser.ScanSplit` | Sources/http/v2/FrameParser.swift:38-106 | splitting the byte stream at any point yields the same frames, events and outcome as reading it at once |
| `FrameParser.ScanIncompleteRest` | Sources/http/v2/FrameParser.swift:42-103 | what stays pending after an incomplete read is a non-empty tail of the input holding the start of one frame |
| `FrameParser.ScanOversized` | Sources/http/v2/FrameParser.swift:62-66 | a declared length over the maximum is reported as frameSizeError before any payload is looked at, fails the parse and delivers nothing, whatever follows |
| `FrameParser.ScanWireFrame` | Sources/http/v2/FrameParser.swift:42-103 | the wire form of a DATA, RST_STREAM, SETTINGS, PING or WINDOW_UPDATE frame within the limit is delivered as that frame, and scanning carries on after it |
| `FrameParser.ScanAfterHeader` | Sources/http/v2/FrameParser.swift:67-101 | after a header within the limit, the parse is incomplete while the payload is short, and otherwise dispatches the frame and goes on after it |
| `FrameParser.Parser.constructor` | Sources/http/v2/FrameParser.swift:12-32 | a new parser reads a header, has nothing pending, and holds one fresh frame object per type |
| `FrameParser.Parser.SetMaxFrameSize` | Sources/http/v2/FrameParser.swift:34-36 | only the limit changes |
| `FrameParser.Parser.ParseInputData` | Sources/http/v2/FrameParser.swift:38-106 | empty input succeeds at once; otherwise the outcome, the events and the frame objects are those of `Scan` on the pending octets followed by the input, and what is left pending is `Scan`'s rest |
| `FrameParser.Parser.ReadHeaderPart` | Sources/http/v2/FrameParser.swift:42-66 | collects header octets across calls until nine are there (returning incomplete meanwhile), then decodes the header and checks its length |
| `FrameParser.Parser.ReadPayloadPart` | Sources/http/v2/FrameParser.swift:67-101 | takes the payload directly or adds to the buffered part, and dispatches the frame once complete, leaving the parser back at a header with an empty buffer |
| `FrameParser.Parser.DispatchFrame` | Sources/http/v2/FrameParser.swift:108-149 | `parseFrame` on the parser's own frame objects: the events and objects are those of `ParseFrame` |
| `FrameParser.FrameSlots.Get` | Sources/http/v2/FrameParser.swift:108-133 | the object `parseFrame` picks for a type has that type |
| `FrameParser.FrameSlots.Set` | Sources/http/v2/FrameParser.swift:135-147 | decoding into one object replaces that one and keeps the objects typed |
| `FrameParser.SetKeepsOthers` | Sources/http/v2/FrameParser.swift:169-178 | the other nine objects are untouched |
| `FrameParser.InitialSlots` | Sources/http/v2/FrameParser.swift:169-178 | the parser starts with one fresh object per type |
| `FrameParser.ParseFrame` | Sources/http/v2/FrameParser.swift:108-149 | a parse of a complete payload keeps the objects typed and is never incomplete |
| `FrameParser.Scan` | Sources/http/v2/FrameParser.swift:38-106 | a read from a frame boundary keeps the objects typed and leaves nothing pending unless incomplete |
| `FrameParser.ScanFrame` | Sources/http/v2/FrameParser.swift:42-101 | the same once a whole header is there |
| `FrameParser.ScanAfterFrame` | Sources/http/v2/FrameParser.swift:69-103 | the same after a whole frame |
| `FrameParser.HeaderOfPrefix` | Sources/http/v2/H2Frame.swift:119-132 | the header depends on the first nine octets only |
| `FrameParser.ScanOverLimit` | Sources/http/v2/FrameParser.swift:62-66 | a header over the limit is reported with the error kind `isStreamError` gives and fails the read |
| `FrameParser.ScanSplitFrame` | Sources/http/v2/FrameParser.swift:38-106 | `ScanSplit` when the first part starts with a complete frame |
| `FrameParser.Parser.AssembleHeader` | Sources/http/v2/FrameParser.swift:48-60 | buffered header octets are completed from the input, or the header is read straight from it; the header is decoded from exactly those nine octets |
| `FrameParser.Parser.ReadWholePayload` | Sources/http/v2/FrameParser.swift:70-83 | the frame is dispatched from the input when it is all there, otherwise what there is is buffered |
| `FrameParser.Parser.ReadMorePayload` | Sources/http/v2/FrameParser.swift:84-102 | as much as the frame still needs is appended, and the frame dispatched once complete |
| `FrameParser.Parser.ParseRound` | Sources/http/v2/FrameParser.swift:42-103 | one round of the loop of `parseInputData`: the events are the next ones `Scan` gives |
| `FrameParser.Parser.ParseRounds` | Sources/http/v2/FrameParser.swift:41-105 | the loop of `parseInputData`: the events are the ones `Scan` gives for the whole stream |
| `StaticTable.StaticTableShape` | Sources/http/v2/hpack/StaticTable.swift:12-90 | the static table has 61 entries; the first dynamic index is 62; index 2 is (":method", "GET") and index 8 is (":status", "200") |
| `StaticTable.NamesAtLeastThree` | Sources/http/v2/hpack/StaticTable.swift:16-90 | every static entry's name has at least three characters, which is what makes a name-only key differ from every name+value key |
| `HPackTable.TotalSizeLast` | Sources/http/v2/hpack/HPackTable.swift:98-114 | the table's size is its oldest entry's size plus the size of the rest, which is what the eviction loop subtracts |
| `HPackTable.EntryAtRange` | Sources/http/v2/hpack/HPackTable.swift:31-53 | an index finds an entry exactly when it is 1 to 61 + the dynamic count; 1 to 61 are the static entries and 62 on the dynamic ones, newest first |
| `HPackTable.StaticIndexMapSane` | Sources/http/v2/hpack/HPackTable.swift:22-29 | the map `init` builds sends each name+value key to the first static slot holding that key |
| `HPackTable.ShortKeyNotStatic` | Sources/http/v2/hpack/HPackTable.swift:22-29 | a key of fewer than three characters is no static key |
| `HPackTable.InitialTableGood` | Sources/http/v2/hpack/HPackTable.swift:12-29 | a new table is empty and keeps the size invariant |
| `HPackTable.EvictStepGood` | Sources/http/v2/hpack/HPackTable.swift:98-114 | removing the oldest entry keeps the size equal to the sum of the entry sizes, both on insert and on evict counted as name + value + 32 |
| `HPackTable.EvictFromGood` | Sources/http/v2/hpack/HPackTable.swift:98-114 | the whole eviction loop keeps that invariant and changes neither limit nor maximum |
| `HPackTable.EvictFromPrefix` | Sources/http/v2/hpack/HPackTable.swift:98-114 | eviction keeps the newest entries, in order |
| `HPackTable.EvictFromDrops` | Sources/http/v2/hpack/HPackTable.swift:98-114 | eviction drops the fewest oldest entries whose sizes add up to the octets asked for, or all of them |
| `HPackTable.AddHeaderEffect` | Sources/http/v2/hpack/HPackTable.swift:55-70 | a successful `addHeader` puts the entry at index 62 after evicting from the tail, moves each surviving entry one index up, and leaves the size within the limit; an entry larger than the limit empties the dynamic table and returns false without inserting |
| `HPackTable.WithLimitEffect` | Sources/http/v2/hpack/HPackTable.swift:79-84 | `updateLimitSize(sz)` evicts until the table fits in sz, then makes sz the limit |
| `HPackTable.WithMaxSizeEffect` | Sources/http/v2/hpack/HPackTable.swift:72-77 | `setMaxSize(sz)` records sz and lowers the limit to it only when the limit is above it |
| `HPackTable.LookupSound` | Sources/http/v2/hpack/HPackTable.swift:155-171 | an index above 0 from `getIndex` names an entry of that name, and the value is reported as indexed exactly when the entry's value equals it |
| `HPackTable.LookupStaticOnlyEmptyValues` | Sources/http/v2/hpack/HPackTable.swift:145-153 | the static map is keyed by name+value but looked up by name, so a static entry is found only when its value is empty |
| `HPackTable.LookupNeverFindsStaticMethod` | Sources/http/v2/hpack/HPackTable.swift:145-171 | so the two `:method` entries, indexes 2 and 3, are never returned, even for `:method` itself |
| `HPackTable.HPackTable.constructor` | Sources/http/v2/hpack/HPackTable.swift:12-29 | a new table object holds the initial table and its invariant |
| `HPackTable.HPackTable.GetIndexedName` | Sources/http/v2/hpack/HPackTable.swift:31-41 | returns the name of the entry at the index, and nil exactly when there is none |
| `HPackTable.HPackTable.GetIndexedValue` | Sources/http/v2/hpack/HPackTable.swift:43-53 | returns the value of the entry at the index, and nil exactly when there is none |
| `HPackTable.HPackTable.AddHeader` | Sources/http/v2/hpack/HPackTable.swift:55-70 | the new table and the answer are those of `Add`, and the invariant is kept |
| `HPackTable.HPackTable.SetMaxSize` | Sources/http/v2/hpack/HPackTable.swift:72-77 | the new table is `WithMaxSize` of the old one |
| `HPackTable.HPackTable.UpdateLimitSize` | Sources/http/v2/hpack/HPackTable.swift:79-84 | the new table is `WithLimit` of the old one |
| `HPackTable.HPackTable.EvictTableBySize` | Sources/http/v2/hpack/HPackTable.swift:98-114 | the loop leaves the table `Evict` gives, keeping the invariant |
| `HPackTable.HPackTable.UpdateIndex` | Sources/http/v2/hpack/HPackTable.swift:123-129 | records the insertion number under the name, keeping any static slot |
| `HPackTable.HPackTable.RemoveIndex` | Sources/http/v2/hpack/HPackTable.swift:131-143 | forgets the name's dynamic slot when it is the one being evicted, and drops the key when it has no static slot either |
| `HPackTable.HPackTable.GetIndex` | Sources/http/v2/hpack/HPackTable.swift:155-171 | returns what `Lookup` gives on the table |
| `HPacker.PrefixOctet` | Sources/http/v2/hpack/HPacker.swift:289-298 | a value below 2^N placed under the high bits of the first octet is still one octet, reads back as the value, and keeps those high bits |
| `HPacker.IntegerBytes` | Sources/http/v2/hpack/HPacker.swift:289-317 | the encoding is one octet exactly when the value is below 2^N − 1 |
| `HPacker.IntegerBytesFirst` | Sources/http/v2/hpack/HPacker.swift:289-298 | the bits of the first octet above the prefix are kept |
| `HPacker.Continuation` | Sources/http/v2/hpack/HPacker.swift:299-312 | the continuation octets carry the top bit on all but the last |
| `HPacker.IntegerRoundTrip` | Sources/http/v2/hpack/HPacker.swift:289-389 | for N ≤ 7 (the widths HPACK uses; N = 8 traps in the source), `decodeInteger` of what `encodeInteger` writes gives the value back and consumes exactly its octets, whatever follows |
| `HPacker.ContinuationRoundTrip` | Sources/http/v2/hpack/HPacker.swift:367-385 | reading the continuation octets of x adds x at the current weight and stops right after them |
| `HPacker.ContinuationFails` | Sources/http/v2/hpack/HPacker.swift:367-388 | the decoding loop fails exactly when every octet left has its continuation bit set |
| `HPacker.DecodedInteger` | Sources/http/v2/hpack/HPacker.swift:354-389 | a decoded integer consumes at least one octet and no more than there are |
| `HPacker.DecodeInteger` | Sources/http/v2/hpack/HPacker.swift:354-389 | returns −1 exactly where `DecodedInteger` fails (empty input, N > 8, octets running out with the continuation bit set), and otherwise its count and value |
| `HPacker.IntegerTrapsExactly` | Sources/http/v2/hpack/HPacker.swift:370-388 | as written `decodeInteger` traps (2^63 computed as `Int`) exactly on a full prefix followed by nine octets with the top bit set and a tenth octet |
| `HPacker.IntegerTrapsBeyondBound` | Sources/http/v2/hpack/HPacker.swift:370-388 | on the encoding of `i`, followed by anything, it traps exactly when `i` ≥ 2^N − 1 + 2^63 |
| `HPacker.ContinuationTenth` | Sources/http/v2/hpack/HPacker.swift:377-382 | the loop reaches a tenth continuation octet exactly when the continuation value is at least 2^63 |
| `HPacker.DecodeIntegerTrapsOnTenthOctet` | Sources/http/v2/hpack/HPacker.swift:380 | 7f, nine 80 and 00 traps; with eight 80 it does not |
| `HPacker.ContinuationLonger` | Sources/http/v2/hpack/HPacker.swift:297-309 | an integer takes more than `k` continuation octets exactly from 2^(7k) on |
| `HPacker.EncodeContinuation` | Sources/http/v2/hpack/HPacker.swift:299-312 | the continuation loop writes the continuation octets while they fit, or returns −1, writing nothing outside the room |
| `HPacker.EncodeInteger` | Sources/http/v2/hpack/HPacker.swift:289-317 | returns −1 on an empty or exhausted buffer; otherwise writes exactly `IntegerBytes` over the first octet's high bits and returns its length |
| `HPacker.HuffmanFlag` | Sources/http/v2/hpack/HPacker.swift:319-352 | the H bit set before the length survives the length encoding |
| `HPacker.StringRoundTrip` | Sources/http/v2/hpack/HPacker.swift:319-424 | `decodeString` of what `encodeString` writes gives the text back and consumes exactly its octets, when the Huffman code decodes what it encodes for non-empty octets and the text is ASCII (a raw string with an octet from 0x80 on has no `.ascii` text) |
| `HPacker.LengthAndBodyRead` | Sources/http/v2/hpack/HPacker.swift:391-424 | the H bit selects whether the body is Huffman-decoded or taken as it is |
| `HPacker.DecodedString` | Sources/http/v2/hpack/HPacker.swift:391-424 | a decoded string consumes at least one octet and no more than there are; a declared length past the input fails |
| `HPacker.DecodeString` | Sources/http/v2/hpack/HPacker.swift:391-424 | returns (−1, nil) exactly where `DecodedString` fails, and otherwise its count and text |
| `HPacker.EncodeLengthAndBody` | Sources/http/v2/hpack/HPacker.swift:336-351 | the length prefix and then the body, both checked against the room |
| `HPacker.EncodeString` | Sources/http/v2/hpack/HPacker.swift:319-352 | writes the Huffman form, with H = 0x80, exactly when it is strictly shorter than the raw octets, and the raw octets otherwise, the length prefix being `encodeInteger(7, …)`; returns −1 and stores nothing past the room when it does not fit |
| `HPacker.EncodeStringAgrees` | Sources/http/v2/hpack/HPacker.swift:319-352 | where the string fits, the code as written and the corrected one store and return the same |
| `HPacker.EncodeStringAsWrittenStoresIntoEmpty` | Sources/http/v2/hpack/HPacker.swift:319-326 | as written, a buffer of no octets still receives the first octet |
| `HPacker.EncodeStringAsWrittenOverruns` | Sources/http/v2/hpack/HPacker.swift:326-336 | as written, a Huffman string whose prefix fits but whose code does not is reported as encoded, with more octets stored and returned than the buffer holds |
| `HPacker.EncodeSizeUpdateAsWrittenStoresIntoEmpty` | Sources/http/v2/hpack/HPacker.swift:35-39 | as written, a buffer of no octets receives 0x20 and −1 is returned |
| `HPacker.EncodeSizeUpdateAgrees` | Sources/http/v2/hpack/HPacker.swift:32-42 | given any room, the size update as written returns what the corrected one does and stores only a prefix of its octets that fits |
| `HPacker.EncodeHeaderAsWrittenStoresIntoEmpty` | Sources/http/v2/hpack/HPacker.swift:44-90 | as written, `encodeHeader` stores at least one octet into a buffer of no octets, and two when the name is sent as a string |
| `HPacker.PrefixRoundTrip` | Sources/http/v2/hpack/HPacker.swift:433-460 | each representation the encoder writes (0x80 indexed with N=7, 0x40 incremental with N=6, 0x20 size update with N=5, 0x00 or 0x10 literal with N=4) is read back as that representation with its integer |
| `HPacker.DecodedPrefix` | Sources/http/v2/hpack/HPacker.swift:433-460 | a decoded prefix consumes at least one octet and no more than there are |
| `HPacker.DecodePrefix` | Sources/http/v2/hpack/HPacker.swift:433-460 | returns −1 exactly when the integer does not decode, and otherwise the classification and integer |
| `HPacker.DecodedField` | Sources/http/v2/hpack/HPacker.swift:140-186 | one step of `decode` consumes at least one octet; an index absent from the table, a failed string or a size update above the maximum fails |
| `HPacker.DecodeBlock` | Sources/http/v2/hpack/HPacker.swift:131-190 | a failed block yields no fields |
| `HPacker.LargeIndexTraps` | Sources/http/v2/hpack/HPacker.swift:150-154 | an indexed field whose index is from 2^63 on (2^63 + 126 is `FF`, eight `FF` and `7F`) passes `decodeInteger` and traps in `Int(I)`, where the model fails the step |
| `HPacker.NonAsciiLiteralTraps` | Sources/http/v2/hpack/HPacker.swift:156-186 | the literal `10 01 80 00`, a raw name of the one octet 0x80, gets no `.ascii` text and traps at `name!`/`value!`, where the model decodes the field (0x80, "") |
| `HPacker.DecodeBlockStep` | Sources/http/v2/hpack/HPacker.swift:140-186 | a block decodes to its first step's field followed by what the rest decodes to |
| `HPackVectors.PlainString` | Sources/http/v2/hpack/HPacker.swift:391-424 | a string without Huffman coding shorter than 127 octets is its length octet then its octets |
| `HPackVectors.LiteralWithIndexingExample` | Sources/http/v2/hpack/HPacker.swift:131-190 | RFC 7541 C.2.1: `40 0a custom-key 0d custom-header` decodes to that field and leaves it in the dynamic table, size 55 |
| `HPackVectors.LiteralWithoutIndexingExample` | Sources/http/v2/hpack/HPacker.swift:131-190 | C.2.2: `04 0c /sample/path` decodes to ":path: /sample/path", table unchanged |
| `HPackVectors.NeverIndexedExample` | Sources/http/v2/hpack/HPacker.swift:131-190 | C.2.3: `10 08 password 06 secret` decodes to "password: secret", table unchanged |
| `HPackVectors.IndexedExample` | Sources/http/v2/hpack/HPacker.swift:131-190 | C.2.4: `82` decodes to ":method: GET", table unchanged |
| `HPackVectors.FirstRequestExample` | Sources/http/v2/hpack/HPacker.swift:131-190 | C.3.1: the first request decodes to its four fields and leaves ":authority: www.example.com" in the table, size 57 |
| `HPackVectors.SecondRequestExample` | Sources/http/v2/hpack/HPacker.swift:131-190 | C.3.2: the second request decodes to its five fields and adds "cache-control: no-cache", size 110 |
| `HPackVectors.ThirdRequestExample` | Sources/http/v2/hpack/HPacker.swift:131-190 | C.3.3: the third request decodes to its five fields and adds "custom-key: custom-value", size 164 |
| `HPacker.DecodedFieldGood` | Sources/http/v2/hpack/HPacker.swift:140-186 | decoding keeps the table's size invariant |
| `HPacker.DecodeBlockGood` | Sources/http/v2/hpack/HPacker.swift:131-190 | so does decoding a whole block |
| `HPacker.IndexingTypeOf` | Sources/http/v2/hpack/HPacker.swift:21-26 | only cookie, :authority, user-agent and pragma ask for indexing; the name-only kind is never chosen |
| `HPacker.EncodeRunFits` | Sources/http/v2/hpack/HPacker.swift:108-129 | the bounded loop of `encode` succeeds exactly when all the fields fit, and then writes all of them |
| `HPacker.EncodeBlockParts` | Sources/http/v2/hpack/HPacker.swift:108-129 | `encode` is the pending size update, failing the block when it does not fit, then the run of the fields |
| `HPacker.AddSynced` | Sources/http/v2/hpack/HPackTable.swift:55-70 | adding the same field to an encoder's and a decoder's table keeps them holding the same entries |
| `HPacker.IndexedRoundTrip` | Sources/http/v2/hpack/HPacker.swift:147-155 | an indexed field reads back as the entry at its index |
| `HPacker.NamedRoundTrip` | Sources/http/v2/hpack/HPacker.swift:51-79 | a field sent as the index of its name and its ASCII value reads back as that name and value, inserted under the 0x40 prefix |
| `HPacker.LiteralRoundTrip` | Sources/http/v2/hpack/HPacker.swift:80-100 | a field sent with its ASCII name as a string reads back as that name and value, inserted under the 0x40 prefix |
| `HPacker.FieldRoundTrip` | Sources/http/v2/hpack/HPacker.swift:44-106 | what `encodeHeader` writes for one field of ASCII text `decode` reads back as that field, consuming exactly its octets, and the two tables stay in step |
| `HPacker.HeadersRoundTrip` | Sources/http/v2/hpack/HPacker.swift:108-190 | fields of ASCII text one after another decode to the same fields, and the tables stay in step |
| `HPacker.SizeUpdateRoundTrip` | Sources/http/v2/hpack/HPacker.swift:178-184 | a size update to the encoder's limit leaves the decoder's table as it is |
| `HPacker.EncodeDecodeRoundTrip` | Sources/http/v2/hpack/HPacker.swift:108-190 | `encode` succeeds exactly when the octets fit, and then, for fields of ASCII text, a fresh `decode` of them yields exactly the encoded fields, with the decoder's table ending in step with the encoder's |
| `HPacker.EncodePrefixed` | Sources/http/v2/hpack/HPacker.swift:289-317 | the representation's first octet and its integer, or −1 when they do not fit |
| `HPacker.EncodeNamed` | Sources/http/v2/hpack/HPacker.swift:51-79 | the prefixed index of the name, then the value |
| `HPacker.EncodeNameValue` | Sources/http/v2/hpack/HPacker.swift:89-99 | the name and then the value as strings |
| `HPacker.EncodeLiteral` | Sources/http/v2/hpack/HPacker.swift:80-100 | the first octet, then name and value as strings |
| `HPacker.EncodeFieldBytes` | Sources/http/v2/hpack/HPacker.swift:44-106 | writes the field's octets as `encodeHeader` does once `getIndex` has answered |
| `HPacker.HPacker.ValidTable` | Sources/http/v2/hpack/HPacker.swift:13-15 | the coder's table keeps its size invariant |
| `HPacker.HPacker.constructor` | Sources/http/v2/hpack/HPacker.swift:13-15 | a new coder has a fresh table and a size update pending |
| `HPacker.HPacker.SetMaxTableSize` | Sources/http/v2/hpack/HPacker.swift:28-30 | the table's `setMaxSize` |
| `HPacker.HPacker.EncodeSizeUpdate` | Sources/http/v2/hpack/HPacker.swift:32-42 | the 0x20 prefix with the size in five bits, or −1 when it does not fit |
| `HPacker.HPacker.EncodeHeader` | Sources/http/v2/hpack/HPacker.swift:44-106 | the field's octets, or −1; a field that asks for indexing is added to the table once written |
| `HPacker.HPacker.Encode` | Sources/http/v2/hpack/HPacker.swift:108-129 | the result and the table are those of `EncodeBlock`; a size update equal to the limit goes out only on the first call |
| `HPacker.HPacker.EncodeFields` | Sources/http/v2/hpack/HPacker.swift:120-127 | the loop over the fields: the octets of `EncodeRun`, or −1 at the first field that does not fit |
| `HPacker.HPacker.DecodeField` | Sources/http/v2/hpack/HPacker.swift:140-186 | one round of `decode`: what `DecodedField` gives, or −1 with the table unchanged |
| `HPacker.HPacker.DecodeLiteral` | Sources/http/v2/hpack/HPacker.swift:156-177 | the literal representations: name, value and the insertion when asked |
| `HPacker.HPacker.Decode` | Sources/http/v2/hpack/HPacker.swift:131-190 | the fields of the whole block as `DecodeBlock` gives them, or (−1, []) at the first representation that does not decode; size updates change the limit and add no field |
| `HPacker.ContinuationFrom` | Sources/http/v2/hpack/HPacker.swift:367-385 | the loop stops after an octet with a clear top bit, within the input |
| `HPacker.StringBytes` | Sources/http/v2/hpack/HPacker.swift:319-352 | a string's encoding is never empty |
| `HPacker.CopyInto` | Sources/http/v2/hpack/HPacker.swift:343-350 | `memcpy`: the octets land at the offset and nothing else changes |
| `HPacker.LiteralName` | Sources/http/v2/hpack/HPacker.swift:156-168 | the name of a literal is read within the input |
| `HPacker.DecodeAdvance` | Sources/http/v2/hpack/HPacker.swift:140-186 | a representation that decodes moves the loop on by its octets, field and table |
| `HPacker.DecodeStops` | Sources/http/v2/hpack/HPacker.swift:140-186 | one that does not decode fails the block with no fields |
| `HPacker.DecodeDone` | Sources/http/v2/hpack/HPacker.swift:187-190 | with no octets left the block has the fields so far |
| `HPacker.FieldBytesAt` | Sources/http/v2/hpack/HPacker.swift:44-106 | a field's encoding is never empty |
| `HPacker.HeaderBytes` | Sources/http/v2/hpack/HPacker.swift:44-106 | the same, with the table after it |
| `HPacker.HeaderBytesGood` | Sources/http/v2/hpack/HPacker.swift:44-106 | encoding a field keeps the table's invariant, limit and maximum |
| `HPacker.HeadersBytes` | Sources/http/v2/hpack/HPacker.swift:120-127 | so does encoding a run of fields |
| `HPacker.EncodeRun` | Sources/http/v2/hpack/HPacker.swift:120-127 | the loop of `encode` keeps the table's invariant and never writes more than the room |
| `HPacker.EncodeRunStep` | Sources/http/v2/hpack/HPacker.swift:120-127 | one round: a field that fits is written and the loop goes on with less room, else it fails |
| `HPacker.RunStart` | Sources/http/v2/hpack/HPacker.swift:120-127 | before the first field the loop is on its way to the whole run |
| `HPacker.RunAdvance` | Sources/http/v2/hpack/HPacker.swift:120-127 | a field that fits moves the loop on |
| `HPacker.RunStops` | Sources/http/v2/hpack/HPacker.swift:120-127 | a field that does not fit fails it with the table unchanged |
| `HPacker.RunDone` | Sources/http/v2/hpack/HPacker.swift:128 | no fields left: the loop has produced what it wrote |
| `HPacker.EncodeBlock` | Sources/http/v2/hpack/HPacker.swift:108-129 | `encode` never writes more than its room |
| `HPacker.EvictFromShape` | Sources/http/v2/hpack/HPackTable.swift:98-114 | eviction depends on the entries and the size only |
| `HPacker.LiteralStep` | Sources/http/v2/hpack/HPacker.swift:156-177 | a literal is read as its prefix, its name and its value |
| `HPacker.LiteralPrefix` | Sources/http/v2/hpack/HPacker.swift:433-460 | the first octet of a literal with its name as a string reads as a prefix |
| `HPacker.LiteralRead` | Sources/http/v2/hpack/HPacker.swift:156-177 | such a literal is read as its first octet, name and value |
| `HPacker.HPacker.EncodeNext` | Sources/http/v2/hpack/HPacker.swift:121-126 | one round of the loop of `encode`: the field goes at the position and the loop moves on, or it fails with the table as the run left it |
| `FlowControl.FlowControl.constructor` | Sources/http/v2/FlowControl.swift:12-21 | both windows and the step start at the default 65535, the minimum local window at 32768, and both counters at 0 |
| `FlowControl.FlowControl.BytesSent` | Sources/http/v2/FlowControl.swift:29-41 | setting `bytesSent = n` adds n to the sent counter and takes n off the raw remote window |
| `FlowControl.FlowControl.UpdateRemoteWindowSize` | Sources/http/v2/FlowControl.swift:82-84 | a WINDOW_UPDATE credit adds its delta to the raw remote window |
| `FlowControl.FlowControl.InitRemoteWindowSize` | Sources/http/v2/FlowControl.swift:90-92 | setting the initial remote window replaces the raw window, forgetting what was sent and credited before |
| `FlowControl.FlowControl.InitLocalWindowSize` | Sources/http/v2/FlowControl.swift:86-88 | sets the raw local window |
| `FlowControl.RemoteWindowAccounting` | Sources/http/v2/FlowControl.swift:29-92 | after any run of sends and credits with no reset, the raw remote window is the initial window minus everything sent plus every delta credited |
| `FlowControl.ResetForgetsHistory` | Sources/http/v2/FlowControl.swift:90-92 | a reset of the remote window makes the window depend only on what follows it |
| `FlowControl.Clamped` | Sources/http/v2/FlowControl.swift:22-27 | the window accessors report the raw window when it is positive and 0 otherwise |
| `FlowControl.FlowControl.LocalWindowSize` | Sources/http/v2/FlowControl.swift:22-27 | `localWindowSize` is the raw local window when it is positive and 0 otherwise |
| `FlowControl.FlowControl.RemoteWindowSize` | Sources/http/v2/FlowControl.swift:59-64 | `remoteWindowSize` is the raw remote window when it is positive and 0 otherwise |
| `FlowControl.ReceiveStep` | Sources/http/v2/FlowControl.swift:43-57 | receiving n octets takes n off the local window; exactly when that drops it below the minimum, the window is reset to the step and the update is the difference |
| `FlowControl.FlowControl.BytesReceived` | Sources/http/v2/FlowControl.swift:43-57 | the local window and the update reported to the callback are those of `ReceiveStep`, and the received counter grows by n |
| `FlowControl.ReceiveStaysInRange` | Sources/http/v2/FlowControl.swift:47-55 | with the minimum at most the window and the window at most the step, a receive leaves the window between the minimum and the step, and any update is positive |
| `FlowControl.CappedMinimum` | Sources/http/v2/FlowControl.swift:68-80 | the minimum local window is the requested one when it is at most half the step, and half the step otherwise |
| `FlowControl.FlowControl.SetLocalWindowStep` | Sources/http/v2/FlowControl.swift:68-73 | sets the step and caps the minimum at half the new step |
| `FlowControl.FlowControl.SetMinLocalWindowSize` | Sources/http/v2/FlowControl.swift:75-80 | sets the minimum, capped at half the step |
| `H2Connection.HalfClosesMeet` | Sources/http/v2/H2Stream.swift:183-199 | sending and receiving END_STREAM close an open stream in either order; a stream reserved by the peer half-closes on its HEADERS and closes with END_STREAM on them |
| `H2Connection.OpenedDelta` | Sources/http/v2/H2Stream.swift:60-71 | `setState` reports +1 exactly on entering {open, halfClosedL, halfClosedR} from outside it and −1 exactly on leaving it for closed |
| `H2Connection.OpenedCountTracksOpenness` | Sources/http/v2/H2Stream.swift:60-71 | along any path that leaves the open states only for closed, the reports add up to whether the stream is open at the end less whether it was at the start, so each stream counts once while open |
| `H2Connection.VerifyFrameRules` | Sources/http/v2/H2Stream.swift:384-432 | PRIORITY is accepted in every state and everything in open and halfClosedL; idle takes only HEADERS, PRIORITY and PUSH_PROMISE, reservedL only RST_STREAM, PRIORITY and WINDOW_UPDATE, reservedR only HEADERS, RST_STREAM and PRIORITY, their violations being connection errors; halfClosedR rejects all but RST_STREAM, PRIORITY and WINDOW_UPDATE, and closed after RST or END_STREAM all but PRIORITY, as stream errors |
| `H2Connection.ContinuationGuardAlwaysHolds` | Sources/http/v2/H2Stream.swift:352-355 | the test `state != .open \|\| state != .halfClosedL` holds in every state |
| `H2Connection.ContinuationGuardDropsOpen` | Sources/http/v2/H2Stream.swift:348-378 | the as-written test lets an open stream return, dropping the CONTINUATION that should complete its headers; the intended test lets exactly open and halfClosedL past |
| `H2Connection.SendHeadersAsWrittenOverruns` | Sources/http/v2/H2Connection.swift:198-227 | as written `encode` is given the whole buffer's size as room for a block that starts after the prefix: one short field is encoded 2 octets past the end of a 12-octet buffer |
| `H2Connection.SentHeaders` | Sources/http/v2/H2Connection.swift:198-227 | the HEADERS frame goes out with the default priority and the encoded block |
| `H2Connection.DataPlan` | Sources/http/v2/H2Stream.swift:120-163 | DATA is never planned beyond either window or the data; with no credit only an empty END_STREAM frame goes; with credit a non-empty send is never empty; halfClosedL and closed send nothing (−1), a blocked stream waits (0) |
| `H2Connection.SendDataAsWrittenOverruns` | Sources/http/v2/H2Stream.swift:140-157 | as written, a stream window of 10, a connection window of 100 and 50 octets put all 50 in the frame and charge the connection 50 and the stream 10, where the corrected plan sends 10; a stream window of 50 and a connection window of 30 send nothing, where the corrected plan sends 30 |
| `H2Connection.ChargeAsWrittenAllInputs` | Sources/http/v2/H2Stream.swift:140-157 | for every send `DataPlan` decides on, as written: the frame goes out exactly when it is not held back and the connection window covers all `len` octets; it then carries all `len`, charging the connection `len` and the stream min(stream window, `len`), so it carries more than the stream window whenever that window is below `len` |
| `H2Connection.SettingError` | Sources/http/v2/H2Connection.swift:823-856 | INITIAL_WINDOW_SIZE above 2^31 − 1 is a flowControlError; ENABLE_PUSH other than 0 or 1, and MAX_FRAME_SIZE outside 2^14 to 2^24 − 1, are protocolErrors; nothing else raises one (section 6.5.2 of RFC 7540) |
| `H2Connection.FirstSettingErrorSnoc` | Sources/http/v2/H2Connection.swift:823-856 | the first error of a longer list is the old list's, or the new setting's when the old list had none |
| `H2Connection.SettleFailsAtFirstError` | Sources/http/v2/H2Connection.swift:823-856 | `applySettings` fails with the error of the first offending setting, and with none when no setting offends |
| `H2Connection.SettleStopsAtFailure` | Sources/http/v2/H2Connection.swift:823-856 | settings after the one that fails change nothing |
| `H2Connection.SettleSnoc` | Sources/http/v2/H2Connection.swift:824-855 | applying one more setting is one more step of the loop |
| `H2Connection.PrefaceStep` | Sources/http/v2/H2Connection.swift:559-578 | the server's preface check: a mismatch exactly when the common prefix differs, more needed when the input is a proper prefix of what is still expected, and otherwise the octets after the preface are passed on |
| `H2Connection.PrefaceSplit` | Sources/http/v2/H2Connection.swift:559-578 | matching the preface in two reads is matching it in one |
| `H2Connection.PrefaceThenFrames` | Sources/http/v2/H2Connection.swift:559-578 | a preface received whole passes what follows it on to the frame parser |
| `H2Connection.H2Stream.constructor` | Sources/http/v2/H2Stream.swift:51-58 | a new stream is idle, attached to its connection, with windows set to what the connection gives |
| `H2Connection.H2Stream.SetState` | Sources/http/v2/H2Stream.swift:60-71 | the state moves and the connection's opened-stream count moves by `OpenedDelta` |
| `H2Connection.H2Stream.EndStreamSent` | Sources/http/v2/H2Stream.swift:183-190 | halfClosedR goes to closed and any other state to halfClosedL |
| `H2Connection.H2Stream.EndStreamReceived` | Sources/http/v2/H2Stream.swift:192-199 | halfClosedL goes to closed and any other state to halfClosedR |
| `H2Connection.H2Stream.SendRSTStream` | Sources/http/v2/H2Stream.swift:217-224 | RST_STREAM with the error goes out when attached |
| `H2Connection.H2Stream.ConnectionError` | Sources/http/v2/H2Stream.swift:226-231 | passed on to the connection when attached, otherwise nothing happens |
| `H2Connection.H2Stream.StreamError` | Sources/http/v2/H2Stream.swift:233-236 | RST_STREAM with the error, then closed |
| `H2Connection.H2Stream.VerifyFrame` | Sources/http/v2/H2Stream.swift:384-432 | accepts exactly what `FrameVerdict` accepts, and raises a rejection as a connection or a stream error as it says |
| `H2Connection.H2Stream.SendPushPromise` | Sources/http/v2/H2Stream.swift:77-95 | an odd promised id is invalidParam; an idle attached stream sends PUSH_PROMISE on the associated stream and becomes reserved (remote, as written) |
| `H2Connection.H2Stream.SendHeaders` | Sources/http/v2/H2Stream.swift:97-118 | HEADERS with END_HEADERS, and END_STREAM when asked; idle opens and reservedL half-closes, then END_STREAM half-closes the sending side |
| `H2Connection.H2Stream.HeadersSent` | Sources/http/v2/H2Stream.swift:109-116 | the state after HEADERS, and after END_STREAM on them |
| `H2Connection.H2Stream.SendData` | Sources/http/v2/H2Stream.swift:120-163 | as written: −1 in halfClosedL or closed, 0 when it must wait or is blocked; otherwise the frame carries all the data, END_STREAM when asked, and goes out or is refused as `ChargeAsWritten` says, with the charges it gives |
| `H2Connection.H2Stream.SendAsWritten` | Sources/http/v2/H2Stream.swift:140-162 | the sending half as written: the whole frame is sent and charged `len` to the connection and `slen` to the stream, the stream ended when asked and left blocked when `slen` < `len`; or, when the frame is held back or refused, nothing is sent and the stream is blocked and registered |
| `H2Connection.H2Stream.DataFrameSent` | Sources/http/v2/H2Stream.swift:148-156 | after a sent DATA frame: END_STREAM moves the state on when asked, the stream window is charged `slen`, and when `slen` < `len` the stream is write-blocked and queued as blocked |
| `H2Connection.H2Stream.SendDataCorrected` | Sources/http/v2/H2Stream.swift:120-163 | corrected: the frame carries what `DataPlan` allows, at most the smaller window, END_STREAM only with the last of the data, and both windows are charged what was sent; −1 in halfClosedL or closed, 0 when blocked |
| `H2Connection.H2Stream.SendPlanned` | Sources/http/v2/H2Stream.swift:140-162 | the sending half of the corrected send: the frame of `slen` octets is held back or sent and charged `slen` to both windows; the stream stays blocked while data remains |
| `H2Connection.H2Stream.SendWindowUpdate` | Sources/http/v2/H2Stream.swift:165-173 | WINDOW_UPDATE goes out unless the stream is closed, halfClosedR or detached, which is invalidState |
| `H2Connection.H2Stream.HandleData` | Sources/http/v2/H2Stream.swift:238-264 | through `DataHandled`: a frame the state refuses is rejected (a connection error in idle, a STREAM_CLOSED reset otherwise) with no event; an accepted one outside open and halfClosedL resets the stream; in open or halfClosedL the data is taken from the window and reaches the application, END_STREAM half-closes the receiving side, and a top-up goes out unless the stream can no longer receive |
| `H2Connection.H2Stream.TakeData` | Sources/http/v2/H2Stream.swift:243-263 | the accepted half: the window moves as `ReceiveStep` says and the data reaches the application |
| `H2Connection.H2Stream.Receive` | Sources/http/v2/FlowControl.swift:43-57 | the window's top-up stays within 32 bits because the window stays between its minimum and its step |
| `H2Connection.H2Stream.HandleHeaders` | Sources/http/v2/H2Stream.swift:266-292 | the first HEADERS are the headers and later ones in an open stream the trailers; idle opens, reservedR half-closes; END_STREAM half-closes the receiving side; complete headers reach the application (`HeadersHandled`) |
| `H2Connection.H2Stream.TakeHeaders` | Sources/http/v2/H2Stream.swift:270-291 | the accepted half of `handleHeadersFrame` |
| `H2Connection.H2Stream.NoteHeaderBlock` | Sources/http/v2/H2Stream.swift:270-283 | a HEADERS frame carries trailers exactly when headers were seen and the stream is open or halfClosedL, and the matching flags are recorded |
| `H2Connection.H2Stream.HandlePriority` | Sources/http/v2/H2Stream.swift:294-302 | a stream that depends on itself is a stream error; otherwise nothing changes |
| `H2Connection.H2Stream.HandleRST` | Sources/http/v2/H2Stream.swift:304-314 | through `ResetHandled`: a frame the state refuses is rejected with no event; a closed stream stays as it is; any other closes, and the application hears the peer's error code |
| `H2Connection.H2Stream.HandlePush` | Sources/http/v2/H2Stream.swift:316-326 | the promised stream becomes reserved by the peer and the promised request's headers reach the application |
| `H2Connection.H2Stream.HandleWindowUpdate` | Sources/http/v2/H2Stream.swift:328-346 | the increment is credited (zero is a stream error), and a stream whose window was exhausted is told it may write |
| `H2Connection.H2Stream.HandleContinuation` | Sources/http/v2/H2Stream.swift:348-378 | as written: a CONTINUATION `verifyFrame` rejects is raised as it says; an accepted one meets the test that always holds, so the state, the header flags and the application's events are left as they were and no block it ends reaches the application |
| `H2Connection.H2Stream.HandleContinuationCorrected` | Sources/http/v2/H2Stream.swift:348-378 | corrected: only open or halfClosedL takes a CONTINUATION, which must continue an unfinished block (a connection error otherwise); END_HEADERS completes headers or trailers, and completed headers reach the application |
| `H2Connection.H2Stream.TakeContinuation` | Sources/http/v2/H2Stream.swift:361-377 | the accepted half of `handleContinuationFrame` |
| `H2Connection.H2Stream.Close` | Sources/http/v2/H2Stream.swift:175-181 | a stream that is neither idle nor closed is cancelled with RST_STREAM(CANCEL) and dropped from the connection |
| `H2Connection.H2Stream.OnWrite` | Sources/http/v2/H2Stream.swift:438-441 | the stream is unblocked and the application told it may write |
| `H2Connection.H2Stream.OnError` | Sources/http/v2/H2Stream.swift:443-448 | the stream is detached and the application hears the error |
| `H2Connection.H2Stream.UpdateRemoteWindowSize` | Sources/http/v2/H2Stream.swift:380-382 | the stream's remote window moves by the delta |
| `H2Connection.ConnectionFlow` | Sources/http/v2/H2Connection.swift:70-78 | the connection's receive window is 20 MiB, topped up in 20 MiB steps, with the minimum half the default step |
| `H2Connection.H2Connection.EmptyTables` | Sources/http/v2/H2Connection.swift:20-60 | empty stream tables keep the table invariant |
| `H2Connection.H2Connection.AddKeepsTables` | Sources/http/v2/H2Connection.swift:648-655 | adding a stream with a window of its own keeps the table invariant |
| `H2Connection.H2Connection.RemoveKeepsTables` | Sources/http/v2/H2Connection.swift:665-672 | removing a stream with its window keeps the table invariant |
| `H2Connection.H2Connection.constructor` | Sources/http/v2/H2Connection.swift:70-84 | a new connection holds the invariant: fresh coders, empty tables, and the connection window of `ConnectionFlow` |
| `H2Connection.H2Connection.StreamOpened` | Sources/http/v2/H2Connection.swift:889-891 | the opened-stream count goes up by one |
| `H2Connection.H2Connection.StreamClosed` | Sources/http/v2/H2Connection.swift:893-895 | the opened-stream count goes down by one |
| `H2Connection.H2Connection.AppendBlockedStream` | Sources/http/v2/H2Connection.swift:682-684 | the stream joins the blocked set |
| `H2Connection.H2Connection.SendHeadersFrame` | Sources/http/v2/H2Connection.swift:198-227 | corrected: the block is encoded into the room `HpackRoom` gives; the frame goes out with it, or nothing goes out and the result is `failed` when it does not fit |
| `H2Connection.H2Connection.SendH2Frame` | Sources/http/v2/H2Connection.swift:158-196 | DATA is held back behind a non-empty send buffer unless it ends the stream, and refused beyond the connection's window, the stream marked blocked either way; HEADERS go through `SendHeadersFrame`; other frames go out |
| `H2Connection.H2Connection.SendGoaway` | Sources/http/v2/H2Connection.swift:815-821 | GOAWAY with the error and the last stream id goes out |
| `H2Connection.H2Connection.SendWindowUpdate` | Sources/http/v2/H2Connection.swift:808-813 | WINDOW_UPDATE with the delta goes out on the stream |
| `H2Connection.H2Connection.AddStream` | Sources/http/v2/H2Connection.swift:648-655 | the stream goes into the table its id's parity picks (even ids are promised streams); the other table is untouched |
| `H2Connection.H2Connection.CreateStream` | Sources/http/v2/H2Connection.swift:236-240 | a new idle stream with the connection's initial windows, added to the tables |
| `H2Connection.H2Connection.CreateNextStream` | Sources/http/v2/H2Connection.swift:229-234 | the next stream of this side, ids going up by two |
| `H2Connection.H2Connection.RemoveStream` | Sources/http/v2/H2Connection.swift:665-672 | the stream leaves the table its id's parity picks; the other is untouched |
| `H2Connection.H2Connection.StreamError` | Sources/http/v2/H2Connection.swift:877-887 | RST_STREAM with the error goes out, through the stream's own stream error when the connection holds it, which closes that stream |
| `H2Connection.H2Connection.ConnectionError` | Sources/http/v2/H2Connection.swift:871-875 | GOAWAY goes out, the connection closes and the application hears the code |
| `H2Connection.H2Connection.OnStateOpen` | Sources/http/v2/H2Connection.swift:991-997 | the connection opens and a client's connect listeners are told |
| `H2Connection.H2Connection.ReceiveOnConnection` | Sources/http/v2/H2Connection.swift:242-255 | DATA is charged to the connection's window, whose top-up goes out as WINDOW_UPDATE on stream 0 |
| `H2Connection.H2Connection.HandleDataFrame` | Sources/http/v2/H2Connection.swift:242-255 | through `DataFrameHandled`: DATA on stream 0 is a connection error; otherwise it is charged to the connection's window, whose top-up goes out first; without a held stream nothing else changes, and a held stream ends as its `DataHandled` says, after that top-up |
| `H2Connection.H2Connection.DecodeHeaderBlock` | Sources/http/v2/H2Connection.swift:290-300 | the block is decoded by the connection's decoder; a failure is a compressionError on the connection |
| `H2Connection.H2Connection.ExpectContinuation` | Sources/http/v2/H2Connection.swift:284-289 | an unfinished block sets the CONTINUATION lock on the stream and keeps the block |
| `H2Connection.H2Connection.OpenPeerStream` | Sources/http/v2/H2Connection.swift:270-282 | a stream the peer opens on a server is created and dropped again unless `cbAccept` takes it, in which case it is the last stream |
| `H2Connection.H2Connection.HandleHeadersFrame` | Sources/http/v2/H2Connection.swift:257-315 | through `HeadersFrameHandled`: HEADERS on stream 0 or opening a stream below the last are connection errors, beyond the concurrent limit a refusedStream error; a client ignores unknown streams; admitted ones go on as `HeaderBlockReceived` says, and a stream already held handles the headers as `HeadersHandled` says |
| `H2Connection.H2Connection.ReceiveCompleteBlock` | Sources/http/v2/H2Connection.swift:290-314 | the admitted half for a complete block: the block is decoded, a failure is a compressionError, and the held or new stream handles the decoded headers as `HeadersHandled` says |
| `H2Connection.H2Connection.ReceivePartialBlock` | Sources/http/v2/H2Connection.swift:284-289 | the admitted half for a block that CONTINUATION frames are to finish: the lock is set, the fragment buffered, and a held stream handles the frame as `HeadersHandled` says |
| `H2Connection.H2Connection.DeliverHeaders` | Sources/http/v2/H2Connection.swift:301-314 | a held stream handles the HEADERS as `HeadersHandled` says, leaving the last stream id; a new one is opened and takes them |
| `H2Connection.H2Connection.HandlePriorityFrame` | Sources/http/v2/H2Connection.swift:317-326 | through `PriorityFrameHandled`: stream 0 is a connection error; a held stream handles the frame; otherwise nothing happens |
| `H2Connection.H2Connection.HandleRSTStreamFrame` | Sources/http/v2/H2Connection.swift:328-339 | through `RstFrameHandled`: stream 0 is a connection error, and so is an idle held stream; a held stream ends as its `ResetHandled` says (closed, with a `ResetEvent` carrying the peer's error code unless it was closed already); without a held stream nothing happens |
| `H2Connection.H2Connection.UpdateInitialWindowSize` | Sources/http/v2/H2Connection.swift:858-869 | a new initial window moves every held stream's remote window by the difference and leaves the connection's own window alone |
| `H2Connection.H2Connection.ShiftRemoteWindow` | Sources/http/v2/H2Connection.swift:862-867 | one stream's window moves; no other does |
| `H2Connection.H2Connection.ShiftRemoteWindows` | Sources/http/v2/H2Connection.swift:862-867 | the loops of `updateInitialWindowSize`: the remote window of every stream named moves by the difference, and no other window moves, the connection's included |
| `H2Connection.H2Connection.ApplyOne` | Sources/http/v2/H2Connection.swift:825-854 | one setting: the header table size goes to the decoder, the initial window to `updateInitialWindowSize`, the frame size is taken over; a value out of range is a connection error |
| `H2Connection.H2Connection.ApplySettings` | Sources/http/v2/H2Connection.swift:823-856 | the settings are applied in order until one is out of range; the connection ends as `Settle` says and every stream's window has moved with the initial window |
| `H2Connection.H2Connection.HandleSettingsFrame` | Sources/http/v2/H2Connection.swift:341-370 | through `SettingsFrameHandled`: SETTINGS off stream 0 is a protocolError and an ACK with settings a frameSizeError; others are acknowledged, then applied; the first SETTINGS completes the handshake |
| `H2Connection.H2Connection.AcknowledgeSettings` | Sources/http/v2/H2Connection.swift:355-369 | the acknowledgement goes out before the settings are applied |
| `H2Connection.H2Connection.HandlePingFrame` | Sources/http/v2/H2Connection.swift:426-440 | through `PingFrameHandled`: PING off stream 0 is a connection error; a PING that is not an ACK is answered with its own data |
| `H2Connection.H2Connection.HandleGoawayFrame` | Sources/http/v2/H2Connection.swift:442-463 | through `GoawayFrameHandled`: GOAWAY off stream 0 is a connection error; otherwise every stream is dropped and told the code, and so, once, is the application |
| `H2Connection.H2Connection.ClearTables` | Sources/http/v2/H2Connection.swift:455-458 | both stream tables are emptied |
| `H2Connection.H2Connection.DetachAll` | Sources/http/v2/H2Connection.swift:449-454 | each dropped stream is detached and told the code |
| `H2Connection.H2Connection.DropStreams` | Sources/http/v2/H2Connection.swift:448-462 | GOAWAY on stream 0: both tables empty, every stream held is detached and told the code, and the application's error callback, if set, is told it once and then cleared |
| `H2Connection.H2Connection.ResetStreams` | Sources/http/v2/H2Connection.swift:449-458 | both tables empty, and every stream they held is detached and told the code |
| `H2Connection.H2Connection.NotifyGoaway` | Sources/http/v2/H2Connection.swift:459-462 | the error callback is cleared and, when it was set, told the code once |
| `H2Connection.H2Connection.NotifyBlockedStreams` | Sources/http/v2/H2Connection.swift:686-704 | with the send buffer drained and credit in the connection's window, every blocked stream held is told it may write, and the blocked set empties |
| `H2Connection.H2Connection.WakeStream` | Sources/http/v2/H2Connection.swift:693-701 | one blocked stream is woken and no other hears of it |
| `H2Connection.H2Connection.GetStream` | Sources/http/v2/H2Connection.swift:657-663 | `getStream` finds a stream exactly when its identifier is in the table its parity selects (even: the promised streams), and what it finds is a stream of one of the tables |
| `H2Connection.H2Connection.SendBufferedData` | Sources/http/v2/H2Connection.swift:194-195 | the transport's `sendBufferedData` as the connection sees it: no error, and the send buffer is empty afterwards exactly when the socket is writable |
| `H2Connection.H2Connection.HandleWindowUpdateFrame` | Sources/http/v2/H2Connection.swift:465-503 | through `WindowUpdateFrameHandled`: a zero increment is a stream error on the stream named, 0 included; an increment taking the connection's window past 2^31 − 1 is a flowControlError on the connection for stream 0 and on the stream otherwise; otherwise stream 0 credits the connection and any other id its stream |
| `H2Connection.H2Connection.CreditConnection` | Sources/http/v2/H2Connection.swift:477-488 | the connection's window grows by the increment and blocked streams are notified once it has credit |
| `H2Connection.H2Connection.CreditStream` | Sources/http/v2/H2Connection.swift:489-502 | a held stream handles the frame; a client ignores unknown streams; a server creates one if `cbAccept` takes it, and that idle stream rejects the frame as a connection error naming it as the last stream |
| `H2Connection.H2Connection.HandlePushFrame` | Sources/http/v2/H2Connection.swift:372-424 | through `PushFrameHandled`: PUSH_PROMISE off stream 0, promising an odd stream, or on a stream not held, open or half-closed by us, is a connection error; an admitted one goes on as `PromiseReceived` says |
| `H2Connection.H2Connection.ReceiveCompletePromise` | Sources/http/v2/H2Connection.swift:395-423 | the admitted half for a complete block |
| `H2Connection.H2Connection.ReceivePartialPromise` | Sources/http/v2/H2Connection.swift:389-394 | the admitted half for a block CONTINUATION frames are to finish |
| `H2Connection.H2Connection.DeliverPromise` | Sources/http/v2/H2Connection.swift:411-423 | the promised stream is created and handles the PUSH_PROMISE |
| `H2Connection.H2Connection.HandleContinuationFrame` | Sources/http/v2/H2Connection.swift:505-536 | through `ContinuationFrameHandled`: CONTINUATION on stream 0 or with no unfinished block is a connection error; otherwise the fragment is appended, and with END_HEADERS the block is decoded and the lock lifts |
| `H2Connection.H2Connection.ContinueBlock` | Sources/http/v2/H2Connection.swift:515-520 | the fragment is appended to the buffered block |
| `H2Connection.H2Connection.FinishBlock` | Sources/http/v2/H2Connection.swift:521-535 | the completed block is decoded (a failure is a compressionError) |
| `H2Connection.H2Connection.CompleteBlock` | Sources/http/v2/H2Connection.swift:525-535 | the lock lifts and the buffer empties; the stream gets the CONTINUATION, which as written leaves its events and header flags as they were |
| `H2Connection.H2Connection.DeliverContinuation` | Sources/http/v2/H2Connection.swift:530-535 | the held stream handles the CONTINUATION that completes its block, which as written leaves its events and header flags as they were |
| `H2Connection.H2Connection.OnFrame` | Sources/http/v2/H2Connection.swift:598-636 | before the peer's SETTINGS only SETTINGS is accepted and anything else closes the connection without GOAWAY; under the CONTINUATION lock only its CONTINUATION is accepted; every other frame is passed on (`ok`) and has its handler's effect, one per frame type, through `FrameHandled` (`DataFrameHandled`, `HeadersFrameHandled`, `PriorityFrameHandled`, `RstFrameHandled`, `SettingsFrameHandled`, `PushFrameHandled`, `PingFrameHandled`, `GoawayFrameHandled`, `WindowUpdateFrameHandled`, `ContinuationFrameHandled`, the predicates the handlers ensure) |
| `H2Connection.H2Connection.OnFrameError` | Sources/http/v2/H2Connection.swift:638-646 | a malformed frame is a stream error or a connection error as the parser says, and parsing goes on |
| `H2Connection.H2Connection.TakeInput` | Sources/http/v2/H2Connection.swift:538-582 | an open connection parses everything; a server in the handshake first matches the client preface, refusing on a mismatch and waiting while it is incomplete |
| `HttpHeader.IntText` | Sources/http/HttpHeader.swift:66 | `"\(n)"` is non-empty and starts with '-' exactly for a negative number |
| `HttpHeader.FramingOf` | Sources/http/HttpHeader.swift:36-51 | a message has a body exactly when it is chunked or its Content-Length is positive |
| `HttpHeader.LengthAnnouncesBody` | Sources/http/HttpHeader.swift:37-50 | a Content-Length written as a positive decimal gives exactly that length and a body |
| `HttpHeader.MalformedLengthDropped` | Sources/http/HttpHeader.swift:37-50 | a Content-Length that is not a number is dropped, and then only chunked coding gives a body |
| `HttpHeader.HttpHeader.constructor` | Sources/http/HttpHeader.swift:11-16 | no fields, no length, not chunked, no body |
| `HttpHeader.HttpHeader.AddHeader` | Sources/http/HttpHeader.swift:22-26 | an empty name is ignored; otherwise the value replaces any earlier one of that name |
| `HttpHeader.HttpHeader.HasHeader` | Sources/http/HttpHeader.swift:32-34 | `hasHeader` is true exactly when a field of that exact name is held |
| `HttpHeader.HttpHeader.AddIntHeader` | Sources/http/HttpHeader.swift:28-30 | the same with the number written in decimal |
| `HttpHeader.HttpHeader.ProcessHeader` | Sources/http/HttpHeader.swift:36-51 | the framing becomes `FramingOf` the fields |
| `HttpHeader.HttpHeader.AppendHeaderLines` | Sources/http/HttpHeader.swift:57-59 | one `name: value` CR LF line per field, each field exactly once, in the order visited |
| `HttpHeader.HttpHeader.BuildRequestHeader` | Sources/http/HttpHeader.swift:53-62 | request line, one line per field, empty line; the framing is derived first |
| `HttpHeader.HttpHeader.BuildResponseHeader` | Sources/http/HttpHeader.swift:64-78 | status line (no description part when it is empty), the field lines, empty line; afterwards the message has a body when the fields announce one or the status is not 1xx, 204 or 304 |
| `HttpHeader.HttpHeader.Reset` | Sources/http/HttpHeader.swift:80-85 | fields, length, chunked and body flags cleared |
| `HttpParser.ResetState` | Sources/http/HttpParser.swift:68-83 | `reset` leaves the parser sane, reading the start line, with no fields |
| `HttpParser.InitialState` | Sources/http/HttpParser.swift:48-66 | a new parser is sane and reads the start line |
| `HttpParser.LineEnd` | Sources/http/HttpParser.swift:466-480 | the position of the first LF, or none when there is none |
| `HttpParser.GetLine` | Sources/http/HttpParser.swift:466-480 | no line exactly when there is no LF; otherwise the octets taken end at the first LF |
| `HttpParser.GetLineAsWrittenVsIntended` | Sources/http/HttpParser.swift:466-480 | as written `getLine` finds a line exactly when `GetLine` does and every octet is ASCII (non-ASCII input answers as if there were no line); the line is the same, the count the same after CR LF and one more after a bare LF |
| `HttpParser.GetLineBareLFOverruns` | Sources/http/HttpParser.swift:479 | "a" LF: as written three octets of a two-octet buffer are claimed, where `GetLine` takes two; "a" CR LF: both take three |
| `HttpParser.GetLineOf` | Sources/http/HttpParser.swift:466-480 | corrected reader: a line ended by CR LF or by a bare LF is read back whole, with exactly its terminator taken |
| `HttpParser.Saved` | Sources/http/HttpParser.swift:455-464 | the octets are saved as text exactly when the saved text stays within `kMaxHttpHeadSize` (`HttpParser.swift:13`) |
| `HttpParser.StartLine` | Sources/http/HttpParser.swift:261-295 | fewer than three tokens fail; a first token of at most five characters, or one not starting with "HTTP/" in any case, is a request; only the start-line fields change |
| `HttpParser.RequestFields` | Sources/http/HttpParser.swift:274-285 | method and version are the first and third tokens; the line is good exactly when the URL percent-decodes and parses |
| `HttpParser.ResponseFields` | Sources/http/HttpParser.swift:286-293 | version is the first token; the line is good exactly when the status is a decimal number, which becomes the status code |
| `HttpParser.HeadLine` | Sources/http/HttpParser.swift:297-315 | a line with no ':' is malformed; otherwise name and value are the trimmed text around the first ':' |
| `HttpParser.AddField` | Sources/http/HttpHeader.swift:22-26 | only the fields change, and an empty name changes nothing |
| `HttpParser.HeaderDone` | Sources/http/HttpParser.swift:433-449 | the framing is derived from the fields, and an Upgrade field marks the message as an upgrade |
| `HttpParser.ChunkSize` | Sources/http/HttpParser.swift:335-345 | corrected: a size is read exactly when the line is a hexadecimal number that is not negative |
| `HttpParser.ChunkSizeAsWritten` | Sources/http/HttpParser.swift:335 | as written: whatever `Int(_:radix: 16)` gives, a negative number included |
| `HttpParser.SaveRest` | Sources/http/HttpParser.swift:346-351 | no line end: the rest is saved and everything is taken, or the saved text would grow too long and the parser fails where it stands |
| `HttpParser.ChunkRound` | Sources/http/HttpParser.swift:320-414 | one round of `parseChunk` keeps the parser sane and never takes beyond the input; a round that exits leaves the body, the end or an error |
| `HttpParser.SizeRound` | Sources/http/HttpParser.swift:322-352 | an empty size line or one that is not a size is an error; size zero leads to the trailer |
| `HttpParser.TrailerRound` | Sources/http/HttpParser.swift:391-412 | trailer lines are skipped; the empty one ends the message |
| `HttpParser.Chunks` | Sources/http/HttpParser.swift:317-416 | `parseChunk` keeps the parser sane, and a call that is still in the body has taken all its input |
| `HttpParser.BodyPart` | Sources/http/HttpParser.swift:237-257 | the body is read chunked, up to the Content-Length, or to the end of the connection, keeping the parser sane |
| `HttpParser.HeaderEnd` | Sources/http/HttpParser.swift:210-223 | the empty line completes the header: the call breaks to the body exactly when no pause was asked for, the framing has a body and there is no upgrade (flag or `Upgrade` field); a pause returns in the header with only `HeaderComplete`; otherwise the message is done with `HeaderComplete` and `Complete` |
| `HttpParser.HeadRound` | Sources/http/HttpParser.swift:200-236 | one header line is added and the loop moves on, or the loop ends |
| `HttpParser.HeadLines` | Sources/http/HttpParser.swift:200-236 | the header loop keeps the parser sane; when it breaks it is in the body with only the header callback made |
| `HttpParser.StartRound` | Sources/http/HttpParser.swift:178-199 | the start line is parsed and the header follows, or the call returns, with no callback either way |
| `HttpParser.ParseHttpOf` | Sources/http/HttpParser.swift:175-259 | `parseHttp` keeps the parser sane and never takes more than its input |
| `HttpParser.ParseOf` | Sources/http/HttpParser.swift:157-173 | a finished or failed parser takes nothing; otherwise the parser stays sane within the input |
| `HttpParser.Resumed` | Sources/http/HttpParser.swift:97-105 | `resume` unpauses and reads the body exactly when there is one and no upgrade, and otherwise completes the message |
| `HttpParser.PrependTwice` | Sources/http/HttpParser.swift:175-259 | callbacks gathered in two steps are gathered in one |
| `HttpParser.ContentLengthBody` | Sources/http/HttpParser.swift:241-256 | a Content-Length body takes what is left of it and no more, reports exactly that and completes when the count reaches the length |
| `HttpParser.UntilEOFBody` | Sources/http/HttpParser.swift:162-167 | a body read to the end of the connection takes and reports every call's input |
| `HttpParser.NegativeChunkSize` | Sources/http/HttpParser.swift:335 | as written "-1" is read as a size of −1; the corrected reading refuses it |
| `HttpParser.HttpParser.constructor` | Sources/http/HttpParser.swift:48-66 | a new parser in the initial state, with no callbacks made |
| `HttpParser.HttpParser.Reset` | Sources/http/HttpParser.swift:68-83 | the state becomes `ResetState` of the old one |
| `HttpParser.HttpParser.Pause` | Sources/http/HttpParser.swift:93-95 | only the pause flag is set |
| `HttpParser.HttpParser.IsComplete` | Sources/http/HttpParser.swift:85-87 | `complete` is true exactly when the parser's state reads `Done` |
| `HttpParser.HttpParser.HasFailed` | Sources/http/HttpParser.swift:89-91 | `error` is true exactly when the parser's state reads `Error` |
| `HttpParser.HttpParser.Resume` | Sources/http/HttpParser.swift:97-105 | the state and callbacks of `Resumed` |
| `HttpParser.HttpParser.FindToken` | Sources/http/HttpParser.swift:123-148 | the search loops find a token exactly when some trimmed token equals the one sought in any case |
| `HttpParser.HttpParser.IsUpgradeTo` | Sources/http/HttpParser.swift:111-155 | true exactly when Upgrade names the protocol, Connection lists "Upgrade", a response has status 101 and an h2c request lists "HTTP2-Settings" |
| `HttpParser.HttpParser.SetEOF` | Sources/http/HttpParser.swift:424-431 | true exactly when a body read to the end of the connection was under way, which then completes; otherwise nothing changes |
| `HttpParser.HttpParser.SaveData` | Sources/http/HttpParser.swift:455-464 | succeeds exactly as `Saved` says, with its state |
| `HttpParser.HttpParser.TakeLine` | Sources/http/HttpParser.swift:182-186 | the line is the saved text then the new one, and the saved text is cleared |
| `HttpParser.HttpParser.ParseStartLine` | Sources/http/HttpParser.swift:261-295 | does what `StartLine` says |
| `HttpParser.HttpParser.ParseRequestLine` | Sources/http/HttpParser.swift:274-285 | does what `RequestFields` says |
| `HttpParser.HttpParser.ParseStatusLine` | Sources/http/HttpParser.swift:286-293 | does what `ResponseFields` says |
| `HttpParser.HttpParser.ParseHeadLine` | Sources/http/HttpParser.swift:297-315 | succeeds exactly for a well-formed line, whose field is added |
| `HttpParser.HttpParser.OnHeaderComplete` | Sources/http/HttpParser.swift:433-449 | the state of `HeaderDone` and the header callback |
| `HttpParser.HttpParser.Parse` | Sources/http/HttpParser.swift:157-173 | does and returns what `ParseOf` says; a finished or failed parser takes nothing and changes nothing |
| `HttpParser.HttpParser.ParseHttp` | Sources/http/HttpParser.swift:175-259 | does and returns what `ParseHttpOf` says |
| `HttpParser.HttpParser.ReadStartLine` | Sources/http/HttpParser.swift:178-199 | does what `StartRound` says |
| `HttpParser.HttpParser.ReadHeadLines` | Sources/http/HttpParser.swift:200-236 | does what `HeadLines` says |
| `HttpParser.HttpParser.ReadHeadRound` | Sources/http/HttpParser.swift:201-235 | does what `HeadRound` says |
| `HttpParser.HttpParser.EndHead` | Sources/http/HttpParser.swift:210-223 | does what `HeaderEnd` says |
| `HttpParser.HttpParser.ReadBody` | Sources/http/HttpParser.swift:237-257 | does and returns what `BodyPart` says |
| `HttpParser.HttpParser.ParseChunk` | Sources/http/HttpParser.swift:317-416 | does and returns what `Chunks` says |
| `HttpParser.HttpParser.ReadChunkRound` | Sources/http/HttpParser.swift:320-414 | does what `ChunkRound` says |
| `HttpParser.HttpParser.ReadChunkSize` | Sources/http/HttpParser.swift:322-352 | does what `SizeRound` says |
| `HttpParser.HttpParser.ReadTrailerLine` | Sources/http/HttpParser.swift:391-412 | does what `TrailerRound` says |
| `HttpParser.GetLineCRLF` | Sources/http/HttpParser.swift:466-480 | a line ended by CR LF is read without the CR, taking both octets |
| `HttpParser.GetLineLF` | Sources/http/HttpParser.swift:466-480 | corrected reader: a line ended by a bare LF is read whole, taking exactly the LF |
| `HttpMessage.ChunkFrame` | Sources/http/HttpMessage.swift:53-68 | a chunk is its hexadecimal size, CR LF, the data and CR LF: that long, ending in CR LF |
| `HttpMessage.EmptyChunkIsLast` | Sources/http/HttpMessage.swift:44-51 | a chunk of no data is "0" CR LF CR LF, the last chunk |
| `HttpMessage.SendOutcome` | Sources/http/HttpMessage.swift:26-70 | a refused send changes no count; without chunked coding the data goes as it is and completes at the Content-Length; chunked, no data sends the last chunk and completes, other data goes as one chunk and counts its length |
| `HttpMessage.CompletesAtLength` | Sources/http/HttpMessage.swift:26-41 | sends accepted whole complete the message exactly when the count reaches the length |
| `HttpMessage.ChunkedWire` | Sources/http/HttpMessage.swift:43-70 | chunked sends end with at least the last chunk |
| `HttpMessage.TotalLength` | Sources/http/HttpMessage.swift:43-70 | no chunks have no length |
| `HttpMessage.SendChunksWire` | Sources/http/HttpMessage.swift:43-70 | chunks sent one by one then the closing send put `ChunkedWire` on the wire, count every octet and complete the message |
| `HttpMessage.HttpMessage.constructor` | Sources/http/HttpMessage.swift:11-24 | an empty header, nothing sent, not completed |
| `HttpMessage.HttpMessage.SendData` | Sources/http/HttpMessage.swift:26-41 | return value, count, completion and what went out are `SendOutcome`'s |
| `HttpMessage.HttpMessage.IsCompleted` | Sources/http/HttpMessage.swift:22 | `isCompleted` reports whether the message has been completed |
| `HttpMessage.HttpMessage.SendChunk` | Sources/http/HttpMessage.swift:43-70 | the same for chunked coding, and something always goes out |
| `HttpMessage.HttpMessage.Reset` | Sources/http/HttpMessage.swift:72-76 | the header is emptied and the count and completion cleared |
| `HttpChunked.DataEvents` | Sources/http/HttpParser.swift:354-369 | one data callback per chunk, in order |
| `HttpChunked.SizeLineRead` | Sources/http/HttpParser.swift:322-352 | the size line `sendChunk` writes is read back as the size |
| `HttpChunked.SizeRoundOf` | Sources/http/HttpParser.swift:322-352 | the size line of a chunk, read in one round, sets the chunk size and moves to the data |
| `HttpChunked.DataAt` | Sources/http/HttpMessage.swift:53-68 | in a chunk frame the data follows the size line and CR LF follow the data |
| `HttpChunked.DataRoundsOf` | Sources/http/HttpParser.swift:354-389 | the data of a chunk is reported and CR then LF are taken |
| `HttpChunked.OneChunkRead` | Sources/http/HttpParser.swift:317-416 | one chunk frame is read back: its data reported, the parser between chunks after it |
| `HttpChunked.LastChunkRead` | Sources/http/HttpParser.swift:391-412 | the last chunk and the empty trailer complete the message |
| `HttpChunked.LastSizeRound` | Sources/http/HttpParser.swift:335-341 | the size line "0" leads to the trailer |
| `HttpChunked.TrailerEndRound` | Sources/http/HttpParser.swift:400-404 | the empty trailer line ends the message |
| `HttpChunked.ChunkedWireRead` | Sources/http/HttpParser.swift:317-416 | chunks as `sendChunk` frames them, then the last chunk, are reported in turn, counted, and the message completes having taken exactly the frames |
| `HttpChunked.ChunkedBodyParsed` | Sources/http/HttpParser.swift:157-173 | the whole chunked body in one call to `parse` |
| `HttpChunked.ChunkedRoundTrip` | Sources/http/HttpMessage.swift:43-70 | a parser handed what a chunked sender sent reports the same chunks and the end, and both sides count the same body octets |
| `Http2Request.AddCookie` | Sources/http/v2/Http2Request.swift:425-429 | "; " goes between cookie values unless the text is still empty |
| `Http2Request.Gather` | Sources/http/v2/Http2Request.swift:424-433 | the gathered fields hold no pseudo-header and no cookie |
| `Http2Request.ResponseHeaders` | Sources/http/v2/Http2Request.swift:414-437 | corrected: an empty list, a first field other than ":status" or a status that is not a number give (−1, empty); otherwise the status, the last value of each regular field, and the cookies joined under "Cookie" |
| `Http2Request.ResponseHeadersAsWritten` | Sources/http/v2/Http2Request.swift:421 | as written the status is `Int(value)!`, defined only when it reads |
| `Http2Request.UnreadableStatus` | Sources/http/v2/Http2Request.swift:421 | ":status: abc" stops the source; the corrected reading makes the list malformed |
| `Http2Request.CookiesJoined` | Sources/http/v2/Http2Request.swift:424-437 | the cookie text is the fold of `AddCookie`: the cookie values in order from the first non-empty one, joined by "; " (empty values after it included), and empty exactly when every cookie value is |
| `Http2Request.CookieJoinExamples` | Sources/http/v2/Http2Request.swift:425-429 | ["a", "", "b"] gives "a; ; b" and ["", "a"] gives "a" |
| `Http2Request.FromFirstNonEmptySnoc` | Sources/http/v2/Http2Request.swift:425-429 | one more cookie value is taken when the text has begun or the value is not empty |
| `Http2Request.FromFirstNonEmptyNone` | Sources/http/v2/Http2Request.swift:425-429 | no value is taken exactly when every value is empty |
| `Http2Request.LastNamed` | Sources/http/v2/Http2Request.swift:424-433 | the last field of a name, or none when the list has none |
| `Http2Request.LastFieldWins` | Sources/http/v2/Http2Request.swift:424-433 | a regular field is kept exactly when the list has one of that name, with the value of the last |
| `Http2Request.ResponseFields` | Sources/http/v2/Http2Request.swift:414-437 | every name in the result but "Cookie" is the last field of that name |
| `Http2Request.ResponseCookie` | Sources/http/v2/Http2Request.swift:434-436 | when a cookie value is not empty, "Cookie" holds the values from the first non-empty one joined in order; when all are empty, "Cookie" is present exactly when the list has a field of that name |
| `Http2Request.ProcessH2ResponseHeaders` | Sources/http/v2/Http2Request.swift:414-437 | the loop computes `ResponseHeaders` |
| `Http2Request.RequestPath` | Sources/http/v2/Http2Request.swift:149-155 | ":path" is never empty |
| `Http2Request.PseudoFields` | Sources/http/v2/Http2Request.swift:136-158 | method, scheme ("http" when the URL has none), path, then authority when there is a host |
| `Http2Request.MapFields` | Sources/http/v2/Http2Request.swift:160-163 | one field per key, in the order visited |
| `Http2Request.FieldsSizeAppend` | Sources/http/v2/Http2Request.swift:134-169 | the size of a list is the sum of its parts' |
| `Http2Request.MapFieldsSnoc` | Sources/http/v2/Http2Request.swift:160-163 | one more key visited is one more field |
| `Http2Request.FieldsSizeOne` | Sources/http/v2/Http2Request.swift:162 | a field counts its name and value |
| `Http2Request.PseudoSize` | Sources/http/v2/Http2Request.swift:136-158 | the pseudo-header fields count their names and values once each |
| `Http2Request.Http2Request.constructor` | Sources/http/v2/Http2Request.swift:60-65 | an empty header for the method and URL |
| `Http2Request.Http2Request.BuildHeaders` | Sources/http/v2/Http2Request.swift:134-169 | the framing is derived; the list is the pseudo-header fields then every regular field once, and the size counts all names and values |
| `Http2Request.Http2Request.PseudoHeaders` | Sources/http/v2/Http2Request.swift:136-158 | the pseudo-header fields and their size |
| `Http2Request.Http2Request.AppendFields` | Sources/http/v2/Http2Request.swift:160-163 | every regular field once, with the size growing by each |
| `Http2Request.SendLength` | Sources/http/v2/Http2Request.swift:268-273 | never more than asked, never past a known Content-Length, all of it when there is none |
| `WSHandler.HeaderOctets` | Sources/ws/WSHandler.swift:181-210 | 2, 4 or 10 octets; FIN and the opcode, then a 7-bit length, or 126 and 16 bits, or 127 and 64 bits |
| `WSHandler.EncodeFrameHeader` | Sources/ws/WSHandler.swift:181-210 | the header is written at the start of the buffer, the rest untouched, and its size returned |
| `WSHandler.XorBits` | Sources/ws/WSHandler.swift:336-343 | exclusive or keeps the width |
| `WSHandler.XorBitsTwice` | Sources/ws/WSHandler.swift:336-343 | exclusive or with the same key twice gives the value back |
| `WSHandler.XorTwice` | Sources/ws/WSHandler.swift:336-343 | the same on octets |
| `WSHandler.MaskWith` | Sources/ws/WSHandler.swift:336-343 | octet i XORed with key octet i mod 4 |
| `WSHandler.MaskTwice` | Sources/ws/WSHandler.swift:336-343 | masking twice gives the data back |
| `WSHandler.Pow256` | Sources/ws/WSHandler.swift:247 | a power of 256 is positive |
| `WSHandler.FirstOctet` | Sources/ws/WSHandler.swift:217-227 | the decoder stops with invalidFrame exactly when a reserved bit is set |
| `WSHandler.SecondOctet` | Sources/ws/WSHandler.swift:228-236 | the mask bit and the 7-bit length are taken |
| `WSHandler.ExtendedLength` | Sources/ws/WSHandler.swift:237-273 | the extended length is taken whole and checked, or what there is kept with `incomplete` |
| `WSHandler.HeaderDone` | Sources/ws/WSHandler.swift:291-297 | the payload buffer empties; a close frame with no payload closes at once |
| `WSHandler.Patched` | Sources/ws/WSHandler.swift:281-285 | patching keeps the key's length |
| `WSHandler.PatchedTwice` | Sources/ws/WSHandler.swift:281-285 | key octets copied in two calls are copied in one |
| `WSHandler.MaskingKey` | Sources/ws/WSHandler.swift:274-297 | all four key octets, or what there is kept with `incomplete` |
| `WSHandler.Payload` | Sources/ws/WSHandler.swift:298-328 | the payload is handed on whole, or buffered with `incomplete`; a close frame closes |
| `WSHandler.Step` | Sources/ws/WSHandler.swift:215-331 | a round that goes on takes an octet or moves to a later state; `incomplete` hands nothing on |
| `WSHandler.Run` | Sources/ws/WSHandler.swift:212-334 | noErr exactly when the decoder ends at the first header octet; from a live state, incomplete exactly when it ends inside a frame's header or payload (input ending right after the header of an empty non-close frame leaves it at the payload, hence incomplete) |
| `WSHandler.CloseFrameCloses` | Sources/ws/WSHandler.swift:291-305 | a close frame with a 7-bit length, once its header and one more octet are in: decoding ends in the closed state with `closed`, handing nothing on, whatever the payload and whatever follows |
| `WSHandler.CloseLengthCloses` | Sources/ws/WSHandler.swift:228-305 | from the second header octet of a close frame with a 7-bit length on, decoding ends closed with nothing handed on |
| `WSHandler.RunGo` | Sources/ws/WSHandler.swift:215-332 | `Run` past a round that goes on |
| `WSHandler.RunStop` | Sources/ws/WSHandler.swift:215-332 | `Run` at a round that stops |
| `WSHandler.RunEmpty` | Sources/ws/WSHandler.swift:333 | used-up input gives noErr exactly at a frame boundary |
| `WSHandler.AccSplit` | Sources/ws/WSHandler.swift:246-267 | length octets taken in two calls add up as in one |
| `WSHandler.StepExtends` | Sources/ws/WSHandler.swift:215-331 | a round that goes on within the first part of the input goes on the same way with more |
| `WSHandler.ResumeExtendedLength` | Sources/ws/WSHandler.swift:237-273 | an extended length cut short resumes on the next call as the joined input would |
| `WSHandler.HeaderDoneLater` | Sources/ws/WSHandler.swift:291-297 | completing the header does not depend on where the input started |
| `WSHandler.ResumeMaskingKey` | Sources/ws/WSHandler.swift:274-297 | a masking key cut short resumes on the next call as the joined input would |
| `WSHandler.ResumePayload` | Sources/ws/WSHandler.swift:298-328 | a payload cut short resumes on the next call as the joined input would |
| `WSHandler.ResumeStep` | Sources/ws/WSHandler.swift:215-331 | a round stopped for more input, then a call on more input, is the round on the joined input |
| `WSHandler.DecodeSplit` | Sources/ws/WSHandler.swift:212-334 | splitting the input between two calls changes nothing: the same end and the same payloads |
| `WSHandler.ReservedBitsRejected` | Sources/ws/WSHandler.swift:222-225 | a reserved bit is invalidFrame, with nothing handed on |
| `WSHandler.ExtendedLengthChecked` | Sources/ws/WSHandler.swift:252-261 | the length is refused exactly when below 126, with bit 63 set or above `kMaxFrameDataLength` (`WSHandler.swift:11`); otherwise taken |
| `WSHandler.AccZeros` | Sources/ws/WSHandler.swift:246-250 | zero octets add nothing to the length |
| `WSHandler.AccTwo` | Sources/ws/WSHandler.swift:246-250 | two length octets are big-endian |
| `WSHandler.AccLastFour` | Sources/ws/WSHandler.swift:246-250 | the last four of eight length octets are big-endian |
| `WSHandler.LengthOctets` | Sources/ws/WSHandler.swift:190-207 | the length octets written spell the length, for lengths within 32 bits |
| `WSHandler.ReadEncodedHeader` | Sources/ws/WSHandler.swift:212-273 | the decoder reads a header `encodeFrameheader` wrote and leaves what follows |
| `WSHandler.LengthOfEncodedHeader` | Sources/ws/WSHandler.swift:237-273 | the length read back is the length written |
| `WSHandler.ReadTwoOctets` | Sources/ws/WSHandler.swift:217-236 | the first two octets set FIN, opcode, mask and 7-bit length |
| `WSHandler.DecodeEncodedFrame` | Sources/ws/WSHandler.swift:181-334 | a frame with the header `encodeFrameheader` writes, unmasked and within the limit, is decoded back: its payload handed on, its opcode taken, and what follows read as by a fresh decoder |
| `WSHandler.AccSnoc` | Sources/ws/WSHandler.swift:247 | one more length octet adds its value at its own place |
| `WSHandler.WSHandler.constructor` | Sources/ws/WSHandler.swift:44-74 | a fresh decoder, nothing handed on |
| `WSHandler.WSHandler.HandleDataMask` | Sources/ws/WSHandler.swift:336-343 | the first `len` octets unmasked in place when there is a key, the rest untouched |
| `WSHandler.WSHandler.Unmask` | Sources/ws/WSHandler.swift:309-320 | the payload unmasked as it is handed on |
| `WSHandler.WSHandler.ReadFirstOctet` | Sources/ws/WSHandler.swift:217-227 | does what `FirstOctet` says |
| `WSHandler.WSHandler.ReadSecondOctet` | Sources/ws/WSHandler.swift:228-236 | does what `SecondOctet` says |
| `WSHandler.WSHandler.ReadExtendedLength` | Sources/ws/WSHandler.swift:237-273 | does what `ExtendedLength` says |
| `WSHandler.WSHandler.TakeLengthOctets` | Sources/ws/WSHandler.swift:246-267 | the length loops take octets until the length is complete or the input ends, and add each at its place |
| `WSHandler.WSHandler.ReadMaskingKey` | Sources/ws/WSHandler.swift:274-297 | does what `MaskingKey` says |
| `WSHandler.WSHandler.CopyKeyOctets` | Sources/ws/WSHandler.swift:281-285 | the copy loop patches the key with the octets copied |
| `WSHandler.WSHandler.ReadPayload` | Sources/ws/WSHandler.swift:298-328 | does what `Payload` says |
| `WSHandler.WSHandler.Round` | Sources/ws/WSHandler.swift:216-331 | does what `Step` says |
| `WSHandler.WSHandler.DecodeFrame` | Sources/ws/WSHandler.swift:212-334 | does what `Run` says: the decoder, the result and the payloads handed on |

## Left out

- Sockets, TLS, dispatch queues and the buffered writes of `TcpConnection` are not part of this model. The send buffer is a flag, `sendBufferedData` empties it when the socket is writable, and sent frames go to a ghost log.
- Callbacks (`cbFrame`, `cbError`, `cbHeaders`, `cbData`, `cbWrite`, `cbAccept`, the HTTP parser's delegate, the WebSocket data callback) are ghost event logs. A callback's answer is a value the caller passes in. Callbacks that call back into the object (re-entrancy) are not modelled.
- A `nil` `cbFrame` is not modelled: the parser treats every frame as having a callback whose answer is `accept`.
- Huffman coding: the code tables of section 5.2 and Appendix B of RFC 7541 are not in this model. The code is an abstract `HuffmanCode` value, and the round-trip lemmas that need it to decode what it encodes take `Sound(h)` as a precondition: the code decodes what it encodes for every non-empty octet string. The source's `huffDecode` refuses an empty code, and the encoder never sends the empty string Huffman-coded, since its code is never strictly shorter.
- `decodeInteger` computes `pow(2, m)` in floating point; the model uses the integer 2^m.
- `HPacker.DecodedField`: fails or decodes where the source traps, in two cases stated by `HPacker.FieldTraps`. `Int(I)` traps for an index from 2^63 on (HPacker.swift:150, 154, 166), where the model fails the step (`HPacker.LargeIndexTraps`). A raw string with an octet from 0x80 on gets no `.ascii` text (:418-419), and `name!`/`value!` then trap (:177, :186), where the model decodes the field (`HPacker.NonAsciiLiteralTraps`).
- `HPacker.DecodedString`: reads a raw string's octets as text whatever they are; the source's `.ascii` conversion gives `nil` for an octet from 0x80 on (HPacker.swift:418-419), which its caller then traps on (`HPacker.FieldTraps`).
- `HPacker.DecodeString`: returns text for a raw string with an octet from 0x80 on, where the source returns `nil` with a positive count (HPacker.swift:418-424).
- `HPacker.DecodeBlock`: goes on past a field the source traps on, the index from 2^63 on or the non-ASCII raw string of `HPacker.FieldTraps`.
- `HPacker.HPacker.Decode`: returns −1 or the decoded fields where the source traps on `Int(I)` from 2^63 on (HPacker.swift:150, 154, 166) or on `name!`/`value!` after a non-ASCII raw string (:177, :186); both traps are `HPacker.FieldTraps`.
- `HPacker.HPacker.DecodeField`: the same two traps are not modelled in one round of `decode` (`HPacker.FieldTraps`).
- `HPacker.HPacker.DecodeLiteral`: decodes a non-ASCII raw name or value where the source traps at `name!`/`value!` (HPacker.swift:177, :186).
- `HPacker.StringBytes`: writes one octet per character (its code modulo 256) where `encodeString` writes the UTF-8 form (`str.utf8`, HPacker.swift:323, 347); the two agree on ASCII text, which is what the round-trip lemmas require.
- `HPacker.EncodeString`: the same one-octet-per-character form as `HPacker.StringBytes`, not UTF-8, for characters from 0x80 on.
- `HPacker.DecodedInteger`: does not model the trap at `HPacker.swift:380`, where `Int(pow(2, 63))` overflows on a tenth continuation octet; it decodes such input instead. The trap is stated separately by `HPacker.IntegerTraps` and its lemmas.
- `HPacker.DecodeInteger`: returns a value where the source traps on a tenth continuation octet (`HPacker.IntegerTrapsExactly`).
- `HPacker.IntegerRoundTrip`: covers values from 2^N − 1 + 2^63 on, whose encodings make the source trap (`HPacker.IntegerTrapsBeyondBound`).
- HPACK test vectors of RFC 7541 Appendix C: only the examples without Huffman coding (C.2.1 to C.2.4 and C.3) are stated, as decodings in `HPackVectors`. The Huffman examples (C.4, C.6) and the encoder's octets for them are not, since the Huffman code is abstract here.
- Text is a `string` of characters that each stand for one octet, so UTF-8 encoding, grapheme counting and Foundation's `URL(string:)` and `removingPercentEncoding` are not modelled. The two URL functions are parameters of the HTTP parser (`env`).
- `HttpParser.GetLine`: the source counts in Swift characters, where CR LF is one character. The model works on octets. A CR LF split across two reads leaves the CR on the line read. The parser uses this corrected reader; the as-written count is `HttpParser.GetLineAsWritten`.
- `HttpParser.GetLineOf`: states the corrected reader. As written (HttpParser.swift:479) `getLine` takes one octet past a bare LF, and it answers as if there were no line when any octet of the buffer is not ASCII (HttpParser.swift:467); both are stated only by `HttpParser.GetLineAsWrittenVsIntended`.
- `HttpParser.GetLineLF`: states the corrected reader, which takes exactly the bare LF; as written one more octet is taken, and non-ASCII input yields no line (`HttpParser.GetLineAsWrittenVsIntended`).
- `HttpParser.HeaderDone`: `processHeader(statusCode)` in `HttpParser.swift:437` has no matching overload in `HttpHeader.swift`; the model takes it to be `processHeader()`.
- `HttpParser.TrailerRound`: trailer lines are skipped, as the source leaves their parsing to be done.
- `HttpParser.SizeRound`: a chunk extension after the size (`;name=value`) makes the line not a number, hence an error, as `Int(_:radix:)` does in the source. A negative size such as "-1", which the source takes (HttpParser.swift:335-341) and then uses as a data length (:355-363), is refused here as an error (see `HttpParser.ChunkSizeAsWritten`).
- `HttpParser.HttpParser.ReadChunkSize`: likewise refuses a negative chunk size that the source takes, and so do `HttpParser.Chunks`, `HttpParser.ParseOf` and `HttpParser.HttpParser.Parse`, which go through it; what the source does with a negative length is not modelled.
- `HPacker.EncodeHeaderIntoEmptyAsWritten`: states only the first two octets a literal stores into a buffer of no octets; what `encodeString` and `encodeInteger` go on to do with a negative room is not modelled.
- `H2Connection.H2Connection.SendBufferedData`: the transport's `sendBufferedData` that the connection calls (H2Connection.swift:195) is not part of this model; here it never fails, and the buffer empties exactly when the socket is writable.
- `HttpParser.Saved`: always appends the octets, one character per octet (`TextOf`). The source decodes them as UTF-8 (HttpParser.swift:458) and, when they are not valid UTF-8, appends nothing yet still reports success (:459-463). That silent drop is not modelled, and the size test counts the saved text's characters where the source counts its UTF-8 octets (:455); the two agree on ASCII.
- `HttpParser.HttpParser.SaveData`: the same; invalid UTF-8 is saved here as octets, where the source drops it and returns true.
- `HttpParser.HeaderDone`: `isUpgrade` is only ever set, and cleared by `reset`, as in the source.
- The HTTP/1 upgrade to HTTP/2 (`H2Connection`'s upgrade request and response, `HTTP2-Settings`) and the WebSocket handshake (`generateSecAcceptValue`, SHA-1 and base64) are not part of this model.
- `Http2Request`: only `buildHeaders`, `processH2ResponseHeaders` and the Content-Length clamp of `sendData_i` are modelled. The request's state machine, its `conn.async` paths and its `addHeader` override (`Http2Request.swift:50-57`, which turns `Transfer-Encoding: chunked` into a flag) are not.
- `Http2Request.Gather`: the cookie field name `kH2HeaderCookie` is not defined in the shown files; the model takes it to be "cookie".
- `H2Connection.SettingError`: `kH2MaxFrameSize` is not defined in the shown files; the model uses 2^24 − 1, the largest MAX_FRAME_SIZE that section 6.5.2 of RFC 7540 allows.
- `HPacker.EncodeInteger`: for a prefix of 8 bits or more, the source computes `(1 << N) - 1` in `UInt8`, which traps. The model therefore requires a prefix of at most 7 bits. `HPacker.DecodeInteger` and `HPacker.DecodedInteger` exclude only N = 8, since the source returns −1 above 8 before the shift.
- `HPacker.IntegerRoundTrip`: stated for prefixes of at most 7 bits only, because encoding with N = 8 traps in the source.
- `H2Connection.H2Connection.CreateNextStream`: Swift traps when the next identifier passes 32 bits; the model requires that it does not.
- `H2Connection.H2Connection.HandlePushFrame`: Swift traps on an unfinished PUSH_PROMISE block when the frame object has never held one; the model requires that such a frame carries a block.
- `WSHandler.WSHandler.DecodeFrame`: the source unmasks a payload in the caller's buffer (WSHandler.swift:306-309); the model reads the input as a sequence and unmasks a copy, so the caller's buffer is left masked. The unmasking itself is the in-place `WSHandler.WSHandler.HandleDataMask` on an array.
- `HttpMessage.HttpMessage.SendChunk`: requires `nil` data to come with length 0; in Swift a `nil` pointer with a positive length is undefined behaviour.
- `WSHandler.EncodeFrameHeader`: `UInt8(frameSize)` traps on a negative size; the model requires a size of at least 0.
- `FlowControl.FlowControl.BytesReceived`: `UInt32(delta)` traps on a top-up outside 32 bits; the model requires the top-up to fit.
- `H2Connection.H2Stream.SendPushPromise`: the source sets the promised stream to reserved (remote) although this side reserved it; the model keeps the source's state.
- `H2Connection.H2Connection.TakeInput`: only the preface part of `handleInputData` is modelled; the upgrade branch is not.
- Concurrency (`Mutex`, `H2ConnectionMgr`, `Socket.sync/async`) is not part of this model.

## Findings

| source | as written | input that shows it | evidently intended | confidence | as-written member | corrected member |
|---|---|---|---|---|---|---|
| Sources/http/v2/H2Stream.swift:146 | the DATA frame is given all `len` octets; the stream is charged `slen` and the connection `len`, and a connection window below `len` refuses the send | a stream window of 10, a connection window of 100, 50 octets: 50 octets go out, 40 past the stream window; a stream window of 50, a connection window of 30, 50 octets: nothing goes out | the frame carries the `slen` octets both windows allow, charged to both | not executed | `H2Connection.SendDataAsWrittenOverruns` | `H2Connection.H2Stream.SendDataCorrected` |
| Sources/http/v2/H2Stream.swift:352 | `state != .open \|\| state != .halfClosedL` holds in every state, so every CONTINUATION is dropped | an open stream receiving the CONTINUATION that ends its headers | only a stream that is neither open nor halfClosedL returns there (`&&`) | not executed | `H2Connection.H2Stream.HandleContinuation` | `H2Connection.H2Stream.HandleContinuationCorrected` |
| Sources/http/v2/H2Connection.swift:207-212 | `encode` is given the whole buffer's size as room, although the header block starts after the frame header and priority fields | the field "a: b" (header list size 2, a 12-octet buffer): its 5 octets start at octet 9 and end 2 octets past the buffer | the room is the buffer size less the prefix | not executed | `H2Connection.SendHeadersAsWrittenOverruns` | `H2Connection.H2Connection.SendHeadersFrame` |
| Sources/http/v2/hpack/HPacker.swift:326-336 | the Huffman branch of `encodeString` does not check that the code fits in what is left of the buffer, and `ptr[0]` is stored before any room check | a Huffman-coded string whose length prefix fits and whose code does not; a buffer of no octets | `-1` whenever the encoding does not fit, with nothing stored past the room | not executed | `HPacker.EncodeStringAsWrittenOverruns` | `HPacker.EncodeString` |
| Sources/http/v2/hpack/HPacker.swift:35 | `encodeSizeUpdate` stores 0x20 before `encodeInteger` looks at the room | a buffer of no octets | nothing stored when there is no room | not executed | `HPacker.EncodeSizeUpdateAsWrittenStoresIntoEmpty` | `HPacker.HPacker.EncodeSizeUpdate` |
| Sources/http/v2/hpack/HPacker.swift:53-66 | `encodeHeader` stores the first octet of the field before any room check; a literal then steps past it (lines 81-88) and hands `encodeString` a room of −1, which stores one more | a buffer of no octets | nothing stored when there is no room | not executed | `HPacker.EncodeHeaderAsWrittenStoresIntoEmpty` | `HPacker.HPacker.EncodeHeader` |
| Sources/http/HttpParser.swift:335 | `Int(line, radix: 16)` accepts a sign, so a negative chunk size is taken | the chunk-size line "-1" | a chunk size is a non-negative hexadecimal number (section 4.1 of RFC 7230) | not executed | `HttpParser.NegativeChunkSize` | `HttpParser.ChunkSize` |
| Sources/http/v2/Http2Request.swift:421 | `Int(headers[0].value)!` stops the program when `:status` is not a number | the header list [":status: abc"] | a malformed response head gives (−1, [:]), as the other malformed cases do | not executed | `Http2Request.UnreadableStatus` | `Http2Request.ResponseHeaders` |
| Sources/http/v2/hpack/HPacker.swift:380 | `Int(pow(Double(2), Double(m)))` overflows at m = 63, so a tenth continuation octet traps | 7f followed by nine 80 octets and 00 | an overlong integer is rejected with −1 or decoded, never a trap | not executed | `HPacker.DecodeIntegerTrapsOnTenthOctet` | `HPacker.DecodedInteger` |
| Sources/http/HttpParser.swift:479 | the count of octets taken is the line's characters plus one, which is one past a bare LF | "a" LF: three octets of a two-octet buffer are claimed | exactly the octets through the LF | not executed | `HttpParser.GetLineBareLFOverruns` | `HttpParser.GetLine` |

=== FILE: common.dfy ===
/** Shared value types of the model: octets, fixed-width unsigned integers,
  * optional values and the few pieces of Swift's standard library the core
  * relies on (truncating division, integer parsing and printing, ASCII case
  * folding, string splitting and trimming).
  *
  * Text (a Swift `String`) is a Dafny `string` in which every character
  * stands for one octet of its UTF-8 encoding, so `s.utf8.count` is `|s|`.
  */
module Common {

  type byte = x: int | 0 <= x < 0x100
  type Bytes = seq<byte>
  type uint16 = x: int | 0 <= x < 0x1_0000
  type uint32 = x: int | 0 <= x < 0x1_0000_0000

  datatype Option<T> = None | Some(value: T)

  function Min(a: int, b: int): int { if a < b then a else b }

  function Pow2(n: nat): (r: nat)
    ensures r >= 1
  {
    if n == 0 then 1 else 2 * Pow2(n - 1)
  }
  function Max(a: int, b: int): int { if a < b then b else a }

  /** Swift's `/` on `Int`, which truncates toward zero. */
  function Quot(a: int, b: int): (q: int)
    requires b != 0
    ensures a >= 0 && b > 0 ==> q == a / b
    ensures a < 0 && b > 0 ==> q == -((-a) / b)
  {
    if (a >= 0) == (b > 0) then (if a >= 0 then a / b else (-a) / (-b))
    else -(if a >= 0 then a / (-b) else (-a) / b)
  }

  /** Octets as text and back: one character per octet. */
  function TextOf(b: Bytes): (s: string)
    ensures |s| == |b|
  {
    if b == [] then [] else [b[0] as char] + TextOf(b[1..])
  }

  function OctetsOf(s: string): (b: Bytes)
    ensures |b| == |s|
  {
    if s == [] then [] else [(s[0] as int) % 0x100] + OctetsOf(s[1..])
  }

  /** Text whose every character is one octet. */
  predicate IsOctetText(s: string)
  {
    forall i :: 0 <= i < |s| ==> s[i] as int < 0x100
  }

  /** ASCII text: every character below 0x80. It is the text Swift's
    * `.ascii` conversion makes of octets, one character per octet. */
  predicate IsAsciiText(s: string)
  {
    forall i :: 0 <= i < |s| ==> s[i] as int < 0x80
  }

  /** Octets read as text give ASCII text exactly when every octet is
    * below 0x80. */
  lemma {:induction false} AsciiTextOf(b: Bytes)
    ensures IsAsciiText(TextOf(b)) <==> forall i :: 0 <= i < |b| ==> b[i] < 0x80
  {
    if b != [] {
      AsciiTextOf(b[1..]);
      var s := TextOf(b);
      assert s[1..] == TextOf(b[1..]);
      assert forall i :: 1 <= i < |s| ==> s[i] == s[1..][i - 1];
      assert forall i :: 1 <= i < |b| ==> b[i] == b[1..][i - 1];
      assert s[0] as int == b[0] as int;
      if IsAsciiText(s) {
        assert IsAsciiText(s[1..]);
      }
    }
  }

  lemma {:induction false} OctetsTextRoundTrip(b: Bytes)
    ensures IsOctetText(TextOf(b)) && OctetsOf(TextOf(b)) == b
  {
    if b != [] {
      OctetsTextRoundTrip(b[1..]);
      var s := TextOf(b);
      assert s[1..] == TextOf(b[1..]);
      assert forall i :: 1 <= i < |s| ==> s[i] == s[1..][i - 1];
    }
  }

  lemma {:induction false} TextOctetsRoundTrip(s: string)
    requires IsOctetText(s)
    ensures TextOf(OctetsOf(s)) == s
  {
    if s != [] {
      assert IsOctetText(s[1..]) by {
        assert forall i :: 0 <= i < |s[1..]| ==> s[1..][i] == s[i + 1];
      }
      TextOctetsRoundTrip(s[1..]);
      var b := OctetsOf(s);
      assert b[1..] == OctetsOf(s[1..]);
    }
  }

  /** ASCII case folding, as `caseInsensitiveCompare` does for ASCII text. */
  function LowerChar(c: char): char
  {
    if 'A' <= c <= 'Z' then (c as int + 32) as char else c
  }

  function Lower(s: string): (r: string)
    ensures |r| == |s|
  {
    seq(|s|, i requires 0 <= i < |s| => LowerChar(s[i]))
  }

  /** Folded text has no upper-case letter left, changes nothing else than
    * upper-case letters, and folding it again leaves it as it is. */
  lemma LowerFolds(s: string)
    ensures forall i :: 0 <= i < |s| ==> !('A' <= Lower(s)[i] <= 'Z')
    ensures forall i :: 0 <= i < |s| && !('A' <= s[i] <= 'Z') ==> Lower(s)[i] == s[i]
    ensures Lower(Lower(s)) == Lower(s)
  {
  }

  predicate EqualsIgnoreCase(a: string, b: string)
  {
    Lower(a) == Lower(b)
  }

  predicate IsWhitespace(c: char) { c == ' ' || c == '\t' }

  /** `trimmingCharacters(in: .whitespaces)`, restricted to space and tab. */
  function TrimLeft(s: string): (r: string)
    ensures |r| <= |s| && r == s[|s| - |r|..]
    ensures r != [] ==> !IsWhitespace(r[0])
  {
    if s != [] && IsWhitespace(s[0]) then TrimLeft(s[1..]) else s
  }

  function TrimRight(s: string): (r: string)
    ensures |r| <= |s| && r == s[..|r|]
    ensures r != [] ==> !IsWhitespace(r[|r| - 1])
  {
    if s != [] && IsWhitespace(s[|s| - 1]) then TrimRight(s[..|s| - 1]) else s
  }

  function Trim(s: string): string { TrimRight(TrimLeft(s)) }

  /** Index of the first `c` in `s`, if any. */
  function IndexOf(s: string, c: char): (r: Option<nat>)
    ensures r.Some? ==> r.value < |s| && s[r.value] == c && c !in s[..r.value]
    ensures r.None? ==> c !in s
  {
    if s == [] then None
    else if s[0] == c then Some(0)
    else match IndexOf(s[1..], c)
      case None => None
      case Some(k) => assert s[1..][..k] == s[1..k + 1]; Some(k + 1)
  }

  /** `components(separatedBy:)` with a one-character separator. */
  function Split(s: string, sep: char): (parts: seq<string>)
    ensures |parts| >= 1
    decreases |s|
  {
    match IndexOf(s, sep)
      case None => [s]
      case Some(k) => [s[..k]] + Split(s[k + 1..], sep)
  }

  /** The parts joined back with the separator between them. */
  function JoinWith(parts: seq<string>, sep: char): string
  {
    if |parts| <= 1 then (if parts == [] then "" else parts[0])
    else parts[0] + [sep] + JoinWith(parts[1..], sep)
  }

  /** Splitting loses nothing: no part holds the separator, and joining the
    * parts with it gives the text back. */
  lemma {:induction false} SplitJoins(s: string, sep: char)
    ensures forall i :: 0 <= i < |Split(s, sep)| ==> sep !in Split(s, sep)[i]
    ensures JoinWith(Split(s, sep), sep) == s
    decreases |s|
  {
    match IndexOf(s, sep)
      case None =>
      case Some(k) =>
        var rest := Split(s[k + 1..], sep);
        SplitJoins(s[k + 1..], sep);
        assert Split(s, sep) == [s[..k]] + rest;
        assert (Split(s, sep))[1..] == rest;
        assert s == s[..k] + [sep] + s[k + 1..];
  }

  function DigitValue(c: char): Option<nat>
  {
    if '0' <= c <= '9' then Some(c as int - '0' as int)
    else if 'a' <= c <= 'z' then Some(c as int - 'a' as int + 10)
    else if 'A' <= c <= 'Z' then Some(c as int - 'A' as int + 10)
    else None
  }

  /** The value of a non-empty run of digits in base `radix`. */
  function DigitsValue(s: string, radix: nat): Option<nat>
    requires 2 <= radix <= 36
  {
    if s == [] then None
    else
      match DigitValue(s[|s| - 1])
        case None => None
        case Some(d) =>
          if d >= radix then None
          else if |s| == 1 then Some(d)
          else match DigitsValue(s[..|s| - 1], radix)
            case None => None
            case Some(v) => Some(v * radix + d)
  }

  const INT_MAX: int := 0x7FFF_FFFF_FFFF_FFFF
  const INT_MIN: int := -0x8000_0000_0000_0000

  /** Swift's `Int(text, radix:)`: an optional sign, then at least one digit;
    * nil on any other character or when the value does not fit 64 bits. */
  function ParseInt(s: string, radix: nat): (r: Option<int>)
    requires 2 <= radix <= 36
    ensures r.Some? ==> INT_MIN <= r.value <= INT_MAX
    ensures s == [] ==> r.None?
  {
    if s == [] then None
    else
      var neg := s[0] == '-';
      var digits := if s[0] == '-' || s[0] == '+' then s[1..] else s;
      match DigitsValue(digits, radix)
        case None => None
        case Some(v) =>
          var n: int := if neg then -(v as int) else v as int;
          if INT_MIN <= n <= INT_MAX then Some(n) else None
  }

  function DigitChar(d: nat): char
    requires d < 16
  {
    if d < 10 then ('0' as int + d) as char else ('a' as int + d - 10) as char
  }

  /** `String(n, radix: 16)` for a non-negative `n`. */
  function HexString(n: nat): (s: string)
    ensures |s| >= 1 && s[0] != '-' && s[0] != '+'
  {
    if n < 16 then [DigitChar(n)] else HexString(n / 16) + [DigitChar(n % 16)]
  }

  /** `String(n)` for a non-negative `n`. */
  function DecimalString(n: nat): (s: string)
    ensures |s| >= 1 && s[0] != '-' && s[0] != '+'
  {
    if n < 10 then [DigitChar(n)] else DecimalString(n / 10) + [DigitChar(n % 10)]
  }

  lemma {:induction false} DigitsOfRadixString(n: nat, radix: nat)
    requires radix == 10 || radix == 16
    ensures DigitsValue(if radix == 10 then DecimalString(n) else HexString(n), radix) == Some(n)
  {
    var s := if radix == 10 then DecimalString(n) else HexString(n);
    if n < radix {
      assert s == [DigitChar(n)];
    } else {
      var prefix := if radix == 10 then DecimalString(n / radix) else HexString(n / radix);
      DigitsOfRadixString(n / radix, radix);
      assert s == prefix + [DigitChar(n % radix)];
      assert s[..|s| - 1] == prefix;
    }
  }

  /** Printing a number and reading it back gives the number. */
  lemma ParseHexString(n: nat)
    requires n <= INT_MAX
    ensures ParseInt(HexString(n), 16) == Some(n)
  {
    DigitsOfRadixString(n, 16);
  }

  lemma ParseDecimalString(n: nat)
    requires n <= INT_MAX
    ensures ParseInt(DecimalString(n), 10) == Some(n)
  {
    DigitsOfRadixString(n, 10);
  }

  /** A printed number is made of the characters '0' to '9' only in
    * decimal, and of '0' to '9' and 'a' to 'f' only in hexadecimal. */
  lemma {:induction false} RadixStringDigits(n: nat, radix: nat)
    requires radix == 10 || radix == 16
    ensures var s := if radix == 10 then DecimalString(n) else HexString(n);
      forall i :: 0 <= i < |s| ==> '0' <= s[i] <= '9' || (radix == 16 && 'a' <= s[i] <= 'f')
  {
    var s := if radix == 10 then DecimalString(n) else HexString(n);
    if n >= radix {
      var prefix := if radix == 10 then DecimalString(n / radix) else HexString(n / radix);
      RadixStringDigits(n / radix, radix);
      assert s == prefix + [DigitChar(n % radix)];
    }
  }

  /** Each character becomes the octet of its code, taken modulo 256. */
  lemma {:induction false} OctetsOfAt(s: string)
    ensures forall i :: 0 <= i < |s| ==> OctetsOf(s)[i] == (s[i] as int) % 0x100
  {
    if s != [] {
      OctetsOfAt(s[1..]);
      assert OctetsOf(s) == [(s[0] as int) % 0x100] + OctetsOf(s[1..]);
    }
  }
}

=== FILE: flowcontrol.dfy ===
/** Window credit accounting for one stream or one connection
  * (Sources/http/v2/FlowControl.swift; section 6.9 of RFC 7540).
  *
  * The local window is the credit this side has granted the peer; it
  * shrinks as DATA arrives and, once it falls below a minimum, is topped up
  * to a fixed step, the top-up being announced in a WINDOW_UPDATE. The
  * source announces it through the `cbUpdate` callback; here
  * `BytesReceived` returns the increment and its caller sends it. The remote
  * window is the credit the peer has granted us: DATA sent is charged to it
  * and the peer's WINDOW_UPDATE frames add to it.
  */
module FlowControl {
  import opened Common
  import opened H2Frame

  /** The initial `minLocalWindowSize`. */
  const DefaultMinLocalWindowSize: int := 32768

  /** One change to the raw remote window. */
  datatype RemoteChange =
    | Sent(n: int)          // the `bytesSent` setter
    | Credited(delta: int)  // `updateRemoteWindowSize`
    | Reset(size: int)      // `initRemoteWindowSize`

  function ApplyRemote(w: int, c: RemoteChange): int
  {
    match c
      case Sent(n) => w - n
      case Credited(d) => w + d
      case Reset(s) => s
  }

  /** The raw remote window after a history of changes, oldest first. */
  function ReplayRemote(w: int, log: seq<RemoteChange>): int
    decreases |log|
  {
    if log == [] then w else ApplyRemote(ReplayRemote(w, log[..|log| - 1]), log[|log| - 1])
  }

  function SentTotal(log: seq<RemoteChange>): int
    decreases |log|
  {
    if log == [] then 0
    else SentTotal(log[..|log| - 1]) + (if log[|log| - 1].Sent? then log[|log| - 1].n else 0)
  }

  function CreditTotal(log: seq<RemoteChange>): int
    decreases |log|
  {
    if log == [] then 0
    else CreditTotal(log[..|log| - 1]) + (if log[|log| - 1].Credited? then log[|log| - 1].delta else 0)
  }

  predicate NoReset(log: seq<RemoteChange>)
  {
    forall i :: 0 <= i < |log| ==> !log[i].Reset?
  }

  /** Between two resets the raw remote window is the initial window, less
    * everything sent, plus every credit the peer granted. */
  lemma {:induction false} RemoteWindowAccounting(w: int, log: seq<RemoteChange>)
    requires NoReset(log)
    ensures ReplayRemote(w, log) == w - SentTotal(log) + CreditTotal(log)
  {
    if log != [] {
      var init := log[..|log| - 1];
      assert NoReset(init) by {
        forall i | 0 <= i < |init| ensures !init[i].Reset? {
          assert init[i] == log[i];
        }
      }
      RemoteWindowAccounting(w, init);
    }
  }

  /** `initRemoteWindowSize` forgets everything that came before it. */
  lemma {:induction false} ResetForgetsHistory(w: int, before: seq<RemoteChange>, size: int, after: seq<RemoteChange>)
    ensures ReplayRemote(w, before + [Reset(size)] + after) == ReplayRemote(size, after)
    decreases |after|
  {
    var log := before + [Reset(size)] + after;
    if after == [] {
      assert log[..|log| - 1] == before;
    } else {
      var init := after[..|after| - 1];
      assert log[..|log| - 1] == before + [Reset(size)] + init;
      ResetForgetsHistory(w, before, size, init);
    }
  }

  /** The `localWindowSize` and `remoteWindowSize` getters: a window that
    * has gone negative reads as zero. */
  function Clamped(raw: int): (r: nat)
    ensures r >= raw && (r == 0 || r == raw)
  {
    if raw > 0 then raw else 0
  }

  /** The `bytesReceived` setter on the raw local window: the new window and
    * the WINDOW_UPDATE increment it announces, if any. */
  function ReceiveStep(window: int, min: int, step: int, n: int): (r: (int, Option<int>))
    ensures r.1.Some? <==> window - n < min
    ensures r.0 == window - n + (if r.1.Some? then r.1.value else 0)
    ensures r.1.Some? ==> r.0 == step
  {
    var w := window - n;
    if w < min then (step, Some(step - w)) else (w, None)
  }

  /** With the window between the minimum and the step, a receive leaves
    * it there, and a top-up announces a positive increment of at most the
    * step plus the octets received. */
  lemma ReceiveStaysInRange(window: int, min: int, step: int, n: int)
    requires 0 <= min <= window <= step && 0 <= n
    ensures var r := ReceiveStep(window, min, step, n);
      && min <= r.0 <= step
      && (r.1.Some? ==> 0 < r.1.value <= step + n)
  {
  }

  /** The minimum as `setLocalWindowStep` and `setMinLocalWindowSize` leave
    * it: lowered to half the step (Swift's truncating `/`) when above it. */
  function CappedMinimum(min: int, step: int): (m: int)
    ensures m <= Quot(step, 2)
    ensures min <= Quot(step, 2) ==> m == min
    ensures m == min || m == Quot(step, 2)
  {
    if min > Quot(step, 2) then Quot(step, 2) else min
  }

  class FlowControl {
    var streamId: uint32
    var localWindowStep: int
    /** `localWindowSize_`, which may go negative. */
    var localWindow: int
    var minLocalWindowSize: int
    var bytesReceived: int
    /** `remoteWindowSize_`, which may go negative. */
    var remoteWindow: int
    var bytesSent: int

    constructor ()
      ensures streamId == 0 && bytesReceived == 0 && bytesSent == 0
      ensures localWindowStep == DefaultWindowSize && localWindow == DefaultWindowSize
      ensures minLocalWindowSize == DefaultMinLocalWindowSize && remoteWindow == DefaultWindowSize
    {
      streamId := 0;
      localWindowStep := DefaultWindowSize;
      localWindow := DefaultWindowSize;
      minLocalWindowSize := DefaultMinLocalWindowSize;
      bytesReceived := 0;
      remoteWindow := DefaultWindowSize;
      bytesSent := 0;
    }

    /** The local window lies between the minimum and the step, and the
      * step is a valid window size. */
    ghost predicate LocalInRange()
      reads this`localWindow, this`minLocalWindowSize, this`localWindowStep
    {
      0 <= minLocalWindowSize <= localWindow <= localWindowStep <= MaxWindowSize
    }

    function LocalWindowSize(): (r: nat)
      reads this
      ensures r >= localWindow && (r == 0 || r == localWindow)
    {
      Clamped(localWindow)
    }

    function RemoteWindowSize(): (r: nat)
      reads this
      ensures r >= remoteWindow && (r == 0 || r == remoteWindow)
    {
      Clamped(remoteWindow)
    }

    /** The `bytesSent` setter: `n` more octets charged to the peer's window. */
    method BytesSent(n: int)
      modifies this`bytesSent, this`remoteWindow
      ensures remoteWindow == ApplyRemote(old(remoteWindow), Sent(n))
      ensures bytesSent == old(bytesSent) + n
    {
      bytesSent := bytesSent + n;
      remoteWindow := remoteWindow - n;
    }

    /** The `bytesReceived` setter: `n` more octets taken from our window,
      * which is topped up to the step when it falls below the minimum; the
      * top-up is returned for the caller to announce. Swift's
      * `UInt32(delta)` traps on an increment outside 32 bits, so callers
      * must keep it within them. */
    method BytesReceived(n: int) returns (update: Option<uint32>)
      requires localWindow - n < minLocalWindowSize ==>
        0 <= localWindowStep - (localWindow - n) < 0x1_0000_0000
      modifies this`bytesReceived, this`localWindow
      ensures var r := ReceiveStep(old(localWindow), minLocalWindowSize, localWindowStep, n);
        && localWindow == r.0
        && update.Some? == r.1.Some?
        && (update.Some? ==> update.value == r.1.value)
      ensures bytesReceived == old(bytesReceived) + n
    {
      bytesReceived := bytesReceived + n;
      localWindow := localWindow - n;
      update := None;
      if localWindow < minLocalWindowSize {
        var delta := localWindowStep - localWindow;
        localWindow := localWindow + delta;
        update := Some(delta);
      }
    }

    method SetLocalWindowStep(windowSize: int)
      modifies this`localWindowStep, this`minLocalWindowSize
      ensures localWindowStep == windowSize
      ensures minLocalWindowSize == CappedMinimum(old(minLocalWindowSize), windowSize)
    {
      localWindowStep := windowSize;
      if minLocalWindowSize > Quot(localWindowStep, 2) {
        minLocalWindowSize := Quot(localWindowStep, 2);
      }
    }

    method SetMinLocalWindowSize(minWindowSize: int)
      modifies this`minLocalWindowSize
      ensures minLocalWindowSize == CappedMinimum(minWindowSize, localWindowStep)
    {
      minLocalWindowSize := minWindowSize;
      if minLocalWindowSize > Quot(localWindowStep, 2) {
        minLocalWindowSize := Quot(localWindowStep, 2);
      }
    }

    method UpdateRemoteWindowSize(delta: int)
      modifies this`remoteWindow
      ensures remoteWindow == ApplyRemote(old(remoteWindow), Credited(delta))
    {
      remoteWindow := remoteWindow + delta;
    }

    method InitLocalWindowSize(windowSize: int)
      modifies this`localWindow
      ensures localWindow == windowSize
    {
      localWindow := windowSize;
    }

    method InitRemoteWindowSize(windowSize: int)
      modifies this`remoteWindow
      ensures remoteWindow == ApplyRemote(old(remoteWindow), Reset(windowSize))
    {
      remoteWindow := windowSize;
    }
  }
}

=== FILE: frameparser.dfy ===
/** The resumable HTTP/2 frame assembler (Sources/http/v2/FrameParser.swift).
  *
  * A parser is fed the bytes of a connection in arbitrary pieces. It keeps a
  * partial frame header in `hdrBuffer`, or a decoded header and a partial
  * payload in `payload`, across calls; it rejects a declared length above
  * `maxFrameSize` (section 4.2 of RFC 7540) and hands each complete frame,
  * decoded into the reused object of its type, to the frame callback.
  *
  * `Scan` is the specification: what the parser does with a whole byte
  * stream starting at a frame boundary. `ParseInputData` is proved to do to
  * its pending bytes plus the new input exactly what `Scan` does, and
  * `ScanSplit` shows that cutting the stream anywhere changes nothing.
  */
module FrameParser {
  import opened Common
  import opened H2Frame

  datatype ReadState = ReadHeader | ReadPayload

  /** `ParseState` of the source. */
  datatype ParseState = Success | Incomplete | Failure | Stopped

  /** What the parser reports to its owner: a frame handed to `cbFrame`, or
    * an error handed to `cbError` with its stream-error flag. */
  datatype ParserEvent =
    | Delivered(frame: Frame)
    | Reported(hdr: FrameHeader, err: H2Error, isStream: bool)

  /** `isStreamError`: whether an error found in a frame header concerns
    * only that frame's stream rather than the whole connection. */
  function IsStreamError(hdr: FrameHeader, err: H2Error): (r: bool)
    ensures hdr.streamId == 0 ==> !r
    ensures err == ProtocolError ==> !r
    ensures hdr.streamId != 0 && err == FrameSizeError ==>
      (r <==> hdr.ftype != HeadersType.Code() && hdr.ftype != SettingsType.Code()
              && hdr.ftype != PushPromiseType.Code() && hdr.ftype != WindowUpdateType.Code())
    ensures hdr.streamId != 0 && err != FrameSizeError && err != ProtocolError ==> r
  {
    if hdr.streamId == 0 then false
    else match err
      case FrameSizeError => hdr.ftype != 1 && hdr.ftype != 4 && hdr.ftype != 5 && hdr.ftype != 8
      case ProtocolError => false
      case _ => true
  }

  /** The ten frame objects a parser reuses, one per frame type
    * (`dataFrame` … `continuationFrame`). */
  datatype FrameSlots = FrameSlots(
    dataFrame: Frame, hdrFrame: Frame, priFrame: Frame, rstFrame: Frame, settingsFrame: Frame,
    pushFrame: Frame, pingFrame: Frame, goawayFrame: Frame, windowFrame: Frame, continuationFrame: Frame)
  {
    /** Each object is a frame of the type it stands for. */
    predicate Typed()
    {
      && dataFrame.DataFrame? && hdrFrame.HeadersFrame? && priFrame.PriorityFrame?
      && rstFrame.RstStreamFrame? && settingsFrame.SettingsFrame? && pushFrame.PushPromiseFrame?
      && pingFrame.PingFrame? && goawayFrame.GoawayFrame? && windowFrame.WindowUpdateFrame?
      && continuationFrame.ContinuationFrame?
    }

    /** The object used for frames of type `t`. */
    function Get(t: FrameType): (f: Frame)
      ensures Typed() ==> f.Type() == t
    {
      match t
        case DataType => dataFrame
        case HeadersType => hdrFrame
        case PriorityType => priFrame
        case RstStreamType => rstFrame
        case SettingsType => settingsFrame
        case PushPromiseType => pushFrame
        case PingType => pingFrame
        case GoawayType => goawayFrame
        case WindowUpdateType => windowFrame
        case ContinuationType => continuationFrame
    }

    /** The objects with the one of type `t` replaced by `f`. */
    function Set(t: FrameType, f: Frame): (s: FrameSlots)
      ensures s.Get(t) == f
      ensures Typed() && f.Type() == t ==> s.Typed()
    {
      match t
        case DataType => this.(dataFrame := f)
        case HeadersType => this.(hdrFrame := f)
        case PriorityType => this.(priFrame := f)
        case RstStreamType => this.(rstFrame := f)
        case SettingsType => this.(settingsFrame := f)
        case PushPromiseType => this.(pushFrame := f)
        case PingType => this.(pingFrame := f)
        case GoawayType => this.(goawayFrame := f)
        case WindowUpdateType => this.(windowFrame := f)
        case ContinuationType => this.(continuationFrame := f)
    }
  }

  /** Replacing one object leaves the other nine as they were. */
  lemma SetKeepsOthers(slots: FrameSlots, t: FrameType, f: Frame, u: FrameType)
    requires u != t
    ensures slots.Set(t, f).Get(u) == slots.Get(u)
  {
  }

  function InitialSlots(): (slots: FrameSlots)
    ensures slots.Typed()
    ensures forall t: FrameType :: slots.Get(t) == NewFrame(t)
  {
    FrameSlots(NewFrame(DataType), NewFrame(HeadersType), NewFrame(PriorityType), NewFrame(RstStreamType),
               NewFrame(SettingsType), NewFrame(PushPromiseType), NewFrame(PingType), NewFrame(GoawayType),
               NewFrame(WindowUpdateType), NewFrame(ContinuationType))
  }

  datatype Dispatched = Dispatched(outcome: ParseState, events: seq<ParserEvent>, slots: FrameSlots)

  /** `parseFrame`: decode a complete payload into the object of its type and
    * report it. `accept` is the frame callback's answer (false stops the
    * parser). An unknown type is skipped. A decode error is reported with
    * the stream-error flag false and fails the parse. */
  function ParseFrame(slots: FrameSlots, accept: Frame -> bool, hdr: FrameHeader, body: Bytes): (d: Dispatched)
    requires slots.Typed() && |body| == hdr.length
    ensures d.slots.Typed() && d.outcome != Incomplete
  {
    match FrameTypeOf(hdr.ftype)
      case None => Dispatched(Success, [], slots)
      case Some(t) =>
        var r := Decode(hdr, body, slots.Get(t));
        var next := slots.Set(t, r.1);
        if r.0 != NoError then Dispatched(Failure, [Reported(hdr, r.0, false)], next)
        else if accept(r.1) then Dispatched(Success, [Delivered(r.1)], next)
        else Dispatched(Stopped, [Delivered(r.1)], next)
  }

  /** The three outcomes of `parseFrame`: an unknown type is skipped with
    * success; otherwise the frame is decoded into the object of its type,
    * and a decode error is reported (as a connection error) and fails the
    * parse, while a decoded frame is delivered and the callback's answer
    * decides between success and stopped. */
  lemma ParseFrameOutcome(slots: FrameSlots, accept: Frame -> bool, hdr: FrameHeader, body: Bytes, t: FrameType)
    requires slots.Typed() && |body| == hdr.length
    ensures hdr.ftype > 9 ==> ParseFrame(slots, accept, hdr, body) == Dispatched(Success, [], slots)
    ensures t.Code() == hdr.ftype ==>
      var d := ParseFrame(slots, accept, hdr, body);
      var err := Decode(hdr, body, slots.Get(t)).0;
      && d.slots.Get(t).hdr == hdr && d.slots == slots.Set(t, d.slots.Get(t))
      && (d.outcome == Failure <==> err != NoError)
      && (err != NoError ==> d.events == [Reported(hdr, err, false)])
      && (err == NoError ==> d.events == [Delivered(d.slots.Get(t))] && (d.outcome == Success <==> accept(d.slots.Get(t))))
  {
    FrameTypeOfCode(t);
  }

  datatype Scanned = Scanned(outcome: ParseState, events: seq<ParserEvent>, slots: FrameSlots, rest: Bytes)

  /** `r` preceded by the events `evs`. */
  function After(evs: seq<ParserEvent>, r: Scanned): Scanned
  {
    Scanned(r.outcome, evs + r.events, r.slots, r.rest)
  }

  /** Whether `s` is the start of a frame that is not yet complete. */
  predicate IsPartialFrame(s: Bytes)
  {
    |s| < FrameHeaderSize || |s| < FrameHeaderSize + DecodeFrameHeader(s).length
  }

  /** The parser's behaviour on a byte stream `s` that starts at a frame
    * boundary: complete frames are dispatched in order; the stream ends in
    * success exactly at a frame boundary and is incomplete, leaving `rest`
    * pending, inside a frame; an oversized header or a failed or refused
    * frame ends it. */
  function Scan(slots: FrameSlots, accept: Frame -> bool, maxFrameSize: int, s: Bytes): (r: Scanned)
    requires slots.Typed()
    ensures r.slots.Typed()
    ensures r.outcome != Incomplete ==> r.rest == []
    decreases |s|, 2
  {
    if s == [] then Scanned(Success, [], slots, [])
    else if |s| < FrameHeaderSize then Scanned(Incomplete, [], slots, s)
    else ScanFrame(slots, accept, maxFrameSize, s)
  }

  /** `Scan` on a stream that starts with a complete frame header: the
    * declared length is checked against the limit, and once the payload is
    * there the frame is dispatched. */
  function ScanFrame(slots: FrameSlots, accept: Frame -> bool, maxFrameSize: int, s: Bytes): (r: Scanned)
    requires slots.Typed() && |s| >= FrameHeaderSize
    ensures r.slots.Typed()
    ensures r.outcome != Incomplete ==> r.rest == []
    decreases |s|, 1
  {
    var hdr := DecodeFrameHeader(s);
    if hdr.length > maxFrameSize then
      Scanned(Failure, [Reported(hdr, FrameSizeError, IsStreamError(hdr, FrameSizeError))], slots, [])
    else if |s| < FrameHeaderSize + hdr.length then Scanned(Incomplete, [], slots, s)
    else
      ScanAfterFrame(slots, accept, maxFrameSize, hdr, s[FrameHeaderSize..FrameHeaderSize + hdr.length],
                     s[FrameHeaderSize + hdr.length..])
  }

  /** What `Scan` does with a complete frame of header `h` and payload
    * `body` followed by `rest`: dispatch it, and go on after it if that
    * succeeded. */
  function ScanAfterFrame(slots: FrameSlots, accept: Frame -> bool, maxFrameSize: int,
                          h: FrameHeader, body: Bytes, rest: Bytes): (r: Scanned)
    requires slots.Typed() && |body| == h.length
    ensures r.slots.Typed()
    ensures r.outcome != Incomplete ==> r.rest == []
    decreases |rest|, 3
  {
    var d := ParseFrame(slots, accept, h, body);
    if d.outcome != Success then Scanned(d.outcome, d.events, d.slots, [])
    else After(d.events, Scan(d.slots, accept, maxFrameSize, rest))
  }

  /** What is left pending after an incomplete scan is a non-empty tail of
    * the stream holding the start of one frame that is not yet complete. */
  lemma {:induction false} ScanIncompleteRest(slots: FrameSlots, accept: Frame -> bool, maxFrameSize: int, s: Bytes)
    requires slots.Typed()
    ensures var r := Scan(slots, accept, maxFrameSize, s);
      r.outcome == Incomplete ==>
        r.rest != [] && |r.rest| <= |s| && r.rest == s[|s| - |r.rest|..] && IsPartialFrame(r.rest)
    decreases |s|
  {
    if |s| >= FrameHeaderSize {
      assert Scan(slots, accept, maxFrameSize, s) == ScanFrame(slots, accept, maxFrameSize, s);
      var hdr := DecodeFrameHeader(s);
      var n := FrameHeaderSize + hdr.length;
      if hdr.length <= maxFrameSize && |s| >= n {
        var d := ParseFrame(slots, accept, hdr, s[FrameHeaderSize..n]);
        if d.outcome == Success {
          var tail := s[n..];
          ScanIncompleteRest(d.slots, accept, maxFrameSize, tail);
          var r := Scan(d.slots, accept, maxFrameSize, tail);
          if r.outcome == Incomplete {
            assert tail[|tail| - |r.rest|..] == s[|s| - |r.rest|..];
          }
        }
      }
    }
  }

  /** The header decoded from a stream depends on its first nine octets only. */
  lemma HeaderOfPrefix(s: Bytes, t: Bytes)
    requires |s| >= FrameHeaderSize
    ensures DecodeFrameHeader(s + t) == DecodeFrameHeader(s)
  {
    var h := DecodeFrameHeader(s);
    DecodeFrameHeaderBytes(s);
    FrameHeaderRoundTrip(h, s[FrameHeaderSize..] + t);
    assert s + t == HeaderBytes(h) + (s[FrameHeaderSize..] + t);
  }

  lemma AfterNothing(r: Scanned)
    ensures After([], r) == r
  {
    assert [] + r.events == r.events;
  }

  lemma AfterAfter(e1: seq<ParserEvent>, e2: seq<ParserEvent>, r: Scanned)
    ensures After(e1, After(e2, r)) == After(e1 + e2, r)
  {
    assert e1 + (e2 + r.events) == (e1 + e2) + r.events;
  }

  /** `Scan` on a stream that starts with the nine header octets `hb`
    * declaring a length within the size limit: incomplete while the payload
    * is short, otherwise the frame is dispatched and scanning goes on after
    * it. */
  lemma ScanAfterHeader(slots: FrameSlots, accept: Frame -> bool, maxFrameSize: int, hb: Bytes, rest: Bytes)
    requires slots.Typed() && |hb| == FrameHeaderSize && DecodeFrameHeader(hb).length <= maxFrameSize
    ensures var h := DecodeFrameHeader(hb);
      |rest| < h.length ==> Scan(slots, accept, maxFrameSize, hb + rest) == Scanned(Incomplete, [], slots, hb + rest)
    ensures var h := DecodeFrameHeader(hb);
      |rest| >= h.length ==>
        Scan(slots, accept, maxFrameSize, hb + rest) ==
          ScanAfterFrame(slots, accept, maxFrameSize, h, rest[..h.length], rest[h.length..])
  {
    var s := hb + rest;
    var h := DecodeFrameHeader(hb);
    HeaderOfPrefix(hb, rest);
    assert Scan(slots, accept, maxFrameSize, s) == ScanFrame(slots, accept, maxFrameSize, s);
    assert s[FrameHeaderSize..] == rest;
    if |rest| >= h.length {
      assert s[FrameHeaderSize..FrameHeaderSize + h.length] == rest[..h.length];
      assert s[FrameHeaderSize + h.length..] == rest[h.length..];
    }
  }

  /** `Scan` on a stream whose nine header octets `hb` declare a length over
    * the size limit. */
  lemma ScanOverLimit(slots: FrameSlots, accept: Frame -> bool, maxFrameSize: int, hb: Bytes, rest: Bytes)
    requires slots.Typed() && |hb| == FrameHeaderSize && DecodeFrameHeader(hb).length > maxFrameSize
    ensures var h := DecodeFrameHeader(hb);
      Scan(slots, accept, maxFrameSize, hb + rest) ==
        Scanned(Failure, [Reported(h, FrameSizeError, IsStreamError(h, FrameSizeError))], slots, [])
  {
    HeaderOfPrefix(hb, rest);
    assert Scan(slots, accept, maxFrameSize, hb + rest) == ScanFrame(slots, accept, maxFrameSize, hb + rest);
  }

  /** Cutting the stream anywhere changes nothing: scanning `a` and then the
    * pending rest followed by `b` gives the events, slots and outcome of
    * scanning `a + b`, as long as `a` did not end the parse. */
  lemma {:induction false} ScanSplit(slots: FrameSlots, accept: Frame -> bool, maxFrameSize: int, a: Bytes, b: Bytes)
    requires slots.Typed() && Scan(slots, accept, maxFrameSize, a).outcome in {Success, Incomplete}
    ensures var r := Scan(slots, accept, maxFrameSize, a);
      Scan(slots, accept, maxFrameSize, a + b) == After(r.events, Scan(r.slots, accept, maxFrameSize, r.rest + b))
    decreases |a|, 1
  {
    var r := Scan(slots, accept, maxFrameSize, a);
    if a == [] {
      assert a + b == b;
      AfterNothing(Scan(slots, accept, maxFrameSize, b));
    } else if |a| < FrameHeaderSize || |a| < FrameHeaderSize + DecodeFrameHeader(a).length {
      if |a| >= FrameHeaderSize {
        HeaderOfPrefix(a, b);
        assert r == ScanFrame(slots, accept, maxFrameSize, a);
        assert Scan(slots, accept, maxFrameSize, a + b) == ScanFrame(slots, accept, maxFrameSize, a + b);
      }
      assert r == Scanned(Incomplete, [], slots, a);
      AfterNothing(Scan(slots, accept, maxFrameSize, a + b));
    } else {
      ScanSplitFrame(slots, accept, maxFrameSize, a, b);
    }
  }

  /** `ScanSplit` when `a` starts with a complete frame. */
  lemma {:induction false} ScanSplitFrame(slots: FrameSlots, accept: Frame -> bool, maxFrameSize: int, a: Bytes, b: Bytes)
    requires slots.Typed() && |a| >= FrameHeaderSize && |a| >= FrameHeaderSize + DecodeFrameHeader(a).length
    requires Scan(slots, accept, maxFrameSize, a).outcome in {Success, Incomplete}
    ensures var r := Scan(slots, accept, maxFrameSize, a);
      Scan(slots, accept, maxFrameSize, a + b) == After(r.events, Scan(r.slots, accept, maxFrameSize, r.rest + b))
    decreases |a|, 0
  {
    var h := DecodeFrameHeader(a);
    var n := FrameHeaderSize + h.length;
    HeaderOfPrefix(a, b);
    assert Scan(slots, accept, maxFrameSize, a) == ScanFrame(slots, accept, maxFrameSize, a);
    assert Scan(slots, accept, maxFrameSize, a + b) == ScanFrame(slots, accept, maxFrameSize, a + b);
    assert (a + b)[FrameHeaderSize..n] == a[FrameHeaderSize..n];
    assert (a + b)[n..] == a[n..] + b;
    var d := ParseFrame(slots, accept, h, a[FrameHeaderSize..n]);
    var r2 := Scan(d.slots, accept, maxFrameSize, a[n..]);
    ScanSplit(d.slots, accept, maxFrameSize, a[n..], b);
    AfterAfter(d.events, r2.events, Scan(r2.slots, accept, maxFrameSize, r2.rest + b));
  }

  /** An oversized frame is reported as a frameSizeError before any of its
    * payload is looked at, and ends the parse with no frame delivered. */
  lemma ScanOversized(slots: FrameSlots, accept: Frame -> bool, maxFrameSize: int, s: Bytes)
    requires slots.Typed() && |s| >= FrameHeaderSize
    requires DecodeFrameHeader(s).length > maxFrameSize
    ensures var hdr := DecodeFrameHeader(s);
      Scan(slots, accept, maxFrameSize, s + []) ==
        Scanned(Failure, [Reported(hdr, FrameSizeError, IsStreamError(hdr, FrameSizeError))], slots, [])
    ensures forall t :: Scan(slots, accept, maxFrameSize, s + t) == Scan(slots, accept, maxFrameSize, s)
  {
    assert s + [] == s;
    assert Scan(slots, accept, maxFrameSize, s) == ScanFrame(slots, accept, maxFrameSize, s);
    forall t ensures Scan(slots, accept, maxFrameSize, s + t) == Scan(slots, accept, maxFrameSize, s) {
      HeaderOfPrefix(s, t);
      assert Scan(slots, accept, maxFrameSize, s + t) == ScanFrame(slots, accept, maxFrameSize, s + t);
    }
  }

  /** The wire form of a DATA, RST_STREAM, SETTINGS, PING or WINDOW_UPDATE
    * frame within the size limit is delivered as that frame, after which
    * the stream carries on with whatever follows. */
  lemma ScanWireFrame(slots: FrameSlots, accept: Frame -> bool, maxFrameSize: int, f: Frame, rest: Bytes)
    requires slots.Typed() && RoundTrips(f) && PayloadSize(f) <= maxFrameSize
    requires f.DataFrame? || f.RstStreamFrame? || f.SettingsFrame? || f.PingFrame? || f.WindowUpdateFrame?
    requires accept(Stamp(f))
    ensures Scan(slots, accept, maxFrameSize, Wire(f) + rest) ==
      After([Delivered(Stamp(f))], Scan(slots.Set(f.Type(), Stamp(f)), accept, maxFrameSize, rest))
  {
    var s := Wire(f) + rest;
    WireSplit(f);
    assert Scan(slots, accept, maxFrameSize, s) == ScanFrame(slots, accept, maxFrameSize, s);
    HeaderOfPrefix(Wire(f), rest);
    var n := FrameHeaderSize + PayloadSize(f);
    assert s[FrameHeaderSize..n] == Wire(f)[FrameHeaderSize..];
    assert s[n..] == rest;
    FrameTypeOfCode(f.Type());
    DecodeWireExact(f, slots.Get(f.Type()));
  }

  /** `FrameParser`: the frame assembler's persistent state. The frame
    * callback's answer is the function `accept`; `events` records the calls
    * to `cbFrame` and `cbError` in order. */
  class Parser {
    const accept: Frame -> bool
    var maxFrameSize: int
    var readState: ReadState
    var header: FrameHeader
    var payload: Bytes
    var hdrBuffer: Bytes
    var slots: FrameSlots
    ghost var events: seq<ParserEvent>
    /** The nine octets `header` was decoded from. */
    ghost var hdrBytes: Bytes

    ghost predicate Valid()
      reads this
    {
      && slots.Typed()
      && (readState == ReadHeader ==> |hdrBuffer| < FrameHeaderSize)
      && (readState == ReadPayload ==>
            && |hdrBytes| == FrameHeaderSize && header == DecodeFrameHeader(hdrBytes)
            && hdrBuffer == [] && |payload| <= header.length && (payload != [] ==> |payload| < header.length))
    }

    /** The octets taken in but not yet dispatched: a partial header, or a
      * complete header and a partial payload. */
    ghost function Pending(): Bytes
      reads this
    {
      if readState == ReadHeader then hdrBuffer else hdrBytes + payload
    }

    /** A header that passed the size check is still within the limit; only
      * lowering the limit in the middle of a frame breaks this. */
    ghost predicate Aligned()
      reads this
    {
      readState == ReadHeader || header.length <= maxFrameSize
    }

    constructor(accept: Frame -> bool)
      ensures Valid() && Aligned() && this.accept == accept
      ensures maxFrameSize == 0 && readState == ReadHeader && Pending() == []
      ensures slots == InitialSlots() && events == []
    {
      this.accept := accept;
      maxFrameSize := 0;
      readState := ReadHeader;
      header := EmptyHeader;
      payload := [];
      hdrBuffer := [];
      slots := InitialSlots();
      events := [];
      hdrBytes := [];
    }

    method SetMaxFrameSize(frameSize: int)
      requires Valid()
      modifies this
      ensures Valid() && maxFrameSize == frameSize
      ensures readState == old(readState) && header == old(header) && payload == old(payload)
      ensures hdrBuffer == old(hdrBuffer) && slots == old(slots) && events == old(events)
    {
      maxFrameSize := frameSize;
    }

    /** `parseFrame`, on the parser's own frame objects. */
    method DispatchFrame(hdr: FrameHeader, body: Bytes) returns (st: ParseState)
      requires Valid() && |body| == hdr.length
      modifies this
      ensures var d := ParseFrame(old(slots), accept, hdr, body);
        st == d.outcome && slots == d.slots && events == old(events) + d.events
      ensures Valid()
      ensures readState == old(readState) && header == old(header) && payload == old(payload)
      ensures hdrBuffer == old(hdrBuffer) && maxFrameSize == old(maxFrameSize)
    {
      var d := ParseFrame(slots, accept, hdr, body);
      slots := d.slots;
      events := events + d.events;
      st := d.outcome;
    }

    /** The header half of a round once nine octets are at hand: the
      * octets buffered from earlier input are completed from `input`, or,
      * with nothing buffered, the header is read from `input` directly. */
    method AssembleHeader(input: Bytes, pos: nat) returns (next: nat)
      requires readState == ReadHeader && |hdrBuffer| < FrameHeaderSize && pos <= |input|
      requires |hdrBuffer| + (|input| - pos) >= FrameHeaderSize
      modifies this
      ensures pos < next <= |input| && readState == ReadHeader && hdrBuffer == []
      ensures |hdrBytes| == FrameHeaderSize && header == DecodeFrameHeader(hdrBytes)
      ensures hdrBytes + input[next..] == old(hdrBuffer) + input[pos..]
      ensures slots == old(slots) && events == old(events) && payload == old(payload) && maxFrameSize == old(maxFrameSize)
    {
      if |hdrBuffer| > 0 {
        var copyLen := FrameHeaderSize - |hdrBuffer|;
        assert hdrBuffer + input[pos..] == (hdrBuffer + input[pos..pos + copyLen]) + input[pos + copyLen..];
        hdrBuffer := hdrBuffer + input[pos..pos + copyLen];
        next := pos + copyLen;
        header := DecodeFrameHeader(hdrBuffer);
        hdrBytes := hdrBuffer;
        hdrBuffer := [];
      } else {
        header := DecodeFrameHeader(input[pos..]);
        hdrBytes := input[pos..pos + FrameHeaderSize];
        HeaderOfPrefix(hdrBytes, input[pos + FrameHeaderSize..]);
        assert input[pos..] == hdrBytes + input[pos + FrameHeaderSize..];
        next := pos + FrameHeaderSize;
      }
    }

    /** The header half of one round of `parseInputData`'s loop: collect
      * header octets from `input[pos..]`; once nine are there, decode the
      * header and check its length. `done` means the call returns `st`. */
    method ReadHeaderPart(input: Bytes, pos: nat) returns (next: nat, done: bool, st: ParseState, ghost emitted: seq<ParserEvent>)
      requires Valid() && readState == ReadHeader && pos < |input|
      modifies this
      ensures Valid() && maxFrameSize == old(maxFrameSize) && slots == old(slots)
      ensures events == old(events) + emitted
      ensures !done ==> pos < next <= |input| && readState == ReadPayload && payload == [] && Aligned() && emitted == []
      ensures !done ==> Pending() + input[next..] == old(Pending()) + input[pos..]
      ensures done ==> st in {Incomplete, Failure} && readState == ReadHeader
      ensures done ==> Scan(slots, accept, maxFrameSize, old(Pending()) + input[pos..])
                       == Scanned(st, emitted, slots, if st == Incomplete then Pending() else [])
    {
      ghost var stream := hdrBuffer + input[pos..];
      emitted := [];
      if |hdrBuffer| + (|input| - pos) < FrameHeaderSize {
        hdrBuffer := hdrBuffer + input[pos..];
        return pos, true, Incomplete, emitted;
      }
      next := AssembleHeader(input, pos);
      assert stream == hdrBytes + input[next..];
      payload := [];
      if header.length > maxFrameSize {
        ScanOverLimit(slots, accept, maxFrameSize, hdrBytes, input[next..]);
        emitted := [Reported(header, FrameSizeError, IsStreamError(header, FrameSizeError))];
        events := events + emitted;
        return next, true, Failure, emitted;
      }
      readState := ReadPayload;
      done := false;
      st := Success;
    }

    /** The payload half of one round of `parseInputData`'s loop: take the
      * payload directly from `input[pos..]` when none is buffered, or add to
      * the buffered part, and dispatch the frame once it is complete. */
    method ReadPayloadPart(input: Bytes, pos: nat) returns (next: nat, done: bool, st: ParseState, ghost emitted: seq<ParserEvent>)
      requires Valid() && readState == ReadPayload && pos <= |input|
      requires pos < |input| || payload == []
      modifies this
      ensures Valid() && maxFrameSize == old(maxFrameSize)
      ensures events == old(events) + emitted
      ensures old(Aligned()) ==> Aligned()
      ensures done ==> st != Success
      ensures !done ==> pos <= next <= |input| && readState == ReadHeader && hdrBuffer == []
      ensures old(Aligned()) && !done ==>
        Scan(old(slots), accept, maxFrameSize, old(Pending()) + input[pos..])
          == After(emitted, Scan(slots, accept, maxFrameSize, input[next..]))
      ensures old(Aligned()) && done ==>
        Scan(old(slots), accept, maxFrameSize, old(Pending()) + input[pos..])
          == Scanned(st, emitted, slots, if st == Incomplete then Pending() else [])
    {
      if payload == [] {
        next, done, st, emitted := ReadWholePayload(input, pos);
      } else {
        next, done, st, emitted := ReadMorePayload(input, pos);
      }
    }

    /** No payload is buffered: dispatch the frame straight from the input
      * when all of it is there, otherwise buffer what there is. */
    method ReadWholePayload(input: Bytes, pos: nat) returns (next: nat, done: bool, st: ParseState, ghost emitted: seq<ParserEvent>)
      requires Valid() && readState == ReadPayload && pos <= |input| && payload == []
      modifies this
      ensures Valid() && maxFrameSize == old(maxFrameSize)
      ensures events == old(events) + emitted
      ensures old(Aligned()) ==> Aligned()
      ensures done ==> st != Success
      ensures !done ==> pos <= next <= |input| && readState == ReadHeader && hdrBuffer == []
      ensures old(Aligned()) && !done ==>
        Scan(old(slots), accept, maxFrameSize, old(Pending()) + input[pos..])
          == After(emitted, Scan(slots, accept, maxFrameSize, input[next..]))
      ensures old(Aligned()) && done ==>
        Scan(old(slots), accept, maxFrameSize, old(Pending()) + input[pos..])
          == Scanned(st, emitted, slots, if st == Incomplete then Pending() else [])
    {
      ghost var aligned := Aligned();
      ghost var rest := input[pos..];
      ghost var slots0 := slots;
      ghost var target := Scan(slots, accept, maxFrameSize, Pending() + input[pos..]);
      assert Pending() + input[pos..] == hdrBytes + rest;
      emitted := [];
      if |input| - pos >= header.length {
        var body := input[pos..pos + header.length];
        assert rest[..header.length] == body;
        assert rest[header.length..] == input[pos + header.length..];
        if aligned {
          ScanAfterHeader(slots, accept, maxFrameSize, hdrBytes, rest);
        }
        ghost var d := ParseFrame(slots, accept, header, body);
        assert aligned ==> target == ScanAfterFrame(slots0, accept, maxFrameSize, header, body, input[pos + header.length..]);
        st := DispatchFrame(header, body);
        emitted := d.events;
        if st != Success {
          next, done := pos, true;
          assert aligned ==> target == Scanned(st, emitted, slots, []);
        } else {
          next := pos + header.length;
          readState := ReadHeader;
          done := false;
          assert aligned ==> target == After(emitted, Scan(slots, accept, maxFrameSize, input[next..]));
        }
      } else {
        if aligned {
          ScanAfterHeader(slots, accept, maxFrameSize, hdrBytes, rest);
        }
        payload := payload + input[pos..];
        next, done, st := pos, true, Incomplete;
        assert aligned ==> target == Scanned(Incomplete, [], slots, Pending());
      }
    }

    /** Part of the payload is buffered: append as much of the input as the
      * frame still needs, and dispatch the frame once it is complete. */
    method ReadMorePayload(input: Bytes, pos: nat) returns (next: nat, done: bool, st: ParseState, ghost emitted: seq<ParserEvent>)
      requires Valid() && readState == ReadPayload && pos < |input| && payload != []
      modifies this
      ensures Valid() && maxFrameSize == old(maxFrameSize)
      ensures events == old(events) + emitted
      ensures old(Aligned()) ==> Aligned()
      ensures done ==> st != Success
      ensures !done ==> pos <= next <= |input| && readState == ReadHeader && hdrBuffer == []
      ensures old(Aligned()) && !done ==>
        Scan(old(slots), accept, maxFrameSize, old(Pending()) + input[pos..])
          == After(emitted, Scan(slots, accept, maxFrameSize, input[next..]))
      ensures old(Aligned()) && done ==>
        Scan(old(slots), accept, maxFrameSize, old(Pending()) + input[pos..])
          == Scanned(st, emitted, slots, if st == Incomplete then Pending() else [])
    {
      ghost var aligned := Aligned();
      ghost var rest := payload + input[pos..];
      ghost var slots0 := slots;
      ghost var target := Scan(slots, accept, maxFrameSize, Pending() + input[pos..]);
      assert Pending() + input[pos..] == hdrBytes + rest;
      emitted := [];
      var copyLen := header.length - |payload|;
      if copyLen > |input| - pos {
        copyLen := |input| - pos;
      }
      payload := payload + input[pos..pos + copyLen];
      if |payload| < header.length {
        if aligned {
          ScanAfterHeader(slots, accept, maxFrameSize, hdrBytes, rest);
        }
        assert input[pos..pos + copyLen] == input[pos..];
        assert aligned ==> target == Scanned(Incomplete, [], slots, Pending());
        return pos, true, Incomplete, emitted;
      }
      assert rest[..header.length] == payload;
      assert rest[header.length..] == input[pos + copyLen..];
      if aligned {
        ScanAfterHeader(slots, accept, maxFrameSize, hdrBytes, rest);
      }
      next := pos + copyLen;
      readState := ReadHeader;
      ghost var d := ParseFrame(slots, accept, header, payload);
      assert aligned ==> target == ScanAfterFrame(slots0, accept, maxFrameSize, header, payload, input[next..]);
      st := DispatchFrame(header, payload);
      emitted := d.events;
      if st != Success {
        assert aligned ==> target == Scanned(st, emitted, slots, []);
        return next, true, st, emitted;
      }
      payload := [];
      done := false;
      assert aligned ==> target == After(emitted, Scan(slots, accept, maxFrameSize, input[next..]));
    }

    /** One round of `parseInputData`'s loop: the header half when a header
      * is being read, then the payload half. Unless the call ends (`done`),
      * one frame has been dispatched and the parser is at a frame boundary.
      * `target` is what `Scan` gives for the whole stream and `before` what
      * has been reported of it so far. */
    method ParseRound(input: Bytes, pos: nat, ghost aligned: bool, ghost target: Scanned, ghost before: seq<ParserEvent>)
      returns (next: nat, done: bool, st: ParseState, ghost emitted: seq<ParserEvent>)
      requires Valid() && pos < |input|
      requires aligned ==> Aligned() && target == After(before, Scan(slots, accept, maxFrameSize, Pending() + input[pos..]))
      modifies this
      ensures Valid() && maxFrameSize == old(maxFrameSize)
      ensures events == old(events) + emitted
      ensures aligned ==> Aligned()
      ensures !done ==> next <= |input| && readState == ReadHeader && hdrBuffer == []
      ensures !done ==> pos < next || (pos == next && old(readState) == ReadPayload)
      ensures aligned && !done ==>
        target == After(before + emitted, Scan(slots, accept, maxFrameSize, Pending() + input[next..]))
      ensures aligned && done ==>
        target == Scanned(st, before + emitted, slots, if st in {Success, Incomplete} then Pending() else [])
    {
      ghost var stream := Pending() + input[pos..];
      ghost var slots0 := slots;
      next := pos;
      if readState == ReadHeader {
        next, done, st, emitted := ReadHeaderPart(input, pos);
        if done {
          if aligned {
            assert target == After(before, Scanned(st, emitted, slots, if st == Incomplete then Pending() else []));
          }
          return;
        }
        assert events == old(events);
      }
      assert stream == Pending() + input[next..];
      assert slots == slots0;
      next, done, st, emitted := ReadPayloadPart(input, next);
      if aligned {
        if done {
          assert target == After(before, Scanned(st, emitted, slots, if st == Incomplete then Pending() else []));
        } else {
          assert Pending() + input[next..] == input[next..];
          AfterAfter(before, emitted, Scan(slots, accept, maxFrameSize, input[next..]));
        }
      }
    }

    /** `parseInputData`. Empty input succeeds at once. Otherwise the
      * outcome, the reported events and the frame objects are those of
      * `Scan` on the pending octets followed by the input, and after success
      * or incompleteness the octets left pending are `Scan`'s rest. */
    method ParseInputData(input: Bytes) returns (st: ParseState)
      requires Valid()
      modifies this
      ensures Valid() && maxFrameSize == old(maxFrameSize)
      ensures old(Aligned()) ==> Aligned()
      ensures input == [] ==> st == Success && Pending() == old(Pending()) && slots == old(slots) && events == old(events)
      ensures input != [] && old(Aligned()) ==>
        var r := Scan(old(slots), accept, maxFrameSize, old(Pending()) + input);
        && st == r.outcome && slots == r.slots && events == old(events) + r.events
        && (st in {Success, Incomplete} ==> Pending() == r.rest)
    {
      if input == [] {
        return Success;
      }
      ghost var aligned := Aligned();
      ghost var target := Scan(slots, accept, maxFrameSize, Pending() + input);
      ghost var emitted;
      st, emitted := ParseRounds(input, aligned, target);
    }

    /** The loop of `ParseInputData`: one round per frame part until the
      * input is used up or a round ends the parse. */
    method ParseRounds(input: Bytes, ghost aligned: bool, ghost target: Scanned)
      returns (st: ParseState, ghost emitted: seq<ParserEvent>)
      requires Valid() && input != []
      requires aligned ==> Aligned() && target == Scan(slots, accept, maxFrameSize, Pending() + input)
      modifies this
      ensures Valid() && maxFrameSize == old(maxFrameSize)
      ensures events == old(events) + emitted
      ensures aligned ==> Aligned()
      ensures aligned ==> target == Scanned(st, emitted, slots, if st in {Success, Incomplete} then Pending() else [])
    {
      emitted := [];
      assert input[0..] == input;
      AfterNothing(target);
      var pos := 0;
      while pos < |input|
        invariant Valid() && 0 <= pos <= |input| && maxFrameSize == old(maxFrameSize)
        invariant aligned ==> Aligned()
        invariant pos > 0 ==> readState == ReadHeader && hdrBuffer == []
        invariant events == old(events) + emitted
        invariant aligned ==> target == After(emitted, Scan(slots, accept, maxFrameSize, Pending() + input[pos..]))
        decreases |input| - pos, if readState == ReadPayload then 1 else 0
      {
        var done: bool;
        ghost var more: seq<ParserEvent>;
        pos, done, st, more := ParseRound(input, pos, aligned, target, emitted);
        assert events == old(events) + (emitted + more);
        emitted := emitted + more;
        if done {
          return;
        }
      }
      assert input[pos..] == [] && Pending() == [];
      assert Pending() + input[pos..] == [];
      assert aligned ==> target == After(emitted, Scanned(Success, [], slots, []));
      st := Success;
    }
  }
}

=== FILE: h2connection.dfy ===
/** An HTTP/2 connection and its streams (Sources/http/v2/H2Stream.swift,
  * Sources/http/v2/H2Connection.swift; sections 5.1, 6 and 6.9 of RFC 7540).
  *
  * Both classes live in one module because each refers to the other: a
  * stream sends through its connection and reports opening and closing to
  * it, the connection dispatches received frames to its streams.
  *
  * The transport is abstract: `output` is the log of frames handed to the
  * send buffer, `sendBufferEmpty` says whether that buffer has drained, and
  * `writable` is what the socket would let drain on the next send. The
  * application callbacks are ghost event logs.
  */
module H2Connection {
  import opened Common
  import opened H2Utils
  import opened H2Frame
  import opened HPackTable
  import opened HPacker
  import opened FlowControl
  import StaticTable

  /** `LOCAL_CONN_INITIAL_WINDOW_SIZE` and `LOCAL_STREAM_INITIAL_WINDOW_SIZE`. */
  const LocalConnInitialWindowSize: int := 20 * 1024 * 1024
  const LocalStreamInitialWindowSize: int := 6 * 1024 * 1024
  /** `kClientConnectionPreface`, "PRI * HTTP/2.0\r\n\r\nSM\r\n\r\n", as
    * the octets compared against the input. */
  const PrefaceOctets: Bytes := [
    0x50, 0x52, 0x49, 0x20, 0x2a, 0x20, 0x48, 0x54, 0x54, 0x50, 0x2f, 0x32,
    0x2e, 0x30, 0x0d, 0x0a, 0x0d, 0x0a, 0x53, 0x4d, 0x0d, 0x0a, 0x0d, 0x0a]
  /** The initial `maxConcurrentStreams`, which SETTINGS never changes. */
  const MaxConcurrentStreams: int := 128

  /** The result codes of Sources/Error.swift. */
  datatype KMError =
    | NoError | Failed | InvalidState | InvalidParam | InvalidProto | AlreadyExist
    | Again | SockError | PollError | ProtoError | SslError | BufferTooSmall | Unsupport

  // ---------------------------------------------------------------------
  // Stream states (section 5.1 of RFC 7540)

  datatype StreamState = Idle | ReservedL | ReservedR | Open | HalfClosedL | HalfClosedR | Closed

  /** `isInOpenState`: the states a stream counts as opened in. */
  predicate IsInOpenState(s: StreamState)
  {
    s == Open || s == HalfClosedL || s == HalfClosedR
  }

  /** `endStreamSent`: from halfClosedR to closed, from any other state to
    * halfClosedL. */
  function AfterEndStreamSent(s: StreamState): StreamState
  {
    if s == HalfClosedR then Closed else HalfClosedL
  }

  /** `endStreamReceived`: from halfClosedL to closed, from any other state
    * to halfClosedR. */
  function AfterEndStreamReceived(s: StreamState): StreamState
  {
    if s == HalfClosedL then Closed else HalfClosedR
  }

  /** `sendHeaders`: idle opens, reservedL half-closes the remote side. */
  function AfterHeadersSent(s: StreamState): StreamState
  {
    if s == Idle then Open else if s == ReservedL then HalfClosedR else s
  }

  /** `handleHeadersFrame`: reservedR half-closes the local side, idle opens. */
  function AfterHeadersReceived(s: StreamState): StreamState
  {
    if s == ReservedR then HalfClosedL else if s == Idle then Open else s
  }

  /** An open stream that has both sent and received END_STREAM is closed,
    * in either order; a stream reserved by a PUSH_PROMISE becomes
    * half-closed when its HEADERS arrive, and closed by END_STREAM on them. */
  lemma HalfClosesMeet()
    ensures AfterEndStreamReceived(AfterEndStreamSent(Open)) == Closed
    ensures AfterEndStreamSent(AfterEndStreamReceived(Open)) == Closed
    ensures AfterEndStreamReceived(AfterHeadersReceived(ReservedR)) == Closed
    ensures AfterEndStreamReceived(AfterHeadersReceived(Idle)) == HalfClosedR
  {
  }

  /** What `setState` reports to the connection's opened-stream count:
    * +1 on entering an open state from outside them, -1 on leaving them
    * for closed. */
  function OpenedDelta(from: StreamState, to: StreamState): (d: int)
    ensures d == 1 <==> !IsInOpenState(from) && IsInOpenState(to)
    ensures d == -1 <==> IsInOpenState(from) && to == Closed
    ensures -1 <= d <= 1
  {
    if !IsInOpenState(from) && IsInOpenState(to) then 1
    else if IsInOpenState(from) && to == Closed then -1
    else 0
  }

  function Ind(b: bool): int { if b then 1 else 0 }

  /** The sum of what a path of states reports to the counter. */
  function DeltaSum(path: seq<StreamState>): int
    decreases |path|
  {
    if |path| < 2 then 0
    else DeltaSum(path[..|path| - 1]) + OpenedDelta(path[|path| - 2], path[|path| - 1])
  }

  /** A path that leaves the open states only for closed. */
  predicate LeavesOpenOnlyToClosed(path: seq<StreamState>)
  {
    forall i :: 0 < i < |path| && IsInOpenState(path[i - 1]) && !IsInOpenState(path[i]) ==> path[i] == Closed
  }

  /** Along such a path the reports add up to whether the stream is open at
    * its end less whether it was open at its start: each stream contributes
    * one to `openedStreamCount` exactly while it is open. */
  lemma {:induction false} OpenedCountTracksOpenness(path: seq<StreamState>)
    requires |path| >= 1 && LeavesOpenOnlyToClosed(path)
    ensures DeltaSum(path) == Ind(IsInOpenState(path[|path| - 1])) - Ind(IsInOpenState(path[0]))
    decreases |path|
  {
    if |path| >= 2 {
      var init := path[..|path| - 1];
      assert LeavesOpenOnlyToClosed(init) by {
        forall i | 0 < i < |init| && IsInOpenState(init[i - 1]) && !IsInOpenState(init[i])
          ensures init[i] == Closed
        {
          assert init[i - 1] == path[i - 1] && init[i] == path[i];
        }
      }
      OpenedCountTracksOpenness(init);
      assert init[|init| - 1] == path[|path| - 2] && init[0] == path[0];
    }
  }

  /** What `verifyFrame` makes of a frame of type `t`. */
  datatype Verdict = Accept | ConnectionReject | StreamReject

  function FrameVerdict(s: StreamState, rstReceived: bool, endReceived: bool, t: FrameType): Verdict
  {
    match s
      case Idle =>
        if t == HeadersType || t == PriorityType || t == PushPromiseType then Accept else ConnectionReject
      case ReservedL =>
        if t == RstStreamType || t == PriorityType || t == WindowUpdateType then Accept else ConnectionReject
      case ReservedR =>
        if t == HeadersType || t == RstStreamType || t == PriorityType then Accept else ConnectionReject
      case Open => Accept
      case HalfClosedL => Accept
      case HalfClosedR =>
        if t == RstStreamType || t == PriorityType || t == WindowUpdateType then Accept else StreamReject
      case Closed =>
        if (rstReceived || endReceived) && t != PriorityType then StreamReject else Accept
  }

  /** The rules of section 5.1 of RFC 7540 as `verifyFrame` applies them:
    * PRIORITY is accepted in every state and everything in open and
    * halfClosedL; an unexpected frame is a connection error in idle and the
    * reserved states and a stream error in halfClosedR and closed; a closed
    * stream rejects only after it has received RST_STREAM or END_STREAM. */
  lemma VerifyFrameRules(s: StreamState, rst: bool, end: bool, t: FrameType)
    ensures FrameVerdict(s, rst, end, PriorityType) == Accept
    ensures s == Open || s == HalfClosedL ==> FrameVerdict(s, rst, end, t) == Accept
    ensures FrameVerdict(s, rst, end, t) == ConnectionReject <==>
      (s == Idle || s == ReservedL || s == ReservedR) && FrameVerdict(s, rst, end, t) != Accept
    ensures FrameVerdict(s, rst, end, t) == StreamReject <==>
      (s == HalfClosedR || s == Closed) && FrameVerdict(s, rst, end, t) != Accept
    ensures s == Closed && !rst && !end ==> FrameVerdict(s, rst, end, t) == Accept
    ensures s == Idle ==> (FrameVerdict(s, rst, end, t) == Accept <==>
      t in {HeadersType, PriorityType, PushPromiseType})
  {
  }

  /** `handleContinuationFrame` tests `state != .open || state != .halfClosedL`
    * (H2Stream.swift line 352), which no state falsifies: a stream returns
    * there whatever its state, and the rest of the method never runs. */
  predicate ContinuationGuard(s: StreamState)
  {
    s != Open || s != HalfClosedL
  }

  lemma ContinuationGuardAlwaysHolds(s: StreamState)
    ensures ContinuationGuard(s)
  {
  }

  /** The test as intended: a CONTINUATION is taken only in open or
    * halfClosedL, the states in which a header block may be under way. */
  predicate ContinuationAccepted(s: StreamState)
  {
    s == Open || s == HalfClosedL
  }

  /** A header block (headers or trailers) is unfinished. */
  predicate ContinuationExpected(headersReceived: bool, headersEnd: bool, tailersReceived: bool, tailersEnd: bool)
  {
    (headersReceived && !headersEnd) || (tailersReceived && !tailersEnd)
  }

  /** As written, the test lets no stream past whatever its state, so
    * an open stream drops the CONTINUATION that should complete its
    * headers; as intended it lets exactly the open and halfClosedL states
    * past. */
  lemma ContinuationGuardDropsOpen()
    ensures ContinuationGuard(Open) && ContinuationAccepted(Open)
    ensures forall s :: ContinuationAccepted(s) <==> s == Open || s == HalfClosedL
  {
  }

  // ---------------------------------------------------------------------
  // Frames the model sends

  function Flags(endHeaders: bool, endStream: bool): byte
  {
    (if endHeaders then FlagEndHeaders else 0) + (if endStream then FlagEndStream else 0)
  }

  function Head(t: FrameType, flags: byte, id: uint32): FrameHeader
  {
    FrameHeader(0, t.Code(), flags, id)
  }

  function GoawayFor(e: H2Error, lastStreamId: uint32): Frame
  {
    GoawayFrame(Head(GoawayType, 0, 0), lastStreamId, e.Code(), [])
  }

  function RstStreamFor(id: uint32, e: H2Error): Frame
  {
    RstStreamFrame(Head(RstStreamType, 0, id), e.Code())
  }

  function WindowUpdateFor(id: uint32, delta: uint32): Frame
  {
    WindowUpdateFrame(Head(WindowUpdateType, 0, id), delta)
  }

  function DataFor(id: uint32, data: Bytes, endStream: bool): Frame
  {
    DataFrame(Head(DataType, Flags(false, endStream), id), data)
  }

  /** The DATA frame `sendData` builds: its payload is the data, and its
    * END_STREAM flag and stream are the ones asked for. */
  lemma DataForFrame(id: uint32, data: Bytes, endStream: bool)
    requires |data| < 0x1_0000_0000
    ensures var f := DataFor(id, data, endStream);
      && f.DataFrame? && f.data == data && PayloadLength(f) == |data|
      && f.HasEndStream() == endStream && f.StreamId() == id && Encodable(f)
  {
  }

  function HeadersFor(id: uint32, headers: seq<KeyValuePair>, hsize: nat, endStream: bool): Frame
  {
    HeadersFrame(Head(HeadersType, Flags(true, endStream), id), DefaultPriority, [], headers, hsize)
  }

  /** `sendPushPromise` sets the headers but no header block, so the frame
    * goes out with an empty block. */
  function PushPromiseFor(assocId: uint32, promisedId: uint32, headers: seq<KeyValuePair>): Frame
  {
    PushPromiseFrame(Head(PushPromiseType, FlagEndHeaders, assocId), promisedId, None, headers)
  }

  function SettingsAckFrame(): Frame
  {
    SettingsFrame(Head(SettingsType, FlagAck, 0), [])
  }

  function PingAckFrame(data: Bytes): Frame
  {
    PingFrame(Head(PingType, FlagAck, 0), data)
  }

  /** The room `sendHeadersFrame` gives the header block: half as much
    * again as the header list's `hsize`. */
  function HpackRoom(f: Frame): nat
    requires f.HeadersFrame?
  {
    f.hsize * 3 / 2
  }

  /** The octets `sendHeadersFrame` reserves ahead of the header block:
    * the frame header, and the priority fields when the frame has them. */
  function HeadersPrefixSize(f: Frame): nat
    requires f.HeadersFrame?
  {
    FrameHeaderSize + (if f.hdr.HasPriority() then PriorityPayloadSize else 0)
  }

  /** The room `sendHeadersFrame` as written passes to `encode`: the size
    * of the whole buffer, although the block starts after the prefix. */
  function HpackRoomAsWritten(f: Frame): nat
    requires f.HeadersFrame?
  {
    HeadersPrefixSize(f) + HpackRoom(f)
  }

  /** With the room as written, one short field ("a: b", a header list
    * size of 2, so a 12-octet buffer) is encoded into 5 octets that start
    * at octet 9: the block runs 2 octets past the end of the buffer.
    * With the block's own room, 3 octets, the same field does not fit and
    * `encode` fails instead. A Huffman code spends at least one octet on
    * one character, so the field is sent as raw octets. */
  lemma SendHeadersAsWrittenOverruns(h: HuffmanCode)
    requires |h.encode(OctetsOf("a"))| >= 1 && |h.encode(OctetsOf("b"))| >= 1
    ensures var f := HeadersFor(1, [KeyValuePair("a", "b")], 2, true);
      var t := InitialTable();
      && Good(t)
      && var asWritten := EncodeBlock(t, h, false, f.headers, HpackRoomAsWritten(f));
      && asWritten.0 && HeadersPrefixSize(f) + |asWritten.1| > HpackRoomAsWritten(f)
      && !EncodeBlock(t, h, false, f.headers, HpackRoom(f)).0
  {
    var f := HeadersFor(1, [KeyValuePair("a", "b")], 2, true);
    var t := InitialTable();
    InitialTableGood();
    ShortKeyNotStatic(|StaticTable.Entries|, "a");
    var t0 := t.(isEncoder := true);
    assert Lookup(t0, "a", "b") == (-1, false);
    assert |StringBytes(h, "a")| == 2 && |StringBytes(h, "b")| == 2;
    var b := FieldBytes(t0, h, "a", "b");
    assert |b| == 5;
    EncodeRunStep(t0, h, f.headers, HpackRoomAsWritten(f));
    EncodeRunStep(t0, h, f.headers, HpackRoom(f));
    assert f.headers[1..] == [];
  }

  /** The HEADERS frame as it is sent with the encoded block `b`: with the
    * default priority and `b` as its block. */
  function SentHeaders(f: Frame, b: Bytes): (g: Frame)
    requires f.HeadersFrame?
    ensures g.HeadersFrame? && g.block == b && g.hdr == f.hdr && g.headers == f.headers
  {
    f.(pri := DefaultPriority, block := b)
  }

  /** `sendH2Frame` holds a DATA frame back while the send buffer still has
    * data, unless it ends the stream; every other frame goes out. */
  predicate HeldBack(bufferEmpty: bool, f: Frame)
  {
    !bufferEmpty && f.DataFrame? && !f.HasEndStream()
  }

  /** A DATA frame longer than the connection's remote window. */
  predicate Starved(window: int, f: Frame)
  {
    f.DataFrame? && window < PayloadLength(f)
  }

  /** An incoming frame as the frame parser delivers it: its length fits the
    * 24-bit field. */
  predicate Incoming(f: Frame)
  {
    WellFormed(f) && PayloadLength(f) <= MaxFrameSize && PayloadSize(f) <= MaxFrameSize
  }

  // ---------------------------------------------------------------------
  // The DATA send decision of `H2Stream.sendData`

  datatype SendPlan = Refuse | Wait | Blocked(connStarved: bool) | Send(slen: nat)

  /** DATA is never planned beyond either window or the data itself; it is
    * planned with no credit only as an empty frame that ends the stream, and
    * with credit it is never empty unless the data is; a closed or
    * locally half-closed stream sends nothing. */
  function DataPlan(s: StreamState, writeBlocked: bool, attached: bool,
                    streamWindow: nat, connWindow: nat, len: nat, endStream: bool): (p: SendPlan)
    ensures p.Send? ==> p.slen <= streamWindow && p.slen <= connWindow && p.slen <= len
    ensures p.Send? && (streamWindow == 0 || connWindow == 0) ==> len == 0 && endStream
    ensures p.Send? && len > 0 ==> p.slen > 0
    ensures s == HalfClosedL || s == Closed ==> p == Refuse
    ensures p.Blocked? <==>
      && s != HalfClosedL && s != Closed && !writeBlocked && attached
      && (streamWindow == 0 || connWindow == 0) && (!endStream || len != 0)
  {
    if s == HalfClosedL || s == Closed then Refuse
    else if writeBlocked then Wait
    else if !attached then Refuse
    else if Min(streamWindow, connWindow) == 0 && (!endStream || len != 0) then Blocked(connWindow == 0)
    else Send(Min(Min(streamWindow, connWindow), len))
  }

  /** What `sendData` as written does once it plans to send: the DATA frame
    * carries all `len` octets, not the `slen` the windows allow. It is held
    * back behind a busy send buffer unless it ends the stream, and
    * `sendH2Frame` refuses it (`bufferTooSmall`) when the connection window
    * is below `len`. Otherwise the connection window is charged `len` and
    * the stream window `slen`. */
  datatype DataCharge = NotSent | Charged(frameLen: nat, stream: nat, connection: nat)

  function ChargeAsWritten(slen: nat, len: nat, connWindow: nat, heldBack: bool): (c: DataCharge)
  {
    if heldBack || connWindow < len then NotSent else Charged(len, slen, len)
  }

  /** For every send `sendData` plans, as written: the frame goes out
    * exactly when it is not held back and the connection window covers
    * all `len` octets. It then carries all of them, charges the
    * connection `len` and the stream the smaller window (or `len`), and
    * carries more than the stream window allows whenever that window is
    * below `len`. */
  lemma ChargeAsWrittenAllInputs(s: StreamState, writeBlocked: bool, attached: bool,
                                 streamWindow: nat, connWindow: nat, len: nat, endStream: bool, heldBack: bool)
    requires DataPlan(s, writeBlocked, attached, streamWindow, connWindow, len, endStream).Send?
    ensures var slen := DataPlan(s, writeBlocked, attached, streamWindow, connWindow, len, endStream).slen;
      var c := ChargeAsWritten(slen, len, connWindow, heldBack);
      && (c.Charged? <==> !heldBack && len <= connWindow)
      && (c.Charged? ==> c.frameLen == len && c.connection == len && c.stream == Min(streamWindow, len))
      && (c.Charged? && streamWindow < len ==> c.frameLen > streamWindow && c.stream == streamWindow)
      && (c.Charged? ==> (c.stream == c.frameLen <==> len <= streamWindow))
  {
  }

  /** Two inputs on which `sendData` as written and the corrected plan part
    * ways. A stream window of 10, a connection window of 100 and 50
    * octets: 50 octets go out, 40 past the stream window, charging the
    * connection 50 and the stream 10, where the corrected plan sends 10.
    * A stream window of 50, a connection window of 30 and 50 octets: the
    * send is refused and nothing goes out, where the corrected plan sends
    * 30. */
  lemma SendDataAsWrittenOverruns()
    ensures DataPlan(Open, false, true, 10, 100, 50, false) == Send(10)
    ensures ChargeAsWritten(10, 50, 100, false) == Charged(50, 10, 50)
    ensures DataPlan(Open, false, true, 50, 30, 50, false) == Send(30)
    ensures ChargeAsWritten(30, 50, 30, false) == NotSent
  {
  }

  // ---------------------------------------------------------------------
  // SETTINGS (section 6.5.2 of RFC 7540)

  /** The error a single setting raises, if any. */
  function SettingError(s: Setting): (e: Option<H2Error>)
    ensures e == Some(FlowControlError) <==> s.key == SettingsInitialWindowSize && s.value > MaxWindowSize
    ensures e == Some(ProtocolError) <==>
      || (s.key == SettingsMaxFrameSize && (s.value < DefaultFrameSize || s.value > MaxFrameSize))
      || (s.key == SettingsEnablePush && s.value != 0 && s.value != 1)
    ensures e.None? || e == Some(FlowControlError) || e == Some(ProtocolError)
  {
    if s.key == SettingsInitialWindowSize && s.value > MaxWindowSize then Some(FlowControlError)
    else if s.key == SettingsMaxFrameSize && (s.value < DefaultFrameSize || s.value > MaxFrameSize) then Some(ProtocolError)
    else if s.key == SettingsEnablePush && s.value != 0 && s.value != 1 then Some(ProtocolError)
    else None
  }

  /** What `applySettings` has done so far: the error it stopped at, if
    * any, and the settings it has taken over. */
  datatype SettingsView = SettingsView(failed: Option<H2Error>, maxFrameSize: int, initWindow: int, table: Table)

  function ApplySetting(v: SettingsView, s: Setting): SettingsView
  {
    if v.failed.Some? then v
    else if SettingError(s).Some? then v.(failed := SettingError(s))
    else if s.key == SettingsHeaderTableSize then v.(table := WithMaxSize(v.table, s.value))
    else if s.key == SettingsInitialWindowSize then v.(initWindow := s.value)
    else if s.key == SettingsMaxFrameSize then v.(maxFrameSize := s.value)
    else v
  }

  /** The settings of a frame applied in order. */
  function Settle(v: SettingsView, params: seq<Setting>): SettingsView
    decreases |params|
  {
    if params == [] then v else ApplySetting(Settle(v, params[..|params| - 1]), params[|params| - 1])
  }

  /** The error of the first setting that raises one. */
  function FirstSettingError(params: seq<Setting>): Option<H2Error>
  {
    if params == [] then None
    else if SettingError(params[0]).Some? then SettingError(params[0])
    else FirstSettingError(params[1..])
  }

  lemma {:induction false} FirstSettingErrorSnoc(params: seq<Setting>, s: Setting)
    ensures FirstSettingError(params + [s]) ==
      if FirstSettingError(params).Some? then FirstSettingError(params) else SettingError(s)
    decreases |params|
  {
    if params != [] {
      assert (params + [s])[1..] == params[1..] + [s];
      FirstSettingErrorSnoc(params[1..], s);
    } else {
      assert (params + [s])[1..] == [];
    }
  }

  /** `applySettings` fails with the error of the first offending setting,
    * and with none when no setting offends. */
  lemma {:induction false} SettleFailsAtFirstError(v: SettingsView, params: seq<Setting>)
    requires v.failed.None?
    ensures Settle(v, params).failed == FirstSettingError(params)
    decreases |params|
  {
    if params != [] {
      var init := params[..|params| - 1];
      var last := params[|params| - 1];
      SettleFailsAtFirstError(v, init);
      FirstSettingErrorSnoc(init, last);
      assert init + [last] == params;
    }
  }

  /** Settings after the one that fails change nothing. */
  lemma {:induction false} SettleStopsAtFailure(v: SettingsView, params: seq<Setting>, rest: seq<Setting>)
    requires Settle(v, params).failed.Some?
    ensures Settle(v, params + rest) == Settle(v, params)
    decreases |rest|
  {
    if rest != [] {
      var init := rest[..|rest| - 1];
      assert (params + rest)[..|params + rest| - 1] == params + init;
      SettleStopsAtFailure(v, params, init);
    } else {
      assert params + rest == params;
    }
  }

  /** One more setting is one more step. */
  lemma SettleSnoc(v: SettingsView, params: seq<Setting>, i: nat)
    requires i < |params|
    ensures Settle(v, params[..i + 1]) == ApplySetting(Settle(v, params[..i]), params[i])
  {
    assert params[..i + 1][..i] == params[..i];
  }

  // ---------------------------------------------------------------------
  // The client preface (section 3.5 of RFC 7540)

  datatype PrefaceResult = Mismatch | NeedMore(pending: Bytes) | Matched(rest: Bytes)

  /** What `handleInputData` does with received octets: the connection is
    * refused, the octets are taken and nothing more is done, or these
    * octets go to the frame parser. */
  datatype InputRoute = Refused | Held | Parse(octets: Bytes)

  /** The server's check of received octets against the part of the client
    * preface still expected: a mismatch, the part still expected after all
    * of `data` matched, or the octets after a complete preface. */
  function PrefaceStep(pending: Bytes, data: Bytes): (r: PrefaceResult)
    requires |pending| > 0
    ensures r.Mismatch? <==> pending[..Min(|pending|, |data|)] != data[..Min(|pending|, |data|)]
    ensures r.NeedMore? ==> |data| < |pending| && pending == data + r.pending && |r.pending| > 0
    ensures r.Matched? ==> data == pending + r.rest
  {
    var n := Min(|pending|, |data|);
    if pending[..n] != data[..n] then Mismatch
    else if n < |pending| then
      assert pending == data + pending[n..];
      NeedMore(pending[n..])
    else
      assert data == pending + data[n..];
      Matched(data[n..])
  }

  /** Matching in two pieces is matching the whole: receiving the preface
    * split across reads makes no difference. */
  lemma PrefaceSplit(pending: Bytes, a: Bytes, b: Bytes)
    requires |pending| > 0 && PrefaceStep(pending, a).NeedMore?
    ensures PrefaceStep(PrefaceStep(pending, a).pending, b) == PrefaceStep(pending, a + b)
  {
    var p2 := PrefaceStep(pending, a).pending;
    assert pending == a + p2;
    var n2 := Min(|p2|, |b|);
    var n := Min(|pending|, |a + b|);
    assert n == |a| + n2;
    assert pending[..n] == a + p2[..n2];
    assert (a + b)[..n] == a + b[..n2];
    if p2[..n2] == b[..n2] {
      assert pending[n..] == p2[n2..];
      assert (a + b)[n..] == b[n2..];
    }
  }

  /** A preface delivered whole, followed by frames, passes the frames on. */
  lemma PrefaceThenFrames(pending: Bytes, rest: Bytes)
    requires |pending| > 0
    ensures PrefaceStep(pending, pending + rest) == Matched(rest)
  {
    assert (pending + rest)[..|pending|] == pending;
  }

  // ---------------------------------------------------------------------
  // Events the application callbacks stand for

  datatype StreamEvent =
    | HeadersEvent(headers: seq<KeyValuePair>, endStream: bool)  // cbHeaders
    | DataEvent(data: Bytes, endStream: bool)                     // cbData
    | ResetEvent(code: int)                                       // cbReset
    | WriteEvent                                                  // cbWrite

  datatype ConnEvent =
    | ErrorEvent(code: int)  // cbError
    | Connected              // the connect listeners, told noError

  datatype ConnState = ConnIdle | Connecting | Upgrading | Handshake | ConnOpen | ConnError | ConnClosed
  {
    /** The order of the Swift enum's raw values. */
    function Rank(): nat
    {
      match this
        case ConnIdle => 0
        case Connecting => 1
        case Upgrading => 2
        case Handshake => 3
        case ConnOpen => 4
        case ConnError => 5
        case ConnClosed => 6
    }
  }

  // ---------------------------------------------------------------------
  // The stream

  class H2Stream {
    const streamId: uint32
    /** The weak `conn`: `attached` is false once `onError` has cleared it. */
    const conn: H2Connection
    const flow: FlowControl
    var attached: bool
    var state: StreamState
    var writeBlocked: bool
    var headersReceived: bool
    var headersEnd: bool
    var tailersReceived: bool
    var tailersEnd: bool
    var endStreamSent: bool
    var endStreamReceived: bool
    var rstStreamSent: bool
    var rstStreamReceived: bool
    ghost var events: seq<StreamEvent>

    /** The connection is consistent; the stream's own window is distinct
      * from the connection's, within its range, and the connection's only
      * if the connection holds this stream. */
    ghost predicate Ready()
      reads conn`streams, conn`promisedStreams, conn`flows, conn`members, conn`owner
      reads conn.encoder, conn.encoder.table, conn.decoder, conn.decoder.table
      reads conn.flows`localWindow, conn.flows`minLocalWindowSize, conn.flows`localWindowStep, conn.members`attached
      reads flow`localWindow, flow`minLocalWindowSize, flow`localWindowStep
    {
      && conn.Valid() && flow != conn.flow && flow.LocalInRange()
      && (flow in conn.flows ==> conn.GetStream(streamId) == this)
    }

    /** What a rejected frame of type `t` has done, as `verifyFrame` says. */
    twostate predicate Rejected(t: FrameType)
      reads this, conn
    {
      var v := FrameVerdict(old(state), old(rstStreamReceived), old(endStreamReceived), t);
      && v != Accept
      && (v == ConnectionReject ==> state == old(state) && (old(attached) ==> conn.ClosedWith(ProtocolError)))
      && (v == StreamReject ==>
            && state == Closed
            && conn.output == old(conn.output) + (if old(attached) then [RstStreamFor(streamId, StreamClosed)] else []))
    }

    /** `init`: the window of each side set to what the connection gives,
      * and the local top-up step to the initial local window. */
    constructor (streamId: uint32, conn: H2Connection, initLocalWindowSize: int, initRemoteWindowSize: int)
      ensures this.streamId == streamId && this.conn == conn && attached && state == Idle
      ensures !writeBlocked && !headersReceived && !headersEnd && !tailersReceived && !tailersEnd
      ensures !endStreamSent && !endStreamReceived && !rstStreamSent && !rstStreamReceived && events == []
      ensures fresh(flow)
      ensures flow.localWindow == initLocalWindowSize && flow.localWindowStep == initLocalWindowSize
      ensures flow.remoteWindow == initRemoteWindowSize
      ensures flow.minLocalWindowSize == CappedMinimum(DefaultMinLocalWindowSize, initLocalWindowSize)
    {
      var fc := new FlowControl();
      fc.InitLocalWindowSize(initLocalWindowSize);
      fc.InitRemoteWindowSize(initRemoteWindowSize);
      fc.SetLocalWindowStep(initLocalWindowSize);
      this.streamId := streamId;
      this.conn := conn;
      flow := fc;
      attached := true;
      state := Idle;
      writeBlocked := false;
      headersReceived := false;
      headersEnd := false;
      tailersReceived := false;
      tailersEnd := false;
      endStreamSent := false;
      endStreamReceived := false;
      rstStreamSent := false;
      rstStreamReceived := false;
      events := [];
    }

    /** `setState`: the connection's opened-stream count follows the move
      * (while the stream is attached). */
    method SetState(s: StreamState)
      requires Ready()
      modifies this`state, conn`openedStreamCount
      ensures state == s
      ensures conn.openedStreamCount == old(conn.openedStreamCount) + (if attached then OpenedDelta(old(state), s) else 0)
    {
      hide Good, H2Connection.TablesValid, HPacker.Valid, HPackTable.Valid;
      if attached {
        if !IsInOpenState(state) && IsInOpenState(s) {
          conn.StreamOpened(streamId);
        } else if IsInOpenState(state) && s == Closed {
          conn.StreamClosed(streamId);
        }
      }
      state := s;
    }

    method EndStreamSent()
      requires Ready()
      modifies this`endStreamSent, this`state, conn`openedStreamCount
      ensures endStreamSent && state == AfterEndStreamSent(old(state))
      ensures conn.openedStreamCount == old(conn.openedStreamCount) + (if attached then OpenedDelta(old(state), state) else 0)
    {
      hide Good, H2Connection.TablesValid, HPacker.Valid, HPackTable.Valid;
      endStreamSent := true;
      if state == HalfClosedR {
        SetState(Closed);
      } else {
        SetState(HalfClosedL);
      }
    }

    method EndStreamReceived()
      requires Ready()
      modifies this`endStreamReceived, this`state, conn`openedStreamCount
      ensures endStreamReceived && state == AfterEndStreamReceived(old(state))
      ensures conn.openedStreamCount == old(conn.openedStreamCount) + (if attached then OpenedDelta(old(state), state) else 0)
    {
      hide Good, H2Connection.TablesValid, HPacker.Valid, HPackTable.Valid;
      endStreamReceived := true;
      if state == HalfClosedL {
        SetState(Closed);
      } else {
        SetState(HalfClosedR);
      }
    }

    /** `sendRSTStream`: RST_STREAM with the error goes out if attached. */
    method SendRSTStream(e: H2Error)
      requires Ready()
      modifies this`rstStreamSent
      modifies conn`output, conn`sendBufferEmpty, conn`blockedStreams, conn.flow`remoteWindow, conn.flow`bytesSent, conn.encoder, conn.encoder.table
      ensures Ready() && rstStreamSent
      ensures conn.output == old(conn.output) + (if attached then [RstStreamFor(streamId, e)] else [])
      ensures conn.blockedStreams == old(conn.blockedStreams)
      ensures conn.flow.remoteWindow == old(conn.flow.remoteWindow)
    {
      hide Good, H2Connection.TablesValid, HPacker.Valid, HPackTable.Valid;
      rstStreamSent := true;
      if attached {
        var _ := conn.SendH2Frame(RstStreamFor(streamId, e));
      }
    }

    /** `connectionError`: passed on to the connection, if attached. */
    method ConnectionError(e: H2Error)
      requires Ready()
      modifies conn`state, conn`events
      modifies conn`output, conn`sendBufferEmpty, conn`blockedStreams, conn.flow`remoteWindow, conn.flow`bytesSent, conn.encoder, conn.encoder.table
      ensures Ready()
      ensures attached ==> conn.ClosedWith(e)
      ensures !attached ==> conn.output == old(conn.output) && conn.state == old(conn.state)
      ensures conn.blockedStreams == old(conn.blockedStreams)
      ensures conn.flow.remoteWindow == old(conn.flow.remoteWindow)
    {
      hide Good, H2Connection.TablesValid, HPacker.Valid, HPackTable.Valid;
      if attached {
        conn.ConnectionError(e);
      }
    }

    /** `streamError`: RST_STREAM, then closed. */
    method StreamError(e: H2Error)
      requires Ready()
      modifies this`rstStreamSent, this`state, conn`openedStreamCount
      modifies conn`output, conn`sendBufferEmpty, conn`blockedStreams, conn.flow`remoteWindow, conn.flow`bytesSent, conn.encoder, conn.encoder.table
      ensures Ready() && rstStreamSent && state == Closed
      ensures conn.output == old(conn.output) + (if attached then [RstStreamFor(streamId, e)] else [])
      ensures conn.openedStreamCount == old(conn.openedStreamCount) + (if attached then OpenedDelta(old(state), Closed) else 0)
      ensures conn.blockedStreams == old(conn.blockedStreams)
      ensures conn.flow.remoteWindow == old(conn.flow.remoteWindow)
    {
      hide Good, H2Connection.TablesValid, HPacker.Valid, HPackTable.Valid;
      SendRSTStream(e);
      SetState(Closed);
    }

    /** `verifyFrame`: whether a frame of this type is acceptable in the
      * current state; a rejection is raised as a connection error or a
      * stream error as `FrameVerdict` says. */
    method VerifyFrame(t: FrameType) returns (ok: bool)
      requires Ready()
      modifies this`rstStreamSent, this`state, conn`openedStreamCount, conn`state, conn`events
      modifies conn`output, conn`sendBufferEmpty, conn`blockedStreams, conn.flow`remoteWindow, conn.flow`bytesSent, conn.encoder, conn.encoder.table
      ensures Ready()
      ensures var v := FrameVerdict(old(state), rstStreamReceived, endStreamReceived, t);
        && (ok <==> v == Accept)
        && (v == Accept ==> state == old(state) && conn.output == old(conn.output) && conn.state == old(conn.state) && conn.events == old(conn.events))
        && (v == ConnectionReject ==> state == old(state) && (attached ==> conn.ClosedWith(ProtocolError)))
        && (v == StreamReject ==>
              && state == Closed && rstStreamSent
              && conn.output == old(conn.output) + (if attached then [RstStreamFor(streamId, StreamClosed)] else []))
      ensures conn.openedStreamCount == old(conn.openedStreamCount) +
        (if attached && FrameVerdict(old(state), rstStreamReceived, endStreamReceived, t) == StreamReject
         then OpenedDelta(old(state), Closed) else 0)
      ensures conn.blockedStreams == old(conn.blockedStreams)
      ensures conn.flow.remoteWindow == old(conn.flow.remoteWindow)
    {
      hide Good, H2Connection.TablesValid, HPacker.Valid, HPackTable.Valid;
      var v := FrameVerdict(state, rstStreamReceived, endStreamReceived, t);
      if v == ConnectionReject {
        ConnectionError(ProtocolError);
        ok := false;
      } else if v == StreamReject {
        StreamError(StreamClosed);
        ok := false;
      } else {
        ok := true;
      }
    }

    /** `sendPushPromise`, on the promised stream: PUSH_PROMISE on the
      * associated stream `assocId`, and the stream reserved. The source
      * marks it reserved (remote) although it is this side that reserved
      * it. */
    method SendPushPromise(headers: seq<KeyValuePair>, assocId: uint32) returns (err: KMError)
      requires Ready()
      modifies this`state, conn`openedStreamCount
      modifies conn`output, conn`sendBufferEmpty, conn`blockedStreams, conn.flow`remoteWindow, conn.flow`bytesSent, conn.encoder, conn.encoder.table
      ensures Ready()
      ensures !IsPromisedStream(streamId) ==> err == InvalidParam && state == old(state) && conn.output == old(conn.output)
      ensures IsPromisedStream(streamId) && (old(state) != Idle || !attached) ==>
        err == InvalidState && state == old(state) && conn.output == old(conn.output)
      ensures IsPromisedStream(streamId) && old(state) == Idle && attached ==>
        && err == KMError.NoError && state == ReservedR
        && conn.output == old(conn.output) + [PushPromiseFor(assocId, streamId, headers)]
        && conn.openedStreamCount == old(conn.openedStreamCount)
    {
      hide Good, H2Connection.TablesValid, HPacker.Valid, HPackTable.Valid;
      if !IsPromisedStream(streamId) {
        return InvalidParam;
      }
      if state != Idle || !attached {
        return InvalidState;
      }
      err := conn.SendH2Frame(PushPromiseFor(assocId, streamId, headers));
      SetState(ReservedR);
    }

    /** `sendHeaders`: HEADERS with END_HEADERS (and END_STREAM if asked),
      * the stream opened, and half-closed if it ends. */
    method SendHeaders(headers: seq<KeyValuePair>, hsize: nat, endStream: bool) returns (err: KMError)
      requires Ready() && hsize * 3 / 2 + PriorityPayloadSize < 0x1_0000_0000
      modifies this`state, this`endStreamSent, conn`openedStreamCount
      modifies conn`output, conn`sendBufferEmpty, conn`blockedStreams, conn.flow`remoteWindow, conn.flow`bytesSent, conn.encoder, conn.encoder.table
      ensures Ready()
      ensures !attached ==> err == InvalidState && state == old(state) && conn.output == old(conn.output)
      ensures attached ==>
        var f := HeadersFor(streamId, headers, hsize, endStream);
        var r := EncodeBlock(old(conn.encoder.table.Model()), conn.encoder.huffman, old(conn.encoder.updateTableSize), headers, HpackRoom(f));
        && err == (if r.0 then KMError.NoError else Failed)
        && conn.output == old(conn.output) + (if r.0 then [SentHeaders(f, r.1)] else [])
        && conn.encoder.table.Model() == r.2
        && state == (if endStream then AfterEndStreamSent(AfterHeadersSent(old(state))) else AfterHeadersSent(old(state)))
        && (endStream ==> endStreamSent)
    {
      hide EncodeBlock, Good, H2Connection.TablesValid, HPacker.Valid, HPackTable.Valid;
      var f := HeadersFor(streamId, headers, hsize, endStream);
      if !attached {
        return InvalidState;
      }
      err := conn.SendH2Frame(f);
      HeadersSent(endStream);
    }

    /** The state change of `sendHeaders`. */
    method HeadersSent(endStream: bool)
      requires Ready()
      modifies this`state, this`endStreamSent, conn`openedStreamCount
      ensures Ready()
      ensures state == (if endStream then AfterEndStreamSent(AfterHeadersSent(old(state))) else AfterHeadersSent(old(state)))
      ensures endStream ==> endStreamSent
    {
      hide EncodeBlock, Good, H2Connection.TablesValid, HPacker.Valid, HPackTable.Valid;
      if state == Idle {
        SetState(Open);
      } else if state == ReservedL {
        SetState(HalfClosedR);
      }
      if endStream {
        EndStreamSent();
      }
    }

    /** `sendData` as written: after the same decision as the corrected
      * send (`DataPlan`), the frame carries all of the data with END_STREAM
      * when asked, and `ChargeAsWritten` says what goes out and what each
      * window is charged. The result is the number of octets charged to the
      * stream, 0 when the stream must wait for `onWrite`, -1 when it cannot
      * send at all. */
    method SendData(data: Bytes, endStream: bool) returns (ret: int)
      requires Ready() && |data| < 0x1_0000_0000
      modifies this`state, this`endStreamSent, this`writeBlocked, flow`remoteWindow, flow`bytesSent, conn`openedStreamCount
      modifies conn`output, conn`sendBufferEmpty, conn`blockedStreams, conn.flow`remoteWindow, conn.flow`bytesSent, conn.encoder, conn.encoder.table
      ensures Ready()
      ensures var p := DataPlan(old(state), old(writeBlocked), attached, old(flow.RemoteWindowSize()),
                                old(conn.flow.RemoteWindowSize()), |data|, endStream);
        && (p == Refuse ==> ret == -1 && unchanged(this) && conn.output == old(conn.output))
        && (p == Wait ==> ret == 0 && unchanged(this) && conn.output == old(conn.output))
        && (p.Blocked? ==>
              && ret == 0 && writeBlocked && state == old(state) && conn.output == old(conn.output)
              && conn.blockedStreams == old(conn.blockedStreams) + (if p.connStarved then {streamId} else {}))
        && (p.Send? ==> DataSentAsWritten(data, p.slen, endStream, ret))
    {
      hide Good, EncodeBlock, H2Connection.TablesValid, HPacker.Valid, HPackTable.Valid;
      var p := DataPlan(state, writeBlocked, attached, flow.RemoteWindowSize(), conn.flow.RemoteWindowSize(), |data|, endStream);
      if p == Refuse || p == Wait {
        return if p == Refuse then -1 else 0;
      }
      if p.Blocked? {
        writeBlocked := true;
        if p.connStarved {
          conn.AppendBlockedStream(streamId);
        }
        return 0;
      }
      ret := SendAsWritten(data, p.slen, endStream);
    }

    /** What the sending half of `sendData` as written has done: nothing
      * sent, the stream blocked and registered, or the whole frame sent
      * with the charges `ChargeAsWritten` gives and the stream ended when
      * asked. */
    twostate predicate DataSentAsWritten(data: Bytes, slen: nat, endStream: bool, ret: int)
      reads this, flow, conn, conn.flow
    {
      var f := DataFor(streamId, data, endStream);
      match ChargeAsWritten(slen, |data|, old(conn.flow.RemoteWindowSize()), HeldBack(old(conn.sendBufferEmpty), f))
      case NotSent =>
        && ret == 0 && writeBlocked && state == old(state) && conn.output == old(conn.output)
        && conn.blockedStreams == old(conn.blockedStreams) + {streamId}
        && flow.remoteWindow == old(flow.remoteWindow) && conn.flow.remoteWindow == old(conn.flow.remoteWindow)
      case Charged(_, streamCharge, connCharge) =>
        && ret == streamCharge
        && conn.output == old(conn.output) + [f]
        && flow.remoteWindow == old(flow.remoteWindow) - streamCharge
        && conn.flow.remoteWindow == old(conn.flow.remoteWindow) - connCharge
        && state == (if endStream then AfterEndStreamSent(old(state)) else old(state))
        && writeBlocked == (streamCharge < |data|)
        && conn.blockedStreams == old(conn.blockedStreams) + (if streamCharge < |data| then {streamId} else {})
    }

    /** The sending half of `sendData` as written. */
    method SendAsWritten(data: Bytes, slen: nat, endStream: bool) returns (ret: int)
      requires Ready() && slen <= |data| < 0x1_0000_0000 && !writeBlocked
      modifies this`state, this`endStreamSent, this`writeBlocked, flow`remoteWindow, flow`bytesSent, conn`openedStreamCount
      modifies conn`output, conn`sendBufferEmpty, conn`blockedStreams, conn.flow`remoteWindow, conn.flow`bytesSent, conn.encoder, conn.encoder.table
      ensures Ready() && DataSentAsWritten(data, slen, endStream, ret)
    {
      hide Good, EncodeBlock, H2Connection.TablesValid, HPacker.Valid, HPackTable.Valid, DataFor;
      var f := DataFor(streamId, data, endStream);
      DataForFrame(streamId, data, endStream);
      ghost var c := ChargeAsWritten(slen, |data|, conn.flow.RemoteWindowSize(), HeldBack(conn.sendBufferEmpty, f));
      var err := conn.SendH2Frame(f);
      if err == KMError.NoError {
        assert c == Charged(|data|, slen, |data|);
        DataFrameSent(slen, |data|, endStream);
        ret := slen;
      } else {
        // `again` or `bufferTooSmall`, the only other answers to DATA
        assert c == NotSent;
        writeBlocked := true;
        ret := 0;
      }
    }

    /** `sendData` as it is evidently meant: at most the smaller of the two
      * windows goes out, and END_STREAM only with the last of the data,
      * with both windows charged what was sent. The result
      * is the number of octets sent, 0 when the stream must wait for
      * `onWrite`, -1 when it cannot send at all. */
    method SendDataCorrected(data: Bytes, endStream: bool) returns (ret: int)
      requires Ready() && |data| < 0x1_0000_0000
      modifies this`state, this`endStreamSent, this`writeBlocked, flow`remoteWindow, flow`bytesSent, conn`openedStreamCount
      modifies conn`output, conn`sendBufferEmpty, conn`blockedStreams, conn.flow`remoteWindow, conn.flow`bytesSent, conn.encoder, conn.encoder.table
      ensures Ready()
      ensures var p := DataPlan(old(state), old(writeBlocked), attached, old(flow.RemoteWindowSize()),
                                old(conn.flow.RemoteWindowSize()), |data|, endStream);
        && (p == Refuse ==> ret == -1 && unchanged(this) && conn.output == old(conn.output))
        && (p == Wait ==> ret == 0 && unchanged(this) && conn.output == old(conn.output))
        && (p.Blocked? ==>
              && ret == 0 && writeBlocked && state == old(state) && conn.output == old(conn.output)
              && conn.blockedStreams == old(conn.blockedStreams) + (if p.connStarved then {streamId} else {}))
        && (p.Send? ==> DataSent(data, p.slen, endStream, ret))
      ensures 0 < ret ==> ret <= old(flow.RemoteWindowSize()) && ret <= old(conn.flow.RemoteWindowSize())
    {
      hide Good, EncodeBlock, H2Connection.TablesValid, HPacker.Valid, HPackTable.Valid;
      var p := DataPlan(state, writeBlocked, attached, flow.RemoteWindowSize(), conn.flow.RemoteWindowSize(), |data|, endStream);
      if p == Refuse || p == Wait {
        return if p == Refuse then -1 else 0;
      }
      if p.Blocked? {
        writeBlocked := true;
        if p.connStarved {
          conn.AppendBlockedStream(streamId);
        }
        return 0;
      }
      ret := SendPlanned(data, p.slen, endStream);
    }

    /** What sending `slen` octets of `data` has done: the DATA frame held
      * back behind a busy send buffer, or sent and charged to both
      * windows, the stream ended with the last of the data, and left
      * blocked when data remains. */
    twostate predicate DataSent(data: Bytes, slen: nat, endStream: bool, ret: int)
      requires slen <= |data|
      reads this, flow, conn, conn.flow
    {
      var f := DataFor(streamId, data[..slen], endStream && slen == |data|);
      if HeldBack(old(conn.sendBufferEmpty), f) then
        && ret == 0 && writeBlocked && state == old(state) && conn.output == old(conn.output)
        && conn.blockedStreams == old(conn.blockedStreams) + {streamId}
      else
        && ret == slen
        && conn.output == old(conn.output) + [f]
        && flow.remoteWindow == old(flow.remoteWindow) - slen
        && conn.flow.remoteWindow == old(conn.flow.remoteWindow) - slen
        && state == (if endStream && slen == |data| then AfterEndStreamSent(old(state)) else old(state))
        && writeBlocked == (slen < |data|)
        && conn.blockedStreams == old(conn.blockedStreams) + (if slen < |data| then {streamId} else {})
    }

    /** The sending half of `sendData`. */
    method SendPlanned(data: Bytes, slen: nat, endStream: bool) returns (ret: int)
      requires Ready() && slen <= |data| < 0x1_0000_0000 && !writeBlocked
      requires slen <= conn.flow.RemoteWindowSize()
      modifies this`state, this`endStreamSent, this`writeBlocked, flow`remoteWindow, flow`bytesSent, conn`openedStreamCount
      modifies conn`output, conn`sendBufferEmpty, conn`blockedStreams, conn.flow`remoteWindow, conn.flow`bytesSent, conn.encoder, conn.encoder.table
      ensures Ready() && DataSent(data, slen, endStream, ret)
    {
      hide Good, EncodeBlock, H2Connection.TablesValid, HPacker.Valid, HPackTable.Valid;
      var last := endStream && slen == |data|;
      var f := DataFor(streamId, data[..slen], last);
      var err := conn.SendH2Frame(f);
      if err == KMError.NoError {
        DataFrameSent(slen, |data|, last);
        ret := slen;
      } else {
        writeBlocked := true;
        ret := 0;
      }
    }

    /** The stream's part once a DATA frame of `len` octets, `slen` of them
      * charged to the stream, has gone out: the stream ends when the frame
      * ended it, its window is charged, and it waits for `onWrite`, listed
      * as blocked, while data remains. */
    method DataFrameSent(slen: nat, len: nat, ended: bool)
      requires Ready() && slen <= len && !writeBlocked
      modifies this`state, this`endStreamSent, this`writeBlocked, flow`remoteWindow, flow`bytesSent
      modifies conn`openedStreamCount, conn`blockedStreams
      ensures Ready()
      ensures state == (if ended then AfterEndStreamSent(old(state)) else old(state))
      ensures endStreamSent == (old(endStreamSent) || ended)
      ensures conn.openedStreamCount == old(conn.openedStreamCount) + (if ended && attached then OpenedDelta(old(state), state) else 0)
      ensures flow.remoteWindow == old(flow.remoteWindow) - slen && flow.bytesSent == old(flow.bytesSent) + slen
      ensures writeBlocked == (slen < len)
      ensures conn.blockedStreams == old(conn.blockedStreams) + (if slen < len then {streamId} else {})
    {
      hide Good, EncodeBlock, H2Connection.TablesValid, HPacker.Valid, HPackTable.Valid;
      if ended {
        EndStreamSent();
      }
      flow.BytesSent(slen);
      if slen < len {
        writeBlocked := true;
        conn.AppendBlockedStream(streamId);
      }
    }

    /** `sendWindowUpdate`, which is also the stream window's top-up
      * callback: WINDOW_UPDATE unless the stream can no longer receive. */
    method SendWindowUpdate(delta: uint32) returns (err: KMError)
      requires Ready()
      modifies conn`output, conn`sendBufferEmpty, conn`blockedStreams, conn.flow`remoteWindow, conn.flow`bytesSent, conn.encoder, conn.encoder.table
      ensures Ready() && conn.blockedStreams == old(conn.blockedStreams)
      ensures conn.flow.remoteWindow == old(conn.flow.remoteWindow)
      ensures err == (if state == Closed || state == HalfClosedR || !attached then InvalidState else KMError.NoError)
      ensures conn.output == old(conn.output) + (if err == KMError.NoError then [WindowUpdateFor(streamId, delta)] else [])
    {
      hide Good, H2Connection.TablesValid, HPacker.Valid, HPackTable.Valid;
      if state == Closed || state == HalfClosedR || !attached {
        return InvalidState;
      }
      err := conn.SendWindowUpdate(streamId, delta);
    }

    /** What `handleDataFrame` leaves behind on the stream, with `sent`
      * the connection's output when the stream takes the frame: a frame
      * the state refuses is rejected (a connection error in idle, a stream
      * error otherwise); an accepted frame outside open and halfClosedL is
      * a STREAM_CLOSED stream error; in open or halfClosedL the data is
      * taken from the stream's window and reaches the application,
      * END_STREAM half-closes the receiving side, and a top-up of the
      * window is announced unless that left the stream unable to receive. */
    twostate predicate DataHandled(f: Frame, sent: seq<Frame>)
      requires f.DataFrame? && |f.data| <= MaxFrameSize && old(flow.LocalInRange())
      reads this, flow, conn
    {
      var v := FrameVerdict(old(state), old(rstStreamReceived), old(endStreamReceived), DataType);
      var closedBy := if old(attached) then [RstStreamFor(streamId, StreamClosed)] else [];
      && (v == ConnectionReject ==>
            && state == old(state) && events == old(events)
            && (old(attached) ==>
                  && conn.state == ConnClosed
                  && conn.output == sent + [GoawayFor(ProtocolError, old(conn.lastStreamId))]
                  && conn.events == old(conn.events) + (if old(conn.hasErrorCallback) then [ErrorEvent(ProtocolError.Code())] else [])))
      && (v == StreamReject ==> state == Closed && events == old(events) && conn.output == sent + closedBy)
      && (v == Accept && old(state) != Open && old(state) != HalfClosedL ==>
            state == Closed && events == old(events) && conn.output == sent + closedBy)
      && (v == Accept && (old(state) == Open || old(state) == HalfClosedL) ==>
            var (min, step) := (old(flow.minLocalWindowSize), old(flow.localWindowStep));
            var r := ReceiveStep(old(flow.localWindow), min, step, |f.data|);
            ReceiveStaysInRange(old(flow.localWindow), min, step, |f.data|);
            && state == (if f.HasEndStream() then AfterEndStreamReceived(old(state)) else old(state))
            && flow.localWindow == r.0
            && events == old(events) + [DataEvent(f.data, f.HasEndStream())]
            && conn.output == sent +
                 (if r.1.Some? && state != Closed && state != HalfClosedR && attached
                  then [WindowUpdateFor(streamId, r.1.value as uint32)] else []))
    }

    /** `handleDataFrame`. */
    method HandleData(f: Frame)
      requires Ready() && f.DataFrame? && |f.data| <= MaxFrameSize
      modifies this`state, this`rstStreamSent, this`endStreamReceived, this`events
      modifies flow`localWindow, flow`bytesReceived, conn`openedStreamCount, conn`state, conn`events
      modifies conn`output, conn`sendBufferEmpty, conn`blockedStreams, conn.flow`remoteWindow, conn.flow`bytesSent, conn.encoder, conn.encoder.table
      ensures Ready() && DataHandled(f, old(conn.output))
    {
      hide Good, EncodeBlock, Ready, H2Connection.Valid, HasFlag, FrameVerdict, H2Connection.TablesValid, HPacker.Valid, HPackTable.Valid;
      var ok := VerifyFrame(DataType);
      if !ok {
        return;
      }
      // The source's check for a promised stream in reservedR cannot be
      // reached: `verifyFrame` has already rejected DATA in that state.
      if state != Open && state != HalfClosedL {
        StreamError(StreamClosed);
        return;
      }
      TakeData(f.data, f.HasEndStream());
    }

    /** The accepted half of `handleDataFrame`. */
    method TakeData(data: Bytes, endStream: bool)
      requires Ready() && |data| <= MaxFrameSize
      modifies this`state, this`endStreamReceived, this`events
      modifies flow`localWindow, flow`bytesReceived, conn`openedStreamCount
      modifies conn`output, conn`sendBufferEmpty, conn`blockedStreams, conn.flow`remoteWindow, conn.flow`bytesSent, conn.encoder, conn.encoder.table
      ensures Ready()
      ensures var r := ReceiveStep(old(flow.localWindow), flow.minLocalWindowSize, flow.localWindowStep, |data|);
        && state == (if endStream then AfterEndStreamReceived(old(state)) else old(state))
        && flow.localWindow == r.0
        && events == old(events) + [DataEvent(data, endStream)]
        && conn.output == old(conn.output) +
             (if r.1.Some? && state != Closed && state != HalfClosedR && attached
              then [WindowUpdateFor(streamId, r.1.value as uint32)] else [])
    {
      hide Good, EncodeBlock, Ready, H2Connection.Valid, H2Connection.TablesValid, HPacker.Valid, HPackTable.Valid;
      if endStream {
        EndStreamReceived();
      }
      var update := Receive(|data|);
      if update.Some? {
        var _ := SendWindowUpdate(update.value);
      }
      events := events + [DataEvent(data, endStream)];
    }

    /** `flowControl.bytesReceived = n`: the top-up stays within 32 bits
      * because the window stays between its minimum and its step. */
    method Receive(n: nat) returns (update: Option<uint32>)
      requires Ready() && n <= MaxFrameSize
      modifies flow`localWindow, flow`bytesReceived
      ensures Ready()
      ensures var r := ReceiveStep(old(flow.localWindow), flow.minLocalWindowSize, flow.localWindowStep, n);
        && flow.localWindow == r.0
        && update.Some? == r.1.Some?
        && (update.Some? ==> update.value as int == r.1.value)
    {
      hide Good, EncodeBlock, HPacker.Valid, HPackTable.Valid;
      ReceiveStaysInRange(flow.localWindow, flow.minLocalWindowSize, flow.localWindowStep, n);
      update := flow.BytesReceived(n);
    }

    /** What `handleHeadersFrame` leaves behind for a HEADERS frame with
      * the decoded `headers`: a frame the state refuses is rejected;
      * otherwise the first HEADERS of a stream are its headers, later ones
      * in an open stream its trailers; the stream opens (or half-closes,
      * if reserved by the peer), END_STREAM half-closes the receiving
      * side, and complete headers reach the application. */
    twostate predicate HeadersHandled(headers: seq<KeyValuePair>, endHeaders: bool, endStream: bool)
      reads this, conn
    {
      var v := FrameVerdict(old(state), old(rstStreamReceived), old(endStreamReceived), HeadersType);
      && (v != Accept ==> Rejected(HeadersType) && events == old(events))
      && (v == Accept ==>
            var tailer := old(headersReceived) && (old(state) == Open || old(state) == HalfClosedL);
            var opening := AfterHeadersReceived(old(state));
            && state == (if endStream then AfterEndStreamReceived(opening) else opening)
            && (tailer ==> tailersReceived && tailersEnd == endHeaders && headersEnd == old(headersEnd))
            && (!tailer ==> headersReceived && headersEnd == endHeaders)
            && events == old(events) + (if !tailer && headersEnd then [HeadersEvent(headers, endStream)] else [])
            && conn.output == old(conn.output))
    }

    /** `handleHeadersFrame`. */
    method HandleHeaders(f: Frame)
      requires Ready() && f.HeadersFrame?
      modifies this`state, this`rstStreamSent, this`endStreamReceived, this`events
      modifies this`headersReceived, this`headersEnd, this`tailersReceived, this`tailersEnd
      modifies conn`openedStreamCount, conn`state, conn`events
      modifies conn`output, conn`sendBufferEmpty, conn`blockedStreams, conn.flow`remoteWindow, conn.flow`bytesSent, conn.encoder, conn.encoder.table
      ensures Ready() && HeadersHandled(f.headers, f.hdr.HasEndHeaders(), f.HasEndStream())
    {
      hide Good, EncodeBlock, Ready, H2Connection.Valid, HasFlag, FrameVerdict, H2Connection.TablesValid, HPacker.Valid, HPackTable.Valid;
      var ok := VerifyFrame(HeadersType);
      if !ok {
        return;
      }
      TakeHeaders(f.headers, f.hdr.HasEndHeaders(), f.HasEndStream());
    }

    /** The accepted half of `handleHeadersFrame`. */
    method TakeHeaders(headers: seq<KeyValuePair>, endHeaders: bool, endStream: bool)
      requires Ready()
      modifies this`state, this`endStreamReceived, this`events
      modifies this`headersReceived, this`headersEnd, this`tailersReceived, this`tailersEnd
      modifies conn`openedStreamCount
      ensures Ready()
      ensures var tailer := old(headersReceived) && (old(state) == Open || old(state) == HalfClosedL);
        var opening := AfterHeadersReceived(old(state));
        && state == (if endStream then AfterEndStreamReceived(opening) else opening)
        && (tailer ==> tailersReceived && tailersEnd == endHeaders && headersEnd == old(headersEnd))
        && (!tailer ==> headersReceived && headersEnd == endHeaders)
        && events == old(events) + (if !tailer && headersEnd then [HeadersEvent(headers, endStream)] else [])
    {
      hide Good, EncodeBlock, Ready, H2Connection.Valid, H2Connection.TablesValid, HPacker.Valid, HPackTable.Valid;
      var isTailer := NoteHeaderBlock(endHeaders);
      if state == ReservedR || state == Idle {
        SetState(AfterHeadersReceived(state));
      }
      if endStream {
        EndStreamReceived();
      }
      if !isTailer && headersEnd {
        events := events + [HeadersEvent(headers, endStream)];
      }
    }

    /** Whether a HEADERS frame carries trailers (headers already seen and
      * the stream open), with the matching flags recorded. */
    method NoteHeaderBlock(endHeaders: bool) returns (isTailer: bool)
      modifies this`headersReceived, this`headersEnd, this`tailersReceived, this`tailersEnd
      ensures isTailer == (old(headersReceived) && (state == Open || state == HalfClosedL))
      ensures isTailer ==> tailersReceived && tailersEnd == endHeaders && headersEnd == old(headersEnd) && headersReceived
      ensures !isTailer ==>
        && headersReceived && headersEnd == endHeaders
        && tailersReceived == old(tailersReceived) && tailersEnd == old(tailersEnd)
    {
      isTailer := false;
      if headersReceived && (state == Open || state == HalfClosedL) {
        isTailer := true;
        tailersReceived := true;
        tailersEnd := endHeaders;
      } else {
        headersReceived := true;
        headersEnd := endHeaders;
      }
    }

    /** `handlePriorityFrame`: a stream may not depend on itself. */
    method HandlePriority(f: Frame)
      requires Ready() && f.PriorityFrame?
      modifies this`state, this`rstStreamSent, conn`openedStreamCount, conn`state, conn`events
      modifies conn`output, conn`sendBufferEmpty, conn`blockedStreams, conn.flow`remoteWindow, conn.flow`bytesSent, conn.encoder, conn.encoder.table
      ensures Ready()
      ensures f.pri.streamId == streamId ==>
        state == Closed && conn.output == old(conn.output) + (if attached then [RstStreamFor(streamId, ProtocolError)] else [])
      ensures f.pri.streamId != streamId ==> state == old(state) && conn.output == old(conn.output)
    {
      hide Good, EncodeBlock, Ready, H2Connection.Valid, HasFlag, FrameVerdict, H2Connection.TablesValid, HPacker.Valid, HPackTable.Valid;
      var ok := VerifyFrame(PriorityType);
      VerifyFrameRules(old(state), rstStreamReceived, endStreamReceived, PriorityType);
      if !ok {
        return;
      }
      if f.pri.streamId == streamId {
        StreamError(ProtocolError);
      }
    }

    /** What `handleRSTStreamFrame` leaves behind on the stream: a frame
      * the state refuses is rejected; a closed stream stays as it is; any
      * other closes, and the application hears the peer's `errCode`. */
    twostate predicate ResetHandled(errCode: int)
      reads this, conn
    {
      var v := FrameVerdict(old(state), old(rstStreamReceived), old(endStreamReceived), RstStreamType);
      && (v != Accept ==> Rejected(RstStreamType) && events == old(events))
      && (v == Accept && old(state) == Closed ==> state == Closed && events == old(events) && conn.output == old(conn.output))
      && (v == Accept && old(state) != Closed ==>
            && state == Closed && rstStreamReceived
            && events == old(events) + [ResetEvent(errCode)]
            && conn.output == old(conn.output))
    }

    /** `handleRSTStreamFrame`. */
    method HandleRST(f: Frame)
      requires Ready() && f.RstStreamFrame?
      modifies this`state, this`rstStreamSent, this`rstStreamReceived, this`events
      modifies conn`openedStreamCount, conn`state, conn`events
      modifies conn`output, conn`sendBufferEmpty, conn`blockedStreams, conn.flow`remoteWindow, conn.flow`bytesSent, conn.encoder, conn.encoder.table
      ensures Ready() && ResetHandled(f.errCode as int)
    {
      hide Good, EncodeBlock, Ready, H2Connection.Valid, HasFlag, FrameVerdict, H2Connection.TablesValid, HPacker.Valid, HPackTable.Valid;
      var ok := VerifyFrame(RstStreamType);
      if !ok {
        return;
      }
      if state == Closed {
        return;
      }
      rstStreamReceived := true;
      SetState(Closed);
      events := events + [ResetEvent(f.errCode as int)];
    }

    /** `handlePushFrame`, on the promised stream: it becomes reserved by
      * the peer, and complete headers (of the promised request) reach the
      * application. */
    method HandlePush(f: Frame)
      requires Ready() && f.PushPromiseFrame?
      modifies this`state, this`rstStreamSent, this`events, this`headersReceived, this`headersEnd
      modifies conn`openedStreamCount, conn`state, conn`events
      modifies conn`output, conn`sendBufferEmpty, conn`blockedStreams, conn.flow`remoteWindow, conn.flow`bytesSent, conn.encoder, conn.encoder.table
      ensures Ready()
      ensures var v := FrameVerdict(old(state), rstStreamReceived, endStreamReceived, PushPromiseType);
        && (v != Accept ==> Rejected(PushPromiseType) && events == old(events))
        && (v == Accept ==>
              && state == ReservedR && headersReceived && headersEnd == f.hdr.HasEndHeaders()
              && events == old(events) + (if headersEnd then [HeadersEvent(f.headers, false)] else [])
              && conn.output == old(conn.output) && conn.state == old(conn.state))
    {
      hide Good, EncodeBlock, Ready, H2Connection.Valid, HasFlag, FrameVerdict, H2Connection.TablesValid, HPacker.Valid, HPackTable.Valid;
      var ok := VerifyFrame(PushPromiseType);
      if !ok {
        return;
      }
      headersReceived := true;
      headersEnd := f.hdr.HasEndHeaders();
      SetState(ReservedR);
      if headersEnd {
        events := events + [HeadersEvent(f.headers, false)];
      }
    }

    /** `handleWindowUpdateFrame`: the increment is credited to the stream's
      * window (zero is a stream error), and a stream whose window was
      * exhausted is told it may write again. */
    method HandleWindowUpdate(f: Frame)
      requires Ready() && f.WindowUpdateFrame?
      modifies this`state, this`rstStreamSent, this`writeBlocked, this`events, flow`remoteWindow
      modifies conn`openedStreamCount, conn`state, conn`events
      modifies conn`output, conn`sendBufferEmpty, conn`blockedStreams, conn.flow`remoteWindow, conn.flow`bytesSent, conn.encoder, conn.encoder.table
      ensures Ready()
      ensures var v := FrameVerdict(old(state), rstStreamReceived, endStreamReceived, WindowUpdateType);
        && (v != Accept ==> Rejected(WindowUpdateType) && flow.remoteWindow == old(flow.remoteWindow))
        && (v == Accept && old(state) != Closed && f.increment == 0 ==>
              && state == Closed && flow.remoteWindow == old(flow.remoteWindow)
              && conn.output == old(conn.output) + (if attached then [RstStreamFor(streamId, ProtocolError)] else []))
        && (v == Accept && old(state) != Closed && f.increment != 0 ==>
              && flow.remoteWindow == old(flow.remoteWindow) + f.increment as int
              && state == old(state) && conn.output == old(conn.output)
              && var wake := old(flow.RemoteWindowSize()) == 0 && state != Idle && flow.RemoteWindowSize() > 0;
              && events == old(events) + (if wake then [WriteEvent] else [])
              && (wake ==> !writeBlocked))
        && (v == Accept && old(state) == Closed ==> flow.remoteWindow == old(flow.remoteWindow) && events == old(events))
    {
      hide Good, EncodeBlock, Ready, H2Connection.Valid, HasFlag, FrameVerdict, H2Connection.TablesValid, HPacker.Valid, HPackTable.Valid;
      var ok := VerifyFrame(WindowUpdateType);
      if !ok {
        return;
      }
      if state == Closed {
        return;
      }
      if f.increment == 0 {
        StreamError(ProtocolError);
        return;
      }
      var needOnWrite := flow.RemoteWindowSize() == 0;
      flow.UpdateRemoteWindowSize(f.increment as int);
      if needOnWrite && state != Idle && flow.RemoteWindowSize() > 0 {
        OnWrite();
      }
    }

    /** `handleContinuationFrame` as written: after `verifyFrame` the
      * state test `state != .open || state != .halfClosedL`
      * (`ContinuationGuard`) holds in every state, so the method returns
      * there and the rest of it never runs: an accepted CONTINUATION
      * changes nothing and no header block it ends reaches the
      * application. */
    method HandleContinuation(f: Frame)
      requires Ready() && f.ContinuationFrame?
      modifies this`state, this`rstStreamSent
      modifies conn`openedStreamCount, conn`state, conn`events
      modifies conn`output, conn`sendBufferEmpty, conn`blockedStreams, conn.flow`remoteWindow, conn.flow`bytesSent, conn.encoder, conn.encoder.table
      ensures Ready() && events == old(events)
      ensures headersEnd == old(headersEnd) && tailersEnd == old(tailersEnd) && endStreamReceived == old(endStreamReceived)
      ensures var v := FrameVerdict(old(state), rstStreamReceived, old(endStreamReceived), ContinuationType);
        && (v != Accept ==> Rejected(ContinuationType))
        && (v == Accept ==>
              && ContinuationGuard(old(state))
              && state == old(state) && conn.output == old(conn.output) && conn.state == old(conn.state) && conn.events == old(conn.events))
    {
      hide Good, EncodeBlock, Ready, H2Connection.Valid, HasFlag, FrameVerdict, H2Connection.TablesValid, HPacker.Valid, HPackTable.Valid;
      var ok := VerifyFrame(ContinuationType);
      if !ok {
        return;
      }
      // `ContinuationGuard(state)` holds here whatever the state
      // (`ContinuationGuardAlwaysHolds`): the source returns at the test.
      ContinuationGuardAlwaysHolds(state);
    }

    /** `handleContinuationFrame`, with the state test corrected to what
      * its comment intends: only an open or locally half-closed stream
      * takes a CONTINUATION, which must continue an unfinished header
      * block (a connection error otherwise); it completes the headers or
      * the trailers, and completed headers reach the application. */
    method HandleContinuationCorrected(f: Frame)
      requires Ready() && f.ContinuationFrame?
      modifies this`state, this`rstStreamSent, this`endStreamReceived, this`events
      modifies this`headersEnd, this`tailersEnd
      modifies conn`openedStreamCount, conn`state, conn`events
      modifies conn`output, conn`sendBufferEmpty, conn`blockedStreams, conn.flow`remoteWindow, conn.flow`bytesSent, conn.encoder, conn.encoder.table
      ensures Ready()
      ensures var v := FrameVerdict(old(state), rstStreamReceived, old(endStreamReceived), ContinuationType);
        && (v != Accept ==> Rejected(ContinuationType) && events == old(events))
        && (v == Accept && !ContinuationAccepted(old(state)) ==> state == old(state) && events == old(events) && conn.output == old(conn.output))
        && (v == Accept && ContinuationAccepted(old(state)) && !ContinuationExpected(old(headersReceived), old(headersEnd), tailersReceived, old(tailersEnd)) ==>
              && state == old(state) && events == old(events) && (attached ==> conn.ClosedWith(ProtocolError)))
        && (v == Accept && ContinuationAccepted(old(state)) && ContinuationExpected(old(headersReceived), old(headersEnd), tailersReceived, old(tailersEnd)) ==>
              var tailer := old(headersEnd);
              && state == (if f.HasEndStream() then AfterEndStreamReceived(old(state)) else old(state))
              && headersEnd == (old(headersEnd) || f.hdr.HasEndHeaders())
              && tailersEnd == (old(tailersEnd) || (tailer && f.hdr.HasEndHeaders()))
              && events == old(events) + (if !tailer && headersEnd then [HeadersEvent(f.headers, f.HasEndStream())] else [])
              && conn.output == old(conn.output))
    {
      hide Good, EncodeBlock, Ready, H2Connection.Valid, HasFlag, FrameVerdict, H2Connection.TablesValid, HPacker.Valid, HPackTable.Valid;
      var ok := VerifyFrame(ContinuationType);
      if !ok {
        return;
      }
      if !ContinuationAccepted(state) {
        return;
      }
      if !ContinuationExpected(headersReceived, headersEnd, tailersReceived, tailersEnd) {
        ConnectionError(ProtocolError);
        return;
      }
      TakeContinuation(f.headers, f.hdr.HasEndHeaders(), f.HasEndStream());
    }

    /** The accepted half of `handleContinuationFrame`. */
    method TakeContinuation(headers: seq<KeyValuePair>, endHeaders: bool, endStream: bool)
      requires Ready()
      modifies this`state, this`endStreamReceived, this`events, this`headersEnd, this`tailersEnd
      modifies conn`openedStreamCount
      ensures Ready()
      ensures var tailer := old(headersEnd);
        && state == (if endStream then AfterEndStreamReceived(old(state)) else old(state))
        && headersEnd == (old(headersEnd) || endHeaders)
        && tailersEnd == (old(tailersEnd) || (tailer && endHeaders))
        && events == old(events) + (if !tailer && headersEnd then [HeadersEvent(headers, endStream)] else [])
    {
      hide Good, EncodeBlock, Ready, H2Connection.Valid, H2Connection.TablesValid, HPacker.Valid, HPackTable.Valid;
      var isTailer := headersEnd;
      if endStream {
        EndStreamReceived();
      }
      if endHeaders {
        if !isTailer {
          headersEnd := true;
        } else {
          tailersEnd := true;
        }
      }
      if !isTailer && headersEnd {
        events := events + [HeadersEvent(headers, endStream)];
      }
    }

    /** `close`: a stream that is neither idle nor closed is cancelled
      * with RST_STREAM(CANCEL) and dropped from the connection. */
    method Close()
      requires Ready()
      modifies this`state, this`rstStreamSent, conn`openedStreamCount
      modifies conn`streams, conn`promisedStreams, conn`flows, conn`members, conn`owner
      modifies conn`output, conn`sendBufferEmpty, conn`blockedStreams, conn.flow`remoteWindow, conn.flow`bytesSent, conn.encoder, conn.encoder.table
      ensures Ready()
      ensures old(state) == Closed || old(state) == Idle ==>
        state == old(state) && conn.output == old(conn.output) && conn.GetStream(streamId) == old(conn.GetStream(streamId))
      ensures old(state) != Closed && old(state) != Idle ==>
        && state == Closed
        && conn.output == old(conn.output) + (if attached then [RstStreamFor(streamId, Cancel)] else [])
        && (attached ==> conn.GetStream(streamId) == null)
    {
      hide Good, EncodeBlock, H2Connection.TablesValid, HPacker.Valid, HPackTable.Valid;
      if state == Closed || state == Idle {
        return;
      }
      StreamError(Cancel);
      if attached {
        conn.RemoveStream(streamId);
      }
    }

    /** `onWrite`: the stream may send again. */
    method OnWrite()
      modifies this`writeBlocked, this`events
      ensures !writeBlocked && events == old(events) + [WriteEvent]
    {
      hide Good, H2Connection.TablesValid, HPacker.Valid, HPackTable.Valid;
      writeBlocked := false;
      events := events + [WriteEvent];
    }

    /** `onError`: the connection is gone; the application hears of it. */
    method OnError(code: int)
      modifies this`attached, this`events
      ensures !attached && events == old(events) + [ResetEvent(code)]
    {
      hide Good, H2Connection.TablesValid, HPacker.Valid, HPackTable.Valid;
      attached := false;
      events := events + [ResetEvent(code)];
    }

    /** `updateRemoteWindowSize`. */
    method UpdateRemoteWindowSize(delta: int)
      modifies flow`remoteWindow
      ensures flow.remoteWindow == old(flow.remoteWindow) + delta
    {
      hide Good, H2Connection.TablesValid, HPacker.Valid, HPackTable.Valid;
      flow.UpdateRemoteWindowSize(delta);
    }
  }

  /** The connection's own window as `init` sets it up: 20 MiB granted,
    * topped up in 20 MiB steps, the minimum being what
    * `setMinLocalWindowSize(6 MiB)` leaves while the step is still the
    * default (half of it). */
  method ConnectionFlow() returns (fc: FlowControl)
    ensures fresh(fc) && fc.LocalInRange()
    ensures fc.localWindow == LocalConnInitialWindowSize && fc.localWindowStep == LocalConnInitialWindowSize
    ensures fc.minLocalWindowSize == Quot(DefaultWindowSize, 2)
    ensures fc.remoteWindow == DefaultWindowSize
  {
    hide Good;
    fc := new FlowControl();
    fc.InitLocalWindowSize(LocalConnInitialWindowSize);
    fc.SetMinLocalWindowSize(LocalStreamInitialWindowSize);
    fc.SetLocalWindowStep(LocalConnInitialWindowSize);
  }

  // ---------------------------------------------------------------------
  // The connection

  class H2Connection {
    const isServer: bool
    const flow: FlowControl
    const encoder: HPacker
    const decoder: HPacker
    /** The answer `cbAccept` gives for a stream the peer opens. */
    const accept: uint32 -> bool
    /** `initLocalWindowSize`, which nothing changes. */
    const initLocalWindowSize: int := LocalStreamInitialWindowSize

    var state: ConnState
    var streams: map<uint32, H2Stream>
    var promisedStreams: map<uint32, H2Stream>
    var blockedStreams: set<uint32>
    /** The part of the client preface still expected (server only). */
    var cmpPreface: Bytes
    var maxRemoteFrameSize: int
    var initRemoteWindowSize: int
    var nextStreamId: uint32
    var lastStreamId: uint32
    var openedStreamCount: int
    var expectContinuationFrame: bool
    var streamIdOfExpectedContinuation: uint32
    var headersBlockBuffer: Bytes
    var prefaceReceived: bool
    /** Whether `cbError` is set; `handleGoawayFrame` clears it. */
    var hasErrorCallback: bool
    var sendBufferEmpty: bool
    var writable: bool
    var output: seq<Frame>
    ghost var events: seq<ConnEvent>
    /** The windows and the streams the connection answers for. */
    ghost var flows: set<FlowControl>
    ghost var members: set<H2Stream>
    /** The identifier of the stream each window belongs to. */
    ghost var owner: map<FlowControl, uint32>

    /** `s` is the connection's attached stream `id`, with its own window,
      * in range. */
    ghost predicate Holds(s: H2Stream, id: uint32)
      reads s`attached, s.flow`localWindow, s.flow`minLocalWindowSize, s.flow`localWindowStep
    {
      s.streamId == id && s.conn == this && s.flow != flow && s.attached && s.flow.LocalInRange()
    }

    /** The coders are distinct and consistent; odd identifiers are in
      * `streams` and even ones in `promisedStreams`, each stream under its
      * own identifier; no two streams share a window; every window is in
      * range. */
    ghost predicate Valid()
      reads this`streams, this`promisedStreams, this`flows, this`members, this`owner
      reads encoder, encoder.table, decoder, decoder.table
      reads flows`localWindow, flows`minLocalWindowSize, flows`localWindowStep, members`attached
    {
      CodersValid() && StreamsValid()
    }

    ghost predicate CodersValid()
      reads encoder, encoder.table, decoder, decoder.table
    {
      && encoder.Valid() && decoder.Valid()
      && encoder != decoder && encoder.table != decoder.table
    }

    ghost predicate StreamsValid()
      reads this`streams, this`promisedStreams, this`flows, this`members, this`owner
      reads flows`localWindow, flows`minLocalWindowSize, flows`localWindowStep, members`attached
    {
      && flow in flows && flow.LocalInRange()
      && TablesValid(streams, promisedStreams, flows, members, owner)
    }

    /** The invariant of the two tables, over given values of them. */
    ghost predicate TablesValid(streams: map<uint32, H2Stream>, promisedStreams: map<uint32, H2Stream>,
                                flows: set<FlowControl>, members: set<H2Stream>, owner: map<FlowControl, uint32>)
      reads flows`localWindow, flows`minLocalWindowSize, flows`localWindowStep, members`attached
    {
      && (forall id :: id in streams ==>
            && !IsPromisedStream(id) && streams[id] in members && streams[id].flow in flows
            && streams[id].flow in owner && owner[streams[id].flow] == id && Holds(streams[id], id))
      && (forall id :: id in promisedStreams ==>
            && IsPromisedStream(id) && promisedStreams[id] in members && promisedStreams[id].flow in flows
            && promisedStreams[id].flow in owner && owner[promisedStreams[id].flow] == id && Holds(promisedStreams[id], id))
    }

    /** Empty tables are valid. */
    lemma EmptyTables()
      ensures TablesValid(map[], map[], {flow}, {}, map[])
    {
    }

    /** Adding a stream with a window of its own keeps the tables valid. */
    lemma AddKeepsTables(streams: map<uint32, H2Stream>, promisedStreams: map<uint32, H2Stream>,
                         flows: set<FlowControl>, members: set<H2Stream>, owner: map<FlowControl, uint32>, s: H2Stream)
      requires TablesValid(streams, promisedStreams, flows, members, owner)
      requires s.conn == this && s.attached && s.flow != flow && s.flow !in flows && s.flow.LocalInRange()
      ensures var flows', members', owner' := flows + {s.flow}, members + {s}, owner[s.flow := s.streamId];
        if IsPromisedStream(s.streamId) then TablesValid(streams, promisedStreams[s.streamId := s], flows', members', owner')
        else TablesValid(streams[s.streamId := s], promisedStreams, flows', members', owner')
    {
    }

    /** Removing a stream, with its window, keeps the tables valid. */
    lemma RemoveKeepsTables(streams: map<uint32, H2Stream>, promisedStreams: map<uint32, H2Stream>,
                            flows: set<FlowControl>, members: set<H2Stream>, owner: map<FlowControl, uint32>, id: uint32)
      requires TablesValid(streams, promisedStreams, flows, members, owner)
      ensures var s := if IsPromisedStream(id) then (if id in promisedStreams then promisedStreams[id] else null)
                       else (if id in streams then streams[id] else null);
        var flows', members' := if s == null then flows else flows - {s.flow}, if s == null then members else members - {s};
        && (s != null ==> s.flow != flow)
        && if IsPromisedStream(id) then TablesValid(streams, promisedStreams - {id}, flows', members', owner)
        else TablesValid(streams - {id}, promisedStreams, flows', members', owner)
    {
    }

    /** `getStream`: looked up in the table its identifier's parity picks. */
    function GetStream(id: uint32): (r: H2Stream?)
      reads this`streams, this`promisedStreams
      ensures r != null <==> id in (if IsPromisedStream(id) then promisedStreams else streams)
      ensures r != null ==> r in streams.Values + promisedStreams.Values
    {
      if IsPromisedStream(id) then (if id in promisedStreams then promisedStreams[id] else null)
      else (if id in streams then streams[id] else null)
    }

    /** What `connectionError` does: GOAWAY with the last stream
      * identifier, closed, and `cbError` told the code. */
    twostate predicate ClosedWith(e: H2Error)
      reads this
    {
      && state == ConnClosed
      && output == old(output) + [GoawayFor(e, old(lastStreamId))]
      && events == old(events) + (if old(hasErrorCallback) then [ErrorEvent(e.Code())] else [])
    }

    /** `init` on a socket that is past connecting (client, `nextStreamId`
      * 1) or attached (server, 2) and in the handshake: the connection's
      * own receive window is 20 MiB, topped up in 20 MiB steps, with the
      * minimum `setMinLocalWindowSize(6 MiB)` leaves. */
    constructor (isServer: bool, huffman: HuffmanCode, accept: uint32 -> bool, writable: bool)
      ensures Valid() && fresh(flow) && fresh(encoder) && fresh(decoder)
      ensures fresh(encoder.table) && fresh(decoder.table)
      ensures this.isServer == isServer && this.accept == accept && this.writable == writable
      ensures state == Handshake && streams == map[] && promisedStreams == map[] && blockedStreams == {}
      ensures nextStreamId == (if isServer then 2 else 1) && lastStreamId == 0
      ensures cmpPreface == PrefaceOctets && !prefaceReceived
      ensures flow.localWindow == LocalConnInitialWindowSize && flow.localWindowStep == LocalConnInitialWindowSize
      ensures flow.remoteWindow == DefaultWindowSize && initRemoteWindowSize == DefaultWindowSize
      ensures maxRemoteFrameSize == DefaultFrameSize && openedStreamCount == 0
      ensures !expectContinuationFrame && headersBlockBuffer == [] && sendBufferEmpty && output == [] && events == []
    {
      this.isServer := isServer;
      this.accept := accept;
      this.writable := writable;
      var fc := ConnectionFlow();
      flow := fc;
      encoder := new HPacker(huffman);
      decoder := new HPacker(huffman);
      state := Handshake;
      streams := map[];
      promisedStreams := map[];
      blockedStreams := {};
      cmpPreface := PrefaceOctets;
      maxRemoteFrameSize := DefaultFrameSize;
      initRemoteWindowSize := DefaultWindowSize;
      nextStreamId := if isServer then 2 else 1;
      lastStreamId := 0;
      openedStreamCount := 0;
      expectContinuationFrame := false;
      streamIdOfExpectedContinuation := 0;
      headersBlockBuffer := [];
      prefaceReceived := false;
      hasErrorCallback := true;
      sendBufferEmpty := true;
      output := [];
      events := [];
      flows := {fc};
      members := {};
      owner := map[];
    }

    method StreamOpened(id: uint32)
      modifies this`openedStreamCount
      ensures openedStreamCount == old(openedStreamCount) + 1
    {
      hide Good, H2Connection.TablesValid, HPacker.Valid, HPackTable.Valid;
      openedStreamCount := openedStreamCount + 1;
    }

    method StreamClosed(id: uint32)
      modifies this`openedStreamCount
      ensures openedStreamCount == old(openedStreamCount) - 1
    {
      hide Good, H2Connection.TablesValid, HPacker.Valid, HPackTable.Valid;
      openedStreamCount := openedStreamCount - 1;
    }

    method AppendBlockedStream(id: uint32)
      modifies this`blockedStreams
      ensures blockedStreams == old(blockedStreams) + {id}
    {
      hide Good, H2Connection.TablesValid, HPacker.Valid, HPackTable.Valid;
      blockedStreams := blockedStreams + {id};
    }

    /** `sendBufferedData` of the transport: the buffer drains as far as the
      * socket lets it. */
    method SendBufferedData() returns (err: KMError)
      modifies this`sendBufferEmpty
      ensures err == KMError.NoError && sendBufferEmpty == writable
    {
      hide Good, H2Connection.TablesValid, HPacker.Valid, HPackTable.Valid;
      sendBufferEmpty := writable;
      err := KMError.NoError;
    }

    /** `sendHeadersFrame`, with the header block given `HpackRoom` octets:
      * the frame goes out with the encoded block, or nothing goes out and
      * the result is `failed` when the block does not fit. */
    method SendHeadersFrame(f: Frame) returns (err: KMError)
      requires Valid() && f.HeadersFrame? && HpackRoom(f) + PriorityPayloadSize < 0x1_0000_0000
      modifies this`output, this`sendBufferEmpty, encoder, encoder.table
      ensures Valid() && !encoder.updateTableSize
      ensures var r := EncodeBlock(old(encoder.table.Model()), encoder.huffman, old(encoder.updateTableSize), f.headers, HpackRoom(f));
        && (err == KMError.NoError <==> r.0) && (!r.0 ==> err == Failed)
        && output == old(output) + (if r.0 then [SentHeaders(f, r.1)] else [])
        && sendBufferEmpty == (if r.0 then writable else old(sendBufferEmpty))
        && encoder.table.Model() == r.2
        && (r.0 ==> Encodable(SentHeaders(f, r.1)))
    {
      hide EncodeBlock, Good, H2Connection.TablesValid, HPacker.Valid, HPackTable.Valid;
      var hpackSize := f.hsize * 3 / 2;
      var buf := new byte[hpackSize];
      var ret := encoder.Encode(f.headers, buf, hpackSize);
      if ret < 0 {
        err := Failed;
      } else {
        output := output + [SentHeaders(f, buf[..ret])];
        err := SendBufferedData();
      }
    }

    /** `sendH2Frame`: a DATA frame is held back (`again`) behind a
      * non-empty send buffer unless it ends its stream, and refused
      * (`bufferTooSmall`) beyond the connection's window, its stream being
      * marked blocked either way; HEADERS go through `SendHeadersFrame`;
      * anything else is sent, DATA being charged to the window. */
    method SendH2Frame(f: Frame) returns (err: KMError)
      requires Valid() && Encodable(f)
      requires f.HeadersFrame? ==> HpackRoom(f) + PriorityPayloadSize < 0x1_0000_0000
      modifies this`output, this`sendBufferEmpty, this`blockedStreams, flow`remoteWindow, flow`bytesSent, encoder, encoder.table
      ensures Valid()
      ensures HeldBack(old(sendBufferEmpty), f) || Starved(old(flow.RemoteWindowSize()), f) ==>
        && err == (if HeldBack(old(sendBufferEmpty), f) then Again else BufferTooSmall)
        && output == old(output) && sendBufferEmpty == old(sendBufferEmpty)
        && blockedStreams == old(blockedStreams) + {f.StreamId()}
        && flow.remoteWindow == old(flow.remoteWindow)
      ensures f.HeadersFrame? ==>
        var r := EncodeBlock(old(encoder.table.Model()), encoder.huffman, old(encoder.updateTableSize), f.headers, HpackRoom(f));
        && err == (if r.0 then KMError.NoError else Failed)
        && output == old(output) + (if r.0 then [SentHeaders(f, r.1)] else [])
        && sendBufferEmpty == (if r.0 then writable else old(sendBufferEmpty))
        && blockedStreams == old(blockedStreams) && flow.remoteWindow == old(flow.remoteWindow)
        && encoder.table.Model() == r.2
      ensures !HeldBack(old(sendBufferEmpty), f) && !Starved(old(flow.RemoteWindowSize()), f) && !f.HeadersFrame? ==>
        && err == KMError.NoError
        && output == old(output) + [f] && sendBufferEmpty == writable
        && blockedStreams == old(blockedStreams)
        && flow.remoteWindow == old(flow.remoteWindow) - (if f.DataFrame? then PayloadLength(f) else 0)
      ensures !f.HeadersFrame? ==> unchanged(encoder, encoder.table)
    {
      hide EncodeBlock, Good, H2Connection.TablesValid, HPacker.Valid, HPackTable.Valid;
      if HeldBack(sendBufferEmpty, f) {
        AppendBlockedStream(f.StreamId());
        return Again;
      }
      if f.HeadersFrame? {
        err := SendHeadersFrame(f);
        return;
      }
      if f.DataFrame? {
        if flow.RemoteWindowSize() < PayloadLength(f) {
          AppendBlockedStream(f.StreamId());
          return BufferTooSmall;
        }
        flow.BytesSent(PayloadLength(f));
      }
      output := output + [f];
      err := SendBufferedData();
    }

    /** `sendGoaway`. */
    method SendGoaway(e: H2Error)
      requires Valid()
      modifies this`output, this`sendBufferEmpty, this`blockedStreams, flow`remoteWindow, flow`bytesSent, encoder, encoder.table
      ensures Valid() && output == old(output) + [GoawayFor(e, lastStreamId)]
      ensures blockedStreams == old(blockedStreams) && flow.remoteWindow == old(flow.remoteWindow)
    {
      hide Good, H2Connection.TablesValid, HPacker.Valid, HPackTable.Valid;
      var _ := SendH2Frame(GoawayFor(e, lastStreamId));
    }

    /** `sendWindowUpdate`. */
    method SendWindowUpdate(id: uint32, delta: uint32) returns (err: KMError)
      requires Valid()
      modifies this`output, this`sendBufferEmpty, this`blockedStreams, flow`remoteWindow, flow`bytesSent, encoder, encoder.table
      ensures Valid() && err == KMError.NoError && output == old(output) + [WindowUpdateFor(id, delta)]
      ensures blockedStreams == old(blockedStreams) && flow.remoteWindow == old(flow.remoteWindow)
    {
      hide Good, H2Connection.TablesValid, HPacker.Valid, HPackTable.Valid;
      err := SendH2Frame(WindowUpdateFor(id, delta));
    }

    /** A stream the connection holds is ready for its own methods. */
    lemma MappedReady(id: uint32)
      requires Valid() && GetStream(id) != null
      ensures GetStream(id).Ready() && GetStream(id).streamId == id && GetStream(id).attached
      ensures GetStream(id).conn == this && GetStream(id).flow != flow
      ensures GetStream(id) in members && GetStream(id).flow in flows
    {
      hide Good;
    }

    /** `addStream`: under its identifier, in the table the identifier's
      * parity picks; the other table is untouched. */
    method AddStream(s: H2Stream)
      requires Valid() && s.conn == this && s.attached && s.flow != flow && s.flow !in flows && s.flow.LocalInRange()
      modifies this`streams, this`promisedStreams, this`flows, this`members, this`owner
      ensures Valid() && GetStream(s.streamId) == s
      ensures IsPromisedStream(s.streamId) ==>
        promisedStreams == old(promisedStreams)[s.streamId := s] && streams == old(streams)
      ensures !IsPromisedStream(s.streamId) ==>
        streams == old(streams)[s.streamId := s] && promisedStreams == old(promisedStreams)
      ensures flows == old(flows) + {s.flow} && members == old(members) + {s}
    {
      hide Good, HPacker.Valid, HPackTable.Valid, TablesValid;
      AddKeepsTables(streams, promisedStreams, flows, members, owner, s);
      flows := flows + {s.flow};
      members := members + {s};
      owner := owner[s.flow := s.streamId];
      if IsPromisedStream(s.streamId) {
        promisedStreams := promisedStreams[s.streamId := s];
      } else {
        streams := streams[s.streamId := s];
      }
    }

    /** `createStream(streamId)`: a new idle stream with the connection's
      * initial windows, added to the tables. */
    method CreateStream(id: uint32) returns (s: H2Stream)
      requires Valid()
      modifies this`streams, this`promisedStreams, this`flows, this`members, this`owner
      ensures Valid() && fresh(s) && fresh(s.flow) && s.Ready() && GetStream(id) == s
      ensures s.streamId == id && s.conn == this && s.attached && s.state == Idle && !s.writeBlocked
      ensures !s.headersReceived && !s.headersEnd && !s.tailersReceived && !s.tailersEnd
      ensures !s.endStreamSent && !s.endStreamReceived && !s.rstStreamSent && !s.rstStreamReceived && s.events == []
      ensures s.flow.localWindow == initLocalWindowSize && s.flow.remoteWindow == initRemoteWindowSize
      ensures IsPromisedStream(id) ==> promisedStreams == old(promisedStreams)[id := s] && streams == old(streams)
      ensures !IsPromisedStream(id) ==> streams == old(streams)[id := s] && promisedStreams == old(promisedStreams)
      ensures flows == old(flows) + {s.flow} && members == old(members) + {s}
    {
      hide Good, H2Connection.TablesValid, HPacker.Valid, HPackTable.Valid;
      s := new H2Stream(id, this, initLocalWindowSize, initRemoteWindowSize);
      AddStream(s);
    }

    /** `createStream()`: the next stream of this side, identifiers going
      * up by two from 1 (client) or 2 (server); Swift traps if the
      * identifier would pass 32 bits. */
    method CreateNextStream() returns (s: H2Stream)
      requires Valid() && nextStreamId as int + 2 < 0x1_0000_0000
      modifies this`streams, this`promisedStreams, this`flows, this`members, this`owner, this`nextStreamId
      ensures Valid() && fresh(s) && fresh(s.flow) && s.Ready()
      ensures s.streamId == old(nextStreamId) && nextStreamId as int == old(nextStreamId) as int + 2
      ensures GetStream(s.streamId) == s && s.state == Idle && s.attached
      ensures IsPromisedStream(s.streamId) ==>
        promisedStreams == old(promisedStreams)[s.streamId := s] && streams == old(streams)
      ensures !IsPromisedStream(s.streamId) ==>
        streams == old(streams)[s.streamId := s] && promisedStreams == old(promisedStreams)
    {
      hide Good, H2Connection.TablesValid, HPacker.Valid, HPackTable.Valid;
      var id := nextStreamId;
      s := new H2Stream(id, this, initLocalWindowSize, initRemoteWindowSize);
      nextStreamId := nextStreamId + 2;
      AddStream(s);
    }

    /** `removeStream`: dropped from the table its identifier's parity
      * picks; the other table is untouched. */
    method RemoveStream(id: uint32)
      requires Valid()
      modifies this`streams, this`promisedStreams, this`flows, this`members, this`owner
      ensures Valid() && GetStream(id) == null
      ensures IsPromisedStream(id) ==> promisedStreams == old(promisedStreams) - {id} && streams == old(streams)
      ensures !IsPromisedStream(id) ==> streams == old(streams) - {id} && promisedStreams == old(promisedStreams)
      ensures old(GetStream(id)) != null ==>
        flows == old(flows) - {old(GetStream(id)).flow} && members == old(members) - {old(GetStream(id))}
      ensures old(GetStream(id)) == null ==> flows == old(flows) && members == old(members)
    {
      hide Good, HPacker.Valid, HPackTable.Valid, TablesValid;
      RemoveKeepsTables(streams, promisedStreams, flows, members, owner, id);
      var s := GetStream(id);
      if s != null {
        flows := flows - {s.flow};
        members := members - {s};
      }
      if IsPromisedStream(id) {
        promisedStreams := promisedStreams - {id};
      } else {
        streams := streams - {id};
      }
    }

    /** `streamError(streamId, err)`: the stream's own stream error if the
      * connection holds it, else a bare RST_STREAM; either way RST_STREAM
      * with the error goes out. */
    method StreamError(id: uint32, e: H2Error)
      requires Valid()
      modifies this`openedStreamCount, members`state, members`rstStreamSent
      modifies this`output, this`sendBufferEmpty, this`blockedStreams, flow`remoteWindow, flow`bytesSent, encoder, encoder.table
      ensures Valid() && output == old(output) + [RstStreamFor(id, e)]
      ensures old(GetStream(id)) != null ==> old(GetStream(id)).state == Closed
      ensures blockedStreams == old(blockedStreams) && flow.remoteWindow == old(flow.remoteWindow)
    {
      hide Good, H2Connection.TablesValid, HPacker.Valid, HPackTable.Valid;
      var s := GetStream(id);
      if s != null {
        MappedReady(id);
        s.StreamError(e);
      } else {
        var _ := SendH2Frame(RstStreamFor(id, e));
      }
    }

    /** `connectionError`: GOAWAY, closed, `cbError`. */
    method ConnectionError(e: H2Error)
      requires Valid()
      modifies this`state, this`events
      modifies this`output, this`sendBufferEmpty, this`blockedStreams, flow`remoteWindow, flow`bytesSent, encoder, encoder.table
      ensures Valid() && ClosedWith(e)
      ensures blockedStreams == old(blockedStreams) && flow.remoteWindow == old(flow.remoteWindow)
    {
      hide Good, H2Connection.TablesValid, HPacker.Valid, HPackTable.Valid;
      SendGoaway(e);
      state := ConnClosed;
      if hasErrorCallback {
        events := events + [ErrorEvent(e.Code())];
      }
    }

    // -------------------------------------------------------------------
    // Frames received

    /** The stream tables hold only members, each stream under its own
      * identifier, each with a window of its own. */
    lemma TablesHoldMembers()
      requires Valid()
      ensures forall s :: s in streams.Values + promisedStreams.Values ==> s in members && s.conn == this
      ensures forall s :: s in streams.Values + promisedStreams.Values ==> GetStream(s.streamId) == s
    {
      hide Good;
      forall s | s in streams.Values + promisedStreams.Values
        ensures s in members && s.conn == this && GetStream(s.streamId) == s
      {
        if s in streams.Values {
          var id :| id in streams && streams[id] == s;
        } else {
          var id :| id in promisedStreams && promisedStreams[id] == s;
        }
      }
    }

    /** Two identifiers the connection holds streams under have two
      * windows. */
    lemma OwnFlows(i: uint32, j: uint32)
      requires Valid() && GetStream(i) != null && GetStream(j) != null && i != j
      ensures GetStream(i).flow != GetStream(j).flow
    {
      hide Good;
    }

    /** `onStateOpen`: open, and a client's connect listeners told. */
    method OnStateOpen()
      modifies this`state, this`events
      ensures state == ConnOpen && events == old(events) + (if isServer then [] else [Connected])
    {
      hide Good;
      state := ConnOpen;
      if !isServer {
        events := events + [Connected];
      }
    }

    /** The connection's side of receiving `n` octets of DATA: taken from
      * its window, whose top-up goes out as WINDOW_UPDATE on stream 0 (the
      * window's `cbUpdate`). */
    method ReceiveOnConnection(n: nat)
      requires Valid() && n <= MaxFrameSize
      modifies flow`localWindow, flow`bytesReceived
      modifies this`output, this`sendBufferEmpty, this`blockedStreams, flow`remoteWindow, flow`bytesSent, encoder, encoder.table
      ensures Valid() && blockedStreams == old(blockedStreams)
      ensures var r := ReceiveStep(old(flow.localWindow), flow.minLocalWindowSize, flow.localWindowStep, n);
        && flow.localWindow == r.0
        && output == old(output) + (if r.1.Some? then [WindowUpdateFor(0, r.1.value as uint32)] else [])
    {
      hide Good, EncodeBlock, HPacker.Valid, HPackTable.Valid;
      ReceiveStaysInRange(flow.localWindow, flow.minLocalWindowSize, flow.localWindowStep, n);
      var update := flow.BytesReceived(n);
      if update.Some? {
        var _ := SendWindowUpdate(0, update.value);
      }
    }

    /** What `handleDataFrame` leaves behind, with `held` the stream the
      * connection held under the frame's identifier: DATA on stream 0 is a
      * connection error; any other is charged to the connection's window,
      * whose top-up goes out first, and the held stream, if any, handles
      * it after that top-up. */
    twostate predicate DataFrameHandled(f: Frame, held: H2Stream?)
      requires f.DataFrame? && Incoming(f) && old(flow.LocalInRange())
      requires held != null ==> old(held.flow.LocalInRange())
      reads this, flow, if held == null then {} else {held, held.flow, held.conn}
    {
      var (min, step) := (old(flow.minLocalWindowSize), old(flow.localWindowStep));
      var r := ReceiveStep(old(flow.localWindow), min, step, PayloadLength(f));
      ReceiveStaysInRange(old(flow.localWindow), min, step, PayloadLength(f));
      var update := if r.1.Some? then [WindowUpdateFor(0, r.1.value as uint32)] else [];
      && (f.StreamId() == 0 ==> ClosedWith(ProtocolError))
      && (f.StreamId() != 0 ==>
            && flow.localWindow == r.0
            && (held == null ==> output == old(output) + update && state == old(state))
            && (held != null ==> held.DataHandled(f, old(output) + update)))
    }

    /** `handleDataFrame`: DATA on stream 0 is a connection error; any
      * other is charged to the connection's window (whose top-up goes out
      * first) and handed to its stream, if the connection holds it. */
    method HandleDataFrame(f: Frame)
      requires Valid() && f.DataFrame? && Incoming(f)
      modifies this`state, this`events, this`openedStreamCount
      modifies this`output, this`sendBufferEmpty, this`blockedStreams, encoder, encoder.table
      modifies flows`localWindow, flows`bytesReceived, flows`remoteWindow, flows`bytesSent
      modifies members`state, members`rstStreamSent, members`endStreamReceived, members`events
      ensures Valid() && DataFrameHandled(f, old(GetStream(f.StreamId())))
    {
      hide Good, EncodeBlock, TablesValid, HPacker.Valid, HPackTable.Valid;
      if f.StreamId() == 0 {
        ConnectionError(ProtocolError);
        return;
      }
      ReceiveOnConnection(PayloadLength(f));
      var s := GetStream(f.StreamId());
      if s != null {
        MappedReady(f.StreamId());
        s.HandleData(f);
      }
    }

    /** HEADERS get past `handleHeadersFrame`'s checks: on a stream the
      * connection holds, or on a server on a new stream that is not below
      * the last one and does not exceed the concurrent streams. */
    static predicate HeadersAdmitted(id: uint32, known: bool, lastStreamId: uint32, openedCount: int, isServer: bool)
    {
      id != 0 && (known || (lastStreamId <= id && openedCount + 1 <= MaxConcurrentStreams && isServer))
    }

    /** The header block decoded by the connection's decoder; a failure is
      * a COMPRESSION_ERROR on the connection. */
    method DecodeHeaderBlock(block: Bytes) returns (ok: bool, headers: seq<KeyValuePair>)
      requires Valid()
      modifies decoder.table, this`state, this`events
      modifies this`output, this`sendBufferEmpty, this`blockedStreams, flow`remoteWindow, flow`bytesSent, encoder, encoder.table
      ensures Valid() && blockedStreams == old(blockedStreams)
      ensures var r := DecodeBlock(old(decoder.table.Model()).(isEncoder := false), decoder.huffman, block);
        && ok == r.ok && decoder.table.Model() == r.table
        && (ok ==> headers == r.headers && output == old(output) && state == old(state) && events == old(events))
        && (!ok ==> ClosedWith(CompressionError))
    {
      hide Good, EncodeBlock, DecodeBlock, TablesValid, HPacker.Valid, HPackTable.Valid;
      var ret;
      ret, headers := decoder.Decode(block);
      ok := ret >= 0;
      if !ok {
        ConnectionError(CompressionError);
      }
    }

    /** An unfinished header block: CONTINUATION frames on stream `id`
      * must follow, and the block so far is kept. */
    method ExpectContinuation(id: uint32, block: Bytes)
      modifies this`expectContinuationFrame, this`streamIdOfExpectedContinuation, this`headersBlockBuffer
      ensures expectContinuationFrame && streamIdOfExpectedContinuation == id && headersBlockBuffer == block
    {
      hide Good;
      expectContinuationFrame := true;
      streamIdOfExpectedContinuation := id;
      headersBlockBuffer := block;
    }

    /** A stream the peer opens on a server: created, then dropped again
      * unless `cbAccept` takes it, in which case it is the last stream. */
    method OpenPeerStream(id: uint32) returns (s: H2Stream?)
      requires Valid()
      modifies this`streams, this`promisedStreams, this`flows, this`members, this`owner, this`lastStreamId
      ensures Valid()
      ensures accept(id) ==>
        && s != null && fresh(s) && fresh(s.flow) && s.Ready() && GetStream(id) == s && lastStreamId == id
        && s.streamId == id && s.conn == this && s.attached && s.state == Idle && !s.writeBlocked
        && !s.headersReceived && !s.headersEnd && !s.tailersReceived && !s.tailersEnd
        && !s.endStreamSent && !s.endStreamReceived && !s.rstStreamSent && !s.rstStreamReceived && s.events == []
        && s.flow.remoteWindow == initRemoteWindowSize
      ensures !accept(id) ==> s == null && GetStream(id) == null && lastStreamId == old(lastStreamId)
    {
      hide Good, EncodeBlock, TablesValid, HPacker.Valid, HPackTable.Valid;
      s := CreateStream(id);
      if !accept(id) {
        RemoveStream(id);
        return null;
      }
      lastStreamId := id;
    }

    /** What `handleHeadersFrame` leaves behind, with `held` the stream the
      * connection held under the frame's identifier: stream 0, or a new
      * stream below the last one, is a connection error; a new stream over
      * the concurrent streams is refused; a client takes no new stream from
      * the peer; an admitted frame's header block is received. */
    twostate predicate HeadersFrameHandled(f: Frame, held: H2Stream?)
      requires f.HeadersFrame?
      reads this, decoder, decoder.table, streams.Values, promisedStreams.Values
      reads if held == null then {} else {held, held.conn}
    {
      var id := f.StreamId();
      var known := held != null;
      && (id == 0 || (!known && id < old(lastStreamId)) ==> ClosedWith(ProtocolError))
      && (id != 0 && !known && old(lastStreamId) <= id && old(openedStreamCount) + 1 > MaxConcurrentStreams ==>
            output == old(output) + [RstStreamFor(id, RefusedStream)] && state == old(state) && GetStream(id) == null)
      && (id != 0 && !known && old(lastStreamId) <= id && old(openedStreamCount) + 1 <= MaxConcurrentStreams && !isServer ==>
            output == old(output) && state == old(state) && GetStream(id) == null)
      && (HeadersAdmitted(id, known, old(lastStreamId), old(openedStreamCount), isServer) ==> HeaderBlockReceived(f, known, held))
    }

    /** `handleHeadersFrame`: HEADERS on stream 0, or opening a stream below
      * the last one, are a connection error, and beyond the concurrent
      * streams a stream error (REFUSED_STREAM); a client ignores HEADERS
      * for a stream it does not know. Frames that get past these checks go
      * on to `ReceiveCompleteBlock` or `ReceivePartialBlock`. */
    method HandleHeadersFrame(f: Frame)
      requires Valid() && f.HeadersFrame?
      modifies this`state, this`events, this`openedStreamCount, this`lastStreamId
      modifies this`streams, this`promisedStreams, this`flows, this`members, this`owner
      modifies this`expectContinuationFrame, this`streamIdOfExpectedContinuation, this`headersBlockBuffer
      modifies this`output, this`sendBufferEmpty, this`blockedStreams, flow`remoteWindow, flow`bytesSent
      modifies encoder, encoder.table, decoder.table
      modifies members`state, members`rstStreamSent, members`endStreamReceived, members`events
      modifies members`headersReceived, members`headersEnd, members`tailersReceived, members`tailersEnd
      ensures Valid() && HeadersFrameHandled(f, old(GetStream(f.StreamId())))
    {
      hide Good, EncodeBlock, DecodeBlock, TablesValid, HPacker.Valid, HPackTable.Valid, HeaderBlockReceived;
      var id := f.StreamId();
      if id == 0 {
        ConnectionError(ProtocolError);
        return;
      }
      var known := GetStream(id) != null;
      if !known {
        if id < lastStreamId {
          ConnectionError(ProtocolError);
          return;
        }
        if openedStreamCount + 1 > MaxConcurrentStreams {
          StreamError(id, RefusedStream);
          return;
        }
        if !isServer {
          return;
        }
      }
      if f.hdr.HasEndHeaders() {
        ReceiveCompleteBlock(f, known);
      } else {
        ReceivePartialBlock(f, known);
      }
    }

    /** What `handleHeadersFrame` does with admitted HEADERS: a complete
      * block is decoded (a failure is a COMPRESSION_ERROR), an incomplete
      * one kept for the CONTINUATION frames; a new stream is created, and
      * dropped unless `cbAccept` takes it, and it opens with the decoded
      * headers. */
    twostate predicate HeaderBlockReceived(f: Frame, known: bool, held: H2Stream?)
      requires f.HeadersFrame?
      reads this, decoder, decoder.table, streams.Values, promisedStreams.Values
      reads if held == null then {} else {held, held.conn}
    {
      var id := f.StreamId();
      var r := DecodeBlock(old(decoder.table.Model()).(isEncoder := false), decoder.huffman, f.block);
      && (f.hdr.HasEndHeaders() ==> decoder.table.Model() == r.table)
      && (f.hdr.HasEndHeaders() && !r.ok ==> ClosedWith(CompressionError) && GetStream(id) == old(GetStream(id)))
      && (!f.hdr.HasEndHeaders() ==>
            expectContinuationFrame && streamIdOfExpectedContinuation == id && headersBlockBuffer == f.block)
      && (!known && (r.ok || !f.hdr.HasEndHeaders()) && accept(id) ==>
            && lastStreamId == id && GetStream(id) != null && fresh(GetStream(id))
            && GetStream(id).state == (if f.HasEndStream() then HalfClosedR else Open)
            && GetStream(id).events ==
                 (if f.hdr.HasEndHeaders() then [HeadersEvent(r.headers, f.HasEndStream())] else []))
      && (!known && (r.ok || !f.hdr.HasEndHeaders()) && !accept(id) ==>
            lastStreamId == old(lastStreamId) && GetStream(id) == null)
      && (known && (r.ok || !f.hdr.HasEndHeaders()) ==>
            && lastStreamId == old(lastStreamId) && held != null
            && held.HeadersHandled(if f.hdr.HasEndHeaders() then r.headers else f.headers, f.hdr.HasEndHeaders(), f.HasEndStream()))
    }

    /** The admitted half of `handleHeadersFrame` for a complete block. */
    method ReceiveCompleteBlock(f: Frame, known: bool)
      requires Valid() && f.HeadersFrame? && f.StreamId() != 0 && known == (GetStream(f.StreamId()) != null)
      requires f.hdr.HasEndHeaders()
      modifies this`state, this`events, this`openedStreamCount, this`lastStreamId
      modifies this`streams, this`promisedStreams, this`flows, this`members, this`owner
      modifies this`expectContinuationFrame, this`streamIdOfExpectedContinuation, this`headersBlockBuffer
      modifies this`output, this`sendBufferEmpty, this`blockedStreams, flow`remoteWindow, flow`bytesSent
      modifies encoder, encoder.table, decoder.table
      modifies members`state, members`rstStreamSent, members`endStreamReceived, members`events
      modifies members`headersReceived, members`headersEnd, members`tailersReceived, members`tailersEnd
      ensures Valid() && HeaderBlockReceived(f, known, old(GetStream(f.StreamId())))
    {
      hide Good, EncodeBlock, DecodeBlock, TablesValid, HPacker.Valid, HPackTable.Valid;
      // The source returns here when the frame has no block; a received
      // HEADERS frame always has one (possibly empty).
      var ok, headers := DecodeHeaderBlock(f.block);
      if ok {
        DeliverHeaders(HeadersFrame(f.hdr, f.pri, f.block, headers, f.hsize), known);
      }
    }

    /** The admitted half of `handleHeadersFrame` for a block that
      * CONTINUATION frames are to finish. */
    method ReceivePartialBlock(f: Frame, known: bool)
      requires Valid() && f.HeadersFrame? && f.StreamId() != 0 && known == (GetStream(f.StreamId()) != null)
      requires !f.hdr.HasEndHeaders()
      modifies this`state, this`events, this`openedStreamCount, this`lastStreamId
      modifies this`streams, this`promisedStreams, this`flows, this`members, this`owner
      modifies this`expectContinuationFrame, this`streamIdOfExpectedContinuation, this`headersBlockBuffer
      modifies this`output, this`sendBufferEmpty, this`blockedStreams, flow`remoteWindow, flow`bytesSent
      modifies encoder, encoder.table, decoder.table
      modifies members`state, members`rstStreamSent, members`endStreamReceived, members`events
      modifies members`headersReceived, members`headersEnd, members`tailersReceived, members`tailersEnd
      ensures Valid() && HeaderBlockReceived(f, known, old(GetStream(f.StreamId())))
    {
      hide Good, EncodeBlock, DecodeBlock, TablesValid, HPacker.Valid, HPackTable.Valid;
      ExpectContinuation(f.StreamId(), f.block);
      DeliverHeaders(f, known);
    }

    /** The stream, held or newly opened, handles the HEADERS. */
    method DeliverHeaders(f: Frame, known: bool)
      requires Valid() && f.HeadersFrame? && f.StreamId() != 0 && known == (GetStream(f.StreamId()) != null)
      modifies this`state, this`events, this`openedStreamCount, this`lastStreamId
      modifies this`streams, this`promisedStreams, this`flows, this`members, this`owner
      modifies this`output, this`sendBufferEmpty, this`blockedStreams, flow`remoteWindow, flow`bytesSent, encoder, encoder.table
      modifies members`state, members`rstStreamSent, members`endStreamReceived, members`events
      modifies members`headersReceived, members`headersEnd, members`tailersReceived, members`tailersEnd
      ensures Valid()
      ensures var id := f.StreamId();
        && (!known && accept(id) ==>
              && lastStreamId == id && GetStream(id) != null && fresh(GetStream(id))
              && GetStream(id).state == (if f.HasEndStream() then HalfClosedR else Open)
              && GetStream(id).events == (if f.hdr.HasEndHeaders() then [HeadersEvent(f.headers, f.HasEndStream())] else []))
        && (!known && !accept(id) ==> lastStreamId == old(lastStreamId) && GetStream(id) == null)
        && (known ==>
              && lastStreamId == old(lastStreamId)
              && old(GetStream(id)).HeadersHandled(f.headers, f.hdr.HasEndHeaders(), f.HasEndStream()))
    {
      hide Good, EncodeBlock, DecodeBlock, TablesValid, HPacker.Valid, HPackTable.Valid;
      var id := f.StreamId();
      var s := GetStream(id);
      if s == null {
        s := OpenPeerStream(id);
        if s == null {
          return;
        }
      } else {
        MappedReady(id);
      }
      s.HandleHeaders(f);
    }

    /** What `handlePriorityFrame` leaves behind, with `held` the stream
      * the connection held under the frame's identifier: stream 0 is a
      * connection error; a held stream depending on itself is reset with
      * PROTOCOL_ERROR; nothing else changes. */
    twostate predicate PriorityFrameHandled(f: Frame, held: H2Stream?)
      requires f.PriorityFrame?
      reads this, if held == null then {} else {held}
    {
      && (f.StreamId() == 0 ==> ClosedWith(ProtocolError))
      && (f.StreamId() != 0 && held == null ==> output == old(output) && state == old(state))
      && (f.StreamId() != 0 && held != null ==>
            && (f.pri.streamId == f.StreamId() ==> held.state == Closed && output == old(output) + [RstStreamFor(f.StreamId(), ProtocolError)])
            && (f.pri.streamId != f.StreamId() ==> held.state == old(held.state) && output == old(output)))
    }

    /** `handlePriorityFrame`: stream 0 is a connection error; the stream,
      * if held, handles the frame. */
    method HandlePriorityFrame(f: Frame)
      requires Valid() && f.PriorityFrame?
      modifies this`state, this`events, this`openedStreamCount
      modifies this`output, this`sendBufferEmpty, this`blockedStreams, flow`remoteWindow, flow`bytesSent, encoder, encoder.table
      modifies members`state, members`rstStreamSent
      ensures Valid() && PriorityFrameHandled(f, old(GetStream(f.StreamId())))
    {
      hide Good, EncodeBlock, TablesValid, HPacker.Valid, HPackTable.Valid;
      if f.StreamId() == 0 {
        ConnectionError(ProtocolError);
        return;
      }
      var s := GetStream(f.StreamId());
      if s != null {
        MappedReady(f.StreamId());
        s.HandlePriority(f);
      }
    }

    /** What `handleRSTStreamFrame` leaves behind, with `held` the stream
      * the connection held under the frame's identifier: stream 0 is a
      * connection error, and so is an idle held stream; a held stream
      * handles the reset (it closes, and the application hears the
      * peer's error code); nothing else changes. */
    twostate predicate RstFrameHandled(f: Frame, held: H2Stream?)
      requires f.RstStreamFrame?
      reads this, if held == null then {} else {held, held.conn}
    {
      && (f.StreamId() == 0 ==> ClosedWith(ProtocolError))
      && (f.StreamId() != 0 && held == null ==> output == old(output) && state == old(state))
      && (f.StreamId() != 0 && held != null ==>
            && (old(held.state) == Idle ==> held.state == Idle && ClosedWith(ProtocolError))
            && held.ResetHandled(f.errCode as int))
    }

    /** `handleRSTStreamFrame`: stream 0 is a connection error; the stream,
      * if held, handles the frame. */
    method HandleRSTStreamFrame(f: Frame)
      requires Valid() && f.RstStreamFrame?
      modifies this`state, this`events, this`openedStreamCount
      modifies this`output, this`sendBufferEmpty, this`blockedStreams, flow`remoteWindow, flow`bytesSent, encoder, encoder.table
      modifies members`state, members`rstStreamSent, members`rstStreamReceived, members`events
      ensures Valid() && RstFrameHandled(f, old(GetStream(f.StreamId())))
    {
      hide Good, EncodeBlock, TablesValid, HPacker.Valid, HPackTable.Valid;
      if f.StreamId() == 0 {
        ConnectionError(ProtocolError);
        return;
      }
      var s := GetStream(f.StreamId());
      if s != null {
        MappedReady(f.StreamId());
        s.HandleRST(f);
      }
    }

    // -------------------------------------------------------------------
    // SETTINGS

    /** `updateInitialWindowSize`: a new initial window moves the remote
      * window of every stream the connection holds by the difference, and
      * leaves the connection's own window alone. */
    method UpdateInitialWindowSize(ws: int)
      requires Valid()
      modifies this`initRemoteWindowSize, flows`remoteWindow
      ensures Valid() && initRemoteWindowSize == ws && flow.remoteWindow == old(flow.remoteWindow)
      ensures forall id :: GetStream(id) != null ==>
        GetStream(id).flow.remoteWindow == old(GetStream(id).flow.remoteWindow) + (ws - old(initRemoteWindowSize))
    {
      hide Good, EncodeBlock, H2Connection.Valid, TablesValid, HPacker.Valid, HPackTable.Valid;
      if ws == initRemoteWindowSize {
        return;
      }
      var delta := ws - initRemoteWindowSize;
      initRemoteWindowSize := ws;
      var ids := set id | id in streams.Keys + promisedStreams.Keys && GetStream(id) != null;
      ShiftRemoteWindows(ids, delta);
      assert forall id :: GetStream(id) != null ==> id in ids;
    }

    /** The loop of `updateInitialWindowSize`: the remote window of each
      * stream in `ids` moves by `delta`, and no other window moves. */
    method ShiftRemoteWindows(ids: set<uint32>, delta: int)
      requires Valid() && forall id :: id in ids ==> GetStream(id) != null
      modifies flows`remoteWindow
      ensures Valid() && flow.remoteWindow == old(flow.remoteWindow)
      ensures forall id :: GetStream(id) != null ==>
        GetStream(id).flow.remoteWindow == old(GetStream(id).flow.remoteWindow) + (if id in ids then delta else 0)
    {
      hide Good, EncodeBlock, H2Connection.Valid, TablesValid, HPacker.Valid, HPackTable.Valid;
      var todo := ids;
      ghost var done: set<uint32> := {};
      while todo != {}
        invariant Valid() && flow.remoteWindow == old(flow.remoteWindow)
        invariant todo <= ids && done == ids - todo
        invariant forall id :: GetStream(id) != null ==>
          GetStream(id).flow.remoteWindow == old(GetStream(id).flow.remoteWindow) + (if id in done then delta else 0)
        decreases todo
      {
        var id :| id in todo;
        MappedReady(id);
        ShiftRemoteWindow(id, delta);
        todo := todo - {id};
        done := done + {id};
      }
    }

    /** One stream's `updateRemoteWindowSize`: no other window moves. */
    method ShiftRemoteWindow(id: uint32, delta: int)
      requires Valid() && GetStream(id) != null
      modifies GetStream(id).flow`remoteWindow
      ensures Valid() && flow.remoteWindow == old(flow.remoteWindow)
      ensures forall j :: GetStream(j) != null ==>
        GetStream(j).flow.remoteWindow == old(GetStream(j).flow.remoteWindow) + (if j == id then delta else 0)
    {
      hide Good, EncodeBlock, HPacker.Valid, HPackTable.Valid;
      var s := GetStream(id);
      MappedReady(id);
      forall j | GetStream(j) != null && j != id
        ensures GetStream(j).flow != s.flow
      {
        OwnFlows(j, id);
      }
      s.UpdateRemoteWindowSize(delta);
    }

    /** One setting of a received SETTINGS frame, as `applySettings`
      * handles it: the header table size goes to the decoder, the initial
      * window to `updateInitialWindowSize` and the maximum frame size is
      * taken over; a value out of range is a connection error. */
    method ApplyOne(p: Setting) returns (failed: bool)
      requires Valid()
      modifies this`maxRemoteFrameSize, this`initRemoteWindowSize, flows`remoteWindow, decoder.table
      modifies this`state, this`events, this`output, this`sendBufferEmpty, this`blockedStreams, flow`remoteWindow, flow`bytesSent
      modifies encoder, encoder.table
      ensures Valid()
      ensures var v := ApplySetting(SettingsView(None, old(maxRemoteFrameSize), old(initRemoteWindowSize), old(decoder.table.Model())), p);
        && failed == v.failed.Some?
        && maxRemoteFrameSize == v.maxFrameSize && initRemoteWindowSize == v.initWindow && decoder.table.Model() == v.table
        && (failed ==> ClosedWith(v.failed.value))
        && (!failed ==> output == old(output) && state == old(state) && events == old(events) && sendBufferEmpty == old(sendBufferEmpty))
      ensures forall id :: GetStream(id) != null ==>
        GetStream(id).flow.remoteWindow == old(GetStream(id).flow.remoteWindow) + (initRemoteWindowSize - old(initRemoteWindowSize))
    {
      hide Good, EncodeBlock, TablesValid, HPacker.Valid, HPackTable.Valid;
      failed := false;
      if p.key == SettingsHeaderTableSize {
        decoder.SetMaxTableSize(p.value as nat);
      } else if p.key == SettingsInitialWindowSize {
        if p.value as int > MaxWindowSize {
          ConnectionError(FlowControlError);
          return true;
        }
        UpdateInitialWindowSize(p.value as int);
      } else if p.key == SettingsMaxFrameSize {
        if p.value as int < DefaultFrameSize || p.value as int > MaxFrameSize {
          ConnectionError(ProtocolError);
          return true;
        }
        maxRemoteFrameSize := p.value as int;
      } else if p.key == SettingsEnablePush {
        if p.value != 0 && p.value != 1 {
          ConnectionError(ProtocolError);
          return true;
        }
      }
    }

    /** `applySettings`: the settings taken in order until one is out of
      * range, which is a connection error with that setting's code; what
      * the connection ends up with is `Settle` of the settings, and every
      * stream's remote window has moved with the initial window. */
    method ApplySettings(params: seq<Setting>)
      requires Valid()
      modifies this`maxRemoteFrameSize, this`initRemoteWindowSize, flows`remoteWindow, decoder.table
      modifies this`state, this`events, this`output, this`sendBufferEmpty, this`blockedStreams, flow`remoteWindow, flow`bytesSent
      modifies encoder, encoder.table
      ensures Valid()
      ensures var v := Settle(SettingsView(None, old(maxRemoteFrameSize), old(initRemoteWindowSize), old(decoder.table.Model())), params);
        && maxRemoteFrameSize == v.maxFrameSize && initRemoteWindowSize == v.initWindow && decoder.table.Model() == v.table
        && (v.failed.Some? ==> ClosedWith(v.failed.value))
        && (v.failed.None? ==> output == old(output) && state == old(state) && events == old(events) && sendBufferEmpty == old(sendBufferEmpty))
      ensures forall id :: GetStream(id) != null ==>
        GetStream(id).flow.remoteWindow == old(GetStream(id).flow.remoteWindow) + (initRemoteWindowSize - old(initRemoteWindowSize))
    {
      hide Good, EncodeBlock, H2Connection.Valid, TablesValid, HPacker.Valid, HPackTable.Valid, ApplySetting;
      ghost var v0 := SettingsView(None, maxRemoteFrameSize, initRemoteWindowSize, decoder.table.Model());
      var i := 0;
      while i < |params|
        invariant 0 <= i <= |params| && Valid()
        invariant Settle(v0, params[..i]) == SettingsView(None, maxRemoteFrameSize, initRemoteWindowSize, decoder.table.Model())
        invariant output == old(output) && state == old(state) && events == old(events) && lastStreamId == old(lastStreamId)
        invariant hasErrorCallback == old(hasErrorCallback) && sendBufferEmpty == old(sendBufferEmpty)
        invariant forall id :: GetStream(id) != null ==>
          GetStream(id).flow.remoteWindow == old(GetStream(id).flow.remoteWindow) + (initRemoteWindowSize - old(initRemoteWindowSize))
      {
        SettleSnoc(v0, params, i);
        var failed := ApplyOne(params[i]);
        if failed {
          SettleStopsAtFailure(v0, params[..i + 1], params[i + 1..]);
          assert params[..i + 1] + params[i + 1..] == params;
          return;
        }
        i := i + 1;
      }
      assert params[..i] == params;
    }

    /** What `handleSettingsFrame` leaves behind: SETTINGS off stream 0 is a
      * connection error, an ACK with parameters a FRAME_SIZE_ERROR, an
      * empty ACK changes nothing; otherwise the parameters are settled in
      * order, the frame is acknowledged, a failed parameter closes the
      * connection, and the first SETTINGS opens a handshaking one. */
    twostate predicate SettingsFrameHandled(f: Frame)
      requires f.SettingsFrame?
      reads this, decoder, decoder.table
    {
      && (f.StreamId() != 0 ==> ClosedWith(ProtocolError))
      && (f.StreamId() == 0 && f.hdr.HasAck() && f.params != [] ==> ClosedWith(FrameSizeError))
      && (f.StreamId() == 0 && f.hdr.HasAck() && f.params == [] ==>
            output == old(output) && state == old(state) && events == old(events) && prefaceReceived == old(prefaceReceived))
      && (f.StreamId() == 0 && !f.hdr.HasAck() ==>
            var v := Settle(SettingsView(None, old(maxRemoteFrameSize), old(initRemoteWindowSize), old(decoder.table.Model())), f.params);
            && maxRemoteFrameSize == v.maxFrameSize && initRemoteWindowSize == v.initWindow && decoder.table.Model() == v.table
            && (v.failed.Some? ==>
                  && state == ConnClosed && prefaceReceived == old(prefaceReceived)
                  && output == old(output) + [SettingsAckFrame(), GoawayFor(v.failed.value, old(lastStreamId))]
                  && events == old(events) + (if old(hasErrorCallback) then [ErrorEvent(v.failed.value.Code())] else []))
            && (v.failed.None? ==>
                  var opens := old(state) == Handshake && writable;
                  && output == old(output) + [SettingsAckFrame()]
                  && prefaceReceived == (old(prefaceReceived) || old(state).Rank() < ConnOpen.Rank())
                  && state == (if opens then ConnOpen else old(state))
                  && events == old(events) + (if opens && !isServer then [Connected] else [])))
    }

    /** `handleSettingsFrame`: SETTINGS off stream 0 are a connection
      * error, and so (FRAME_SIZE_ERROR) is an acknowledgement that carries
      * settings; other settings are acknowledged and then applied, and the
      * first SETTINGS received completes the peer's preface, which opens a
      * connection in the handshake whose own output has drained. */
    method HandleSettingsFrame(f: Frame)
      requires Valid() && f.SettingsFrame?
      modifies this`maxRemoteFrameSize, this`initRemoteWindowSize, flows`remoteWindow, decoder.table, this`prefaceReceived
      modifies this`state, this`events, this`output, this`sendBufferEmpty, this`blockedStreams, flow`remoteWindow, flow`bytesSent
      modifies encoder, encoder.table
      ensures Valid() && SettingsFrameHandled(f)
    {
      hide Good, EncodeBlock, TablesValid, HPacker.Valid, HPackTable.Valid, Settle;
      if f.StreamId() != 0 {
        ConnectionError(ProtocolError);
        return;
      }
      if f.hdr.HasAck() {
        if |f.params| != 0 {
          ConnectionError(FrameSizeError);
        }
        return;
      }
      AcknowledgeSettings(f.params);
    }

    /** The settings of a SETTINGS frame that is not an acknowledgement:
      * the acknowledgement goes out first. */
    method AcknowledgeSettings(params: seq<Setting>)
      requires Valid()
      modifies this`maxRemoteFrameSize, this`initRemoteWindowSize, flows`remoteWindow, decoder.table, this`prefaceReceived
      modifies this`state, this`events, this`output, this`sendBufferEmpty, this`blockedStreams, flow`remoteWindow, flow`bytesSent
      modifies encoder, encoder.table
      ensures Valid()
      ensures var v := Settle(SettingsView(None, old(maxRemoteFrameSize), old(initRemoteWindowSize), old(decoder.table.Model())), params);
        && maxRemoteFrameSize == v.maxFrameSize && initRemoteWindowSize == v.initWindow && decoder.table.Model() == v.table
        && (v.failed.Some? ==>
              && state == ConnClosed && prefaceReceived == old(prefaceReceived)
              && output == old(output) + [SettingsAckFrame(), GoawayFor(v.failed.value, old(lastStreamId))]
              && events == old(events) + (if old(hasErrorCallback) then [ErrorEvent(v.failed.value.Code())] else []))
        && (v.failed.None? ==>
              var opens := old(state) == Handshake && writable;
              && output == old(output) + [SettingsAckFrame()]
              && prefaceReceived == (old(prefaceReceived) || old(state).Rank() < ConnOpen.Rank())
              && state == (if opens then ConnOpen else old(state))
              && events == old(events) + (if opens && !isServer then [Connected] else []))
    {
      hide Good, EncodeBlock, TablesValid, HPacker.Valid, HPackTable.Valid, Settle;
      var _ := SendH2Frame(SettingsAckFrame());
      ApplySettings(params);
      if state.Rank() < ConnOpen.Rank() {
        prefaceReceived := true;
        if state == Handshake && sendBufferEmpty {
          OnStateOpen();
        }
      }
    }

    // -------------------------------------------------------------------
    // PING, GOAWAY, WINDOW_UPDATE

    /** What `handlePingFrame` leaves behind: PING off stream 0 is a
      * connection error; otherwise a PING without ACK is answered with its
      * own data. */
    twostate predicate PingFrameHandled(f: Frame)
      requires f.PingFrame?
      reads this
    {
      && (f.StreamId() != 0 ==> ClosedWith(ProtocolError))
      && (f.StreamId() == 0 ==>
            && output == old(output) + (if f.hdr.HasAck() then [] else [PingAckFrame(f.pingData)])
            && state == old(state) && events == old(events))
    }

    /** `handlePingFrame`: PING off stream 0 is a connection error; a PING
      * that is not itself an acknowledgement is answered with its own
      * data. */
    method HandlePingFrame(f: Frame)
      requires Valid() && f.PingFrame? && WellFormed(f)
      modifies this`state, this`events, this`output, this`sendBufferEmpty, this`blockedStreams, flow`remoteWindow, flow`bytesSent
      modifies encoder, encoder.table
      ensures Valid() && PingFrameHandled(f)
    {
      hide Good, EncodeBlock, TablesValid, HPacker.Valid, HPackTable.Valid;
      if f.StreamId() != 0 {
        ConnectionError(ProtocolError);
        return;
      }
      if !f.hdr.HasAck() {
        var _ := SendH2Frame(PingAckFrame(f.pingData));
      }
    }

    /** What `handleGoawayFrame` leaves behind, with `olds` the streams the
      * connection held: GOAWAY off stream 0 is a connection error;
      * otherwise every held stream is detached and hears the peer's error
      * code, the tables are emptied, and the error callback hears it once
      * and is cleared. */
    twostate predicate GoawayFrameHandled(f: Frame, olds: set<H2Stream>)
      requires f.GoawayFrame?
      reads this, olds
    {
      && (f.StreamId() != 0 ==> ClosedWith(ProtocolError))
      && (f.StreamId() == 0 ==>
            && streams == map[] && promisedStreams == map[] && !hasErrorCallback
            && output == old(output) && state == old(state)
            && events == old(events) + (if old(hasErrorCallback) then [ErrorEvent(f.errCode as int)] else [])
            && forall s :: s in olds ==>
                 !s.attached && s.events == old(s.events) + [ResetEvent(f.errCode as int)])
    }

    /** `handleGoawayFrame`: GOAWAY off stream 0 is a connection error;
      * otherwise every stream is dropped and told the peer's error code,
      * and so, once, is the application. */
    method HandleGoawayFrame(f: Frame)
      requires Valid() && f.GoawayFrame?
      modifies this`state, this`events, this`output, this`sendBufferEmpty, this`blockedStreams, flow`remoteWindow, flow`bytesSent
      modifies encoder, encoder.table
      modifies this`streams, this`promisedStreams, this`flows, this`members, this`owner, this`hasErrorCallback
      modifies members`attached, members`events
      ensures Valid() && GoawayFrameHandled(f, old(streams.Values + promisedStreams.Values))
    {
      hide Good, EncodeBlock, H2Connection.Valid, TablesValid, HPacker.Valid, HPackTable.Valid;
      if f.StreamId() != 0 {
        ConnectionError(ProtocolError);
        return;
      }
      DropStreams(f.errCode as int);
    }

    /** The GOAWAY on stream 0 half of `handleGoawayFrame`: the streams,
      * then the application. */
    method DropStreams(code: int)
      requires Valid()
      modifies this`streams, this`promisedStreams, this`flows, this`members, this`owner, this`hasErrorCallback
      modifies members`attached, members`events, this`events
      ensures Valid()
      ensures && streams == map[] && promisedStreams == map[] && !hasErrorCallback
        && events == old(events) + (if old(hasErrorCallback) then [ErrorEvent(code)] else [])
        && forall s :: s in old(streams.Values + promisedStreams.Values) ==>
             !s.attached && s.events == old(s.events) + [ResetEvent(code)]
    {
      hide Good, EncodeBlock, H2Connection.Valid, TablesValid, HPacker.Valid, HPackTable.Valid;
      ResetStreams(code);
      NotifyGoaway(code);
    }

    /** Every stream dropped and told `code`. */
    method ResetStreams(code: int)
      requires Valid()
      modifies this`streams, this`promisedStreams, this`flows, this`members, this`owner
      modifies members`attached, members`events
      ensures Valid() && streams == map[] && promisedStreams == map[]
      ensures forall s :: s in old(streams.Values + promisedStreams.Values) ==>
        !s.attached && s.events == old(s.events) + [ResetEvent(code)]
    {
      hide Good, EncodeBlock, H2Connection.Valid, TablesValid, HPacker.Valid, HPackTable.Valid;
      TablesHoldMembers();
      var todo := streams.Values + promisedStreams.Values;
      ClearTables();
      DetachAll(todo, code);
    }

    /** The application told `code`, once. */
    method NotifyGoaway(code: int)
      requires Valid()
      modifies this`hasErrorCallback, this`events
      ensures Valid() && !hasErrorCallback
      ensures events == old(events) + (if old(hasErrorCallback) then [ErrorEvent(code)] else [])
    {
      hide Good, EncodeBlock, H2Connection.Valid, TablesValid, HPacker.Valid, HPackTable.Valid;
      var cb := hasErrorCallback;
      hasErrorCallback := false;
      if cb {
        events := events + [ErrorEvent(code)];
      }
    }

    /** Both stream tables emptied. */
    method ClearTables()
      requires Valid()
      modifies this`streams, this`promisedStreams, this`flows, this`members, this`owner
      ensures Valid() && streams == map[] && promisedStreams == map[] && members == {}
    {
      hide Good, EncodeBlock, TablesValid, HPacker.Valid, HPackTable.Valid;
      EmptyTables();
      streams := map[];
      promisedStreams := map[];
      flows := {flow};
      members := {};
      owner := map[];
    }

    /** The streams dropped by GOAWAY, each told the error code (`onError`). */
    static method DetachAll(ss: set<H2Stream>, code: int)
      modifies ss`attached, ss`events
      ensures forall s :: s in ss ==> !s.attached && s.events == old(s.events) + [ResetEvent(code)]
    {
      var todo := ss;
      while todo != {}
        invariant todo <= ss
        invariant forall s :: s in ss && s !in todo ==> !s.attached && s.events == old(s.events) + [ResetEvent(code)]
        invariant forall s :: s in todo ==> s.events == old(s.events)
        decreases todo
      {
        var s :| s in todo;
        s.OnError(code);
        todo := todo - {s};
      }
    }

    /** `notifyBlockedStreams`: with the send buffer drained and credit in
      * the connection's window, every blocked stream the connection holds
      * is told it may write, and the blocked set is empty. */
    method NotifyBlockedStreams()
      requires Valid()
      modifies this`blockedStreams, members`writeBlocked, members`events
      ensures Valid()
      ensures var go := sendBufferEmpty && flow.RemoteWindowSize() > 0;
        && blockedStreams == (if go then {} else old(blockedStreams))
        && forall id :: GetStream(id) != null ==>
             GetStream(id).events == old(GetStream(id).events) + (if go && id in old(blockedStreams) then [WriteEvent] else [])
    {
      hide Good, EncodeBlock, H2Connection.Valid, TablesValid, HPacker.Valid, HPackTable.Valid;
      if !sendBufferEmpty || flow.RemoteWindowSize() == 0 {
        return;
      }
      var pending := blockedStreams;
      ghost var all := pending;
      blockedStreams := {};
      while pending != {} && sendBufferEmpty && flow.RemoteWindowSize() > 0
        invariant Valid() && pending <= all && blockedStreams == {}
        invariant forall id :: GetStream(id) != null ==>
          GetStream(id).events == old(GetStream(id).events) + (if id in all - pending then [WriteEvent] else [])
        decreases pending
      {
        var id :| id in pending;
        pending := pending - {id};
        var s := GetStream(id);
        if s != null {
          MappedReady(id);
          WakeStream(id);
        }
      }
      blockedStreams := blockedStreams + pending;
    }

    /** One blocked stream's `onWrite`: no other stream hears of it. */
    method WakeStream(id: uint32)
      requires Valid() && GetStream(id) != null
      modifies GetStream(id)`writeBlocked, GetStream(id)`events
      ensures Valid()
      ensures forall j :: GetStream(j) != null ==>
        GetStream(j).events == old(GetStream(j).events) + (if j == id then [WriteEvent] else [])
    {
      hide Good, EncodeBlock, HPacker.Valid, HPackTable.Valid;
      var s := GetStream(id);
      forall j | GetStream(j) != null && j != id
        ensures GetStream(j) != s
      {
        MappedReady(j);
      }
      MappedReady(id);
      s.OnWrite();
    }

    /** What `handleWindowUpdateFrame` leaves behind, with `held` the
      * stream the connection held under the frame's identifier: a zero
      * increment resets the stream; one past the largest window is a flow
      * control error on the connection (stream 0) or the stream; any other
      * credits the window it names. */
    twostate predicate WindowUpdateFrameHandled(f: Frame, held: H2Stream?)
      requires f.WindowUpdateFrame?
      reads this, flow, streams.Values, promisedStreams.Values, if held == null then {} else {held, held.flow}
    {
      var id, inc := f.StreamId(), f.increment as int;
      var over := old(flow.RemoteWindowSize()) + inc > MaxWindowSize;
      && (inc == 0 ==> output == old(output) + [RstStreamFor(id, ProtocolError)] && state == old(state))
      && (inc != 0 && over && id == 0 ==> ClosedWith(FlowControlError))
      && (inc != 0 && over && id != 0 ==> output == old(output) + [RstStreamFor(id, FlowControlError)] && state == old(state))
      && (inc != 0 && !over && id == 0 ==> ConnectionCredited(inc))
      && (inc != 0 && !over && id != 0 ==> StreamCredited(f, held))
    }

    /** `handleWindowUpdateFrame`: a zero increment is a stream error (on
      * whatever stream the frame names, 0 included); an increment that
      * would take the connection's window past the maximum is a flow
      * control error, on the connection for stream 0 and on the stream
      * otherwise (the test is against the connection's window in both
      * cases); otherwise the connection or the stream is credited. */
    method HandleWindowUpdateFrame(f: Frame)
      requires Valid() && f.WindowUpdateFrame?
      modifies this`state, this`events, this`openedStreamCount, this`lastStreamId
      modifies this`streams, this`promisedStreams, this`flows, this`members, this`owner
      modifies this`output, this`sendBufferEmpty, this`blockedStreams, flow`bytesSent, encoder, encoder.table
      modifies flows`remoteWindow
      modifies members`state, members`rstStreamSent, members`writeBlocked, members`events
      ensures Valid() && WindowUpdateFrameHandled(f, old(GetStream(f.StreamId())))
    {
      hide Good, EncodeBlock, TablesValid, HPacker.Valid, HPackTable.Valid, ConnectionCredited, StreamCredited;
      if f.increment == 0 {
        StreamError(f.StreamId(), ProtocolError);
        return;
      }
      if flow.RemoteWindowSize() + f.increment as int > MaxWindowSize {
        if f.StreamId() == 0 {
          ConnectionError(FlowControlError);
        } else {
          StreamError(f.StreamId(), FlowControlError);
        }
        return;
      }
      if f.StreamId() == 0 {
        // The source tests the increment for zero once more here; it
        // cannot be zero at this point.
        CreditConnection(f.increment as int);
      } else {
        CreditStream(f);
      }
    }

    /** WINDOW_UPDATE on stream 0: the connection's window grows by the
      * increment, and if streams were blocked and the window now has
      * credit, they are notified. */
    twostate predicate ConnectionCredited(inc: int)
      reads this, flow, streams.Values, promisedStreams.Values
    {
      var go := old(blockedStreams) != {} && sendBufferEmpty && flow.RemoteWindowSize() > 0;
      && flow.remoteWindow == old(flow.remoteWindow) + inc
      && output == old(output) && state == old(state) && events == old(events)
      && blockedStreams == (if go then {} else old(blockedStreams))
      && streams == old(streams) && promisedStreams == old(promisedStreams)
      && (forall id :: old(GetStream(id)) != null ==>
            GetStream(id).events == old(GetStream(id).events) + (if go && id in old(blockedStreams) then [WriteEvent] else []))
    }

    method CreditConnection(inc: int)
      requires Valid()
      modifies flow`remoteWindow, this`blockedStreams, members`writeBlocked, members`events
      ensures Valid() && ConnectionCredited(inc)
    {
      hide Good, EncodeBlock, H2Connection.Valid, TablesValid, HPacker.Valid, HPackTable.Valid;
      var needNotify := blockedStreams != {};
      flow.UpdateRemoteWindowSize(inc);
      if needNotify && flow.RemoteWindowSize() > 0 {
        NotifyBlockedStreams();
      }
    }

    /** WINDOW_UPDATE on another stream: a client ignores it for a stream
      * it does not hold; a server creates the stream if `cbAccept` takes
      * it, and since a new stream is idle, which takes no WINDOW_UPDATE,
      * that is a connection error whose GOAWAY names the new stream as
      * the last one; a held stream handles the frame. */
    twostate predicate StreamCredited(f: Frame, held: H2Stream?)
      requires f.WindowUpdateFrame?
      reads this, streams.Values, promisedStreams.Values, if held == null then {} else {held, held.flow}
    {
      var id := f.StreamId();
      && (held == null && (!isServer || !accept(id)) ==>
            output == old(output) && state == old(state) && GetStream(id) == null)
      && (held == null && isServer && accept(id) ==>
            && lastStreamId == id && GetStream(id) != null && GetStream(id).state == Idle
            && state == ConnClosed
            && output == old(output) + [GoawayFor(ProtocolError, id)]
            && events == old(events) + (if old(hasErrorCallback) then [ErrorEvent(ProtocolError.Code())] else []))
      && (held != null ==>
            FrameVerdict(old(held.state), old(held.rstStreamReceived), old(held.endStreamReceived), WindowUpdateType) == Accept &&
            old(held.state) != Closed ==>
              held.flow.remoteWindow == old(held.flow.remoteWindow) + f.increment as int)
    }

    method CreditStream(f: Frame)
      requires Valid() && f.WindowUpdateFrame? && f.StreamId() != 0
      modifies this`state, this`events, this`openedStreamCount, this`lastStreamId
      modifies this`streams, this`promisedStreams, this`flows, this`members, this`owner
      modifies this`output, this`sendBufferEmpty, this`blockedStreams, flow`bytesSent, encoder, encoder.table
      modifies flows`remoteWindow
      modifies members`state, members`rstStreamSent, members`writeBlocked, members`events
      ensures Valid() && StreamCredited(f, old(GetStream(f.StreamId())))
    {
      hide Good, EncodeBlock, TablesValid, HPacker.Valid, HPackTable.Valid;
      var id := f.StreamId();
      var s := GetStream(id);
      if s == null {
        if !isServer {
          return;
        }
        // A new stream on the server side.
        s := OpenPeerStream(id);
        if s == null {
          return;
        }
      } else {
        MappedReady(id);
      }
      s.HandleWindowUpdate(f);
    }

    // -------------------------------------------------------------------
    // PUSH_PROMISE and CONTINUATION

    /** PUSH_PROMISE gets past `handlePushFrame`'s checks: it is not on
      * stream 0, promises a stream of the server's (even) kind, and comes
      * on a stream the connection holds that is open or half-closed by us. */
    predicate PushAdmitted(f: Frame)
      requires f.PushPromiseFrame?
      reads this`streams, this`promisedStreams, streams.Values, promisedStreams.Values
    {
      var a := GetStream(f.StreamId());
      && f.StreamId() != 0 && IsPromisedStream(f.promisedStreamId)
      && a != null && (a.state == Open || a.state == HalfClosedL)
    }

    /** What `handlePushFrame` leaves behind: a promise the connection does
      * not admit is a connection error; an admitted one is received. */
    twostate predicate PushFrameHandled(f: Frame)
      requires f.PushPromiseFrame?
      reads this, decoder, decoder.table, streams.Values, promisedStreams.Values
    {
      && (!old(PushAdmitted(f)) ==> ClosedWith(ProtocolError))
      && (old(PushAdmitted(f)) ==> PromiseReceived(f))
    }

    /** `handlePushFrame`: PUSH_PROMISE that fails the checks is a
      * connection error. Swift traps on an unfinished block (no
      * END_HEADERS) when the frame object has never held a block. */
    method HandlePushFrame(f: Frame)
      requires Valid() && f.PushPromiseFrame?
      requires PushAdmitted(f) && !f.hdr.HasEndHeaders() ==> f.pblock.Some?
      modifies this`state, this`events, this`openedStreamCount
      modifies this`streams, this`promisedStreams, this`flows, this`members, this`owner
      modifies this`expectContinuationFrame, this`streamIdOfExpectedContinuation, this`headersBlockBuffer
      modifies this`output, this`sendBufferEmpty, this`blockedStreams, flow`remoteWindow, flow`bytesSent
      modifies encoder, encoder.table, decoder.table
      modifies members`state, members`rstStreamSent, members`events, members`headersReceived, members`headersEnd
      ensures Valid() && PushFrameHandled(f)
    {
      hide Good, EncodeBlock, DecodeBlock, TablesValid, HPacker.Valid, HPackTable.Valid, PromiseReceived;
      if f.StreamId() == 0 {
        ConnectionError(ProtocolError);
        return;
      }
      if !IsPromisedStream(f.promisedStreamId) {
        ConnectionError(ProtocolError);
        return;
      }
      var associated := GetStream(f.StreamId());
      if associated == null {
        ConnectionError(ProtocolError);
        return;
      }
      if associated.state != Open && associated.state != HalfClosedL {
        ConnectionError(ProtocolError);
        return;
      }
      if f.hdr.HasEndHeaders() {
        ReceiveCompletePromise(f);
      } else {
        ReceivePartialPromise(f);
      }
    }

    /** What `handlePushFrame` does with an admitted PUSH_PROMISE: a
      * complete block is decoded (nothing happens if the frame object has
      * no block, and a failure is a COMPRESSION_ERROR), an unfinished one
      * kept for the CONTINUATION frames; then the promised stream is
      * created, reserved by the peer, and told the promised headers. */
    twostate predicate PromiseReceived(f: Frame)
      requires f.PushPromiseFrame?
      reads this, decoder, decoder.table, streams.Values, promisedStreams.Values
    {
      var pid := f.promisedStreamId;
      var r := DecodeBlock(old(decoder.table.Model()).(isEncoder := false), decoder.huffman, BlockOf(f.pblock));
      var delivered := !f.hdr.HasEndHeaders() || (f.pblock.Some? && r.ok);
      && (f.hdr.HasEndHeaders() && f.pblock.None? ==>
            output == old(output) && state == old(state) && GetStream(pid) == old(GetStream(pid)))
      && (f.hdr.HasEndHeaders() && f.pblock.Some? ==> decoder.table.Model() == r.table)
      && (f.hdr.HasEndHeaders() && f.pblock.Some? && !r.ok ==>
            ClosedWith(CompressionError) && GetStream(pid) == old(GetStream(pid)))
      && (!f.hdr.HasEndHeaders() ==>
            expectContinuationFrame && streamIdOfExpectedContinuation == pid && headersBlockBuffer == BlockOf(f.pblock))
      && (delivered ==>
            && output == old(output) && state == old(state)
            && GetStream(pid) != null && fresh(GetStream(pid)) && GetStream(pid).state == ReservedR
            && GetStream(pid).events == (if f.hdr.HasEndHeaders() then [HeadersEvent(r.headers, false)] else []))
    }

    method ReceiveCompletePromise(f: Frame)
      requires Valid() && f.PushPromiseFrame? && f.hdr.HasEndHeaders()
      modifies this`state, this`events, this`openedStreamCount
      modifies this`streams, this`promisedStreams, this`flows, this`members, this`owner
      modifies this`expectContinuationFrame, this`streamIdOfExpectedContinuation, this`headersBlockBuffer
      modifies this`output, this`sendBufferEmpty, this`blockedStreams, flow`remoteWindow, flow`bytesSent
      modifies encoder, encoder.table, decoder.table
      modifies members`state, members`rstStreamSent, members`events, members`headersReceived, members`headersEnd
      ensures Valid() && PromiseReceived(f)
    {
      hide Good, EncodeBlock, DecodeBlock, TablesValid, HPacker.Valid, HPackTable.Valid;
      if f.pblock.None? {
        return;
      }
      var ok, headers := DecodeHeaderBlock(f.pblock.value);
      if ok {
        DeliverPromise(PushPromiseFrame(f.hdr, f.promisedStreamId, f.pblock, headers));
      }
    }

    method ReceivePartialPromise(f: Frame)
      requires Valid() && f.PushPromiseFrame? && !f.hdr.HasEndHeaders() && f.pblock.Some?
      modifies this`state, this`events, this`openedStreamCount
      modifies this`streams, this`promisedStreams, this`flows, this`members, this`owner
      modifies this`expectContinuationFrame, this`streamIdOfExpectedContinuation, this`headersBlockBuffer
      modifies this`output, this`sendBufferEmpty, this`blockedStreams, flow`remoteWindow, flow`bytesSent
      modifies encoder, encoder.table, decoder.table
      modifies members`state, members`rstStreamSent, members`events, members`headersReceived, members`headersEnd
      ensures Valid() && PromiseReceived(f)
    {
      hide Good, EncodeBlock, DecodeBlock, TablesValid, HPacker.Valid, HPackTable.Valid;
      ExpectContinuation(f.promisedStreamId, f.pblock.value);
      DeliverPromise(f);
    }

    /** The promised stream is created and handles the PUSH_PROMISE. */
    method DeliverPromise(f: Frame)
      requires Valid() && f.PushPromiseFrame?
      modifies this`state, this`events, this`openedStreamCount
      modifies this`streams, this`promisedStreams, this`flows, this`members, this`owner
      modifies this`output, this`sendBufferEmpty, this`blockedStreams, flow`remoteWindow, flow`bytesSent, encoder, encoder.table
      ensures Valid() && output == old(output) && state == old(state)
      ensures var s := GetStream(f.promisedStreamId);
        && s != null && fresh(s) && s.state == ReservedR
        && s.events == (if f.hdr.HasEndHeaders() then [HeadersEvent(f.headers, false)] else [])
    {
      hide Good, EncodeBlock, DecodeBlock, TablesValid, HPacker.Valid, HPackTable.Valid;
      var s := CreateStream(f.promisedStreamId);
      s.HandlePush(f);
    }

    /** What `handleContinuationFrame` leaves behind, with `held` the
      * stream the connection held under the frame's identifier: stream 0,
      * or no header block to continue, is a connection error; without a
      * held stream or with an empty fragment nothing changes; otherwise
      * the block is continued. */
    twostate predicate ContinuationFrameHandled(f: Frame, held: H2Stream?)
      requires f.ContinuationFrame?
      reads this, decoder, decoder.table, if held == null then {} else {held}
    {
      var id := f.StreamId();
      && (id == 0 || !old(expectContinuationFrame) ==> ClosedWith(ProtocolError))
      && (id != 0 && old(expectContinuationFrame) && (held == null || |BlockOf(f.cblock)| == 0) ==>
            && output == old(output) && state == old(state)
            && expectContinuationFrame && headersBlockBuffer == old(headersBlockBuffer))
      && (id != 0 && old(expectContinuationFrame) && held != null && |BlockOf(f.cblock)| > 0 ==>
            BlockContinued(f, held))
    }

    /** `handleContinuationFrame`: CONTINUATION on stream 0, or when no
      * header block is unfinished, is a connection error. A frame with a
      * block (the frame object's previous block, if it carries none of its
      * own) on a stream the connection holds extends the buffered block,
      * which the frame ending the headers decodes, a failure being a
      * COMPRESSION_ERROR; any other CONTINUATION is ignored. */
    method HandleContinuationFrame(f: Frame)
      requires Valid() && f.ContinuationFrame?
      modifies this`state, this`events, this`openedStreamCount
      modifies this`streams, this`promisedStreams, this`flows, this`members, this`owner
      modifies this`expectContinuationFrame, this`streamIdOfExpectedContinuation, this`headersBlockBuffer
      modifies this`output, this`sendBufferEmpty, this`blockedStreams, flow`remoteWindow, flow`bytesSent
      modifies encoder, encoder.table, decoder.table
      modifies members`state, members`rstStreamSent, members`events, members`endStreamReceived, members`headersEnd, members`tailersEnd
      ensures Valid() && ContinuationFrameHandled(f, old(GetStream(f.StreamId())))
    {
      hide Good, EncodeBlock, DecodeBlock, TablesValid, HPacker.Valid, HPackTable.Valid, BlockContinued;
      if f.StreamId() == 0 {
        ConnectionError(ProtocolError);
        return;
      }
      if !expectContinuationFrame {
        ConnectionError(ProtocolError);
        return;
      }
      var s := GetStream(f.StreamId());
      if s != null && |BlockOf(f.cblock)| > 0 {
        ContinueBlock(f);
      }
    }

    /** A CONTINUATION fragment appended to the buffered block; with
      * END_HEADERS the whole block is decoded, the continuation lock lifts
      * and the buffer empties, and a stream that expected the rest of its
      * headers hears the decoded headers. */
    twostate predicate BlockContinued(f: Frame, held: H2Stream)
      requires f.ContinuationFrame?
      reads this, decoder, decoder.table, held
    {
      var buf := old(headersBlockBuffer) + BlockOf(f.cblock);
      && (!f.hdr.HasEndHeaders() ==>
            && headersBlockBuffer == buf && expectContinuationFrame && decoder.table.Model() == old(decoder.table.Model())
            && held.events == old(held.events))
      && (f.hdr.HasEndHeaders() ==> BlockFinished(f, held, buf))
    }

    /** The header block `buf` completed by a CONTINUATION with END_HEADERS:
      * decoded into the decoder's table, the buffer emptied on success; the
      * stream holding the block, whose handler returns at its state test,
      * neither finishes its headers nor hears of them. */
    twostate predicate BlockFinished(f: Frame, held: H2Stream, buf: Bytes)
      requires f.ContinuationFrame?
      reads this, decoder, decoder.table, held
    {
      var r := DecodeBlock(old(decoder.table.Model()).(isEncoder := false), decoder.huffman, buf);
      && decoder.table.Model() == r.table
      && (!r.ok ==> ClosedWith(CompressionError) && headersBlockBuffer == buf)
      && (r.ok ==> !expectContinuationFrame && headersBlockBuffer == [])
      && held.events == old(held.events)
      && held.headersEnd == old(held.headersEnd) && held.tailersEnd == old(held.tailersEnd)
    }

    method ContinueBlock(f: Frame)
      requires Valid() && f.ContinuationFrame? && GetStream(f.StreamId()) != null && expectContinuationFrame
      modifies this`state, this`events, this`openedStreamCount
      modifies this`streams, this`promisedStreams, this`flows, this`members, this`owner
      modifies this`expectContinuationFrame, this`streamIdOfExpectedContinuation, this`headersBlockBuffer
      modifies this`output, this`sendBufferEmpty, this`blockedStreams, flow`remoteWindow, flow`bytesSent
      modifies encoder, encoder.table, decoder.table
      modifies members`state, members`rstStreamSent, members`events, members`endStreamReceived, members`headersEnd, members`tailersEnd
      ensures Valid() && BlockContinued(f, old(GetStream(f.StreamId())))
    {
      hide Good, EncodeBlock, DecodeBlock, TablesValid, HPacker.Valid, HPackTable.Valid, BlockFinished;
      if f.hdr.HasEndHeaders() {
        FinishBlock(f);
      } else {
        var s := GetStream(f.StreamId());
        MappedReady(f.StreamId());
        headersBlockBuffer := headersBlockBuffer + BlockOf(f.cblock);
        s.HandleContinuation(f);
      }
    }

    method FinishBlock(f: Frame)
      requires Valid() && f.ContinuationFrame? && f.hdr.HasEndHeaders() && GetStream(f.StreamId()) != null
      modifies this`state, this`events, this`openedStreamCount
      modifies this`streams, this`promisedStreams, this`flows, this`members, this`owner
      modifies this`expectContinuationFrame, this`streamIdOfExpectedContinuation, this`headersBlockBuffer
      modifies this`output, this`sendBufferEmpty, this`blockedStreams, flow`remoteWindow, flow`bytesSent
      modifies encoder, encoder.table, decoder.table
      modifies members`state, members`rstStreamSent, members`events, members`endStreamReceived, members`headersEnd, members`tailersEnd
      ensures Valid() && BlockFinished(f, old(GetStream(f.StreamId())), old(headersBlockBuffer) + BlockOf(f.cblock))
    {
      hide Good, EncodeBlock, DecodeBlock, TablesValid, HPacker.Valid, HPackTable.Valid, FrameVerdict;
      // The source appends the fragment to the buffer before decoding it;
      // the decoder does not look at the buffer, so the order is immaterial.
      var buf := headersBlockBuffer + BlockOf(f.cblock);
      var ok, headers := DecodeHeaderBlock(buf);
      if ok {
        CompleteBlock(ContinuationFrame(f.hdr, f.cblock, headers));
      } else {
        headersBlockBuffer := buf;
      }
    }

    /** The block decoded: the connection stops expecting CONTINUATION
      * frames, empties the buffer and hands the headers to the stream. */
    method CompleteBlock(f: Frame)
      requires Valid() && f.ContinuationFrame? && f.hdr.HasEndHeaders() && GetStream(f.StreamId()) != null
      modifies this`state, this`events, this`openedStreamCount
      modifies this`expectContinuationFrame, this`headersBlockBuffer
      modifies this`output, this`sendBufferEmpty, this`blockedStreams, flow`remoteWindow, flow`bytesSent, encoder, encoder.table
      modifies members`state, members`rstStreamSent, members`events, members`endStreamReceived, members`headersEnd, members`tailersEnd
      ensures Valid() && !expectContinuationFrame && headersBlockBuffer == []
      ensures var held := old(GetStream(f.StreamId()));
        && held.events == old(held.events)
        && held.headersEnd == old(held.headersEnd) && held.tailersEnd == old(held.tailersEnd)
    {
      hide Good, EncodeBlock, DecodeBlock, TablesValid, HPacker.Valid, HPackTable.Valid, FrameVerdict;
      expectContinuationFrame := false;
      headersBlockBuffer := [];
      DeliverContinuation(f);
    }

    /** The stream handles the CONTINUATION that completes its block, and
      * returns at its state test. */
    method DeliverContinuation(f: Frame)
      requires Valid() && f.ContinuationFrame? && f.hdr.HasEndHeaders() && GetStream(f.StreamId()) != null
      modifies this`state, this`events, this`openedStreamCount
      modifies this`output, this`sendBufferEmpty, this`blockedStreams, flow`remoteWindow, flow`bytesSent, encoder, encoder.table
      modifies members`state, members`rstStreamSent, members`events, members`endStreamReceived, members`headersEnd, members`tailersEnd
      ensures Valid()
      ensures var held := old(GetStream(f.StreamId()));
        && held.events == old(held.events)
        && held.headersEnd == old(held.headersEnd) && held.tailersEnd == old(held.tailersEnd)
    {
      hide Good, EncodeBlock, DecodeBlock, TablesValid, HPacker.Valid, HPackTable.Valid;
      var s := GetStream(f.StreamId());
      MappedReady(f.StreamId());
      s.HandleContinuation(f);
    }

    // -------------------------------------------------------------------
    // Frames from the parser

    /** What `onFrame` leaves behind for a frame it hands on: what the
      * handler of the frame's type leaves behind, with `held` the stream
      * the connection held under the frame's identifier and `olds` the
      * streams it held. */
    twostate predicate FrameHandled(f: Frame, held: H2Stream?, olds: set<H2Stream>)
      requires Incoming(f) && old(flow.LocalInRange())
      requires held != null ==> old(held.flow.LocalInRange())
      reads this, flow, decoder, decoder.table, streams.Values, promisedStreams.Values, olds
      reads if held == null then {} else {held, held.flow, held.conn}
    {
      match f
      case DataFrame(_, _) => DataFrameHandled(f, held)
      case HeadersFrame(_, _, _, _, _) => HeadersFrameHandled(f, held)
      case PriorityFrame(_, _) => PriorityFrameHandled(f, held)
      case RstStreamFrame(_, _) => RstFrameHandled(f, held)
      case SettingsFrame(_, _) => SettingsFrameHandled(f)
      case PushPromiseFrame(_, _, _, _) => PushFrameHandled(f)
      case PingFrame(_, _) => PingFrameHandled(f)
      case GoawayFrame(_, _, _, _) => GoawayFrameHandled(f, olds)
      case WindowUpdateFrame(_, _) => WindowUpdateFrameHandled(f, held)
      case ContinuationFrame(_, _, _) => ContinuationFrameHandled(f, held)
    }

    /** `onFrame`: before the peer's SETTINGS only SETTINGS is accepted,
      * anything else closes the connection without a GOAWAY; while a
      * header block is unfinished only its CONTINUATION is accepted,
      * anything else is a connection error; every other frame goes to the
      * handler of its type and the parser is told to go on. */
    method OnFrame(f: Frame) returns (ok: bool)
      requires Valid() && Incoming(f)
      requires f.PushPromiseFrame? && PushAdmitted(f) && !f.hdr.HasEndHeaders() ==> f.pblock.Some?
      modifies this`state, this`events, this`openedStreamCount, this`lastStreamId
      modifies this`streams, this`promisedStreams, this`flows, this`members, this`owner
      modifies this`expectContinuationFrame, this`streamIdOfExpectedContinuation, this`headersBlockBuffer
      modifies this`output, this`sendBufferEmpty, this`blockedStreams
      modifies this`maxRemoteFrameSize, this`initRemoteWindowSize, this`prefaceReceived, this`hasErrorCallback
      modifies flows`localWindow, flows`bytesReceived, flows`remoteWindow, flows`bytesSent
      modifies encoder, encoder.table, decoder.table
      modifies members`state, members`rstStreamSent, members`rstStreamReceived, members`endStreamReceived, members`events
      modifies members`headersReceived, members`headersEnd, members`tailersReceived, members`tailersEnd
      modifies members`writeBlocked, members`attached
      ensures Valid()
      ensures var early := old(state) == Handshake && f.Type() != SettingsType;
        var locked := old(expectContinuationFrame)
          && (f.Type() != ContinuationType || f.StreamId() != old(streamIdOfExpectedContinuation));
        && (ok <==> !early && !locked)
        && (early ==>
              && state == ConnClosed && output == old(output)
              && events == old(events) + (if old(hasErrorCallback) then [ErrorEvent(ProtocolError.Code())] else []))
        && (!early && locked ==> ClosedWith(ProtocolError))
        && (!early && !locked ==> FrameHandled(f, old(GetStream(f.StreamId())), old(streams.Values + promisedStreams.Values)))
    {
      hide Good, EncodeBlock, DecodeBlock, TablesValid, HPacker.Valid, HPackTable.Valid, FrameVerdict, ClosedWith;
      hide HeaderBlockReceived, ConnectionCredited, StreamCredited, PromiseReceived, BlockContinued, Settle;
      hide DataFrameHandled, HeadersFrameHandled, PriorityFrameHandled, RstFrameHandled, SettingsFrameHandled;
      hide PushFrameHandled, PingFrameHandled, GoawayFrameHandled, WindowUpdateFrameHandled, ContinuationFrameHandled;
      if state == Handshake && f.Type() != SettingsType {
        state := ConnClosed;
        if hasErrorCallback {
          events := events + [ErrorEvent(ProtocolError.Code())];
        }
        ok := false;
      } else if expectContinuationFrame
        && (f.Type() != ContinuationType || f.StreamId() != streamIdOfExpectedContinuation) {
        ConnectionError(ProtocolError);
        ok := false;
      } else {
        match f {
          case DataFrame(_, _) => HandleDataFrame(f);
          case HeadersFrame(_, _, _, _, _) => HandleHeadersFrame(f);
          case PriorityFrame(_, _) => HandlePriorityFrame(f);
          case RstStreamFrame(_, _) => HandleRSTStreamFrame(f);
          case SettingsFrame(_, _) => HandleSettingsFrame(f);
          case PushPromiseFrame(_, _, _, _) => HandlePushFrame(f);
          case PingFrame(_, _) => HandlePingFrame(f);
          case GoawayFrame(_, _, _, _) => HandleGoawayFrame(f);
          case WindowUpdateFrame(_, _) => HandleWindowUpdateFrame(f);
          case ContinuationFrame(_, _, _) => HandleContinuationFrame(f);
        }
        ok := true;
      }
    }

    /** `onFrameError`: a malformed frame the parser reports is a stream
      * error or a connection error, as the parser says, and the parser is
      * told to go on. */
    method OnFrameError(hdr: FrameHeader, e: H2Error, stream: bool) returns (ok: bool)
      requires Valid()
      modifies this`state, this`events, this`openedStreamCount, members`state, members`rstStreamSent
      modifies this`output, this`sendBufferEmpty, this`blockedStreams, flow`remoteWindow, flow`bytesSent, encoder, encoder.table
      ensures Valid() && ok
      ensures stream ==> output == old(output) + [RstStreamFor(hdr.streamId, e)] && state == old(state)
      ensures !stream ==> ClosedWith(e)
    {
      hide Good, EncodeBlock, TablesValid, HPacker.Valid, HPackTable.Valid;
      if stream {
        StreamError(hdr.streamId, e);
      } else {
        ConnectionError(e);
      }
      ok := true;
    }

    /** The preface part of `handleInputData`, for a connection that is not
      * upgrading: an open connection parses everything; a server in the
      * handshake first matches the client preface, refusing the
      * connection on a mismatch and waiting while the preface is
      * incomplete; a client in the handshake parses everything; in any
      * other state the octets are dropped. */
    method TakeInput(data: Bytes) returns (r: InputRoute)
      modifies this`state, this`cmpPreface
      ensures old(state) == ConnOpen ==> r == Parse(data) && unchanged(this)
      ensures old(state) == Handshake && (!isServer || old(cmpPreface) == []) ==> r == Parse(data) && unchanged(this)
      ensures old(state) == Handshake && isServer && old(cmpPreface) != [] ==>
        match PrefaceStep(old(cmpPreface), data)
          case Mismatch => r == Refused && state == ConnClosed && cmpPreface == old(cmpPreface)
          case NeedMore(p) => r == Held && state == old(state) && cmpPreface == p
          case Matched(rest) => r == Parse(rest) && state == old(state) && cmpPreface == []
      ensures old(state) != ConnOpen && old(state) != Handshake ==> r == Held && unchanged(this)
    {
      r := Held;
      if state == ConnOpen {
        r := Parse(data);
      } else if state == Handshake {
        if isServer && |cmpPreface| > 0 {
          match PrefaceStep(cmpPreface, data)
            case Mismatch =>
              state := ConnClosed;
              r := Refused;
            case NeedMore(p) =>
              cmpPreface := p;
            case Matched(rest) =>
              cmpPreface := [];
              r := Parse(rest);
        } else {
          r := Parse(data);
        }
      }
    }
  }
}

=== FILE: h2frame.dfy ===
/** HTTP/2 frames (Sources/http/v2/H2Frame.swift): the nine-octet frame
  * header of section 4.1 of RFC 7540 and the ten frame payloads of section 6.
  *
  * The source keeps one mutable object per frame type. Here a frame is a
  * value; `decode` takes the previous value of the reused object and returns
  * the new one, so fields the source leaves untouched (the block of an empty
  * PUSH_PROMISE or CONTINUATION, the debug data of a GOAWAY without any) keep
  * their earlier contents, as they do in the source. The encoders write into
  * a caller's buffer with a running position, as the source does, and are
  * proved against `Wire`, the octets a frame occupies on the wire.
  */
module H2Frame {
  import opened Common
  import opened H2Utils

  const MaxStreamId: uint32 := 0x7FFF_FFFF
  const FrameHeaderSize: nat := 9
  const PriorityPayloadSize: nat := 5
  const RstStreamPayloadSize: nat := 4
  const SettingItemSize: nat := 6
  const PingPayloadSize: nat := 8
  const WindowUpdatePayloadSize: nat := 4
  const DefaultFrameSize: nat := 16384
  const DefaultWindowSize: nat := 65535
  const MaxWindowSize: nat := 2147483647
  /** Largest SETTINGS_MAX_FRAME_SIZE (section 6.5.2 of RFC 7540). */
  const MaxFrameSize: nat := 0xFF_FFFF

  const FlagEndStream: byte := 0x01
  const FlagAck: byte := 0x01
  const FlagEndHeaders: byte := 0x04
  const FlagPadded: byte := 0x08
  const FlagPriority: byte := 0x20

  datatype FrameType =
    | DataType | HeadersType | PriorityType | RstStreamType | SettingsType
    | PushPromiseType | PingType | GoawayType | WindowUpdateType | ContinuationType
  {
    function Code(): byte
    {
      match this
        case DataType => 0
        case HeadersType => 1
        case PriorityType => 2
        case RstStreamType => 3
        case SettingsType => 4
        case PushPromiseType => 5
        case PingType => 6
        case GoawayType => 7
        case WindowUpdateType => 8
        case ContinuationType => 9
    }
  }

  /** `H2FrameType(rawValue:)`: the type with that code, if any. */
  function FrameTypeOf(code: byte): (t: Option<FrameType>)
    ensures t.Some? <==> code <= 9
    ensures t.Some? ==> t.value.Code() == code
  {
    if code == 0 then Some(DataType)
    else if code == 1 then Some(HeadersType)
    else if code == 2 then Some(PriorityType)
    else if code == 3 then Some(RstStreamType)
    else if code == 4 then Some(SettingsType)
    else if code == 5 then Some(PushPromiseType)
    else if code == 6 then Some(PingType)
    else if code == 7 then Some(GoawayType)
    else if code == 8 then Some(WindowUpdateType)
    else if code == 9 then Some(ContinuationType)
    else None
  }

  lemma FrameTypeOfCode(t: FrameType)
    ensures FrameTypeOf(t.Code()) == Some(t)
  {
  }

  const SettingsHeaderTableSize: uint16 := 1
  const SettingsEnablePush: uint16 := 2
  const SettingsMaxConcurrentStreams: uint16 := 3
  const SettingsInitialWindowSize: uint16 := 4
  const SettingsMaxFrameSize: uint16 := 5
  const SettingsMaxHeaderListSize: uint16 := 6

  /** The error codes of section 7 of RFC 7540. */
  datatype H2Error =
    | NoError | ProtocolError | InternalError | FlowControlError | SettingsTimeout
    | StreamClosed | FrameSizeError | RefusedStream | Cancel | CompressionError
    | ConnectError | EnhanceYourCalm | InadequateSecurity | Http11Required
  {
    function Code(): uint32
    {
      match this
        case NoError => 0
        case ProtocolError => 1
        case InternalError => 2
        case FlowControlError => 3
        case SettingsTimeout => 4
        case StreamClosed => 5
        case FrameSizeError => 6
        case RefusedStream => 7
        case Cancel => 8
        case CompressionError => 9
        case ConnectError => 10
        case EnhanceYourCalm => 11
        case InadequateSecurity => 12
        case Http11Required => 13
    }
  }

  /** `flags & flag != 0` for a one-bit `flag`. */
  predicate HasFlag(flags: byte, flag: byte)
    requires flag in {0x01, 0x04, 0x08, 0x20}
  {
    (flags / flag) % 2 == 1
  }

  /** `flags | flag` and `flags & ~flag` for a one-bit `flag`. */
  function WithFlag(flags: byte, flag: byte): (r: byte)
    requires flag in {0x01, 0x04, 0x08, 0x20}
    ensures HasFlag(r, flag)
  {
    if HasFlag(flags, flag) then flags else flags + flag
  }

  function WithoutFlag(flags: byte, flag: byte): (r: byte)
    requires flag in {0x01, 0x04, 0x08, 0x20}
    ensures !HasFlag(r, flag)
  {
    if HasFlag(flags, flag) then flags - flag else flags
  }

  datatype FrameHeader = FrameHeader(length: nat, ftype: byte, flags: byte, streamId: uint32)
  {
    predicate HasPadding() { HasFlag(flags, FlagPadded) }
    predicate HasPriority() { HasFlag(flags, FlagPriority) }
    predicate HasEndHeaders() { HasFlag(flags, FlagEndHeaders) }
    predicate HasEndStream() { HasFlag(flags, FlagEndStream) }
    predicate HasAck() { HasFlag(flags, FlagAck) }
  }

  const EmptyHeader := FrameHeader(0, 0, 0, 0)

  /** The nine header octets: a 24-bit length (the low 24 bits of `length`),
    * the type, the flags and the 32-bit stream identifier, all big-endian. */
  function HeaderBytes(h: FrameHeader): (r: Bytes)
    requires h.length < 0x1_0000_0000
    ensures |r| == FrameHeaderSize
  {
    U24Bytes(h.length) + [h.ftype, h.flags] + U32Bytes(h.streamId)
  }

  /** `FrameHeader.decode` on at least nine octets. The reserved bit of the
    * stream identifier is kept. */
  function DecodeFrameHeader(s: Bytes): (h: FrameHeader)
    requires |s| >= FrameHeaderSize
    ensures h.length < 0x100_0000
  {
    FrameHeader(DecodeU24(s), s[3], s[4], DecodeU32(s[5..]))
  }

  /** The header decoded from nine octets encodes back to them. */
  lemma DecodeFrameHeaderBytes(s: Bytes)
    requires |s| >= FrameHeaderSize
    ensures HeaderBytes(DecodeFrameHeader(s)) == s[..FrameHeaderSize]
  {
    var h := DecodeFrameHeader(s);
    DecodeU24Bytes(s);
    DecodeU32Bytes(s[5..]);
    assert HeaderBytes(h) == s[..3] + s[3..5] + s[5..][..4];
  }

  lemma FrameHeaderRoundTrip(h: FrameHeader, rest: Bytes)
    requires h.length < 0x100_0000
    ensures DecodeFrameHeader(HeaderBytes(h) + rest) == h
  {
    var s := HeaderBytes(h) + rest;
    U24RoundTrip(h.length, s[3..]);
    assert s == U24Bytes(h.length) + s[3..];
    U32RoundTrip(h.streamId, s[9..]);
    assert s[5..] == U32Bytes(h.streamId) + s[9..];
  }

  datatype Priority = Priority(streamId: uint32, weight: uint16, exclusive: bool)

  const DefaultPriority := Priority(0, 16, false)

  datatype Setting = Setting(key: uint16, value: uint32)

  datatype Frame =
    | DataFrame(hdr: FrameHeader, data: Bytes)
    | HeadersFrame(hdr: FrameHeader, pri: Priority, block: Bytes, headers: seq<KeyValuePair>, hsize: nat)
    | PriorityFrame(hdr: FrameHeader, pri: Priority)
    | RstStreamFrame(hdr: FrameHeader, errCode: uint32)
    | SettingsFrame(hdr: FrameHeader, params: seq<Setting>)
    | PushPromiseFrame(hdr: FrameHeader, promisedStreamId: uint32, pblock: Option<Bytes>, headers: seq<KeyValuePair>)
    | PingFrame(hdr: FrameHeader, pingData: Bytes)
    | GoawayFrame(hdr: FrameHeader, lastStreamId: uint32, errCode: uint32, debugData: Bytes)
    | WindowUpdateFrame(hdr: FrameHeader, increment: uint32)
    | ContinuationFrame(hdr: FrameHeader, cblock: Option<Bytes>, headers: seq<KeyValuePair>)
  {
    function Type(): FrameType
    {
      match this
        case DataFrame(_, _) => DataType
        case HeadersFrame(_, _, _, _, _) => HeadersType
        case PriorityFrame(_, _) => PriorityType
        case RstStreamFrame(_, _) => RstStreamType
        case SettingsFrame(_, _) => SettingsType
        case PushPromiseFrame(_, _, _, _) => PushPromiseType
        case PingFrame(_, _) => PingType
        case GoawayFrame(_, _, _, _) => GoawayType
        case WindowUpdateFrame(_, _) => WindowUpdateType
        case ContinuationFrame(_, _, _) => ContinuationType
    }

    function StreamId(): uint32 { hdr.streamId }
    predicate HasEndStream() { hdr.HasEndStream() }
  }

  /** A freshly constructed frame object of each type, as the parser starts
    * with. */
  function NewFrame(t: FrameType): (f: Frame)
    ensures f.Type() == t && f.hdr == EmptyHeader
  {
    match t
      case DataType => DataFrame(EmptyHeader, [])
      case HeadersType => HeadersFrame(EmptyHeader, DefaultPriority, [], [], 0)
      case PriorityType => PriorityFrame(EmptyHeader, DefaultPriority)
      case RstStreamType => RstStreamFrame(EmptyHeader, 0)
      case SettingsType => SettingsFrame(EmptyHeader, [])
      case PushPromiseType => PushPromiseFrame(EmptyHeader, 0, None, [])
      case PingType => PingFrame(EmptyHeader, [0, 0, 0, 0, 0, 0, 0, 0])
      case GoawayType => GoawayFrame(EmptyHeader, 0, 0, [])
      case WindowUpdateType => WindowUpdateFrame(EmptyHeader, 0)
      case ContinuationType => ContinuationFrame(EmptyHeader, None, [])
  }

  function BlockOf(b: Option<Bytes>): Bytes
  {
    if b.Some? then b.value else []
  }

  /** `calcPayloadSize`. */
  function PayloadSize(f: Frame): nat
  {
    match f
      case DataFrame(_, data) => |data|
      case HeadersFrame(hdr, _, block, _, _) =>
        |block| + (if hdr.HasPriority() then PriorityPayloadSize else 0)
      case PriorityFrame(_, _) => PriorityPayloadSize
      case RstStreamFrame(_, _) => RstStreamPayloadSize
      case SettingsFrame(_, params) => SettingItemSize * |params|
      case PushPromiseFrame(_, _, block, _) => 4 + |BlockOf(block)|
      case PingFrame(_, _) => PingPayloadSize
      case GoawayFrame(_, _, _, data) => 8 + |data|
      case WindowUpdateFrame(_, _) => WindowUpdatePayloadSize
      case ContinuationFrame(_, block, _) => |BlockOf(block)|
  }

  /** `getPayloadLength`: the header's length when set, else the computed one. */
  function PayloadLength(f: Frame): nat
  {
    if f.hdr.length > 0 then f.hdr.length else PayloadSize(f)
  }

  /** `encodeHeader(dst, len)` first stores the type and the computed payload
    * size in the frame's own header. */
  function Stamp(f: Frame): (g: Frame)
    ensures g.Type() == f.Type() && g.hdr.ftype == f.Type().Code()
    ensures FrameTypeOf(g.hdr.ftype) == Some(f.Type())
    ensures g.hdr.length == PayloadSize(f) && PayloadSize(g) == PayloadSize(f)
    ensures g.hdr.flags == f.hdr.flags && g.hdr.streamId == f.hdr.streamId
  {
    FrameTypeOfCode(f.Type());
    f.(hdr := f.hdr.(ftype := f.Type().Code(), length := PayloadSize(f)))
  }

  /** The five PRIORITY octets `encodePriority` writes: the dependency masked
    * to 31 bits with bit 31 set for an exclusive dependency, then the low
    * eight bits of the weight as they are (not decremented). */
  function PriorityBytes(p: Priority): (r: Bytes)
    ensures |r| == PriorityPayloadSize
  {
    var dep: uint32 := p.streamId % 0x8000_0000 + (if p.exclusive then 0x8000_0000 else 0);
    U32Bytes(dep) + [p.weight % 0x100]
  }

  /** `decodePriority`: frameSizeError and the default priority below five
    * octets; otherwise bit 31 is the exclusive flag and the weight is the
    * octet plus one. */
  function DecodePriority(s: Bytes): (r: (H2Error, Priority))
    ensures r.0 == (if |s| < PriorityPayloadSize then FrameSizeError else NoError)
    ensures r.0 == FrameSizeError ==> r.1 == DefaultPriority
    ensures r.0 == NoError ==> 1 <= r.1.weight <= 256 && r.1.streamId <= MaxStreamId
  {
    if |s| < PriorityPayloadSize then (FrameSizeError, DefaultPriority)
    else
      var dep := DecodeU32(s);
      (NoError, Priority(dep % 0x8000_0000, (s[4] as int) + 1, dep >= 0x8000_0000))
  }

  /** Encoding then decoding a priority keeps the dependency (masked to 31
    * bits) and the exclusive flag, but the weight comes back as the low eight
    * bits plus one: a weight of 16 is read back as 17. */
  lemma PriorityRoundTrip(p: Priority, rest: Bytes)
    ensures DecodePriority(PriorityBytes(p) + rest)
      == (NoError, Priority(p.streamId % 0x8000_0000, p.weight % 0x100 + 1, p.exclusive))
  {
    var low := p.streamId % 0x8000_0000;
    var dep: uint32 := low + (if p.exclusive then 0x8000_0000 else 0);
    var s := PriorityBytes(p) + rest;
    U32RoundTrip(dep, [p.weight % 0x100] + rest);
    assert s == U32Bytes(dep) + ([p.weight % 0x100] + rest);
    assert DecodeU32(s) == dep;
    assert dep % 0x8000_0000 == low;
    assert s[4] == p.weight % 0x100;
  }

  function SettingBytes(s: Setting): Bytes
  {
    U16Bytes(s.key) + U32Bytes(s.value)
  }

  /** The SETTINGS payload `encodePayload` writes: six octets per parameter,
    * in order. */
  function SettingsBytes(params: seq<Setting>): (r: Bytes)
    ensures |r| == SettingItemSize * |params|
  {
    if params == [] then [] else SettingsBytes(params[..|params| - 1]) + SettingBytes(params[|params| - 1])
  }

  /** The parameters of a SETTINGS payload whose length is a multiple of six,
    * in wire order. */
  function SettingsParams(payload: Bytes): (params: seq<Setting>)
    requires |payload| % SettingItemSize == 0
    ensures |params| == |payload| / SettingItemSize
  {
    if payload == [] then []
    else
      var n := |payload| - SettingItemSize;
      SettingsParams(payload[..n]) + [Setting(DecodeU16(payload[n..]), DecodeU32(payload[n + 2..]))]
  }

  lemma SettingRoundTrip(st: Setting)
    ensures DecodeU16(SettingBytes(st)) == st.key && DecodeU32(SettingBytes(st)[2..]) == st.value
  {
    U16RoundTrip(st.key, U32Bytes(st.value));
    U32RoundTrip(st.value, []);
    assert SettingBytes(st)[2..] == U32Bytes(st.value) + [];
  }

  lemma {:induction false} SettingsRoundTrip(params: seq<Setting>)
    ensures SettingsParams(SettingsBytes(params)) == params
  {
    if params != [] {
      var init := params[..|params| - 1];
      var last := params[|params| - 1];
      var s := SettingsBytes(params);
      var n := |s| - SettingItemSize;
      assert s == SettingsBytes(init) + SettingBytes(last);
      assert s[..n] == SettingsBytes(init);
      assert s[n..] == SettingBytes(last);
      assert s[n + 2..] == SettingBytes(last)[2..];
      SettingsRoundTrip(init);
      SettingRoundTrip(last);
      assert params == init + [last];
    }
  }

  /** Decoding is also the inverse of encoding from the octets' side: the
    * parameters of a payload re-encode to that payload. */
  lemma {:induction false} SettingsBytesOfParams(payload: Bytes)
    requires |payload| % SettingItemSize == 0
    ensures SettingsBytes(SettingsParams(payload)) == payload
  {
    if payload != [] {
      var n := |payload| - SettingItemSize;
      var params := SettingsParams(payload);
      var init := SettingsParams(payload[..n]);
      var last := Setting(DecodeU16(payload[n..]), DecodeU32(payload[n + 2..]));
      assert params == init + [last];
      assert params[..|params| - 1] == init;
      assert SettingsBytes(params) == SettingsBytes(init) + SettingBytes(last);
      SettingsBytesOfParams(payload[..n]);
      DecodeU16Bytes(payload[n..]);
      DecodeU32Bytes(payload[n + 2..]);
      assert payload[n..][..2] == payload[n..n + 2];
      assert payload[n + 2..][..4] == payload[n + 2..];
      assert payload == payload[..n] + (payload[n..n + 2] + payload[n + 2..]);
    }
  }

  /** The payload octets each `encode` writes after the frame header. */
  function PayloadBytes(f: Frame): Bytes
  {
    match f
      case DataFrame(_, data) => data
      case HeadersFrame(hdr, pri, block, _, _) =>
        (if hdr.HasPriority() then PriorityBytes(pri) else []) + block
      case PriorityFrame(_, pri) => PriorityBytes(pri)
      case RstStreamFrame(_, code) => U32Bytes(code)
      case SettingsFrame(_, params) => SettingsBytes(params)
      case PushPromiseFrame(_, promised, block, _) => U32Bytes(promised) + BlockOf(block)
      case PingFrame(_, pingData) => pingData
      case GoawayFrame(_, last, code, data) => U32Bytes(last) + U32Bytes(code) + data
      case WindowUpdateFrame(_, inc) => U32Bytes(inc)
      case ContinuationFrame(_, block, _) => BlockOf(block)
  }

  /** A PING frame carries exactly eight pingData octets. */
  predicate WellFormed(f: Frame)
  {
    f.PingFrame? ==> |f.pingData| == PingPayloadSize
  }

  lemma PayloadSizeIsLength(f: Frame)
    requires WellFormed(f)
    ensures |PayloadBytes(f)| == PayloadSize(f)
  {
  }

  /** Whether `encode` can be asked to encode `f`: its computed payload size
    * must convert to a 32-bit header length. */
  predicate Encodable(f: Frame)
  {
    WellFormed(f) && PayloadSize(f) < 0x1_0000_0000
  }

  /** The octets of `f` on the wire, as `encode` writes them. */
  function Wire(f: Frame): (r: Bytes)
    requires Encodable(f)
    ensures |r| == FrameHeaderSize + PayloadSize(f)
  {
    PayloadSizeIsLength(f);
    HeaderBytes(Stamp(f).hdr) + PayloadBytes(f)
  }

  /** The payload of a padded DATA, HEADERS or PUSH_PROMISE frame without
    * its pad-length octet and padding, or None (protocolError) when the pad
    * length is not below the frame length. */
  function Unpadded(hdr: FrameHeader, payload: Bytes): (r: Option<Bytes>)
    requires |payload| == hdr.length
    ensures !hdr.HasPadding() ==> r == Some(payload)
    ensures hdr.HasPadding() ==> (r.None? <==> hdr.length == 0 || payload[0] >= hdr.length)
    ensures hdr.HasPadding() && r.Some? ==> |r.value| == hdr.length - payload[0] - 1
  {
    if !hdr.HasPadding() then Some(payload)
    // With an empty payload the source reads the pad length past its end;
    // whatever it reads is not below zero, so the frame is rejected.
    else if hdr.length == 0 then None
    else if payload[0] >= hdr.length then None
    else Some(payload[1..hdr.length - payload[0]])
  }

  /** `decode` of each frame type: the error it returns and the new value of
    * the frame object `prev`. The header is always stored first. */
  /** The frame object after `setFrameHeader` alone, as every `decode`
    * leaves it when it rejects the frame. */
  function WithHeader(f: Frame, hdr: FrameHeader): (g: Frame)
    ensures g.Type() == f.Type() && g.hdr == hdr
  {
    f.(hdr := hdr)
  }

  function Decode(hdr: FrameHeader, payload: Bytes, prev: Frame): (r: (H2Error, Frame))
    requires |payload| == hdr.length && FrameTypeOf(hdr.ftype) == Some(prev.Type())
    ensures r.1.Type() == prev.Type() && r.1.hdr == hdr
  {
    var rejected := WithHeader(prev, hdr);
    match prev
      case DataFrame(_, _) =>
        if hdr.streamId == 0 then (ProtocolError, rejected)
        else (match Unpadded(hdr, payload)
          case None => (ProtocolError, rejected)
          case Some(data) => (NoError, DataFrame(hdr, data)))
      case HeadersFrame(_, pri, _, headers, hsize) =>
        if hdr.streamId == 0 then (ProtocolError, rejected)
        else (match Unpadded(hdr, payload)
          case None => (ProtocolError, rejected)
          case Some(rest) =>
            if !hdr.HasPriority() then (NoError, HeadersFrame(hdr, pri, rest, headers, hsize))
            // The dependency is checked for length but not stored.
            else if |rest| < PriorityPayloadSize then (FrameSizeError, rejected)
            else (NoError, HeadersFrame(hdr, pri, rest[PriorityPayloadSize..], headers, hsize)))
      case PriorityFrame(_, _) =>
        if hdr.streamId == 0 then (ProtocolError, rejected)
        else
          var (err, pri) := DecodePriority(payload);
          (err, PriorityFrame(hdr, pri))
      case RstStreamFrame(_, _) =>
        if hdr.streamId == 0 then (ProtocolError, rejected)
        else if hdr.length != RstStreamPayloadSize then (FrameSizeError, rejected)
        else (NoError, RstStreamFrame(hdr, DecodeU32(payload)))
      case SettingsFrame(_, _) =>
        if hdr.streamId != 0 then (ProtocolError, rejected)
        else if hdr.HasAck() && hdr.length != 0 then (FrameSizeError, rejected)
        else if hdr.length % SettingItemSize != 0 then (FrameSizeError, rejected)
        else (NoError, SettingsFrame(hdr, SettingsParams(payload)))
      case PushPromiseFrame(_, _, oldBlock, headers) =>
        if hdr.streamId == 0 then (ProtocolError, rejected)
        else (match Unpadded(hdr, payload)
          case None => (ProtocolError, rejected)
          case Some(rest) =>
            if |rest| < 4 then (FrameSizeError, rejected)
            else
              var block := if |rest| > 4 then Some(rest[4..]) else oldBlock;
              (NoError, PushPromiseFrame(hdr, DecodeU32(rest) % 0x8000_0000, block, headers)))
      case PingFrame(_, _) =>
        if hdr.streamId != 0 then (ProtocolError, rejected)
        else if hdr.length != PingPayloadSize then (FrameSizeError, rejected)
        else (NoError, PingFrame(hdr, payload))
      case GoawayFrame(_, _, _, oldData) =>
        if hdr.streamId != 0 then (ProtocolError, rejected)
        else if hdr.length < 8 then (FrameSizeError, rejected)
        else
          var data := if hdr.length > 8 then payload[8..] else oldData;
          (NoError, GoawayFrame(hdr, DecodeU32(payload) % 0x8000_0000, DecodeU32(payload[4..]), data))
      case WindowUpdateFrame(_, _) =>
        if hdr.length != WindowUpdatePayloadSize then (FrameSizeError, rejected)
        else (NoError, WindowUpdateFrame(hdr, DecodeU32(payload) % 0x8000_0000))
      case ContinuationFrame(_, oldBlock, headers) =>
        if hdr.streamId == 0 then (ProtocolError, rejected)
        else (NoError, ContinuationFrame(hdr, if hdr.length > 0 then Some(payload) else oldBlock, headers))
  }

  /** Frames that must not be on stream 0, and frames that must be. */
  predicate NeedsStream(t: FrameType)
  {
    t in {DataType, HeadersType, PriorityType, RstStreamType, PushPromiseType, ContinuationType}
  }

  predicate NeedsConnection(t: FrameType)
  {
    t in {SettingsType, PingType, GoawayType}
  }

  /** The stream-identifier scope of each frame type is enforced with
    * protocolError, before any other check. */
  lemma DecodeStreamScope(hdr: FrameHeader, payload: Bytes, prev: Frame)
    requires |payload| == hdr.length && FrameTypeOf(hdr.ftype) == Some(prev.Type())
    ensures NeedsStream(prev.Type()) && hdr.streamId == 0 ==> Decode(hdr, payload, prev).0 == ProtocolError
    ensures NeedsConnection(prev.Type()) && hdr.streamId != 0 ==> Decode(hdr, payload, prev).0 == ProtocolError
    ensures prev.WindowUpdateFrame? ==>
      (Decode(hdr, payload, prev).0 == NoError <==> hdr.length == WindowUpdatePayloadSize)
  {
  }

  /** The length checks of RST_STREAM, PING, WINDOW_UPDATE, GOAWAY and
    * SETTINGS, on frames whose stream scope is right. */
  lemma DecodeFrameSizeErrors(hdr: FrameHeader, payload: Bytes, prev: Frame)
    requires |payload| == hdr.length && FrameTypeOf(hdr.ftype) == Some(prev.Type())
    requires NeedsStream(prev.Type()) ==> hdr.streamId != 0
    requires NeedsConnection(prev.Type()) ==> hdr.streamId == 0
    ensures var err := Decode(hdr, payload, prev).0;
      && (prev.RstStreamFrame? ==> (err == FrameSizeError <==> hdr.length != 4))
      && (prev.PingFrame? ==> (err == FrameSizeError <==> hdr.length != 8))
      && (prev.WindowUpdateFrame? ==> (err == FrameSizeError <==> hdr.length != 4))
      && (prev.GoawayFrame? ==> (err == FrameSizeError <==> hdr.length < 8))
      && (prev.SettingsFrame? ==>
            (err == FrameSizeError <==> (hdr.HasAck() && hdr.length != 0) || hdr.length % 6 != 0))
      && (prev.SettingsFrame? && err == NoError ==> |Decode(hdr, payload, prev).1.params| == hdr.length / 6)
  {
  }

  /** Padding: with PADDED set, a pad length not below the frame length is a
    * protocolError; otherwise the usable payload is length - padLen - 1
    * octets. */
  lemma DecodePadding(hdr: FrameHeader, payload: Bytes, prev: Frame)
    requires |payload| == hdr.length && FrameTypeOf(hdr.ftype) == Some(prev.Type())
    requires prev.DataFrame? || prev.HeadersFrame? || prev.PushPromiseFrame?
    requires hdr.streamId != 0 && hdr.HasPadding()
    ensures hdr.length == 0 || payload[0] >= hdr.length ==> Decode(hdr, payload, prev).0 == ProtocolError
    ensures prev.DataFrame? && hdr.length > 0 && payload[0] < hdr.length ==>
      Decode(hdr, payload, prev) == (NoError, DataFrame(hdr, payload[1..hdr.length - payload[0]]))
  {
  }

  /** The 31-bit masks applied on decode: the window increment, the GOAWAY
    * last stream id and the PUSH_PROMISE promised stream id (read after the
    * pad-length octet) keep the low 31 bits of their 32-bit field. */
  lemma DecodeMasks(hdr: FrameHeader, payload: Bytes, prev: Frame)
    requires |payload| == hdr.length && FrameTypeOf(hdr.ftype) == Some(prev.Type())
    requires Decode(hdr, payload, prev).0 == NoError
    ensures var f := Decode(hdr, payload, prev).1;
      && (f.WindowUpdateFrame? ==> f.increment == DecodeU32(payload) % 0x8000_0000)
      && (f.GoawayFrame? ==> f.lastStreamId == DecodeU32(payload) % 0x8000_0000)
      && (f.PushPromiseFrame? ==>
            && Unpadded(hdr, payload).Some? && |Unpadded(hdr, payload).value| >= 4
            && f.promisedStreamId == DecodeU32(Unpadded(hdr, payload).value) % 0x8000_0000
            && f.promisedStreamId <= MaxStreamId)
  {
  }

  /** Which frames decode back to what was encoded: those the encoder can
    * produce without padding, with stream scope and lengths a decoder
    * accepts, and with every 31-bit field in range. */
  predicate RoundTrips(f: Frame)
  {
    && Encodable(f)
    && PayloadSize(f) < 0x100_0000
    && ((f.DataFrame? || f.HeadersFrame? || f.PushPromiseFrame?) ==> !f.hdr.HasPadding())
    && (NeedsStream(f.Type()) ==> f.hdr.streamId != 0)
    && (NeedsConnection(f.Type()) ==> f.hdr.streamId == 0)
    && (f.SettingsFrame? && f.hdr.HasAck() ==> f.params == [])
    && (f.PushPromiseFrame? ==> f.promisedStreamId <= MaxStreamId)
    && (f.GoawayFrame? ==> f.lastStreamId <= MaxStreamId)
    && (f.WindowUpdateFrame? ==> f.increment <= MaxStreamId)
  }

  /** The header and payload `Decode` sees for the wire form of `f`. */
  lemma WireSplit(f: Frame)
    requires RoundTrips(f)
    ensures DecodeFrameHeader(Wire(f)) == Stamp(f).hdr
    ensures FrameTypeOf(Stamp(f).hdr.ftype) == Some(f.Type())
    ensures Wire(f)[FrameHeaderSize..] == PayloadBytes(f)
  {
    FrameHeaderRoundTrip(Stamp(f).hdr, PayloadBytes(f));
    FrameTypeOfCode(f.Type());
  }

  /** Decoding the wire form of a frame gives the frame back, with the
    * header `encode` stamped on it, for DATA, RST_STREAM, SETTINGS, PING and
    * WINDOW_UPDATE. */
  lemma DecodeWireExact(f: Frame, prev: Frame)
    requires RoundTrips(f) && prev.Type() == f.Type()
    requires f.DataFrame? || f.RstStreamFrame? || f.SettingsFrame? || f.PingFrame? || f.WindowUpdateFrame?
    ensures Decode(Stamp(f).hdr, Wire(f)[FrameHeaderSize..], prev) == (NoError, Stamp(f))
  {
    WireSplit(f);
    var payload := PayloadBytes(f);
    match f
      case DataFrame(_, _) =>
      case RstStreamFrame(_, code) =>
        U32RoundTrip(code, []);
        assert payload == U32Bytes(code) + [];
      case SettingsFrame(_, params) =>
        SettingsRoundTrip(params);
      case PingFrame(_, _) =>
      case WindowUpdateFrame(_, inc) =>
        U32RoundTrip(inc, []);
        assert payload == U32Bytes(inc) + [];
  }

  /** HEADERS: the block comes back; the dependency is checked for length
    * but not stored, so the object keeps its earlier one. */
  lemma DecodeWireHeaders(f: Frame, prev: Frame)
    requires RoundTrips(f) && f.HeadersFrame? && prev.HeadersFrame?
    ensures var r := Decode(Stamp(f).hdr, Wire(f)[FrameHeaderSize..], prev);
      r == (NoError, HeadersFrame(Stamp(f).hdr, prev.pri, f.block, prev.headers, prev.hsize))
  {
    WireSplit(f);
    var hdr := Stamp(f).hdr;
    var payload := PayloadBytes(f);
    assert hdr.HasPriority() == f.hdr.HasPriority() && !hdr.HasPadding();
    assert Unpadded(hdr, payload) == Some(payload);
    if f.hdr.HasPriority() {
      assert payload == PriorityBytes(f.pri) + f.block;
      assert payload[PriorityPayloadSize..] == f.block;
    } else {
      assert payload == f.block;
    }
  }

  /** PRIORITY: the dependency and exclusive flag come back, but the weight
    * is read back one higher than the eight bits written (16 becomes 17). */
  lemma DecodeWirePriority(f: Frame, prev: Frame)
    requires RoundTrips(f) && f.PriorityFrame? && prev.PriorityFrame?
    ensures var r := Decode(Stamp(f).hdr, Wire(f)[FrameHeaderSize..], prev);
      r == (NoError, PriorityFrame(Stamp(f).hdr,
        Priority(f.pri.streamId % 0x8000_0000, f.pri.weight % 0x100 + 1, f.pri.exclusive)))
  {
    WireSplit(f);
    PriorityRoundTrip(f.pri, []);
    assert PayloadBytes(f) == PriorityBytes(f.pri) + [];
  }

  /** PUSH_PROMISE: the promised stream comes back; an empty block leaves the
    * object's earlier block in place. */
  lemma DecodeWirePushPromise(f: Frame, prev: Frame)
    requires RoundTrips(f) && f.PushPromiseFrame? && prev.PushPromiseFrame?
    ensures var r := Decode(Stamp(f).hdr, Wire(f)[FrameHeaderSize..], prev);
      r == (NoError, PushPromiseFrame(Stamp(f).hdr, f.promisedStreamId,
        if BlockOf(f.pblock) == [] then prev.pblock else Some(BlockOf(f.pblock)), prev.headers))
  {
    WireSplit(f);
    var payload := PayloadBytes(f);
    U32RoundTrip(f.promisedStreamId, BlockOf(f.pblock));
    assert payload[4..] == BlockOf(f.pblock);
  }

  /** GOAWAY: last stream and error code come back; empty debug data leaves
    * the object's earlier data in place. */
  lemma DecodeWireGoaway(f: Frame, prev: Frame)
    requires RoundTrips(f) && f.GoawayFrame? && prev.GoawayFrame?
    ensures var r := Decode(Stamp(f).hdr, Wire(f)[FrameHeaderSize..], prev);
      r == (NoError, GoawayFrame(Stamp(f).hdr, f.lastStreamId, f.errCode,
        if f.debugData == [] then prev.debugData else f.debugData))
  {
    WireSplit(f);
    var hdr := Stamp(f).hdr;
    var payload := PayloadBytes(f);
    assert payload == U32Bytes(f.lastStreamId) + (U32Bytes(f.errCode) + f.debugData);
    assert payload[4..] == U32Bytes(f.errCode) + f.debugData;
    assert payload[8..] == f.debugData;
    U32RoundTrip(f.lastStreamId, U32Bytes(f.errCode) + f.debugData);
    U32RoundTrip(f.errCode, f.debugData);
    assert hdr.streamId == 0 && hdr.length == 8 + |f.debugData|;
    var data := if hdr.length > 8 then payload[8..] else prev.debugData;
    assert Decode(hdr, payload, prev) == (NoError, GoawayFrame(hdr, DecodeU32(payload) % 0x8000_0000, DecodeU32(payload[4..]), data));
  }

  /** CONTINUATION: the block comes back; an empty one leaves the object's
    * earlier block in place. */
  lemma DecodeWireContinuation(f: Frame, prev: Frame)
    requires RoundTrips(f) && f.ContinuationFrame? && prev.ContinuationFrame?
    ensures var r := Decode(Stamp(f).hdr, Wire(f)[FrameHeaderSize..], prev);
      r == (NoError, ContinuationFrame(Stamp(f).hdr,
        if BlockOf(f.cblock) == [] then prev.cblock else Some(BlockOf(f.cblock)), prev.headers))
  {
    WireSplit(f);
  }

  // ---------------------------------------------------------------------
  // Encoders: each writes into `dst`, of which the caller says `len` octets
  // are available, and returns the octets written or -1.

  /** Copies `src` into `dst` at `off` (the source's `memcpy`). */
  method WriteBytes(dst: array<byte>, off: nat, src: Bytes)
    requires off + |src| <= dst.Length
    modifies dst
    ensures dst[off..off + |src|] == src
    ensures forall i :: 0 <= i < dst.Length && !(off <= i < off + |src|) ==> dst[i] == old(dst[i])
  {
    forall i | 0 <= i < |src| {
      dst[off + i] := src[i];
    }
  }

  /** `FrameHeader.encode`. */
  method EncodeFrameHeader(h: FrameHeader, dst: array<byte>, len: int) returns (ret: int)
    requires len <= dst.Length && h.length < 0x1_0000_0000
    modifies dst
    ensures ret == (if len < FrameHeaderSize then -1 else FrameHeaderSize)
    ensures ret >= 0 ==> dst[..FrameHeaderSize] == HeaderBytes(h)
    ensures forall i :: FrameHeaderSize <= i < dst.Length ==> dst[i] == old(dst[i])
  {
    if len < FrameHeaderSize {
      return -1;
    }
    EncodeU24(dst, 0, h.length);
    dst[3] := h.ftype;
    dst[4] := h.flags;
    EncodeU32(dst, 5, h.streamId);
    assert dst[..FrameHeaderSize] == dst[0..3] + dst[3..5] + dst[5..9];
    return FrameHeaderSize;
  }

  /** `H2Frame.encodePriority`, writing at `off`. */
  method EncodePriority(dst: array<byte>, off: nat, len: int, p: Priority) returns (ret: int)
    requires off + Max(len, 0) <= dst.Length
    modifies dst
    ensures ret == (if len < PriorityPayloadSize then -1 else PriorityPayloadSize)
    ensures ret >= 0 ==> dst[off..off + PriorityPayloadSize] == PriorityBytes(p)
    ensures forall i :: 0 <= i < dst.Length && !(off <= i < off + PriorityPayloadSize) ==> dst[i] == old(dst[i])
  {
    if len < PriorityPayloadSize {
      return -1;
    }
    var dep: uint32 := p.streamId % 0x8000_0000;
    if p.exclusive {
      dep := dep + 0x8000_0000;
    }
    EncodeU32(dst, off, dep);
    dst[off + 4] := p.weight % 0x100;
    assert dst[off..off + PriorityPayloadSize] == dst[off..off + 4] + [dst[off + 4]];
    return PriorityPayloadSize;
  }

  /** One parameter of a SETTINGS payload: its key, then its value. */
  method EncodeSetting(dst: array<byte>, at: nat, s: Setting)
    requires at + SettingItemSize <= dst.Length
    modifies dst
    ensures dst[at..at + SettingItemSize] == SettingBytes(s)
    ensures forall i :: 0 <= i < dst.Length && !(at <= i < at + SettingItemSize) ==> dst[i] == old(dst[i])
  {
    EncodeU16(dst, at, s.key);
    EncodeU32(dst, at + 2, s.value);
    assert dst[at..at + SettingItemSize] == dst[at..at + 2] + dst[at + 2..at + 6];
  }

  /** `SettingsFrame.encodePayload`, writing at `off`. */
  method EncodeSettingsPayload(dst: array<byte>, off: nat, len: nat, params: seq<Setting>) returns (ret: int)
    requires off + len <= dst.Length
    modifies dst
    ensures ret == (if len < SettingItemSize * |params| then -1 else SettingItemSize * |params|)
    ensures ret >= 0 ==> dst[off..off + ret] == SettingsBytes(params)
    ensures forall i :: 0 <= i < dst.Length && !(off <= i < off + len) ==> dst[i] == old(dst[i])
  {
    var pos := 0;
    var k := 0;
    while k < |params|
      invariant 0 <= k <= |params| && pos == SettingItemSize * k
      invariant pos <= len
      invariant dst[off..off + pos] == SettingsBytes(params[..k])
      invariant forall i :: 0 <= i < dst.Length && !(off <= i < off + len) ==> dst[i] == old(dst[i])
    {
      if pos + SettingItemSize > len {
        assert SettingItemSize * |params| >= SettingItemSize * (k + 1);
        return -1;
      }
      ghost var before := dst[off..off + pos];
      EncodeSetting(dst, off + pos, params[k]);
      assert dst[off..off + pos] == before;
      assert dst[off..off + pos + SettingItemSize] == before + dst[off + pos..off + pos + SettingItemSize];
      assert params[..k + 1][..k] == params[..k];
      assert SettingsBytes(params[..k + 1]) == SettingsBytes(params[..k]) + SettingBytes(params[k]);
      pos := pos + SettingItemSize;
      k := k + 1;
    }
    assert params[..k] == params;
    return pos;
  }

  /** Octets `a[..n]` hold the wire form of `f` when they hold its header
    * and then its payload. */
  lemma WireFromParts(f: Frame, a: Bytes, n: nat)
    requires Encodable(f) && n == FrameHeaderSize + PayloadSize(f) && n <= |a|
    requires a[..FrameHeaderSize] == HeaderBytes(Stamp(f).hdr)
    requires a[FrameHeaderSize..n] == PayloadBytes(f)
    ensures a[..n] == Wire(f)
  {
    assert a[..n] == a[..FrameHeaderSize] + a[FrameHeaderSize..n];
  }

  /** What every `encode` promises: -1 exactly when the header and payload
    * do not fit in `len` octets, otherwise the frame's wire octets. */
  ghost predicate Encoded(f: Frame, len: int, ret: int, written: Bytes)
    requires Encodable(f)
  {
    && (ret == -1 <==> len < FrameHeaderSize + PayloadSize(f))
    && (ret >= 0 ==> ret == |Wire(f)| && ret <= |written| && written[..ret] == Wire(f))
  }

  /** `DataFrame.encode`. */
  method EncodeData(f: Frame, dst: array<byte>, len: int) returns (ret: int)
    requires f.DataFrame? && Encodable(f) && len <= dst.Length
    modifies dst
    ensures Encoded(f, len, ret, dst[..])
  {
    ret := EncodeFrameHeader(Stamp(f).hdr, dst, len);
    if ret < 0 {
      return -1;
    }
    var pos := ret;
    if len - pos < |f.data| {
      return -1;
    }
    WriteBytes(dst, pos, f.data);
    pos := pos + |f.data|;
    WireFromParts(f, dst[..], pos);
    return pos;
  }

  /** `HeadersFrame.encode(dst, len)`. */
  method EncodeHeaders(f: Frame, dst: array<byte>, len: int) returns (ret: int)
    requires f.HeadersFrame? && Encodable(f) && len <= dst.Length
    modifies dst
    ensures Encoded(f, len, ret, dst[..])
  {
    ret := EncodeFrameHeader(Stamp(f).hdr, dst, len);
    if ret < 0 {
      return -1;
    }
    var pos := ret;
    ghost var head := dst[..FrameHeaderSize];
    if f.hdr.HasPriority() {
      ret := EncodePriority(dst, pos, len - pos, f.pri);
      if ret < 0 {
        return -1;
      }
      pos := pos + ret;
    }
    if len - pos < |f.block| {
      return -1;
    }
    ghost var pre := dst[FrameHeaderSize..pos];
    WriteBytes(dst, pos, f.block);
    assert dst[FrameHeaderSize..pos] == pre;
    assert dst[FrameHeaderSize..pos + |f.block|] == dst[FrameHeaderSize..pos] + dst[pos..pos + |f.block|];
    pos := pos + |f.block|;
    assert dst[..FrameHeaderSize] == head;
    WireFromParts(f, dst[..], pos);
    return pos;
  }

  /** `PriorityFrame.encode`. */
  method EncodePriorityFrame(f: Frame, dst: array<byte>, len: int) returns (ret: int)
    requires f.PriorityFrame? && len <= dst.Length
    modifies dst
    ensures Encoded(f, len, ret, dst[..])
  {
    ret := EncodeFrameHeader(Stamp(f).hdr, dst, len);
    if ret < 0 {
      return -1;
    }
    var pos := ret;
    ret := EncodePriority(dst, pos, len - pos, f.pri);
    if ret < 0 {
      return -1;
    }
    pos := pos + ret;
    WireFromParts(f, dst[..], pos);
    return pos;
  }

  /** `RSTStreamFrame.encode`: checks only the header and writes its four
    * payload octets regardless, so its caller must provide room for them. */
  method EncodeRstStream(f: Frame, dst: array<byte>, len: int) returns (ret: int)
    requires f.RstStreamFrame? && len <= dst.Length
    requires len >= FrameHeaderSize ==> dst.Length >= FrameHeaderSize + RstStreamPayloadSize
    modifies dst
    ensures ret == -1 <==> len < FrameHeaderSize
    ensures ret >= 0 ==> ret == |Wire(f)| && dst[..ret] == Wire(f)
  {
    ret := EncodeFrameHeader(Stamp(f).hdr, dst, len);
    if ret < 0 {
      return -1;
    }
    var pos := ret;
    EncodeU32(dst, pos, f.errCode);
    pos := pos + 4;
    WireFromParts(f, dst[..], pos);
    return pos;
  }

  /** `SettingsFrame.encode`. */
  method EncodeSettings(f: Frame, dst: array<byte>, len: int) returns (ret: int)
    requires f.SettingsFrame? && Encodable(f) && len <= dst.Length
    modifies dst
    ensures Encoded(f, len, ret, dst[..])
  {
    ret := EncodeFrameHeader(Stamp(f).hdr, dst, len);
    if ret < 0 {
      return -1;
    }
    var pos := ret;
    ret := EncodeSettingsPayload(dst, pos, len - pos, f.params);
    if ret < 0 {
      return -1;
    }
    pos := pos + ret;
    WireFromParts(f, dst[..], pos);
    return pos;
  }

  /** `PushPromiseFrame.encode`. */
  method EncodePushPromise(f: Frame, dst: array<byte>, len: int) returns (ret: int)
    requires f.PushPromiseFrame? && Encodable(f) && len <= dst.Length
    modifies dst
    ensures Encoded(f, len, ret, dst[..])
  {
    ret := EncodeFrameHeader(Stamp(f).hdr, dst, len);
    if ret < 0 {
      return -1;
    }
    var pos := ret;
    if len - pos < PayloadSize(f) {
      return -1;
    }
    ghost var head := dst[..FrameHeaderSize];
    var block := BlockOf(f.pblock);
    EncodeU32(dst, pos, f.promisedStreamId);
    pos := pos + 4;
    ghost var pre := dst[FrameHeaderSize..pos];
    WriteBytes(dst, pos, block);
    assert dst[FrameHeaderSize..pos] == pre;
    assert dst[FrameHeaderSize..pos + |block|] == dst[FrameHeaderSize..pos] + dst[pos..pos + |block|];
    pos := pos + |block|;
    assert dst[..FrameHeaderSize] == head;
    WireFromParts(f, dst[..], pos);
    return pos;
  }

  /** `PingFrame.encode`. */
  method EncodePing(f: Frame, dst: array<byte>, len: int) returns (ret: int)
    requires f.PingFrame? && Encodable(f) && len <= dst.Length
    modifies dst
    ensures Encoded(f, len, ret, dst[..])
  {
    ret := EncodeFrameHeader(Stamp(f).hdr, dst, len);
    if ret < 0 {
      return -1;
    }
    var pos := ret;
    if len - pos < PingPayloadSize {
      return -1;
    }
    WriteBytes(dst, pos, f.pingData);
    pos := pos + PingPayloadSize;
    WireFromParts(f, dst[..], pos);
    return pos;
  }

  /** `GoawayFrame.encode`. */
  method EncodeGoaway(f: Frame, dst: array<byte>, len: int) returns (ret: int)
    requires f.GoawayFrame? && Encodable(f) && len <= dst.Length
    modifies dst
    ensures Encoded(f, len, ret, dst[..])
  {
    ret := EncodeFrameHeader(Stamp(f).hdr, dst, len);
    if ret < 0 {
      return -1;
    }
    var pos := ret;
    if len - pos < PayloadSize(f) {
      return -1;
    }
    ghost var head := dst[..FrameHeaderSize];
    EncodeU32(dst, pos, f.lastStreamId);
    EncodeU32(dst, pos + 4, f.errCode);
    ghost var pre := dst[FrameHeaderSize..pos + 8];
    assert pre == U32Bytes(f.lastStreamId) + U32Bytes(f.errCode) by {
      assert pre == dst[FrameHeaderSize..pos + 4] + dst[pos + 4..pos + 8];
    }
    WriteBytes(dst, pos + 8, f.debugData);
    assert dst[FrameHeaderSize..pos + 8] == pre;
    assert dst[FrameHeaderSize..pos + 8 + |f.debugData|]
      == dst[FrameHeaderSize..pos + 8] + dst[pos + 8..pos + 8 + |f.debugData|];
    pos := pos + 8 + |f.debugData|;
    assert dst[..FrameHeaderSize] == head;
    WireFromParts(f, dst[..], pos);
    return pos;
  }

  /** `WindowUpdateFrame.encode`. */
  method EncodeWindowUpdate(f: Frame, dst: array<byte>, len: int) returns (ret: int)
    requires f.WindowUpdateFrame? && len <= dst.Length
    modifies dst
    ensures Encoded(f, len, ret, dst[..])
  {
    ret := EncodeFrameHeader(Stamp(f).hdr, dst, len);
    if ret < 0 {
      return -1;
    }
    var pos := ret;
    if len - pos < WindowUpdatePayloadSize {
      return -1;
    }
    EncodeU32(dst, pos, f.increment);
    pos := pos + 4;
    WireFromParts(f, dst[..], pos);
    return pos;
  }

  /** `ContinuationFrame.encode`. */
  method EncodeContinuation(f: Frame, dst: array<byte>, len: int) returns (ret: int)
    requires f.ContinuationFrame? && Encodable(f) && len <= dst.Length
    modifies dst
    ensures Encoded(f, len, ret, dst[..])
  {
    ret := EncodeFrameHeader(Stamp(f).hdr, dst, len);
    if ret < 0 {
      return -1;
    }
    var pos := ret;
    var block := BlockOf(f.cblock);
    if len - pos < |block| {
      return -1;
    }
    WriteBytes(dst, pos, block);
    pos := pos + |block|;
    WireFromParts(f, dst[..], pos);
    return pos;
  }

  /** The virtual `encode`, dispatched on the frame's type. */
  method Encode(f: Frame, dst: array<byte>, len: int) returns (ret: int)
    requires Encodable(f) && len <= dst.Length
    requires f.RstStreamFrame? && len >= FrameHeaderSize ==> dst.Length >= FrameHeaderSize + RstStreamPayloadSize
    modifies dst
    ensures !f.RstStreamFrame? ==> Encoded(f, len, ret, dst[..])
    ensures f.RstStreamFrame? ==> (ret == -1 <==> len < FrameHeaderSize)
    ensures ret >= 0 ==> ret == |Wire(f)| && dst[..ret] == Wire(f)
  {
    match f {
      case DataFrame(_, _) => ret := EncodeData(f, dst, len);
      case HeadersFrame(_, _, _, _, _) => ret := EncodeHeaders(f, dst, len);
      case PriorityFrame(_, _) => ret := EncodePriorityFrame(f, dst, len);
      case RstStreamFrame(_, _) => ret := EncodeRstStream(f, dst, len);
      case SettingsFrame(_, _) => ret := EncodeSettings(f, dst, len);
      case PushPromiseFrame(_, _, _, _) => ret := EncodePushPromise(f, dst, len);
      case PingFrame(_, _) => ret := EncodePing(f, dst, len);
      case GoawayFrame(_, _, _, _) => ret := EncodeGoaway(f, dst, len);
      case WindowUpdateFrame(_, _) => ret := EncodeWindowUpdate(f, dst, len);
      case ContinuationFrame(_, _, _) => ret := EncodeContinuation(f, dst, len);
    }
  }

  /** `HeadersFrame.encode(dst, len, bsize)`: only the frame header (with
    * length `bsize`, plus five with PRIORITY) and the dependency, for a
    * header block the caller has already placed after them. */
  method EncodeHeadersPrefix(f: Frame, dst: array<byte>, len: int, bsize: nat) returns (ret: int)
    requires f.HeadersFrame? && len <= dst.Length && bsize + PriorityPayloadSize < 0x1_0000_0000
    modifies dst
    ensures var n := if f.hdr.HasPriority() then FrameHeaderSize + PriorityPayloadSize else FrameHeaderSize;
      && (ret == -1 <==> len < n)
      && (ret >= 0 ==> ret == n && dst[..ret] == HeadersPrefix(f, bsize))
  {
    var h := Stamp(f.(block := seq(bsize, _ => 0))).hdr;
    ret := EncodeFrameHeader(h, dst, len);
    if ret < 0 {
      return -1;
    }
    var pos := ret;
    if f.hdr.HasPriority() {
      ghost var head := dst[..pos];
      ret := EncodePriority(dst, pos, len - pos, f.pri);
      if ret < 0 {
        return -1;
      }
      assert dst[..pos] == head;
      assert dst[..pos + ret] == dst[..pos] + dst[pos..pos + ret];
      pos := pos + ret;
    }
    return pos;
  }

  /** The octets `EncodeHeadersPrefix` writes: the header of a HEADERS frame
    * whose block is `bsize` octets long, then its dependency if flagged. */
  function HeadersPrefix(f: Frame, bsize: nat): Bytes
    requires f.HeadersFrame? && bsize + PriorityPayloadSize < 0x1_0000_0000
  {
    var h := Stamp(f.(block := seq(bsize, _ => 0))).hdr;
    HeaderBytes(h) + (if f.hdr.HasPriority() then PriorityBytes(f.pri) else [])
  }

  /** Placing a header block after the prefix gives the wire form of the
    * HEADERS frame carrying that block. */
  lemma HeadersPrefixThenBlock(f: Frame, block: Bytes)
    requires f.HeadersFrame? && |block| + PriorityPayloadSize < 0x1_0000_0000
    ensures Encodable(f.(block := block))
    ensures HeadersPrefix(f, |block|) + block == Wire(f.(block := block))
  {
  }

  /** A WINDOW_UPDATE frame is 13 octets on the wire, a PING frame 17. */
  lemma FixedFrameSizes(f: Frame)
    requires Encodable(f)
    ensures f.WindowUpdateFrame? ==> |Wire(f)| == 13
    ensures f.PingFrame? ==> |Wire(f)| == 17
    ensures f.RstStreamFrame? ==> |Wire(f)| == 13
    ensures f.PriorityFrame? ==> |Wire(f)| == 14
  {
  }
}

=== FILE: h2utils.dfy ===
/** Big-endian integer helpers of the HTTP/2 wire format
  * (Sources/http/v2/H2Utils.swift). The encoders write into a caller's
  * buffer at an offset, as the source does; the decoders read from the
  * start of a byte sequence.
  */
module H2Utils {
  import opened Common

  /** A header field: `KeyValuePair` of the source. */
  datatype KeyValuePair = KeyValuePair(name: string, value: string)

  /** The four octets of `x`, most significant first. */
  function U32Bytes(x: uint32): Bytes
  {
    [x / 0x100_0000, (x / 0x1_0000) % 0x100, (x / 0x100) % 0x100, x % 0x100]
  }

  /** The low three octets of `x`, most significant first. */
  function U24Bytes(x: uint32): Bytes
  {
    [(x / 0x1_0000) % 0x100, (x / 0x100) % 0x100, x % 0x100]
  }

  function U16Bytes(x: uint16): Bytes
  {
    [x / 0x100, x % 0x100]
  }

  /** Splitting `q * k + r` by `k` gives back `q` and `r`. */
  lemma DivModOf(q: int, r: int, k: int)
    requires k == 0x100 || k == 0x1_0000 || k == 0x100_0000
    requires 0 <= r < k
    ensures (q * k + r) / k == q && (q * k + r) % k == r
  {
    if k == 0x100 {
      assert q * k + r == q * 0x100 + r;
    } else if k == 0x1_0000 {
      assert q * k + r == q * 0x1_0000 + r;
    } else {
      assert q * k + r == q * 0x100_0000 + r;
    }
  }

  /** The number whose base-256 digits, most significant first, are `s`. */
  function BigEndian(s: Bytes): nat
  {
    if s == [] then 0 else BigEndian(s[..|s| - 1]) * 0x100 + s[|s| - 1] as nat
  }

  /** `decode_u32`: the first four octets, most significant first. */
  function DecodeU32(s: Bytes): (x: uint32)
    requires |s| >= 4
    ensures x as int == BigEndian(s[..4])
  {
    assert s[..4][..3] == s[..3] && s[..3][..2] == s[..2] && s[..2][..1] == s[..1];
    assert BigEndian(s[..1]) == s[0] as int by { assert s[..1][..0] == []; }
    assert BigEndian(s[..2]) == (s[0] as int) * 0x100 + s[1] as int;
    assert BigEndian(s[..3]) == BigEndian(s[..2]) * 0x100 + s[2] as int;
    assert BigEndian(s[..4]) == BigEndian(s[..3]) * 0x100 + s[3] as int;
    (((s[0] as int) * 0x100 + s[1] as int) * 0x100 + s[2] as int) * 0x100 + s[3] as int
  }

  function DecodeU24(s: Bytes): (x: uint32)
    requires |s| >= 3
    ensures x < 0x100_0000
  {
    (s[0] as int) * 0x1_0000 + (s[1] as int) * 0x100 + s[2] as int
  }

  /** `decode_u16`: the first two octets, most significant first. */
  function DecodeU16(s: Bytes): (x: uint16)
    requires |s| >= 2
    ensures x as int == BigEndian(s[..2])
  {
    assert s[..2][..1] == s[..1];
    assert BigEndian(s[..1]) == s[0] as int by { assert s[..1][..0] == []; }
    (s[0] as int) * 0x100 + s[1] as int
  }

  /** Encoding what was decoded gives the octets back: the decoders are
    * also right inverses. */
  lemma DecodeU32Bytes(s: Bytes)
    requires |s| >= 4
    ensures U32Bytes(DecodeU32(s)) == s[..4]
  {
    var hi := (s[0] as int) * 0x100 + s[1] as int;
    var mid := hi * 0x100 + s[2] as int;
    var x := mid * 0x100 + s[3] as int;
    DivModOf(mid, s[3] as int, 0x100);
    DivModOf(hi, s[2] as int, 0x100);
    DivModOf(s[0] as int, s[1] as int, 0x100);
    assert x / 0x1_0000 == hi by { DivModOf(hi, mid % 0x100 * 0x100 + s[3] as int, 0x1_0000); }
    assert x / 0x100_0000 == s[0] as int by {
      DivModOf(s[0] as int, (s[1] as int) * 0x1_0000 + (s[2] as int) * 0x100 + s[3] as int, 0x100_0000);
    }
  }

  lemma DecodeU24Bytes(s: Bytes)
    requires |s| >= 3
    ensures U24Bytes(DecodeU24(s)) == s[..3]
  {
    var hi := (s[0] as int) * 0x100 + s[1] as int;
    var x := DecodeU24(s) as int;
    assert x == hi * 0x100 + s[2] as int;
    DivModOf(hi, s[2] as int, 0x100);
    DivModOf(s[0] as int, s[1] as int, 0x100);
    DivModOf(s[0] as int, (s[1] as int) * 0x100 + s[2] as int, 0x1_0000);
  }

  lemma DecodeU16Bytes(s: Bytes)
    requires |s| >= 2
    ensures U16Bytes(DecodeU16(s)) == s[..2]
  {
  }

  /** Decoding what was encoded gives the value back (the low 24 bits for
    * the three-octet form). */
  lemma U32RoundTrip(x: uint32, rest: Bytes)
    ensures DecodeU32(U32Bytes(x) + rest) == x
  {
    var s := U32Bytes(x) + rest;
    var hi := x / 0x1_0000;
    var mid := x / 0x100;
    assert hi == (x / 0x100_0000) * 0x100 + hi % 0x100;
    assert mid == hi * 0x100 + mid % 0x100;
    assert x == mid * 0x100 + x % 0x100;
  }

  lemma U24RoundTrip(x: uint32, rest: Bytes)
    ensures DecodeU24(U24Bytes(x) + rest) == x % 0x100_0000
  {
    var a := x / 0x100_0000;
    var lo := x % 0x100_0000;
    var h := lo / 0x1_0000;
    var m := lo / 0x100;
    assert x == a * 0x100_0000 + lo;
    assert x / 0x1_0000 == a * 0x100 + h by {
      DivModOf(a * 0x100 + h, lo % 0x1_0000, 0x1_0000);
    }
    assert (a * 0x100 + h) % 0x100 == h by { DivModOf(a, h, 0x100); }
    assert x / 0x100 == a * 0x1_0000 + m by {
      DivModOf(a * 0x1_0000 + m, lo % 0x100, 0x100);
    }
    assert m == h * 0x100 + m % 0x100;
    assert (a * 0x1_0000 + m) % 0x100 == m % 0x100 by {
      DivModOf(a * 0x100 + h, m % 0x100, 0x100);
    }
    assert lo == (h * 0x100 + m % 0x100) * 0x100 + lo % 0x100;
  }

  lemma U16RoundTrip(x: uint16, rest: Bytes)
    ensures DecodeU16(U16Bytes(x) + rest) == x
  {
  }

  method EncodeU32(dst: array<byte>, off: nat, x: uint32)
    requires off + 4 <= dst.Length
    modifies dst
    ensures dst[off..off + 4] == U32Bytes(x)
    ensures forall i :: 0 <= i < dst.Length && !(off <= i < off + 4) ==> dst[i] == old(dst[i])
  {
    dst[off] := x / 0x100_0000;
    dst[off + 1] := (x / 0x1_0000) % 0x100;
    dst[off + 2] := (x / 0x100) % 0x100;
    dst[off + 3] := x % 0x100;
  }

  method EncodeU24(dst: array<byte>, off: nat, x: uint32)
    requires off + 3 <= dst.Length
    modifies dst
    ensures dst[off..off + 3] == U24Bytes(x)
    ensures forall i :: 0 <= i < dst.Length && !(off <= i < off + 3) ==> dst[i] == old(dst[i])
  {
    dst[off] := (x / 0x1_0000) % 0x100;
    dst[off + 1] := (x / 0x100) % 0x100;
    dst[off + 2] := x % 0x100;
  }

  method EncodeU16(dst: array<byte>, off: nat, x: uint16)
    requires off + 2 <= dst.Length
    modifies dst
    ensures dst[off..off + 2] == U16Bytes(x)
    ensures forall i :: 0 <= i < dst.Length && !(off <= i < off + 2) ==> dst[i] == old(dst[i])
  {
    dst[off] := x / 0x100;
    dst[off + 1] := x % 0x100;
  }

  /** Even stream identifiers are the ones a server promises (RFC 7540,
    * section 5.1.1). */
  predicate IsPromisedStream(id: uint32)
  {
    id % 2 == 0
  }

  /** `isPromisedStream` tests the low bit, `(streamId & 1) == 0`, which
    * is the parity `IsPromisedStream` tests. The identifiers one peer opens
    * step by two, so they all stay on its side, and neighbouring
    * identifiers belong to different peers. */
  lemma PromisedStreamParity(id: uint32)
    ensures id + 2 <= 0xFFFF_FFFF ==> IsPromisedStream((id + 2) as uint32) == IsPromisedStream(id)
    ensures id + 1 <= 0xFFFF_FFFF ==> IsPromisedStream((id + 1) as uint32) != IsPromisedStream(id)
  {
  }
}

=== FILE: hpacker.dfy ===
/** The HPACK encoder and decoder (Sources/http/v2/hpack/HPacker.swift;
  * RFC 7541, sections 5 and 6).
  *
  * Each wire form is a function giving its octets (`IntegerBytes`,
  * `StringBytes`, `HeaderBytes`), and each decoder a function reading them
  * back (`DecodedInteger`, `DecodedString`, `DecodedPrefix`, `DecodeBlock`);
  * the methods write into and read from buffers as the source does and are
  * proved to compute those functions. The Huffman code is a parameter.
  */
module HPacker {
  import opened Common
  import opened H2Utils
  import opened StaticTable
  import opened HPackTable

  // ---------------------------------------------------------------------
  // Integers (RFC 7541, section 5.1)

  /** The octet `b` with its low `n` bits cleared. */
  function HighBits(b: byte, n: nat): int
  {
    b - b % Pow2(n)
  }

  /** A prefix of width `k = 2^n` holding `v` below `k` under the high
    * bits of `b`, one lemma per width. */
  lemma PrefixAt1(b: byte, v: nat, k: nat)
    requires k == 1 && v < k
    ensures 0 <= b - b % k && b - b % k + v < 0x100 && (b - b % k + v) % k == v
  {
    assert 0 <= b - b % 1 && b - b % 1 + v < 0x100 && (b - b % 1 + v) % 1 == v;
  }

  lemma PrefixAt2(b: byte, v: nat, k: nat)
    requires k == 2 && v < k
    ensures 0 <= b - b % k && b - b % k + v < 0x100 && (b - b % k + v) % k == v
  {
    assert 0 <= b - b % 2 && b - b % 2 + v < 0x100 && (b - b % 2 + v) % 2 == v;
  }

  lemma PrefixAt4(b: byte, v: nat, k: nat)
    requires k == 4 && v < k
    ensures 0 <= b - b % k && b - b % k + v < 0x100 && (b - b % k + v) % k == v
  {
    assert 0 <= b - b % 4 && b - b % 4 + v < 0x100 && (b - b % 4 + v) % 4 == v;
  }

  lemma PrefixAt8(b: byte, v: nat, k: nat)
    requires k == 8 && v < k
    ensures 0 <= b - b % k && b - b % k + v < 0x100 && (b - b % k + v) % k == v
  {
    assert 0 <= b - b % 8 && b - b % 8 + v < 0x100 && (b - b % 8 + v) % 8 == v;
  }

  lemma PrefixAt16(b: byte, v: nat, k: nat)
    requires k == 16 && v < k
    ensures 0 <= b - b % k && b - b % k + v < 0x100 && (b - b % k + v) % k == v
  {
    assert 0 <= b - b % 16 && b - b % 16 + v < 0x100 && (b - b % 16 + v) % 16 == v;
  }

  lemma PrefixAt32(b: byte, v: nat, k: nat)
    requires k == 32 && v < k
    ensures 0 <= b - b % k && b - b % k + v < 0x100 && (b - b % k + v) % k == v
  {
    assert 0 <= b - b % 32 && b - b % 32 + v < 0x100 && (b - b % 32 + v) % 32 == v;
  }

  lemma PrefixAt64(b: byte, v: nat, k: nat)
    requires k == 64 && v < k
    ensures 0 <= b - b % k && b - b % k + v < 0x100 && (b - b % k + v) % k == v
  {
    assert 0 <= b - b % 64 && b - b % 64 + v < 0x100 && (b - b % 64 + v) % 64 == v;
  }

  lemma PrefixAt128(b: byte, v: nat, k: nat)
    requires k == 128 && v < k
    ensures 0 <= b - b % k && b - b % k + v < 0x100 && (b - b % k + v) % k == v
  {
    assert 0 <= b - b % 128 && b - b % 128 + v < 0x100 && (b - b % 128 + v) % 128 == v;
  }

  /** A prefix of `n` bits holding `v` below `2^n` under the high bits of
    * `b` is still one octet, reads back as `v`, and keeps those high bits. */
  lemma PrefixOctet(b: byte, n: nat, v: nat)
    requires n <= 7 && v < Pow2(n)
    ensures 0 <= HighBits(b, n) && HighBits(b, n) + v < 0x100
    ensures (HighBits(b, n) + v) % Pow2(n) == v
    ensures HighBits(HighBits(b, n) + v, n) == HighBits(b, n)
  {
    hide HighBits, Pow2;
    var k := Pow2(n);
    Pow2Small(n);
    if n == 0 {
      PrefixAt1(b, v, k);
    } else if n == 1 {
      PrefixAt2(b, v, k);
    } else if n == 2 {
      PrefixAt4(b, v, k);
    } else if n == 3 {
      PrefixAt8(b, v, k);
    } else if n == 4 {
      PrefixAt16(b, v, k);
    } else if n == 5 {
      PrefixAt32(b, v, k);
    } else if n == 6 {
      PrefixAt64(b, v, k);
    } else {
      PrefixAt128(b, v, k);
    }
    HighBitsOf(b, n);
    HighBitsOf(b - b % k + v, n);
  }

  /** The powers of two below 2^8. */
  lemma Pow2Small(n: nat)
    requires n <= 7
    ensures n == 0 ==> Pow2(n) == 1
    ensures n == 1 ==> Pow2(n) == 2
    ensures n == 2 ==> Pow2(n) == 4
    ensures n == 3 ==> Pow2(n) == 8
    ensures n == 4 ==> Pow2(n) == 16
    ensures n == 5 ==> Pow2(n) == 32
    ensures n == 6 ==> Pow2(n) == 64
    ensures n == 7 ==> Pow2(n) == 128
  {
  }

  lemma HighBitsOf(b: byte, n: nat)
    ensures HighBits(b, n) == b - b % Pow2(n)
  {
  }

  lemma Pow2Plus7(m: nat)
    ensures Pow2(m + 7) == 0x80 * Pow2(m)
  {
    var p := Pow2(m);
    assert Pow2(m + 1) == 2 * p;
    assert Pow2(m + 2) == 4 * p;
    assert Pow2(m + 3) == 8 * p;
    assert Pow2(m + 4) == 16 * p;
    assert Pow2(m + 5) == 32 * p;
    assert Pow2(m + 6) == 64 * p;
  }

  lemma SevenBitSplit(x: nat, w: nat)
    ensures (x % 0x80) * w + (x / 0x80) * (0x80 * w) == x * w
  {
    var q := x / 0x80;
    var r := x % 0x80;
    assert x == q * 0x80 + r;
    assert x * w == (q * 0x80) * w + r * w;
    assert (q * 0x80) * w == q * (0x80 * w);
  }

  /** The continuation octets of `x`: seven bits at a time, least
    * significant first, the top bit set on every octet but the last. */
  function Continuation(x: nat): (r: Bytes)
    ensures r != [] && r[|r| - 1] < 0x80
    decreases x
  {
    if x < 0x80 then [x] else [x % 0x80 + 0x80] + Continuation(x / 0x80)
  }

  /** Every continuation octet but the last has its top bit set. */
  lemma {:induction false} ContinuationMarks(x: nat)
    ensures forall j :: 0 <= j < |Continuation(x)| - 1 ==> Continuation(x)[j] >= 0x80
    decreases x
  {
    if x >= 0x80 {
      ContinuationMarks(x / 0x80);
      assert Continuation(x) == [x % 0x80 + 0x80] + Continuation(x / 0x80);
    }
  }

  /** `encodeInteger(N, I)` into an octet whose high bits are those of
    * `first`: the value itself when it is below `2^N - 1`, else `2^N - 1`
    * and the continuation octets of the rest. */
  function IntegerBytes(n: nat, first: byte, i: nat): (r: Bytes)
    requires n <= 7
    ensures r != []
    ensures |r| == 1 <==> i < Pow2(n) - 1
  {
    var nf := Pow2(n) - 1;
    var v := if i < nf then i else nf;
    PrefixOctet(first, n, v);
    var b: byte := HighBits(first, n) + v;
    if i < nf then [b] else [b] + Continuation(i - nf)
  }

  /** The first octet keeps the high bits of `first`. */
  lemma IntegerBytesFirst(n: nat, first: byte, i: nat)
    requires n <= 7
    ensures HighBits(IntegerBytes(n, first, i)[0], n) == HighBits(first, n)
  {
    var nf := Pow2(n) - 1;
    PrefixOctet(first, n, if i < nf then i else nf);
  }

  /** The continuation loop of `decodeInteger`, reading `s` from `p` on
    * with `acc` accumulated and the next group worth `2^m`: the position
    * after the first octet with a clear top bit and the value, or None when
    * the octets run out first. */
  function ContinuationFrom(s: Bytes, p: nat, acc: nat, m: nat): (r: Option<(nat, nat)>)
    requires p <= |s|
    ensures r.Some? ==> p < r.value.0 <= |s|
    decreases |s| - p
  {
    if p == |s| then None
    else
      var acc' := acc + (s[p] % 0x80) * Pow2(m);
      if s[p] < 0x80 then Some((p + 1, acc')) else ContinuationFrom(s, p + 1, acc', m + 7)
  }

  /** `decodeInteger(N, src)`: the octets consumed and the value, or None
    * (-1 in the source) for an empty input, a prefix width above 8, or
    * continuation octets that run out. */
  function DecodedInteger(n: nat, s: Bytes): (r: Option<(nat, nat)>)
    requires n != 8
    ensures r.Some? ==> 0 < r.value.0 <= |s|
  {
    if n > 8 || s == [] then None
    else
      var prefix := s[0] % Pow2(n);
      if prefix < Pow2(n) - 1 then Some((1, prefix))
      else if |s| == 1 then None
      else ContinuationFrom(s, 1, prefix, 0)
  }

  /** Reading the continuation octets of `x` adds `x` at the current
    * weight and stops right after them, whatever follows. */
  lemma {:induction false} ContinuationRoundTrip(pre: Bytes, x: nat, rest: Bytes, acc: nat, m: nat)
    ensures var s := pre + Continuation(x) + rest;
      ContinuationFrom(s, |pre|, acc, m) == Some((|pre| + |Continuation(x)|, acc + x * Pow2(m)))
    decreases x
  {
    hide Continuation, ContinuationFrom, Pow2;
    var c := Continuation(x);
    var s := pre + c + rest;
    ContinuationUnfold(x);
    assert s[|pre|] == c[0];
    ContinuationFromStep(s, |pre|, acc, m);
    var w := Pow2(m);
    if x >= 0x80 {
      var d := [x % 0x80 + 0x80];
      var acc' := acc + (x % 0x80) * w;
      assert s == (pre + d) + Continuation(x / 0x80) + rest;
      ContinuationRoundTrip(pre + d, x / 0x80, rest, acc', m + 7);
      Pow2Plus7(m);
      SevenBitSplit(x, w);
    }
  }

  /** One octet of `Continuation`. */
  lemma ContinuationUnfold(x: nat)
    ensures x < 0x80 ==> Continuation(x) == [x]
    ensures x >= 0x80 ==> Continuation(x) == [x % 0x80 + 0x80] + Continuation(x / 0x80)
  {
  }

  /** One step of the continuation loop. */
  lemma ContinuationFromStep(s: Bytes, p: nat, acc: nat, m: nat)
    requires p < |s|
    ensures s[p] < 0x80 ==> ContinuationFrom(s, p, acc, m) == Some((p + 1, acc + (s[p] % 0x80) * Pow2(m)))
    ensures s[p] >= 0x80 ==> ContinuationFrom(s, p, acc, m) == ContinuationFrom(s, p + 1, acc + (s[p] % 0x80) * Pow2(m), m + 7)
  {
  }

  /** The continuation loop fails exactly when every octet left has its top
    * bit set. */
  lemma {:induction false} ContinuationFails(s: Bytes, p: nat, acc: nat, m: nat)
    requires p <= |s|
    ensures ContinuationFrom(s, p, acc, m).None? <==> forall j :: p <= j < |s| ==> s[j] >= 0x80
    decreases |s| - p
  {
    if p < |s| && s[p] >= 0x80 {
      ContinuationFails(s, p + 1, acc + (s[p] % 0x80) * Pow2(m), m + 7);
    }
  }

  /** Decoding an encoded integer gives the value back and consumes exactly
    * its octets, whatever follows them. */
  lemma IntegerRoundTrip(n: nat, first: byte, i: nat, rest: Bytes)
    requires n <= 7
    ensures DecodedInteger(n, IntegerBytes(n, first, i) + rest) == Some((|IntegerBytes(n, first, i)|, i))
  {
    hide IntegerBytes, Continuation, ContinuationFrom;
    var nf := Pow2(n) - 1;
    var b := IntegerBytes(n, first, i);
    var s := b + rest;
    IntegerBytesShape(n, first, i);
    assert s[0] == b[0];
    PrefixOctet(first, n, if i < nf then i else nf);
    if i >= nf {
      assert b == [b[0]] + b[1..];
      assert s == [b[0]] + Continuation(i - nf) + rest;
      ContinuationRoundTrip([b[0]], i - nf, rest, nf, 0);
      assert Pow2(0) == 1;
    }
  }

  /** `decodeInteger`: the first octet's low `N` bits, then the loop adding
    * seven bits per octet while the top bit is set. */
  method DecodeInteger(n: nat, src: Bytes) returns (ret: int, value: nat)
    requires n != 8
    ensures DecodedInteger(n, src).None? ==> ret == -1 && value == 0
    ensures DecodedInteger(n, src).Some? ==> (ret, value) == DecodedInteger(n, src).value
  {
    if n > 8 || |src| == 0 {
      return -1, 0;
    }
    var nf := Pow2(n) - 1;
    var prefix := src[0] % Pow2(n);
    if prefix < nf {
      return 1, prefix;
    }
    if |src| == 1 {
      return -1, 0;
    }
    var m: nat := 0;
    var acc: nat := prefix;
    var p: nat := 1;
    var b: byte := 0;
    var more := true;
    while more
      invariant 1 <= p <= |src|
      invariant more ==> p < |src| && ContinuationFrom(src, p, acc, m) == DecodedInteger(n, src)
      invariant !more ==> 1 < p && b == src[p - 1]
      invariant !more && b < 0x80 ==> DecodedInteger(n, src) == Some((p as nat, acc as nat))
      invariant !more && b >= 0x80 ==> p == |src| && DecodedInteger(n, src).None?
      decreases |src| - p, more
    {
      b := src[p];
      p := p + 1;
      acc := acc + (b % 0x80) * Pow2(m);
      m := m + 7;
      more := p < |src| && b >= 0x80;
    }
    if p == |src| && b >= 0x80 {
      return -1, 0;
    }
    return p, acc;
  }

  /** Whether the continuation loop of `decodeInteger`, reading `s` from
    * `p` on with the next group worth `2^m`, reaches an octet of weight
    * `2^63`: there `Int(pow(2, 63))` does not fit in an `Int` and the
    * conversion traps. */
  function ContinuationTraps(s: Bytes, p: nat, m: nat): bool
    requires p <= |s|
    decreases |s| - p
  {
    if p == |s| then false
    else if m >= 63 then true
    else s[p] >= 0x80 && ContinuationTraps(s, p + 1, m + 7)
  }

  /** Whether `decodeInteger(N, src)` traps instead of answering. */
  function IntegerTraps(n: nat, s: Bytes): bool
    requires n != 8
  {
    if n > 8 || |s| <= 1 then false
    else s[0] % Pow2(n) == Pow2(n) - 1 && ContinuationTraps(s, 1, 0)
  }

  /** With `k` groups left before the weight `2^63`, the loop traps
    * exactly when the next `k` octets all have their top bit set and one
    * more octet follows them. */
  lemma {:induction false} ContinuationTrapsWhen(s: Bytes, p: nat, k: nat)
    requires p <= |s| && k <= 9
    ensures ContinuationTraps(s, p, 63 - 7 * k) <==>
      p + k < |s| && forall j :: p <= j < p + k ==> s[j] >= 0x80
    decreases k
  {
    if p < |s| && k > 0 && s[p] >= 0x80 {
      ContinuationTrapsWhen(s, p + 1, k - 1);
    }
  }

  /** `decodeInteger` traps exactly on a full prefix followed by nine
    * octets with the top bit set and a tenth continuation octet. */
  lemma IntegerTrapsExactly(n: nat, s: Bytes)
    requires n < 8
    ensures IntegerTraps(n, s) <==>
      && |s| > 10 && s[0] % Pow2(n) == Pow2(n) - 1
      && forall j :: 1 <= j < 10 ==> s[j] >= 0x80
  {
    if |s| > 1 {
      ContinuationTrapsWhen(s, 1, 9);
    }
  }

  /** More than `k` continuation octets exactly from `2^(7k)` on. */
  lemma {:induction false} ContinuationLonger(x: nat, k: nat)
    requires k >= 1
    ensures |Continuation(x)| > k <==> x >= Pow2(7 * k)
    decreases k
  {
    ContinuationUnfold(x);
    Pow2Plus7(7 * (k - 1));
    assert 7 * (k - 1) + 7 == 7 * k;
    if k == 1 {
      assert Pow2(0) == 1;
    } else if x >= 0x80 {
      ContinuationLonger(x / 0x80, k - 1);
      var w := Pow2(7 * (k - 1));
      assert x / 0x80 >= w <==> x >= 0x80 * w;
    } else {
      assert Pow2(7 * (k - 1)) >= 1;
    }
  }

  /** An encoded integer traps the decoder exactly when it needs ten or
    * more continuation octets, that is from `2^N - 1 + 2^63` on: below
    * that bound `IntegerRoundTrip` describes the source, at and above it
    * the source traps instead. */
  lemma IntegerTrapsBeyondBound(n: nat, first: byte, i: nat, rest: Bytes)
    requires n <= 7
    ensures IntegerTraps(n, IntegerBytes(n, first, i) + rest) <==> i >= Pow2(n) - 1 + Pow2(63)
  {
    hide IntegerBytes, Continuation, IntegerTraps, HighBits;
    var nf := Pow2(n) - 1;
    var b := IntegerBytes(n, first, i);
    var s := b + rest;
    IntegerBytesShape(n, first, i);
    PrefixOctet(first, n, if i < nf then i else nf);
    IntegerTrapsExactly(n, s);
    assert s[0] == b[0];
    assert Pow2(63) > 0;
    if i >= nf {
      assert s[0] % Pow2(n) == nf;
      var c := Continuation(i - nf);
      assert b == [b[0]] + c;
      assert s == [b[0]] + c + rest;
      ContinuationTenth(i - nf, b[0], rest);
      assert IntegerTraps(n, s) <==> i - nf >= Pow2(63);
    } else {
      assert s[0] % Pow2(n) == i;
      assert !IntegerTraps(n, s);
    }
  }

  /** After a first octet, the continuation octets of `x` put the top bit
    * on the nine octets after it, with a tenth to follow, exactly when `x`
    * needs more than nine of them. */
  lemma ContinuationTenth(x: nat, b0: byte, rest: Bytes)
    ensures var s := [b0] + Continuation(x) + rest;
      (|s| > 10 && forall j :: 1 <= j < 10 ==> s[j] >= 0x80) <==> x >= Pow2(63)
  {
    hide Continuation;
    var c := Continuation(x);
    var s := [b0] + c + rest;
    ContinuationMarks(x);
    ContinuationLonger(x, 9);
    assert 7 * 9 == 63;
    assert forall j :: 1 <= j <= |c| ==> s[j] == c[j - 1];
    if |c| <= 9 {
      assert s[|c|] < 0x80;
    }
  }

  /** The shortest input that traps: a full 7-bit prefix, nine octets
    * with the top bit set and a tenth, eleven octets in all. */
  lemma DecodeIntegerTrapsOnTenthOctet()
    ensures IntegerTraps(7, [0x7f, 0x80, 0x80, 0x80, 0x80, 0x80, 0x80, 0x80, 0x80, 0x80, 0x00])
    ensures !IntegerTraps(7, [0x7f, 0x80, 0x80, 0x80, 0x80, 0x80, 0x80, 0x80, 0x80, 0x00])
  {
    assert Pow2(7) == 0x80;
  }

  /** The continuation loop of `encodeInteger`: the octets of `x` from
    * `start` on while they fit before `end`; the position after them, or
    * -1 when they do not fit. */
  method EncodeContinuation(x: nat, dst: array<byte>, start: nat, end: nat) returns (next: int)
    requires start <= end <= dst.Length
    modifies dst
    ensures next == (if |Continuation(x)| <= end - start then start + |Continuation(x)| else -1)
    ensures next >= 0 ==> dst[start..next] == Continuation(x)
    ensures forall j :: 0 <= j < dst.Length && !(start <= j < end) ==> dst[j] == old(dst[j])
  {
    hide Continuation;
    var p := start;
    var y := x;
    while p < end && y >= 0x80
      invariant start <= p <= end
      invariant dst[start..p] + Continuation(y) == Continuation(x)
      invariant forall j :: 0 <= j < dst.Length && !(start <= j < end) ==> dst[j] == old(dst[j])
    {
      ghost var done := dst[start..p];
      var c: byte := y % 0x80 + 0x80;
      dst[p] := c;
      assert dst[start..p + 1] == done + [c];
      ContinuationAppend(done, y, x);
      p := p + 1;
      y := y / 0x80;
    }
    if p == end {
      assert |Continuation(x)| == (p - start) + |Continuation(y)|;
      return -1;
    }
    ContinuationUnfold(y);
    ghost var done := dst[start..p];
    dst[p] := y;
    assert dst[start..p + 1] == done + [y];
    return p + 1;
  }

  /** The continuation octets of `x` after those written so far and one
    * more octet. */
  lemma ContinuationAppend(done: Bytes, y: nat, x: nat)
    requires y >= 0x80 && done + Continuation(y) == Continuation(x)
    ensures (done + [y % 0x80 + 0x80]) + Continuation(y / 0x80) == Continuation(x)
  {
    hide Continuation;
    ContinuationUnfold(y);
    assert (done + [y % 0x80 + 0x80]) + Continuation(y / 0x80) == done + ([y % 0x80 + 0x80] + Continuation(y / 0x80));
  }

  /** `encodeInteger` into `dst[off..off + len]`, over whatever high bits
    * `dst[off]` already holds: the octet count, or -1 when they do not
    * fit. Nothing outside those `len` octets is written. */
  method EncodeInteger(n: nat, i: nat, dst: array<byte>, off: nat, len: nat) returns (ret: int)
    requires n <= 7 && off + len <= dst.Length
    modifies dst
    ensures len == 0 ==> ret == -1
    ensures len > 0 ==> var b := IntegerBytes(n, old(dst[off]), i);
      && ret == (if |b| <= len then |b| else -1)
      && (ret > 0 ==> dst[off..off + ret] == b)
    ensures forall j :: 0 <= j < dst.Length && !(off <= j < off + len) ==> dst[j] == old(dst[j])
  {
    hide IntegerBytes, Continuation, HighBits, Pow2;
    if len == 0 {
      return -1;
    }
    ghost var b := IntegerBytes(n, dst[off], i);
    IntegerBytesShape(n, dst[off], i);
    var nf := Pow2(n) - 1;
    if i < nf {
      PrefixOctet(dst[off], n, i);
      dst[off] := HighBits(dst[off], n) + i;
      assert dst[off..off + 1] == [b[0]] == b;
      return 1;
    }
    PrefixOctet(dst[off], n, nf);
    dst[off] := HighBits(dst[off], n) + nf;
    var next := EncodeContinuation(i - nf, dst, off + 1, off + len);
    if next < 0 {
      return -1;
    }
    assert dst[off..next] == [dst[off]] + dst[off + 1..next];
    assert b == [b[0]] + b[1..];
    return next - off;
  }

  /** The octets of `IntegerBytes`: the prefix octet, then the
    * continuation octets when the value does not fit the prefix. */
  lemma IntegerBytesShape(n: nat, first: byte, i: nat)
    requires n <= 7
    ensures var b := IntegerBytes(n, first, i);
      && b[0] as int == HighBits(first, n) + (if i < Pow2(n) - 1 then i else Pow2(n) - 1)
      && b[1..] == (if i < Pow2(n) - 1 then [] else Continuation(i - (Pow2(n) - 1)))
  {
  }

  // ---------------------------------------------------------------------
  // Strings (RFC 7541, section 5.2)

  /** The static Huffman code of RFC 7541, Appendix B, as the two functions
    * the source uses: `encode` for `huffEncode` (whose length is
    * `huffEncodeLength`) and `decode` for `huffDecode`, None for a code that
    * does not decode or does not end in EOS padding. */
  datatype HuffmanCode = HuffmanCode(encode: Bytes -> Bytes, decode: Bytes -> Option<Bytes>)

  /**
   * A code that decodes what it encodes, for non-empty octets: the
   * source's decoder refuses an empty code, and the empty string is
   * never sent Huffman-coded (its code is not shorter than itself).
   */
  ghost predicate Sound(h: HuffmanCode)
  {
    forall b :: b != [] ==> h.decode(h.encode(b)) == Some(b)
  }

  /** `encodeString`: the Huffman form when it is strictly shorter, the raw
    * octets otherwise, after the length with the H bit set accordingly. */
  function StringBytes(h: HuffmanCode, str: string): (r: Bytes)
    ensures r != []
  {
    var octets := OctetsOf(str);
    var code := h.encode(octets);
    if |code| < |octets| then IntegerBytes(7, 0x80, |code|) + code
    else IntegerBytes(7, 0, |octets|) + octets
  }

  /** `decodeString`: the octets consumed and the text, or None for an
    * empty input, a bad length, a length running past the input, or a
    * Huffman code that does not decode. */
  function DecodedString(h: HuffmanCode, s: Bytes): (r: Option<(nat, string)>)
    ensures r.Some? ==> 0 < r.value.0 <= |s|
  {
    if s == [] then None
    else
      match DecodedInteger(7, s)
      case None => None
      case Some((k, slen)) =>
        if slen > |s| - k then None
        else if s[0] >= 0x80 then
          match h.decode(s[k..k + slen])
          case None => None
          case Some(b) => Some((k + slen, TextOf(b)))
        else Some((k + slen, TextOf(s[k..k + slen])))
  }

  /** The wire form of a string: its length after the H bit of `first`,
    * then its octets. */
  function LengthAndBody(first: byte, body: Bytes): Bytes
  {
    IntegerBytes(7, first, |body|) + body
  }

  /** The H bit survives the length encoding. */
  lemma HuffmanFlag(first: byte, i: nat)
    requires first == 0x80 || first == 0
    ensures (IntegerBytes(7, first, i)[0] >= 0x80) <==> first == 0x80
  {
    assert Pow2(7) == 0x80;
    IntegerBytesFirst(7, first, i);
  }

  /** Reading a length and body back: the H bit selects how the body is
    * turned into text. */
  lemma LengthAndBodyRead(h: HuffmanCode, first: byte, body: Bytes, rest: Bytes)
    requires first == 0x80 || first == 0
    ensures var n := |LengthAndBody(first, body)|;
      DecodedString(h, LengthAndBody(first, body) + rest) ==
        if first == 0 then Some((n, TextOf(body)))
        else match h.decode(body)
          case None => None
          case Some(b) => Some((n, TextOf(b)))
  {
    hide DecodedInteger, IntegerBytes, TextOf;
    var p := IntegerBytes(7, first, |body|);
    var s := LengthAndBody(first, body) + rest;
    assert s == p + (body + rest);
    IntegerRoundTrip(7, first, |body|, body + rest);
    assert DecodedInteger(7, s) == Some((|p|, |body|));
    assert s[|p|..|p| + |body|] == body;
    HuffmanFlag(first, |body|);
    assert s[0] == p[0];
  }

  /** Decoding an encoded string gives the text back and consumes exactly
    * its octets, when the Huffman code is sound and the text is ASCII: raw
    * octets come back through the ASCII conversion, which has no text for
    * an octet from 0x80 on (see `FieldTraps`). */
  lemma StringRoundTrip(h: HuffmanCode, str: string, rest: Bytes)
    requires Sound(h) && IsAsciiText(str)
    ensures DecodedString(h, StringBytes(h, str) + rest) == Some((|StringBytes(h, str)|, str))
  {
    var octets := OctetsOf(str);
    var code := h.encode(octets);
    TextOctetsRoundTrip(str);
    if |code| < |octets| {
      assert StringBytes(h, str) == LengthAndBody(0x80, code);
      LengthAndBodyRead(h, 0x80, code, rest);
      assert h.decode(code) == Some(octets);
    } else {
      assert StringBytes(h, str) == LengthAndBody(0, octets);
      LengthAndBodyRead(h, 0, octets, rest);
    }
  }

  /** `decodeString` on the octets of `src`: the octets consumed and the
    * text, or (-1, None). */
  method DecodeString(h: HuffmanCode, src: Bytes) returns (ret: int, str: Option<string>)
    ensures DecodedString(h, src).None? ==> ret == -1 && str.None?
    ensures DecodedString(h, src).Some? ==>
      ret == DecodedString(h, src).value.0 && str == Some(DecodedString(h, src).value.1)
  {
    if |src| == 0 {
      return -1, None;
    }
    var huffman := src[0] >= 0x80;
    var k, slen := DecodeInteger(7, src);
    if k <= 0 {
      return -1, None;
    }
    if slen > |src| - k {
      return -1, None;
    }
    var body := src[k..k + slen];
    if huffman {
      var decoded := h.decode(body);
      if decoded.None? {
        return -1, None;
      }
      str := Some(TextOf(decoded.value));
    } else {
      str := Some(TextOf(body));
    }
    ret := k + slen;
  }

  /** `memcpy`, and the stores of `huffEncode`: `src` into `dst` at `at`. */
  method CopyInto(src: Bytes, dst: array<byte>, at: nat)
    requires at + |src| <= dst.Length
    modifies dst
    ensures dst[at..at + |src|] == src
    ensures forall j :: 0 <= j < dst.Length && !(at <= j < at + |src|) ==> dst[j] == old(dst[j])
  {
    var i := 0;
    while i < |src|
      invariant 0 <= i <= |src|
      invariant dst[at..at + i] == src[..i]
      invariant forall j :: 0 <= j < dst.Length && !(at <= j < at + |src|) ==> dst[j] == old(dst[j])
    {
      dst[at + i] := src[i];
      i := i + 1;
    }
  }

  /** The stores of `encodeString` once the H bit is chosen: the length
    * and then the body, both checked against the room. */
  method EncodeLengthAndBody(first: byte, body: Bytes, dst: array<byte>, off: nat, len: nat) returns (ret: int)
    requires 0 < len && off + len <= dst.Length
    modifies dst
    ensures ret == (if |LengthAndBody(first, body)| <= len then |LengthAndBody(first, body)| else -1)
    ensures ret >= 0 ==> dst[off..off + ret] == LengthAndBody(first, body)
    ensures forall j :: 0 <= j < dst.Length && !(off <= j < off + len) ==> dst[j] == old(dst[j])
  {
    dst[off] := first;
    var r := EncodeInteger(7, |body|, dst, off, len);
    if r <= 0 {
      return -1;
    }
    if len - r < |body| {
      return -1;
    }
    ghost var p := dst[off..off + r];
    CopyInto(body, dst, off + r);
    assert dst[off..off + r] == p;
    assert dst[off..off + r + |body|] == p + body;
    return r + |body|;
  }

  /** `encodeString` into `dst[off..off + len]`, with the room checked
    * before anything is stored and the Huffman octets counted against it:
    * the octet count, or -1 when the string does not fit. */
  method EncodeString(h: HuffmanCode, str: string, dst: array<byte>, off: nat, len: nat) returns (ret: int)
    requires off + len <= dst.Length
    modifies dst
    ensures ret == (if |StringBytes(h, str)| <= len then |StringBytes(h, str)| else -1)
    ensures ret >= 0 ==> dst[off..off + ret] == StringBytes(h, str)
    ensures forall j :: 0 <= j < dst.Length && !(off <= j < off + len) ==> dst[j] == old(dst[j])
  {
    if len == 0 {
      return -1;
    }
    var octets := OctetsOf(str);
    var code := h.encode(octets);
    if |code| < |octets| {
      assert StringBytes(h, str) == LengthAndBody(0x80, code);
      ret := EncodeLengthAndBody(0x80, code, dst, off, len);
    } else {
      assert StringBytes(h, str) == LengthAndBody(0, octets);
      ret := EncodeLengthAndBody(0, octets, dst, off, len);
    }
  }

  /** `encodeString` exactly as written, on a buffer of `len` octets: the
    * octets it stores from the start of the buffer on, which may run past
    * its end, and what it returns. It stores the first octet before
    * looking at `len`, and hands the Huffman octets to `huffEncode`, which
    * is given the room left but never compares against it. */
  function EncodeStringAsWritten(h: HuffmanCode, str: string, len: nat): (r: (Bytes, int))
  {
    var octets := OctetsOf(str);
    var code := h.encode(octets);
    if |code| < |octets| then
      var p := IntegerBytes(7, 0x80, |code|);
      if len == 0 then ([0x80], -1)
      else if |p| > len then (p[..len], -1)
      else (p + code, |p| + |code|)
    else
      var p := IntegerBytes(7, 0, |octets|);
      if len == 0 then ([0], -1)
      else if |p| > len then (p[..len], -1)
      else if len - |p| < |octets| then (p, -1)
      else (p + octets, |p| + |octets|)
  }

  /** Where the string fits, the code as written and the corrected one
    * store and return the same. */
  lemma EncodeStringAgrees(h: HuffmanCode, str: string, len: nat)
    requires |StringBytes(h, str)| <= len
    ensures EncodeStringAsWritten(h, str, len) == (StringBytes(h, str), |StringBytes(h, str)|)
  {
  }

  /** As written, a zero-length buffer still receives one octet. */
  lemma EncodeStringAsWrittenStoresIntoEmpty(h: HuffmanCode, str: string)
    ensures |EncodeStringAsWritten(h, str, 0).0| == 1
  {
  }

  /** As written, a Huffman-coded string whose length prefix fits but whose
    * code does not is reported as encoded, with more octets stored and
    * returned than the buffer holds. */
  lemma EncodeStringAsWrittenOverruns(h: HuffmanCode, str: string, len: nat)
    requires |h.encode(OctetsOf(str))| < |str|
    requires |IntegerBytes(7, 0x80, |h.encode(OctetsOf(str))|)| <= len < |StringBytes(h, str)|
    ensures EncodeStringAsWritten(h, str, len).1 > len
    ensures |EncodeStringAsWritten(h, str, len).0| > len
  {
  }

  // ---------------------------------------------------------------------
  // Representations (RFC 7541, section 6)

  datatype PrefixType = IndexedHeader | LiteralWithIndexing | LiteralWithoutIndexing | TableSizeUpdate

  /** The representation a first octet announces and its prefix width:
    * 1xxxxxxx indexed, 01xxxxxx literal with indexing, 001xxxxx size
    * update, anything else a literal without indexing (which covers the
    * never-indexed 0001xxxx form as well). */
  function PrefixOf(b: byte): (PrefixType, nat)
  {
    if b >= 0x80 then (IndexedHeader, 7)
    else if b >= 0x40 then (LiteralWithIndexing, 6)
    else if b >= 0x20 then (TableSizeUpdate, 5)
    else (LiteralWithoutIndexing, 4)
  }

  /** `decodePrefix`: the octets consumed, the representation and its
    * integer, or None when the integer does not decode. */
  function DecodedPrefix(s: Bytes): (r: Option<(nat, PrefixType, nat)>)
    ensures r.Some? ==> 0 < r.value.0 <= |s|
  {
    if s == [] then None
    else
      match DecodedInteger(PrefixOf(s[0]).1, s)
      case None => None
      case Some((k, i)) => Some((k, PrefixOf(s[0]).0, i))
  }

  /** Each representation the encoder writes is read back as that
    * representation with its integer. */
  lemma PrefixRoundTrip(first: byte, n: nat, i: nat, rest: Bytes)
    requires (first, n) in {(0x80, 7), (0x40, 6), (0x20, 5), (0x10, 4), (0x00, 4)}
    ensures DecodedPrefix(IntegerBytes(n, first, i) + rest)
      == Some((|IntegerBytes(n, first, i)|, PrefixOf(first).0, i))
  {
    hide IntegerBytes, DecodedInteger, HighBits;
    var b := IntegerBytes(n, first, i);
    var s := b + rest;
    assert s[0] == b[0];
    IntegerBytesFirst(n, first, i);
    PrefixOfHigh(first, n, b[0]);
    IntegerRoundTrip(n, first, i, rest);
  }

  /** An octet with the high bits of one of the encoder's prefixes is read
    * as that prefix. */
  lemma PrefixOfHigh(first: byte, n: nat, b: byte)
    requires (first, n) in {(0x80, 7), (0x40, 6), (0x20, 5), (0x10, 4), (0x00, 4)}
    requires HighBits(b, n) == HighBits(first, n)
    ensures PrefixOf(b) == PrefixOf(first) && PrefixOf(first).1 == n
  {
    if n == 7 {
      assert Pow2(7) == 128;
      assert b - b % 128 == 128;
    } else if n == 6 {
      assert Pow2(6) == 64;
      assert b - b % 64 == 64;
    } else if n == 5 {
      assert Pow2(5) == 32;
      assert b - b % 32 == 32;
    } else {
      assert Pow2(4) == 16;
      assert b - b % 16 == first;
    }
  }

  /** `decodePrefix` on the octets of `src`: (-1, indexed, 0) when the
    * integer does not decode. */
  method DecodePrefix(src: Bytes) returns (ret: int, kind: PrefixType, i: nat)
    ensures DecodedPrefix(src).None? ==> ret == -1 && kind == IndexedHeader && i == 0
    ensures DecodedPrefix(src).Some? ==> (ret, kind, i) == DecodedPrefix(src).value
  {
    if |src| == 0 {
      return -1, IndexedHeader, 0;
    }
    var n: nat;
    if src[0] >= 0x80 {
      n, kind := 7, IndexedHeader;
    } else if src[0] >= 0x40 {
      n, kind := 6, LiteralWithIndexing;
    } else if src[0] >= 0x20 {
      n, kind := 5, TableSizeUpdate;
    } else {
      n, kind := 4, LiteralWithoutIndexing;
    }
    var k, v := DecodeInteger(n, src);
    if k <= 0 {
      return -1, IndexedHeader, 0;
    }
    return k, kind, v;
  }

  /** What one representation decodes to: the octets it takes, the header
    * field it yields (none for a size update) and the table after it. */
  datatype Step = Step(consumed: nat, field: Option<KeyValuePair>, table: Table)

  /** A step that takes `k` octets, yields `kv` and leaves `t`. */
  ghost predicate Yields(r: Option<Step>, k: nat, kv: KeyValuePair, t: Table)
  {
    r.Some? && r.value.consumed == k && r.value.field == Some(kv) && r.value.table == t
  }

  /** The name of a literal: a string after the prefix when its index is 0,
    * else the name of the indexed entry. */
  function LiteralName(t: Table, h: HuffmanCode, s: Bytes, k: nat, i: nat): (r: Option<(nat, string)>)
    requires k <= |s|
    ensures r.Some? ==> k <= r.value.0 <= |s|
  {
    if i == 0 then
      match DecodedString(h, s[k..])
      case None => None
      case Some((n, name)) => Some((k + n, name))
    else
      match EntryAt(t, i)
      case None => None
      case Some(e) => Some((k, e.name))
  }

  /** One round of the loop of `decode`: an indexed field from the table, a
    * literal (added to the table when it asks for indexing), or a size
    * update within the table's maximum; None for anything else. */
  function DecodedField(t: Table, h: HuffmanCode, s: Bytes): (r: Option<Step>)
    ensures r.Some? ==> 0 < r.value.consumed <= |s|
  {
    match DecodedPrefix(s)
    case None => None
    case Some((k, kind, i)) =>
      if kind == IndexedHeader then
        match EntryAt(t, i)
        case None => None
        case Some(e) => Some(Step(k, Some(e), t))
      else if kind == TableSizeUpdate then
        if i > t.maxSize then None else Some(Step(k, None, WithLimit(t, i)))
      else
        match LiteralName(t, h, s, k, i)
        case None => None
        case Some((k2, name)) =>
          match DecodedString(h, s[k2..])
          case None => None
          case Some((k3, value)) =>
            var t' := if kind == LiteralWithIndexing then Add(t, name, value).1 else t;
            Some(Step(k2 + k3, Some(KeyValuePair(name, value)), t'))
  }

  /** A raw string (H bit clear) with an octet from 0x80 on, for which the
    * source's ASCII conversion has no text (HPacker.swift:418-419). */
  ghost predicate RawNonAscii(h: HuffmanCode, s: Bytes)
  {
    && s != [] && s[0] < 0x80
    && DecodedString(h, s).Some? && !IsAsciiText(DecodedString(h, s).value.1)
  }

  /** Where the source's `decode` traps on the field at the front of `s`
    * after `decodeInteger` has returned (its own trap is `IntegerTraps`),
    * which `DecodedField` does not follow: `Int(I)` of an index from 2^63
    * on, for an indexed field or a literal with an indexed name
    * (HPacker.swift:150, 166), and `name!` or `value!` once both strings
    * of a literal are read and one of them is a raw string that is not
    * ASCII (:177, :186). A size update converts its integer only after
    * checking it against the table's maximum. */
  ghost predicate FieldTraps(t: Table, h: HuffmanCode, s: Bytes)
  {
    match DecodedPrefix(s)
    case None => false
    case Some((k, kind, i)) =>
      if kind == TableSizeUpdate then false
      else if i >= Pow2(63) then true
      else if kind == IndexedHeader then false
      else
        match LiteralName(t, h, s, k, i)
        case None => false
        case Some((k2, name)) =>
          && DecodedString(h, s[k2..]).Some?
          && ((i == 0 && RawNonAscii(h, s[k..])) || RawNonAscii(h, s[k2..]))
  }

  /** An indexed field whose index lies from 2^63 to 2^63 + 126 gets past
    * the trap in `decodeInteger` (its integer has nine continuation
    * octets) and traps at `Int(I)`; the model, whose table holds fewer
    * entries than that, finds none and fails. */
  lemma LargeIndexTraps(t: Table, h: HuffmanCode, i: nat, rest: Bytes)
    requires Pow2(63) <= i < Pow2(63) + 127
    ensures var s := IntegerBytes(7, 0x80, i) + rest;
      && !IntegerTraps(7, s) && FieldTraps(t, h, s)
      && (|t.dynamic| < Pow2(63) - DynamicStartIndex ==> DecodedField(t, h, s).None?)
  {
    var b := IntegerBytes(7, 0x80, i);
    var s := b + rest;
    assert Pow2(7) == 0x80;
    IntegerTrapsBeyondBound(7, 0x80, i, rest);
    IntegerRoundTrip(7, 0x80, i, rest);
    HuffmanFlag(0x80, i);
    assert s[0] == b[0];
    assert DecodedPrefix(s) == Some((|b|, IndexedHeader, i));
    EntryAtRange(t, i);
  }

  /** The literal 10 01 80 00, without indexing, whose name is the raw
    * octet 0x80 and whose value is empty: the source traps at `name!`
    * (HPacker.swift:186), and the model reads the name as the one
    * character U+0080. */
  lemma NonAsciiLiteralTraps(t: Table, h: HuffmanCode)
    ensures var s: Bytes := [0x10, 0x01, 0x80, 0x00];
      FieldTraps(t, h, s) && Yields(DecodedField(t, h, s), 4, KeyValuePair(['\U{80}'], ""), t)
  {
    var s: Bytes := [0x10, 0x01, 0x80, 0x00];
    assert Pow2(4) == 16 && Pow2(7) == 0x80;
    assert DecodedPrefix(s) == Some((1, LiteralWithoutIndexing, 0));
    assert s[1..] == [0x01, 0x80, 0x00] && s[1..][1..2] == [0x80];
    assert DecodedInteger(7, s[1..]) == Some((1, 1));
    assert TextOf([0x80]) == ['\U{80}'] by {
      assert TextOf([0x80][1..]) == [];
    }
    assert DecodedString(h, s[1..]) == Some((2, ['\U{80}']));
    assert !IsAsciiText(['\U{80}']) by {
      assert ['\U{80}'][0] as int == 0x80;
    }
    assert RawNonAscii(h, s[1..]);
    assert LiteralName(t, h, s, 1, 0) == Some((3, ['\U{80}']));
    assert s[3..] == [0x00] && s[3..][1..1] == [];
    assert DecodedString(h, s[3..]) == Some((1, ""));
  }

  /** The outcome of `decode` on a header block: whether it all decoded,
    * the fields, and the table it leaves (changed up to the failure, when
    * there is one). */
  datatype Decoded = Decoded(ok: bool, headers: seq<KeyValuePair>, table: Table)

  /** The fields decoded so far in front of what the rest decodes to. */
  function AfterFields(hs: seq<KeyValuePair>, r: Decoded): Decoded
  {
    if r.ok then Decoded(true, hs + r.headers, r.table) else r
  }

  function DecodeBlock(t: Table, h: HuffmanCode, s: Bytes): (r: Decoded)
    ensures !r.ok ==> r.headers == []
    decreases |s|
  {
    if s == [] then Decoded(true, [], t)
    else
      match DecodedField(t, h, s)
      case None => Decoded(false, [], t)
      case Some(step) =>
        var r := DecodeBlock(step.table, h, s[step.consumed..]);
        if !r.ok then r
        else Decoded(true, (if step.field.Some? then [step.field.value] else []) + r.headers, r.table)
  }

  /** One round of `decode` that yields a step: what the block decodes to
    * is what the rest decodes to after that step's field. */
  lemma DecodeBlockStep(hs: seq<KeyValuePair>, t: Table, h: HuffmanCode, s: Bytes)
    requires DecodedField(t, h, s).Some?
    ensures var step := DecodedField(t, h, s).value;
      AfterFields(hs, DecodeBlock(t, h, s))
        == AfterFields(hs + (if step.field.Some? then [step.field.value] else []),
                       DecodeBlock(step.table, h, s[step.consumed..]))
  {
    var step := DecodedField(t, h, s).value;
    var f := if step.field.Some? then [step.field.value] else [];
    var r := DecodeBlock(step.table, h, s[step.consumed..]);
    assert hs + (f + r.headers) == hs + f + r.headers;
  }

  /** The loop of `decode` is on its way to `target`: the fields decoded so
    * far, then what the octets left decode to from table `t`. */
  ghost predicate DecodesTo(target: Decoded, hs: seq<KeyValuePair>, t: Table, h: HuffmanCode, s: Bytes)
  {
    target == AfterFields(hs, DecodeBlock(t, h, s))
  }

  /** Which side a table serves does not bear on its invariant. */
  lemma CoderGood(t: Table, isEncoder: bool)
    requires Good(t)
    ensures Good(t.(isEncoder := isEncoder))
  {
  }

  /** Before the loop of `decode` nothing is decoded yet. */
  lemma DecodeStart(target: Decoded, t: Table, h: HuffmanCode, s: Bytes)
    requires target == DecodeBlock(t, h, s)
    ensures DecodesTo(target, [], t, h, s)
  {
  }

  /** A representation that decodes moves the loop on by its octets, its
    * field and its table. */
  lemma DecodeAdvance(target: Decoded, hs: seq<KeyValuePair>, t: Table, h: HuffmanCode, s: Bytes,
                      k: nat, field: Option<KeyValuePair>, t1: Table)
    requires DecodesTo(target, hs, t, h, s)
    requires var r := DecodedField(t, h, s);
      r.Some? && r.value.consumed == k && r.value.field == field && r.value.table == t1
    ensures DecodesTo(target, hs + (if field.Some? then [field.value] else []), t1, h, s[k..])
  {
    DecodeBlockStep(hs, t, h, s);
  }

  /** A representation that does not decode fails the block with no fields
    * and the table as the fields before it left it. */
  lemma DecodeStops(target: Decoded, hs: seq<KeyValuePair>, t: Table, h: HuffmanCode, s: Bytes)
    requires DecodesTo(target, hs, t, h, s) && s != [] && DecodedField(t, h, s).None?
    ensures !target.ok && target.headers == [] && target.table == t
  {
  }

  /** With no octets left the block has decoded to the fields so far. */
  lemma DecodeDone(target: Decoded, hs: seq<KeyValuePair>, t: Table, h: HuffmanCode, s: Bytes)
    requires DecodesTo(target, hs, t, h, s) && s == []
    ensures target.ok && target.headers == hs && target.table == t
  {
  }

  /** Decoding keeps the table's invariant. */
  lemma DecodedFieldGood(t: Table, h: HuffmanCode, s: Bytes)
    requires Good(t)
    ensures DecodedField(t, h, s).Some? ==> Good(DecodedField(t, h, s).value.table)
  {
    match DecodedPrefix(s)
    case None =>
    case Some((k, kind, i)) =>
      if kind == TableSizeUpdate {
        WithLimitEffect(t, i);
      } else if kind == LiteralWithIndexing {
        var r := DecodedField(t, h, s);
        if r.Some? {
          var name := r.value.field.value.name;
          var value := r.value.field.value.value;
          AddHeaderEffect(t, name, value);
        }
      }
  }

  lemma {:induction false} DecodeBlockGood(t: Table, h: HuffmanCode, s: Bytes)
    requires Good(t)
    ensures Good(DecodeBlock(t, h, s).table)
    decreases |s|
  {
    if s != [] {
      DecodedFieldGood(t, h, s);
      var r := DecodedField(t, h, s);
      if r.Some? {
        DecodeBlockGood(r.value.table, h, s[r.value.consumed..]);
      }
    }
  }

  // ---------------------------------------------------------------------
  // Encoding header fields

  datatype IndexingType = NoIndexing | NameIndexing | AllIndexing

  /** `getIndexingType`: only four names are ever added to the table; the
    * `name` kind is never chosen. */
  function IndexingTypeOf(name: string, value: string): (r: IndexingType)
    ensures r != NameIndexing
    ensures r == AllIndexing <==> name in {"cookie", ":authority", "user-agent", "pragma"}
  {
    if name == "cookie" || name == ":authority" || name == "user-agent" || name == "pragma" then AllIndexing
    else NoIndexing
  }

  /** `encodeSizeUpdate(sz)`: a dynamic table size update. */
  function SizeUpdateBytes(sz: nat): Bytes
  {
    IntegerBytes(5, 0x20, sz)
  }

  /** `encodeHeader`: the octets of one field. A field found with its
    * value is sent as an index; one found by name sends the index and the
    * value; any other sends name and value. The four names of
    * `IndexingTypeOf` ask for indexing (first octet 0x40); the rest are sent
    * with the 0x10 first octet of a never-indexed literal. */
  function FieldBytes(t: Table, h: HuffmanCode, name: string, value: string): (r: Bytes)
    requires IndexSane(t)
  {
    var (index, valueIndexed) := Lookup(t, name, value);
    LookupSound(t, name, value);
    FieldBytesAt(h, index, valueIndexed, name, value)
  }

  /** The octets of a field once `getIndex` has answered. */
  function FieldBytesAt(h: HuffmanCode, index: int, valueIndexed: bool, name: string, value: string): (r: Bytes)
    requires index == -1 || index >= 1
    ensures r != []
  {
    var all := IndexingTypeOf(name, value) == AllIndexing;
    if index != -1 then
      if valueIndexed then IntegerBytes(7, 0x80, index)
      else if all then IntegerBytes(6, 0x40, index) + StringBytes(h, value)
      else IntegerBytes(4, 0x10, index) + StringBytes(h, value)
    else if all then [0x40] + StringBytes(h, name) + StringBytes(h, value)
    else [0x10] + StringBytes(h, name) + StringBytes(h, value)
  }

  /** The table after `encodeHeader`: the field is added when it asks for
    * indexing and was not sent as an index. */
  function FieldTable(t: Table, name: string, value: string): Table
    requires IndexSane(t)
  {
    var (index, valueIndexed) := Lookup(t, name, value);
    if IndexingTypeOf(name, value) == AllIndexing && !(index != -1 && valueIndexed) then Add(t, name, value).1
    else t
  }

  /** The octets of one field and the table after it. */
  function HeaderBytes(t: Table, h: HuffmanCode, name: string, value: string): (r: (Bytes, Table))
    requires IndexSane(t)
    ensures r.0 != []
  {
    (FieldBytes(t, h, name, value), FieldTable(t, name, value))
  }

  lemma HeaderBytesGood(t: Table, h: HuffmanCode, name: string, value: string)
    requires Good(t)
    ensures Good(HeaderBytes(t, h, name, value).1)
    ensures HeaderBytes(t, h, name, value).1.limit == t.limit
    ensures HeaderBytes(t, h, name, value).1.maxSize == t.maxSize
    ensures HeaderBytes(t, h, name, value).1.isEncoder == t.isEncoder
  {
    AddHeaderEffect(t, name, value);
  }

  /** `encodeSizeUpdate` exactly as written, on a buffer of `len` octets:
    * the octets it stores from the start of the buffer on, and what it
    * returns. It stores 0x20 before `encodeInteger` looks at the room, and
    * `encodeInteger` stores what fits before it gives up. */
  function EncodeSizeUpdateAsWritten(sz: nat, len: nat): (r: (Bytes, int))
  {
    var b := SizeUpdateBytes(sz);
    if len == 0 then ([0x20], -1)
    else if |b| <= len then (b, |b|)
    else (b[..len], -1)
  }

  /** As written, a buffer of no octets still receives the 0x20, while the
    * corrected `HPacker.EncodeSizeUpdate` stores nothing there. */
  lemma EncodeSizeUpdateAsWrittenStoresIntoEmpty(sz: nat)
    ensures EncodeSizeUpdateAsWritten(sz, 0) == ([0x20], -1)
  {
  }

  /** Given any room at all, the code as written and the corrected one
    * return the same and store only what the room holds. */
  lemma EncodeSizeUpdateAgrees(sz: nat, len: nat)
    requires len > 0
    ensures var r := EncodeSizeUpdateAsWritten(sz, len);
      && r.1 == (if |SizeUpdateBytes(sz)| <= len then |SizeUpdateBytes(sz)| else -1)
      && |r.0| <= len && r.0 == SizeUpdateBytes(sz)[..|r.0|]
  {
  }

  /** What `encodeHeader` as written stores from the start of a buffer of
    * no octets. The indexed forms store their first octet, 0x80, 0x40 or
    * 0x10, and return -1, as `encodeInteger` refuses a room of 0. A literal
    * stores its first octet, steps past it and hands `encodeString` a room
    * of -1, which stores the name's H octet before anything looks at the
    * room; what the negative room leads to after that is not modelled. */
  function EncodeHeaderIntoEmptyAsWritten(t: Table, h: HuffmanCode, name: string, value: string): (r: Bytes)
    requires IndexSane(t)
  {
    var (index, valueIndexed) := Lookup(t, name, value);
    var all := IndexingTypeOf(name, value) == AllIndexing;
    var first: byte := if index != -1 && valueIndexed then 0x80 else if all then 0x40 else 0x10;
    if index != -1 then [first]
    else [first, if |h.encode(OctetsOf(name))| < |OctetsOf(name)| then 0x80 else 0]
  }

  /** As written, every field stores at least one octet into a buffer of
    * no octets, and a field sent with its name as a string two. */
  lemma EncodeHeaderAsWrittenStoresIntoEmpty(t: Table, h: HuffmanCode, name: string, value: string)
    requires IndexSane(t)
    ensures |EncodeHeaderIntoEmptyAsWritten(t, h, name, value)| >= 1
    ensures Lookup(t, name, value).0 == -1 ==> |EncodeHeaderIntoEmptyAsWritten(t, h, name, value)| == 2
  {
  }

  /** The fields one after another, with no bound on the room. */
  function HeadersBytes(t: Table, h: HuffmanCode, hs: seq<KeyValuePair>): (r: (Bytes, Table))
    requires Good(t)
    ensures Good(r.1) && r.1.limit == t.limit && r.1.maxSize == t.maxSize
    decreases |hs|
  {
    if hs == [] then ([], t)
    else
      HeaderBytesGood(t, h, hs[0].name, hs[0].value);
      var first := HeaderBytes(t, h, hs[0].name, hs[0].value);
      var rest := HeadersBytes(first.1, h, hs[1..]);
      (first.0 + rest.0, rest.1)
  }

  /** The loop of `encode` over the fields with `room` octets left: it
    * stops at the first field that does not fit, leaving the table as the
    * fields before it made it. */
  function EncodeRun(t: Table, h: HuffmanCode, hs: seq<KeyValuePair>, room: nat): (r: (bool, Bytes, Table))
    requires Good(t)
    ensures Good(r.2)
    ensures r.0 ==> |r.1| <= room
    decreases |hs|
  {
    if hs == [] then (true, [], t)
    else
      HeaderBytesGood(t, h, hs[0].name, hs[0].value);
      var first := HeaderBytes(t, h, hs[0].name, hs[0].value);
      if |first.0| > room then (false, [], t)
      else
        var rest := EncodeRun(first.1, h, hs[1..], room - |first.0|);
        (rest.0, first.0 + rest.1, rest.2)
  }

  /** One round of the loop of `encode`. */
  lemma {:induction false} EncodeRunStep(t: Table, h: HuffmanCode, hs: seq<KeyValuePair>, room: nat)
    requires Good(t) && hs != []
    ensures var b := HeaderBytes(t, h, hs[0].name, hs[0].value).0;
      var t1 := HeaderBytes(t, h, hs[0].name, hs[0].value).1;
      && Good(t1)
      && (|b| > room ==> !EncodeRun(t, h, hs, room).0 && EncodeRun(t, h, hs, room).2 == t)
      && (|b| <= room ==>
            && EncodeRun(t, h, hs, room).0 == EncodeRun(t1, h, hs[1..], room - |b|).0
            && EncodeRun(t, h, hs, room).1 == b + EncodeRun(t1, h, hs[1..], room - |b|).1
            && EncodeRun(t, h, hs, room).2 == EncodeRun(t1, h, hs[1..], room - |b|).2)
  {
    hide HeaderBytes;
    HeaderBytesGood(t, h, hs[0].name, hs[0].value);
  }

  /** The bounded loop succeeds exactly when all the fields fit, and then
    * produces all of them. */
  lemma {:induction false} EncodeRunFits(t: Table, h: HuffmanCode, hs: seq<KeyValuePair>, room: nat)
    requires Good(t)
    ensures EncodeRun(t, h, hs, room).0 <==> |HeadersBytes(t, h, hs).0| <= room
    ensures EncodeRun(t, h, hs, room).0 ==>
      EncodeRun(t, h, hs, room).1 == HeadersBytes(t, h, hs).0 && EncodeRun(t, h, hs, room).2 == HeadersBytes(t, h, hs).1
    decreases |hs|
  {
    if hs != [] {
      var first := HeaderBytes(t, h, hs[0].name, hs[0].value);
      var b, t1 := first.0, first.1;
      HeaderBytesGood(t, h, hs[0].name, hs[0].value);
      var all := HeadersBytes(t, h, hs);
      var later := HeadersBytes(t1, h, hs[1..]);
      assert all == (b + later.0, later.1);
      assert |all.0| == |b| + |later.0|;
      if |b| <= room {
        EncodeRunFits(t1, h, hs[1..], room - |b|);
        var run := EncodeRun(t1, h, hs[1..], room - |b|);
        assert EncodeRun(t, h, hs, room) == (run.0, b + run.1, run.2);
      } else {
        assert !EncodeRun(t, h, hs, room).0;
      }
    }
  }

  /** The loop of `encode` is on its way to `run0`: the octets written so
    * far, then what the fields left make from table `t` in `room` octets. */
  ghost predicate RunsTo(run0: (bool, Bytes, Table), written: Bytes, t: Table, h: HuffmanCode,
                         hs: seq<KeyValuePair>, room: nat)
  {
    && Good(t)
    && run0.0 == EncodeRun(t, h, hs, room).0
    && run0.1 == written + EncodeRun(t, h, hs, room).1
    && run0.2 == EncodeRun(t, h, hs, room).2
  }

  /** Before the first field the loop is on its way to the whole run. */
  lemma RunStart(t: Table, h: HuffmanCode, hs: seq<KeyValuePair>, room: nat)
    requires Good(t)
    ensures RunsTo(EncodeRun(t, h, hs, room), [], t, h, hs, room)
  {
    assert [] + EncodeRun(t, h, hs, room).1 == EncodeRun(t, h, hs, room).1;
  }

  /** A field that fits is written and moves the loop on: after it come
    * `written2`, the table `t2` and the fields `hs2` in `room2` octets. */
  lemma RunAdvance(run0: (bool, Bytes, Table), written: Bytes, t: Table, h: HuffmanCode,
                   hs: seq<KeyValuePair>, room: nat,
                   written2: Bytes, t2: Table, hs2: seq<KeyValuePair>, room2: nat)
    requires RunsTo(run0, written, t, h, hs, room) && hs != []
    requires var b := HeaderBytes(t, h, hs[0].name, hs[0].value).0;
      && |b| <= room && room2 == room - |b| && written2 == written + b
      && t2 == HeaderBytes(t, h, hs[0].name, hs[0].value).1 && hs2 == hs[1..]
    ensures RunsTo(run0, written2, t2, h, hs2, room2)
  {
    hide HeaderBytes;
    EncodeRunStep(t, h, hs, room);
    var b := HeaderBytes(t, h, hs[0].name, hs[0].value).0;
    var rest := EncodeRun(t2, h, hs2, room2).1;
    assert written + (b + rest) == (written + b) + rest;
  }

  /** A field that does not fit fails the loop with the table unchanged. */
  lemma RunStops(run0: (bool, Bytes, Table), written: Bytes, t: Table, h: HuffmanCode,
                 hs: seq<KeyValuePair>, room: nat)
    requires RunsTo(run0, written, t, h, hs, room) && hs != []
    requires |HeaderBytes(t, h, hs[0].name, hs[0].value).0| > room
    ensures !run0.0 && run0.2 == t
  {
    hide HeaderBytes;
    EncodeRunStep(t, h, hs, room);
  }

  /** With no fields left the loop has produced what it wrote. */
  lemma RunDone(run0: (bool, Bytes, Table), written: Bytes, t: Table, h: HuffmanCode,
                hs: seq<KeyValuePair>, room: nat)
    requires RunsTo(run0, written, t, h, hs, room) && hs == []
    ensures run0.0 && run0.1 == written && run0.2 == t
  {
  }

  /** `encode`: the table becomes an encoder's, a pending size update goes
    * first, then the fields; the outcome, the octets and the table. */
  function EncodeBlock(t: Table, h: HuffmanCode, updateTableSize: bool, hs: seq<KeyValuePair>, len: nat): (r: (bool, Bytes, Table))
    requires Good(t)
    ensures r.0 ==> |r.1| <= len
  {
    var t0 := t.(isEncoder := true);
    if updateTableSize then
      var p := SizeUpdateBytes(t0.limit);
      if |p| > len then (false, [], t0)
      else
        var (ok, b, t1) := EncodeRun(t0, h, hs, len - |p|);
        (ok, p + b, t1)
    else EncodeRun(t0, h, hs, len)
  }

  /** `encode` in two parts: the pending size update, which fails the
    * block when it does not fit, then the run of the fields after it. */
  lemma EncodeBlockParts(t: Table, h: HuffmanCode, updateTableSize: bool, hs: seq<KeyValuePair>, len: nat)
    requires Good(t)
    ensures var t0 := t.(isEncoder := true);
      var p := if updateTableSize then SizeUpdateBytes(t0.limit) else [];
      var r := EncodeBlock(t, h, updateTableSize, hs, len);
      && (|p| > len ==> !r.0 && r.2 == t0)
      && (|p| <= len ==>
            && r.0 == EncodeRun(t0, h, hs, len - |p|).0
            && r.1 == p + EncodeRun(t0, h, hs, len - |p|).1
            && r.2 == EncodeRun(t0, h, hs, len - |p|).2)
  {
    hide EncodeRun;
    var t0 := t.(isEncoder := true);
    if !updateTableSize {
      assert [] + EncodeRun(t0, h, hs, len).1 == EncodeRun(t0, h, hs, len).1;
    }
  }

  // ---------------------------------------------------------------------
  // Encoder and decoder agree

  /** An encoder's table and a decoder's table hold the same entries under
    * the same limit, which the decoder allows. */
  ghost predicate Synced(e: Table, d: Table)
  {
    && Good(e) && Good(d)
    && e.dynamic == d.dynamic && e.size == d.size && e.limit == d.limit
    && e.limit <= d.maxSize
  }

  /** Eviction looks at the entries and the size only. */
  lemma {:induction false} EvictFromShape(t: Table, u: Table, sz: int, evicted: int)
    requires t.dynamic == u.dynamic && t.size == u.size
    ensures EvictFrom(t, sz, evicted).dynamic == EvictFrom(u, sz, evicted).dynamic
    ensures EvictFrom(t, sz, evicted).size == EvictFrom(u, sz, evicted).size
    decreases |t.dynamic|
  {
    if evicted < sz && t.dynamic != [] {
      EvictFromShape(EvictStep(t), EvictStep(u), sz, evicted + EntrySize(t.dynamic[|t.dynamic| - 1]));
    }
  }

  /** Adding the same field to synced tables keeps them synced. */
  lemma AddSynced(e: Table, d: Table, name: string, value: string)
    requires Synced(e, d)
    ensures Synced(Add(e, name, value).1, Add(d, name, value).1)
  {
    var es := EntrySize(KeyValuePair(name, value));
    EvictFromShape(e, d, es + e.size - e.limit, 0);
    AddHeaderEffect(e, name, value);
    AddHeaderEffect(d, name, value);
    EvictFromGood(e, es + e.size - e.limit, 0);
    EvictFromGood(d, es + e.size - e.limit, 0);
  }

  /** An indexed field reads back as the entry at its index. */
  lemma IndexedRoundTrip(d: Table, h: HuffmanCode, index: nat, kv: KeyValuePair, rest: Bytes)
    requires EntryAt(d, index) == Some(kv)
    ensures var b := IntegerBytes(7, 0x80, index);
      Yields(DecodedField(d, h, b + rest), |b|, kv, d)
  {
    PrefixRoundTrip(0x80, 7, index, rest);
  }

  /** One literal representation, read in its three parts: the prefix,
    * the name, the value. */
  lemma LiteralStep(d: Table, h: HuffmanCode, s: Bytes, k: nat, kind: PrefixType, i: nat,
                    k2: nat, name: string, k3: nat, value: string)
    requires kind == LiteralWithIndexing || kind == LiteralWithoutIndexing
    requires DecodedPrefix(s) == Some((k, kind, i)) && k <= |s|
    requires LiteralName(d, h, s, k, i) == Some((k2, name)) && k2 <= |s|
    requires DecodedString(h, s[k2..]) == Some((k3, value))
    ensures Yields(DecodedField(d, h, s), k2 + k3, KeyValuePair(name, value),
                   if kind == LiteralWithIndexing then Add(d, name, value).1 else d)
  {
  }

  /** A field sent as the index of its name and its value reads back as
    * that name and value, added to the table under the 0x40 prefix. */
  lemma NamedRoundTrip(d: Table, h: HuffmanCode, first: byte, n: nat, index: nat, value: string, rest: Bytes)
    requires (first, n) == (0x40, 6) || (first, n) == (0x10, 4)
    requires index >= 1 && EntryAt(d, index).Some?
    requires Sound(h) && IsAsciiText(value)
    ensures var name := EntryAt(d, index).value.name;
      var b := IntegerBytes(n, first, index) + StringBytes(h, value);
      Yields(DecodedField(d, h, b + rest), |b|, KeyValuePair(name, value),
             if first == 0x40 then Add(d, name, value).1 else d)
  {
    var p := IntegerBytes(n, first, index);
    var sv := StringBytes(h, value);
    var s := p + sv + rest;
    assert s == p + (sv + rest);
    PrefixRoundTrip(first, n, index, sv + rest);
    var kind := PrefixOf(first).0;
    var lp: nat := |p|;
    assert DecodedPrefix(s) == Some((lp, kind, index));
    var name := EntryAt(d, index).value.name;
    assert LiteralName(d, h, s, lp, index) == Some((lp, name));
    assert s[|p|..] == sv + rest;
    StringRoundTrip(h, value, rest);
    LiteralStep(d, h, s, |p|, kind, index, |p|, name, |sv|, value);
  }

  /** The first octet of a literal with its name as a string. */
  lemma LiteralPrefix(first: byte, tail: Bytes)
    requires first == 0x40 || first == 0x10
    ensures DecodedPrefix([first] + tail)
      == Some((1, if first == 0x40 then LiteralWithIndexing else LiteralWithoutIndexing, 0))
  {
    var n := if first == 0x40 then 6 else 4;
    assert Pow2(4) == 16 && Pow2(6) == 64;
    assert IntegerBytes(n, first, 0) == [first];
    PrefixRoundTrip(first, n, 0, tail);
  }

  /** A literal with its name as a string: the first octet, then the name
    * and the value as the decoder reads them. */
  lemma LiteralRead(d: Table, h: HuffmanCode, first: byte, sn: Bytes, sv: Bytes, rest: Bytes,
                    name: string, value: string)
    requires first == 0x40 || first == 0x10
    requires DecodedString(h, sn + (sv + rest)) == Some((|sn|, name))
    requires DecodedString(h, sv + rest) == Some((|sv|, value))
    ensures Yields(DecodedField(d, h, [first] + sn + sv + rest), 1 + |sn| + |sv|, KeyValuePair(name, value),
                   if first == 0x40 then Add(d, name, value).1 else d)
  {
    hide DecodedField, DecodedString, DecodedPrefix, Add, EntryAt, DecodedInteger, TextOf;
    var s := [first] + sn + sv + rest;
    assert s == [first] + (sn + sv + rest);
    LiteralPrefix(first, sn + sv + rest);
    var kind := if first == 0x40 then LiteralWithIndexing else LiteralWithoutIndexing;
    assert s[1..] == sn + (sv + rest);
    var k2: nat := 1 + |sn|;
    assert LiteralName(d, h, s, 1, 0) == Some((k2, name));
    assert s[k2..] == sv + rest;
    LiteralStep(d, h, s, 1, kind, 0, k2, name, |sv|, value);
  }

  /** A field sent with its name as a string reads back as that name and
    * value, added to the table under the 0x40 prefix. */
  lemma LiteralRoundTrip(d: Table, h: HuffmanCode, first: byte, name: string, value: string, rest: Bytes)
    requires first == 0x40 || first == 0x10
    requires Sound(h) && IsAsciiText(name) && IsAsciiText(value)
    ensures var b := [first] + StringBytes(h, name) + StringBytes(h, value);
      Yields(DecodedField(d, h, b + rest), |b|, KeyValuePair(name, value),
             if first == 0x40 then Add(d, name, value).1 else d)
  {
    var sn := StringBytes(h, name);
    var sv := StringBytes(h, value);
    StringRoundTrip(h, name, sv + rest);
    StringRoundTrip(h, value, rest);
    LiteralRead(d, h, first, sn, sv, rest, name, value);
  }

  /** What the encoder writes for one field, the decoder reads back as that
    * field, consuming exactly its octets, and the two tables stay synced. */
  lemma FieldRoundTrip(e: Table, d: Table, h: HuffmanCode, name: string, value: string, rest: Bytes)
    requires Synced(e, d) && Sound(h) && IsAsciiText(name) && IsAsciiText(value)
    ensures var (b, e') := HeaderBytes(e, h, name, value);
      var r := DecodedField(d, h, b + rest);
      && r.Some? && r.value.consumed == |b| && r.value.field == Some(KeyValuePair(name, value))
      && Synced(e', r.value.table)
  {
    var (index, valueIndexed) := Lookup(e, name, value);
    LookupSound(e, name, value);
    var all := IndexingTypeOf(name, value) == AllIndexing;
    if all {
      AddSynced(e, d, name, value);
    }
    if index != -1 {
      assert EntryAt(d, index) == EntryAt(e, index);
      if valueIndexed {
        IndexedRoundTrip(d, h, index, KeyValuePair(name, value), rest);
      } else if all {
        NamedRoundTrip(d, h, 0x40, 6, index, value, rest);
      } else {
        NamedRoundTrip(d, h, 0x10, 4, index, value, rest);
      }
    } else if all {
      LiteralRoundTrip(d, h, 0x40, name, value, rest);
    } else {
      LiteralRoundTrip(d, h, 0x10, name, value, rest);
    }
  }

  /** Every name and value is ASCII text, the text `decodeString`'s ASCII
    * conversion reads back. */
  ghost predicate AsciiFields(hs: seq<KeyValuePair>)
  {
    forall i :: 0 <= i < |hs| ==> IsAsciiText(hs[i].name) && IsAsciiText(hs[i].value)
  }

  /** The encoder's fields, one after another, decode to the same fields,
    * and the tables stay synced. */
  lemma {:induction false} HeadersRoundTrip(e: Table, d: Table, h: HuffmanCode, hs: seq<KeyValuePair>)
    requires Synced(e, d) && Sound(h) && AsciiFields(hs)
    ensures var r := DecodeBlock(d, h, HeadersBytes(e, h, hs).0);
      r.ok && r.headers == hs && Synced(HeadersBytes(e, h, hs).1, r.table)
    decreases |hs|
  {
    hide HeaderBytes, DecodedField, Add, Lookup, StringBytes;
    if hs != [] {
      var first := HeaderBytes(e, h, hs[0].name, hs[0].value);
      var b, e1 := first.0, first.1;
      HeaderBytesGood(e, h, hs[0].name, hs[0].value);
      var later := HeadersBytes(e1, h, hs[1..]);
      var s := HeadersBytes(e, h, hs).0;
      assert s == b + later.0;
      FieldRoundTrip(e, d, h, hs[0].name, hs[0].value, later.0);
      var step := DecodedField(d, h, s).value;
      assert s[step.consumed..] == later.0;
      assert AsciiFields(hs[1..]) by {
        forall i | 0 <= i < |hs[1..]|
          ensures IsAsciiText(hs[1..][i].name) && IsAsciiText(hs[1..][i].value)
        {
          assert hs[1..][i] == hs[i + 1];
        }
      }
      HeadersRoundTrip(e1, step.table, h, hs[1..]);
      assert [hs[0]] + hs[1..] == hs;
    }
  }

  /** A size update to the encoder's limit leaves the decoder's table as
    * it is: the decoder already holds that limit and no more entries than
    * it allows. */
  lemma SizeUpdateRoundTrip(e: Table, d: Table, h: HuffmanCode, rest: Bytes)
    requires Synced(e, d)
    ensures var r := DecodedField(d, h, SizeUpdateBytes(e.limit) + rest);
      r == Some(Step(|SizeUpdateBytes(e.limit)|, None, d))
  {
    PrefixRoundTrip(0x20, 5, e.limit, rest);
    assert WithLimit(d, e.limit) == d;
  }

  /** The round trip of a header block: when `encode` succeeds, `decode`
    * on its octets yields exactly the fields that were encoded, and the
    * decoder's table ends synced with the encoder's; `encode` succeeds
    * exactly when the octets fit the buffer. */
  lemma EncodeDecodeRoundTrip(e: Table, d: Table, h: HuffmanCode, updateTableSize: bool,
                              hs: seq<KeyValuePair>, len: nat)
    requires Synced(e, d) && Sound(h) && AsciiFields(hs)
    ensures var (ok, b, e') := EncodeBlock(e, h, updateTableSize, hs, len);
      var all := (if updateTableSize then SizeUpdateBytes(e.limit) else []) + HeadersBytes(e.(isEncoder := true), h, hs).0;
      (ok <==> |all| <= len)
      && (ok ==> b == all
                 && var r := DecodeBlock(d, h, b);
                    r.ok && r.headers == hs && Synced(e', r.table))
  {
    hide HeaderBytes, HeadersBytes, EncodeRun, DecodedField;
    var e0 := e.(isEncoder := true);
    assert Synced(e0, d);
    var p := if updateTableSize then SizeUpdateBytes(e.limit) else [];
    var room: nat := if |p| <= len then len - |p| else 0;
    EncodeRunFits(e0, h, hs, room);
    HeadersRoundTrip(e0, d, h, hs);
    var body := HeadersBytes(e0, h, hs).0;
    if updateTableSize {
      SizeUpdateRoundTrip(e, d, h, body);
      var s := p + body;
      assert s[|p|..] == body;
    }
  }

  // ---------------------------------------------------------------------
  // Writing into the buffer

  /** What a writer into `s[off..off + len]` promises: the count of the
    * octets `b` when they fit, -1 otherwise, and `b` in place when written. */
  ghost predicate Wrote(s: seq<byte>, off: nat, len: nat, ret: int, b: Bytes)
  {
    && ret == (if |b| <= len then |b| else -1)
    && (ret > 0 ==> off + ret <= |s| && s[off..off + ret] == b)
  }

  /** A first octet carrying the representation's high bits, then the
    * integer in its low `n` bits; the room is checked before the store. */
  method EncodePrefixed(first: byte, n: nat, i: nat, dst: array<byte>, off: nat, len: nat) returns (ret: int)
    requires n <= 7 && off + len <= dst.Length
    modifies dst
    ensures Wrote(dst[..], off, len, ret, IntegerBytes(n, first, i))
    ensures forall j :: 0 <= j < dst.Length && !(off <= j < off + len) ==> dst[j] == old(dst[j])
  {
    if len == 0 {
      return -1;
    }
    dst[off] := first;
    ret := EncodeInteger(n, i, dst, off, len);
  }

  /** A field sent as the index of its name: the prefixed index, then
    * the value. */
  method EncodeNamed(h: HuffmanCode, first: byte, n: nat, index: nat, value: string,
                     dst: array<byte>, off: nat, len: nat) returns (ret: int)
    requires n <= 7 && off + len <= dst.Length
    modifies dst
    ensures Wrote(dst[..], off, len, ret, IntegerBytes(n, first, index) + StringBytes(h, value))
    ensures forall j :: 0 <= j < dst.Length && !(off <= j < off + len) ==> dst[j] == old(dst[j])
  {
    hide StringBytes, IntegerBytes;
    ret := EncodePrefixed(first, n, index, dst, off, len);
    if ret > 0 {
      ghost var p := dst[off..off + ret];
      var r := EncodeString(h, value, dst, off + ret, len - ret);
      if r > 0 {
        assert dst[off..off + ret] == p;
        assert dst[off..off + ret + r] == p + StringBytes(h, value);
        ret := ret + r;
      } else {
        ret := -1;
      }
    }
  }

  /** A name and a value, one string after the other. */
  method EncodeNameValue(h: HuffmanCode, name: string, value: string,
                         dst: array<byte>, off: nat, len: nat) returns (ret: int)
    requires off + len <= dst.Length
    modifies dst
    ensures Wrote(dst[..], off, len, ret, StringBytes(h, name) + StringBytes(h, value))
    ensures forall j :: 0 <= j < dst.Length && !(off <= j < off + len) ==> dst[j] == old(dst[j])
  {
    hide StringBytes, IntegerBytes;
    ret := EncodeString(h, name, dst, off, len);
    if ret > 0 {
      ghost var p := dst[off..off + ret];
      var r := EncodeString(h, value, dst, off + ret, len - ret);
      if r > 0 {
        assert dst[off..off + ret] == p;
        assert dst[off..off + ret + r] == p + StringBytes(h, value);
        ret := ret + r;
      } else {
        ret := -1;
      }
    } else {
      ret := -1;
    }
  }

  /** A field sent with its name as a string: the first octet, the name,
    * the value. */
  method EncodeLiteral(h: HuffmanCode, first: byte, name: string, value: string,
                       dst: array<byte>, off: nat, len: nat) returns (ret: int)
    requires off + len <= dst.Length
    modifies dst
    ensures Wrote(dst[..], off, len, ret, [first] + StringBytes(h, name) + StringBytes(h, value))
    ensures forall j :: 0 <= j < dst.Length && !(off <= j < off + len) ==> dst[j] == old(dst[j])
  {
    hide StringBytes, IntegerBytes;
    ret := -1;
    if len > 0 {
      dst[off] := first;
      var r := EncodeNameValue(h, name, value, dst, off + 1, len - 1);
      if r > 0 {
        assert dst[off..off + 1 + r] == [first] + dst[off + 1..off + 1 + r];
        ret := 1 + r;
      }
    }
  }

  /** The octets of the field, written as `encodeHeader` writes them once
    * `getIndex` has answered. */
  method EncodeFieldBytes(h: HuffmanCode, name: string, value: string, index: int, valueIndexed: bool,
                          dst: array<byte>, off: nat, len: nat) returns (ret: int)
    requires index == -1 || index >= 1
    requires off + len <= dst.Length
    modifies dst
    ensures Wrote(dst[..], off, len, ret, FieldBytesAt(h, index, valueIndexed, name, value))
    ensures forall j :: 0 <= j < dst.Length && !(off <= j < off + len) ==> dst[j] == old(dst[j])
  {
    hide StringBytes, IntegerBytes;
    var all := IndexingTypeOf(name, value) == AllIndexing;
    if index != -1 {
      if valueIndexed {
        ret := EncodePrefixed(0x80, 7, index, dst, off, len);
      } else if all {
        ret := EncodeNamed(h, 0x40, 6, index, value, dst, off, len);
      } else {
        ret := EncodeNamed(h, 0x10, 4, index, value, dst, off, len);
      }
    } else if all {
      ret := EncodeLiteral(h, 0x40, name, value, dst, off, len);
    } else {
      ret := EncodeLiteral(h, 0x10, name, value, dst, off, len);
    }
  }

  // ---------------------------------------------------------------------
  // The object

  /** The HPACK coder of one connection direction: its table, the Huffman
    * code, and whether a size update is still owed to the peer. */
  class HPacker {
    const table: HPackTable
    const huffman: HuffmanCode
    var updateTableSize: bool

    ghost predicate Valid()
      reads this, table
    {
      table.Valid()
    }

    /** The coder's table keeps the invariant of its model. */
    lemma ValidTable()
      requires Valid()
      ensures Good(table.Model())
    {
    }

    constructor (huffman: HuffmanCode)
      ensures fresh(table) && table.Model() == InitialTable() && updateTableSize
      ensures this.huffman == huffman && Valid()
    {
      table := new HPackTable();
      this.huffman := huffman;
      updateTableSize := true;
    }

    /** `setMaxTableSize`: the table's `setMaxSize`. */
    method SetMaxTableSize(maxSize: nat)
      requires Valid()
      modifies table
      ensures table.Model() == WithMaxSize(old(table.Model()), maxSize) && Valid()
    {
      table.SetMaxSize(maxSize);
    }

    /** `encodeSizeUpdate`: the 001 prefix and the size, or -1 when it
      * does not fit. */
    method EncodeSizeUpdate(sz: nat, buf: array<byte>, off: nat, len: nat) returns (ret: int)
      requires off + len <= buf.Length
      modifies buf
      ensures ret == (if |SizeUpdateBytes(sz)| <= len then |SizeUpdateBytes(sz)| else -1)
      ensures ret > 0 ==> buf[off..off + ret] == SizeUpdateBytes(sz)
      ensures forall j :: 0 <= j < buf.Length && !(off <= j < off + len) ==> buf[j] == old(buf[j])
    {
      ret := EncodePrefixed(0x20, 5, sz, buf, off, len);
    }

    /** `encodeHeader`: the field's octets, or -1 when they do not fit; a
      * field that asks for indexing goes into the table once it has been
      * written. */
    method EncodeHeader(name: string, value: string, buf: array<byte>, off: nat, len: nat) returns (ret: int)
      requires Valid() && off + len <= buf.Length
      modifies buf, table
      ensures Valid()
      ensures var (b, t') := HeaderBytes(old(table.Model()), huffman, name, value);
        && ret == (if |b| <= len then |b| else -1)
        && (ret > 0 ==> buf[off..off + ret] == b && table.Model() == t')
        && (ret <= 0 ==> table.Model() == old(table.Model()))
      ensures forall j :: 0 <= j < buf.Length && !(off <= j < off + len) ==> buf[j] == old(buf[j])
    {
      var index, valueIndexed := table.GetIndex(name, value);
      LookupSound(table.Model(), name, value);
      ret := EncodeFieldBytes(huffman, name, value, index, valueIndexed, buf, off, len);
      if ret > 0 && index != -1 && valueIndexed {
        return;
      }
      if ret > 0 && IndexingTypeOf(name, value) == AllIndexing {
        var _ := table.AddHeader(name, value);
      }
    }

    /** `encode`: the table becomes an encoder's; a pending size update
      * goes first and is no longer pending, whether or not it fits; then
      * the fields, stopping with -1 at the first that does not fit. */
    method Encode(headers: seq<KeyValuePair>, buf: array<byte>, len: nat) returns (ret: int)
      requires Valid() && len <= buf.Length
      modifies this, table, buf
      ensures Valid() && !updateTableSize
      ensures var (ok, b, t') := EncodeBlock(old(table.Model()), huffman, old(updateTableSize), headers, len);
        && ret == (if ok then |b| else -1)
        && (ok ==> buf[..|b|] == b)
        && table.Model() == t'
    {
      hide EncodeBlock, EncodeRun, HeaderBytes, StringBytes, Lookup, Add, IntegerBytes, Good;
      EncodeBlockParts(table.Model(), huffman, updateTableSize, headers, len);
      ValidTable();
      CoderGood(table.Model(), true);
      table.isEncoder := true;
      var p: nat := 0;
      ret := 0;
      if updateTableSize {
        updateTableSize := false;
        var r := EncodeSizeUpdate(table.limitSize, buf, 0, len);
        if r <= 0 {
          ret := -1;
        } else {
          p := r;
        }
      }
      if ret == 0 {
        ghost var pre := buf[..p];
        var r := EncodeFields(headers, buf, p, len);
        if r < 0 {
          ret := -1;
        } else {
          assert buf[..p] == pre;
          assert buf[..p + r] == pre + buf[p..p + r];
          ret := p + r;
        }
      }
    }

    /** The loop of `encode` over the fields, writing from `start` up to
      * `len`: the octets written, or -1 at the first field that does not
      * fit, with the table as the fields before it left it. */
    method EncodeFields(headers: seq<KeyValuePair>, buf: array<byte>, start: nat, len: nat) returns (ret: int)
      requires Valid() && start <= len <= buf.Length
      modifies table, buf
      ensures Valid()
      ensures var (ok, b, t') := EncodeRun(old(table.Model()), huffman, headers, len - start);
        && ret == (if ok then |b| else -1)
        && (ok ==> buf[start..start + |b|] == b)
        && table.Model() == t'
      ensures forall j :: 0 <= j < start ==> buf[j] == old(buf[j])
    {
      hide *;
      ValidTable();
      ghost var run0 := EncodeRun(table.Model(), huffman, headers, len - start);
      var p := start;
      var i := 0;
      var failed := false;
      RunStart(table.Model(), huffman, headers, len - start);
      assert buf[start..p] == [] && headers[i..] == headers;
      while i < |headers| && !failed
        invariant Valid() && 0 <= i <= |headers| && start <= p <= len
        invariant forall j :: 0 <= j < start ==> buf[j] == old(buf[j])
        invariant !failed ==> RunsTo(run0, buf[start..p], table.Model(), huffman, headers[i..], len - p)
        invariant failed ==> !run0.0 && table.Model() == run0.2
        decreases |headers| - i, !failed
      {
        var r := EncodeNext(run0, headers, i, buf, start, p, len);
        if r <= 0 {
          failed := true;
        } else {
          p := p + r;
          i := i + 1;
        }
      }
      if failed {
        ret := -1;
      } else {
        RunDone(run0, buf[start..p], table.Model(), huffman, headers[i..], len - p);
        ret := p - start;
      }
    }

    /** One round of the loop of `encode`: field `i` goes at `p`, and the
      * loop moves on, or it does not fit and the loop fails. */
    method EncodeNext(ghost run0: (bool, Bytes, Table), headers: seq<KeyValuePair>, i: nat,
                      buf: array<byte>, start: nat, p: nat, len: nat) returns (r: int)
      requires Valid() && i < |headers| && start <= p <= len <= buf.Length
      requires RunsTo(run0, buf[start..p], table.Model(), huffman, headers[i..], len - p)
      modifies table, buf
      ensures Valid()
      ensures r <= 0 ==> !run0.0 && table.Model() == run0.2
      ensures r > 0 ==>
        p + r <= len && RunsTo(run0, buf[start..p + r], table.Model(), huffman, headers[i + 1..], len - (p + r))
      ensures forall j :: 0 <= j < p ==> buf[j] == old(buf[j])
    {
      hide *;
      ghost var written := buf[start..p];
      ghost var t0 := table.Model();
      assert headers[i..][0] == headers[i] && headers[i..][1..] == headers[i + 1..];
      r := EncodeHeader(headers[i].name, headers[i].value, buf, p, len - p);
      if r <= 0 {
        RunStops(run0, written, t0, huffman, headers[i..], len - p);
      } else {
        assert buf[start..p] == written;
        assert buf[start..p + r] == written + buf[p..p + r];
        RunAdvance(run0, written, t0, huffman, headers[i..], len - p,
                   buf[start..p + r], table.Model(), headers[i + 1..], len - (p + r));
      }
    }

    /** One round of the loop of `decode` on the octets `src` left: the
      * octets taken and the field (none for a size update), or -1 when
      * they do not decode, the table then left as it was. */
    method DecodeField(src: Bytes) returns (ret: int, field: Option<KeyValuePair>)
      requires Valid()
      modifies table
      ensures Valid()
      ensures var r := DecodedField(old(table.Model()), huffman, src);
        && (r.None? ==> ret == -1 && field.None? && table.Model() == old(table.Model()))
        && (r.Some? ==> ret == r.value.consumed && field == r.value.field && table.Model() == r.value.table)
    {
      var k, kind, i := DecodePrefix(src);
      if k <= 0 {
        return -1, None;
      }
      if kind == IndexedHeader {
        var name := table.GetIndexedName(i);
        var value := table.GetIndexedValue(i);
        if name.None? || value.None? {
          return -1, None;
        }
        return k, Some(KeyValuePair(name.value, value.value));
      } else if kind == TableSizeUpdate {
        if i > table.maxSize {
          return -1, None;
        }
        table.UpdateLimitSize(i);
        return k, None;
      }
      ret, field := DecodeLiteral(src, k, kind, i);
    }

    /** The rest of a literal representation after its prefix: the name
      * (a string, or the name of the indexed entry), the value, and the
      * insertion when the representation asks for indexing. */
    method DecodeLiteral(src: Bytes, k: nat, kind: PrefixType, i: nat) returns (ret: int, field: Option<KeyValuePair>)
      requires Valid()
      requires kind == LiteralWithIndexing || kind == LiteralWithoutIndexing
      requires DecodedPrefix(src) == Some((k, kind, i))
      modifies table
      ensures Valid()
      ensures var r := DecodedField(old(table.Model()), huffman, src);
        && (r.None? ==> ret == -1 && field.None? && table.Model() == old(table.Model()))
        && (r.Some? ==> ret == r.value.consumed && field == r.value.field && table.Model() == r.value.table)
    {
      hide DecodedString, DecodedPrefix, Add, TextOf;
      var p := k;
      var name: string;
      if i == 0 {
        var r, s := DecodeString(huffman, src[p..]);
        if r <= 0 {
          return -1, None;
        }
        p := p + r;
        name := s.value;
      } else {
        var n := table.GetIndexedName(i);
        if n.None? {
          return -1, None;
        }
        name := n.value;
      }
      assert LiteralName(table.Model(), huffman, src, k, i) == Some((p, name));
      var r, value := DecodeString(huffman, src[p..]);
      if r <= 0 {
        return -1, None;
      }
      if kind == LiteralWithIndexing {
        var _ := table.AddHeader(name, value.value);
      }
      return p + r, Some(KeyValuePair(name, value.value));
    }

    /** `decode`: the table becomes a decoder's; the fields of the whole
      * block, or -1 and none at the first representation that does not
      * decode, the table keeping what the ones before it did. */
    method Decode(buf: Bytes) returns (ret: int, headers: seq<KeyValuePair>)
      requires Valid()
      modifies table
      ensures Valid()
      ensures var r := DecodeBlock(old(table.Model()).(isEncoder := false), huffman, buf);
        && ret == (if r.ok then |buf| else -1) && headers == r.headers && table.Model() == r.table
    {
      hide DecodeBlock, DecodedField, DecodesTo, Good;
      ValidTable();
      CoderGood(table.Model(), false);
      table.isEncoder := false;
      ghost var target := DecodeBlock(table.Model(), huffman, buf);
      var p: nat := 0;
      headers := [];
      assert buf[p..] == buf;
      DecodeStart(target, table.Model(), huffman, buf);
      while p < |buf|
        invariant Valid() && p <= |buf|
        invariant DecodesTo(target, headers, table.Model(), huffman, buf[p..])
        decreases |buf| - p
      {
        ghost var t0 := table.Model();
        var k, field := DecodeField(buf[p..]);
        if k <= 0 {
          DecodeStops(target, headers, t0, huffman, buf[p..]);
          return -1, [];
        }
        DecodeAdvance(target, headers, t0, huffman, buf[p..], k, field, table.Model());
        assert buf[p..][k..] == buf[p + k..];
        p := p + k;
        if field.Some? {
          headers := headers + [field.value];
        } else {
          assert headers + [] == headers;
        }
      }
      DecodeDone(target, headers, table.Model(), huffman, buf[p..]);
      return |buf|, headers;
    }
  }
}

=== FILE: hpacktable.dfy ===
/** The HPACK header table (Sources/http/v2/hpack/HPackTable.swift;
  * RFC 7541, sections 2.3 and 4): the static table followed by a dynamic
  * table whose newest entry comes first, with FIFO eviction by size.
  *
  * `Table` is the value the object's fields hold; each operation is a
  * function on it, and the `HPackTable` class below updates its fields in
  * place exactly as those functions say.
  */
module HPackTable {
  import opened Common
  import opened H2Utils
  import opened StaticTable

  /** The size RFC 7541 charges for an entry: its octets plus 32. */
  function EntrySize(e: KeyValuePair): nat
  {
    |e.name| + |e.value| + TableEntrySizeExtra
  }

  function TotalSize(d: seq<KeyValuePair>): nat
  {
    if d == [] then 0 else EntrySize(d[0]) + TotalSize(d[1..])
  }

  /** The size of a table is also its oldest entry plus the rest. */
  lemma {:induction false} TotalSizeLast(d: seq<KeyValuePair>)
    requires d != []
    ensures TotalSize(d) == TotalSize(d[..|d| - 1]) + EntrySize(d[|d| - 1])
  {
    if |d| > 1 {
      TotalSizeLast(d[1..]);
      assert d[1..][..|d[1..]| - 1] == d[..|d| - 1][1..];
    }
  }

  /** An `indexMap` value: the insertion number of the newest dynamic entry
    * under this key, and the static slot of the key, each -1 when absent. */
  datatype IndexPair = IndexPair(idxD: int, idxS: int)

  /** The static table is keyed by name and value run together. */
  function StaticKey(i: nat): string
    requires i < |Entries|
  {
    Entries[i].name + Entries[i].value
  }

  /** The index map `init` builds from the first `k` static entries: the
    * first slot of each key. */
  function StaticIndexMap(k: nat): map<string, IndexPair>
    requires k <= |Entries|
  {
    if k == 0 then map[]
    else
      var m := StaticIndexMap(k - 1);
      if StaticKey(k - 1) in m then m else m[StaticKey(k - 1) := IndexPair(-1, k - 1)]
  }

  datatype Table = Table(
    dynamic: seq<KeyValuePair>,
    size: int,
    limit: nat,
    maxSize: nat,
    isEncoder: bool,
    indexSequence: int,
    indexMap: map<string, IndexPair>)

  const DefaultTableSize: nat := 4096

  function InitialTable(): Table
  {
    Table([], 0, DefaultTableSize, DefaultTableSize, false, 0, StaticIndexMap(|Entries|))
  }

  /** Every key of the map names a real static slot holding that key, and
    * a dynamic insertion number that has been handed out. */
  ghost predicate IndexSane(t: Table)
  {
    forall k :: k in t.indexMap ==>
      && (t.indexMap[k].idxS == -1 || (0 <= t.indexMap[k].idxS < |Entries| && StaticKey(t.indexMap[k].idxS) == k))
      && (t.indexMap[k].idxD == -1 || 0 < t.indexMap[k].idxD <= t.indexSequence)
  }

  /** The invariant of the table: `tableSize` is the sum of the entry sizes
    * and within the limit. */
  ghost predicate Good(t: Table)
  {
    && t.size == TotalSize(t.dynamic)
    && t.size <= t.limit
    && t.indexSequence >= 0
    && IndexSane(t)
  }

  /** `getIndexedName` / `getIndexedValue`: index 1..61 is static, 62 on is
    * the dynamic table, newest first. */
  function EntryAt(t: Table, index: int): (r: Option<KeyValuePair>)
  {
    if index <= 0 then None
    else if index < DynamicStartIndex then Some(Entries[index - 1])
    else if index - DynamicStartIndex < |t.dynamic| then Some(t.dynamic[index - DynamicStartIndex])
    else None
  }

  lemma EntryAtRange(t: Table, index: int)
    ensures EntryAt(t, index).Some? <==> 1 <= index < DynamicStartIndex + |t.dynamic|
    ensures 1 <= index <= StaticTableSize ==> EntryAt(t, index) == Some(Entries[index - 1])
  {
  }

  function DynamicIndex(indexSequence: int, idxSeq: int): int
  {
    if idxSeq == -1 then -1 else indexSequence - idxSeq
  }

  /** `updateIndex`. */
  function UpdatedIndex(m: map<string, IndexPair>, name: string, idxSeq: int): map<string, IndexPair>
  {
    if name in m then m[name := m[name].(idxD := idxSeq)] else m[name := IndexPair(idxSeq, -1)]
  }

  /** `removeIndex`, called while the entry named `name` is still the
    * table's last. */
  function RemovedIndex(t: Table, name: string): map<string, IndexPair>
  {
    if name in t.indexMap && DynamicIndex(t.indexSequence, t.indexMap[name].idxD) == |t.dynamic| - 1 then
      if t.indexMap[name].idxS == -1 then t.indexMap - {name}
      else t.indexMap[name := t.indexMap[name].(idxD := -1)]
    else t.indexMap
  }

  /** One round of the loop of `evictTableBySize`: the oldest entry goes. */
  function EvictStep(t: Table): Table
    requires t.dynamic != []
  {
    var e := t.dynamic[|t.dynamic| - 1];
    var es := EntrySize(e);
    t.(dynamic := t.dynamic[..|t.dynamic| - 1],
       size := if t.size > es then t.size - es else 0,
       indexMap := if t.isEncoder then RemovedIndex(t, e.name) else t.indexMap)
  }

  /** The loop of `evictTableBySize(sz)` once `evicted` octets are gone: the
    * oldest entry goes while fewer than `sz` octets have been evicted. */
  function EvictFrom(t: Table, sz: int, evicted: int): Table
    decreases |t.dynamic|
  {
    if evicted < sz && t.dynamic != [] then
      EvictFrom(EvictStep(t), sz, evicted + EntrySize(t.dynamic[|t.dynamic| - 1]))
    else t
  }

  function Evict(t: Table, sz: int): Table
  {
    EvictFrom(t, sz, 0)
  }

  /** `addHeader`: evict to make room, refuse an entry larger than the
    * limit, otherwise insert it as the newest. */
  function Add(t: Table, name: string, value: string): (r: (bool, Table))
  {
    var es := EntrySize(KeyValuePair(name, value));
    var t1 := if es + t.size > t.limit then Evict(t, es + t.size - t.limit) else t;
    if es > t1.limit then (false, t1)
    else
      var t2 := t1.(dynamic := [KeyValuePair(name, value)] + t1.dynamic, size := t1.size + es);
      if t2.isEncoder then
        (true, t2.(indexSequence := t2.indexSequence + 1,
                   indexMap := UpdatedIndex(t2.indexMap, name, t2.indexSequence + 1)))
      else (true, t2)
  }

  /** `updateLimitSize`. */
  function WithLimit(t: Table, sz: nat): Table
  {
    (if t.size > sz then Evict(t, t.size - sz) else t).(limit := sz)
  }

  /** `setMaxSize`. */
  function WithMaxSize(t: Table, sz: nat): Table
  {
    var t1 := t.(maxSize := sz);
    if t1.limit > sz then WithLimit(t1, sz) else t1
  }

  /** `getIndex(name, value)`: the index of an entry named `name`, and
    * whether its value is `value` too; (-1, false) when there is none. The
    * dynamic entry is found by name, the static one by the key `name`,
    * which is how the static map was built only for entries with an empty
    * value. */
  function Lookup(t: Table, name: string, value: string): (r: (int, bool))
    requires IndexSane(t)
  {
    var d := if name in t.indexMap then DynamicIndex(t.indexSequence, t.indexMap[name].idxD) else -1;
    var s := if name in t.indexMap then t.indexMap[name].idxS else -1;
    if d != -1 && d < |t.dynamic| && name == t.dynamic[d].name then
      (d + DynamicStartIndex, t.dynamic[d].value == value)
    else if s != -1 && s < StaticTableSize && name == Entries[s].name then
      (s + 1, Entries[s].value == value)
    else (-1, false)
  }

  // ---------------------------------------------------------------------
  // Properties

  lemma {:induction false} StaticIndexMapSane(k: nat)
    requires k <= |Entries|
    ensures forall key :: key in StaticIndexMap(k) ==>
      StaticIndexMap(k)[key].idxD == -1 && 0 <= StaticIndexMap(k)[key].idxS < k
      && StaticKey(StaticIndexMap(k)[key].idxS) == key
  {
    if k > 0 {
      StaticIndexMapSane(k - 1);
    }
  }

  /** A key shorter than three characters is none of the first `k` static
    * keys. */
  lemma {:induction false} ShortKeyNotStatic(k: nat, key: string)
    requires k <= |Entries| && |key| < 3
    ensures key !in StaticIndexMap(k)
  {
    if k > 0 {
      ShortKeyNotStatic(k - 1, key);
      NamesAtLeastThree(Entries[k - 1]);
    }
  }

  /** A new table is empty, within its limit and indexed consistently. */
  lemma InitialTableGood()
    ensures Good(InitialTable()) && InitialTable().dynamic == []
  {
    StaticIndexMapSane(|Entries|);
  }

  /** Dropping the oldest entry keeps the table's invariant. */
  lemma EvictStepGood(t: Table)
    requires Good(t) && t.dynamic != []
    ensures Good(EvictStep(t))
    ensures EvictStep(t).limit == t.limit && EvictStep(t).maxSize == t.maxSize
    ensures EvictStep(t).isEncoder == t.isEncoder && EvictStep(t).indexSequence == t.indexSequence
  {
    var t' := EvictStep(t);
    var m := t'.indexMap;
    TotalSizeLast(t.dynamic);
    assert IndexSane(t') by {
      forall k | k in m
        ensures (m[k].idxS == -1 || (0 <= m[k].idxS < |Entries| && StaticKey(m[k].idxS) == k))
        ensures (m[k].idxD == -1 || 0 < m[k].idxD <= t.indexSequence)
      {
        assert k in t.indexMap;
      }
    }
  }

  lemma {:induction false} EvictFromGood(t: Table, sz: int, evicted: int)
    requires Good(t)
    ensures Good(EvictFrom(t, sz, evicted))
    ensures EvictFrom(t, sz, evicted).limit == t.limit && EvictFrom(t, sz, evicted).maxSize == t.maxSize
    ensures EvictFrom(t, sz, evicted).isEncoder == t.isEncoder
    ensures EvictFrom(t, sz, evicted).indexSequence == t.indexSequence
    decreases |t.dynamic|
  {
    if evicted < sz && t.dynamic != [] {
      EvictStepGood(t);
      EvictFromGood(EvictStep(t), sz, evicted + EntrySize(t.dynamic[|t.dynamic| - 1]));
    }
  }

  /** Eviction keeps a prefix of the entries: the newest ones. */
  lemma {:induction false} EvictFromPrefix(t: Table, sz: int, evicted: int)
    ensures var r := EvictFrom(t, sz, evicted);
      |r.dynamic| <= |t.dynamic| && r.dynamic == t.dynamic[..|r.dynamic|]
    decreases |t.dynamic|
  {
    if evicted < sz && t.dynamic != [] {
      var n := |t.dynamic| - 1;
      var t' := EvictStep(t);
      EvictFromPrefix(t', sz, evicted + EntrySize(t.dynamic[n]));
      var r := EvictFrom(t', sz, evicted + EntrySize(t.dynamic[n]));
      assert t.dynamic[..n][..|r.dynamic|] == t.dynamic[..|r.dynamic|];
    }
  }

  /** Eviction drops the oldest entries and nothing else: the fewest of
    * them whose sizes add up to `sz - evicted`, or all of them. */
  lemma {:induction false} EvictFromDrops(t: Table, sz: int, evicted: int)
    ensures var r := EvictFrom(t, sz, evicted);
      && |r.dynamic| <= |t.dynamic| && r.dynamic == t.dynamic[..|r.dynamic|]
      && (r.dynamic == [] || evicted + TotalSize(t.dynamic) - TotalSize(r.dynamic) >= sz)
      && (r.dynamic != t.dynamic ==>
            evicted + TotalSize(t.dynamic) - TotalSize(t.dynamic[..|r.dynamic| + 1]) < sz)
    decreases |t.dynamic|
  {
    EvictFromPrefix(t, sz, evicted);
    if evicted < sz && t.dynamic != [] {
      var n := |t.dynamic| - 1;
      var es := EntrySize(t.dynamic[n]);
      var t' := EvictStep(t);
      assert t'.dynamic == t.dynamic[..n];
      TotalSizeLast(t.dynamic);
      EvictFromDrops(t', sz, evicted + es);
      var r := EvictFrom(t', sz, evicted + es);
      assert EvictFrom(t, sz, evicted) == r;
      if r.dynamic != t'.dynamic {
        assert t.dynamic[..n][..|r.dynamic| + 1] == t.dynamic[..|r.dynamic| + 1];
      } else {
        assert t.dynamic[..|r.dynamic| + 1] == t.dynamic;
      }
    }
  }

  /** A successful `addHeader` puts the new entry at index 62 and moves each
    * surviving entry one index up; the table stays within its limit and its
    * size stays the sum of its entries. An entry larger than the limit
    * empties the dynamic table and is not inserted. */
  lemma AddHeaderEffect(t: Table, name: string, value: string)
    requires Good(t)
    ensures var (ok, r) := Add(t, name, value);
      && Good(r) && r.limit == t.limit && r.maxSize == t.maxSize && r.isEncoder == t.isEncoder
      && (ok <==> EntrySize(KeyValuePair(name, value)) <= t.limit)
      && (!ok ==> r.dynamic == [])
      && (ok ==> EntryAt(r, DynamicStartIndex) == Some(KeyValuePair(name, value)))
      && (ok ==> forall i :: DynamicStartIndex <= i < DynamicStartIndex + |r.dynamic| - 1 ==>
                  EntryAt(r, i + 1) == EntryAt(t, i))
  {
    var es := EntrySize(KeyValuePair(name, value));
    var t1 := if es + t.size > t.limit then Evict(t, es + t.size - t.limit) else t;
    if es + t.size > t.limit {
      EvictFromGood(t, es + t.size - t.limit, 0);
      EvictFromDrops(t, es + t.size - t.limit, 0);
    }
    var (ok, r) := Add(t, name, value);
    if ok {
      assert r.dynamic == [KeyValuePair(name, value)] + t1.dynamic;
      assert TotalSize(r.dynamic) == es + TotalSize(t1.dynamic);
      assert IndexSane(r) by {
        forall k | k in r.indexMap
          ensures (r.indexMap[k].idxS == -1 || (0 <= r.indexMap[k].idxS < |Entries| && StaticKey(r.indexMap[k].idxS) == k))
          ensures (r.indexMap[k].idxD == -1 || 0 < r.indexMap[k].idxD <= r.indexSequence)
        {
          if k != name { assert k in t1.indexMap; }
        }
      }
    }
  }

  /** `updateLimitSize(sz)` evicts until the table fits in `sz`, then makes
    * `sz` the limit. */
  lemma WithLimitEffect(t: Table, sz: nat)
    requires Good(t)
    ensures var r := WithLimit(t, sz);
      && Good(r) && r.limit == sz && r.maxSize == t.maxSize && r.isEncoder == t.isEncoder
      && |r.dynamic| <= |t.dynamic| && r.dynamic == t.dynamic[..|r.dynamic|]
      && (t.size <= sz ==> r.dynamic == t.dynamic)
  {
    if t.size > sz {
      EvictFromGood(t, t.size - sz, 0);
      EvictFromDrops(t, t.size - sz, 0);
      var e := Evict(t, t.size - sz);
      assert e.dynamic == [] || TotalSize(t.dynamic) - TotalSize(e.dynamic) >= t.size - sz;
    }
  }

  /** `setMaxSize(sz)` records `sz` and lowers the limit to it only when the
    * limit is above it. */
  lemma WithMaxSizeEffect(t: Table, sz: nat)
    requires Good(t)
    ensures var r := WithMaxSize(t, sz);
      && Good(r) && r.maxSize == sz && r.limit == Min(t.limit, sz) && r.isEncoder == t.isEncoder
      && |r.dynamic| <= |t.dynamic| && r.dynamic == t.dynamic[..|r.dynamic|]
  {
    if t.limit > sz {
      WithLimitEffect(t.(maxSize := sz), sz);
    }
  }

  /** What `getIndex` finds is an entry with that name, and it reports the
    * value as indexed exactly when the entry's value is that value. */
  lemma LookupSound(t: Table, name: string, value: string)
    requires IndexSane(t)
    ensures var (index, valueIndexed) := Lookup(t, name, value);
      && (index == -1 || 1 <= index < DynamicStartIndex + |t.dynamic|)
      && (index != -1 ==> EntryAt(t, index).Some? && EntryAt(t, index).value.name == name
                          && (valueIndexed <==> EntryAt(t, index).value.value == value))
      && (index == -1 ==> !valueIndexed)
  {
  }

  /** Because the static part of the map is keyed by name and value run
    * together while `getIndex` looks names up alone, a static entry is found
    * only when its value is empty. */
  lemma LookupStaticOnlyEmptyValues(t: Table, name: string, value: string)
    requires IndexSane(t)
    ensures var (index, _) := Lookup(t, name, value);
      1 <= index <= StaticTableSize ==> Entries[index - 1] == KeyValuePair(name, "")
  {
    var (index, _) := Lookup(t, name, value);
    if 1 <= index <= StaticTableSize {
      var s := index - 1;
      assert name in t.indexMap && t.indexMap[name].idxS == s;
      assert StaticKey(s) == name && Entries[s].name == name;
      assert Entries[s].name + Entries[s].value == Entries[s].name + [];
      assert Entries[s].value == (Entries[s].name + Entries[s].value)[|Entries[s].name|..];
    }
  }

  /** So the two `:method` entries (indexes 2 and 3), which carry a value,
    * are never what `getIndex` returns, even for `:method` itself. */
  lemma LookupNeverFindsStaticMethod(t: Table, name: string, value: string)
    requires IndexSane(t)
    ensures Lookup(t, name, value).0 != 2 && Lookup(t, name, value).0 != 3
  {
    LookupStaticOnlyEmptyValues(t, name, value);
    assert Entries[1].value == "GET" && Entries[2].value == "POST";
  }

  // ---------------------------------------------------------------------
  // The object

  class HPackTable {
    var dynamicTable: seq<KeyValuePair>
    var tableSize: int
    var limitSize: nat
    var maxSize: nat
    var isEncoder: bool
    var indexSequence: int
    var indexMap: map<string, IndexPair>

    function Model(): Table
      reads this
    {
      Table(dynamicTable, tableSize, limitSize, maxSize, isEncoder, indexSequence, indexMap)
    }

    ghost predicate Valid()
      reads this
    {
      Good(Model())
    }

    constructor ()
      ensures Model() == InitialTable() && Valid()
    {
      dynamicTable := [];
      tableSize := 0;
      limitSize := DefaultTableSize;
      maxSize := DefaultTableSize;
      isEncoder := false;
      indexSequence := 0;
      var m: map<string, IndexPair> := map[];
      var i := 0;
      while i < StaticTableSize
        invariant 0 <= i <= StaticTableSize && m == StaticIndexMap(i)
      {
        var key := Entries[i].name + Entries[i].value;
        if key !in m {
          m := m[key := IndexPair(-1, i)];
        }
        i := i + 1;
      }
      indexMap := m;
      new;
      InitialTableGood();
    }

    method GetIndexedName(index: int) returns (name: Option<string>)
      ensures name.Some? <==> EntryAt(Model(), index).Some?
      ensures name.Some? ==> name.value == EntryAt(Model(), index).value.name
    {
      if index <= 0 {
        return None;
      }
      if index < DynamicStartIndex {
        return Some(Entries[index - 1].name);
      } else if index - DynamicStartIndex < |dynamicTable| {
        return Some(dynamicTable[index - DynamicStartIndex].name);
      }
      return None;
    }

    method GetIndexedValue(index: int) returns (value: Option<string>)
      ensures value.Some? <==> EntryAt(Model(), index).Some?
      ensures value.Some? ==> value.value == EntryAt(Model(), index).value.value
    {
      if index <= 0 {
        return None;
      }
      if index < DynamicStartIndex {
        return Some(Entries[index - 1].value);
      } else if index - DynamicStartIndex < |dynamicTable| {
        return Some(dynamicTable[index - DynamicStartIndex].value);
      }
      return None;
    }

    method AddHeader(name: string, value: string) returns (ok: bool)
      requires Valid()
      modifies this
      ensures (ok, Model()) == Add(old(Model()), name, value)
      ensures Valid()
    {
      hide Good, EntryAt, Evict, EvictFrom, UpdatedIndex, IndexSane, TotalSize;
      ghost var t0 := Model();
      var entrySize := |name| + |value| + TableEntrySizeExtra;
      if entrySize + tableSize > limitSize {
        EvictTableBySize(entrySize + tableSize - limitSize);
      }
      ghost var t1 := Model();
      AddHeaderEffect(t0, name, value);
      if entrySize > limitSize {
        return false;
      }
      dynamicTable := [KeyValuePair(name, value)] + dynamicTable;
      tableSize := tableSize + entrySize;
      ghost var t2 := t1.(dynamic := [KeyValuePair(name, value)] + t1.dynamic, size := t1.size + entrySize);
      assert Model() == t2;
      if isEncoder {
        indexSequence := indexSequence + 1;
        UpdateIndex(name, indexSequence);
      }
      ok := true;
    }

    method SetMaxSize(sz: nat)
      requires Valid()
      modifies this
      ensures Model() == WithMaxSize(old(Model()), sz)
      ensures Valid()
    {
      maxSize := sz;
      if limitSize > maxSize {
        UpdateLimitSize(maxSize);
      }
      WithMaxSizeEffect(old(Model()), sz);
    }

    method UpdateLimitSize(sz: nat)
      requires Valid()
      modifies this
      ensures Model() == WithLimit(old(Model()), sz)
      ensures Valid()
    {
      if tableSize > sz {
        EvictTableBySize(tableSize - sz);
      }
      limitSize := sz;
      WithLimitEffect(old(Model()), sz);
    }

    method EvictTableBySize(sz: int)
      requires Valid()
      modifies this
      ensures Model() == Evict(old(Model()), sz)
      ensures Valid()
    {
      var evicted := 0;
      while evicted < sz && dynamicTable != []
        invariant EvictFrom(Model(), sz, evicted) == Evict(old(Model()), sz)
        decreases |dynamicTable|
      {
        ghost var m0 := Model();
        var entry := dynamicTable[|dynamicTable| - 1];
        var entrySize := |entry.name| + |entry.value| + TableEntrySizeExtra;
        if tableSize > entrySize {
          tableSize := tableSize - entrySize;
        } else {
          tableSize := 0;
        }
        if isEncoder {
          RemoveIndex(entry.name);
        }
        dynamicTable := dynamicTable[..|dynamicTable| - 1];
        evicted := evicted + entrySize;
        assert Model() == EvictStep(m0);
      }
      EvictFromGood(old(Model()), sz, 0);
    }

    method UpdateIndex(name: string, idxSeq: int)
      modifies this`indexMap
      ensures indexMap == UpdatedIndex(old(indexMap), name, idxSeq)
    {
      if name in indexMap {
        indexMap := indexMap[name := indexMap[name].(idxD := idxSeq)];
      } else {
        indexMap := indexMap[name := IndexPair(idxSeq, -1)];
      }
    }

    method RemoveIndex(name: string)
      modifies this`indexMap
      ensures indexMap == RemovedIndex(old(Model()), name)
    {
      if name in indexMap {
        var ds := indexMap[name];
        var idx := DynamicIndex(indexSequence, ds.idxD);
        if idx == |dynamicTable| - 1 {
          if ds.idxS == -1 {
            indexMap := indexMap - {name};
          } else {
            indexMap := indexMap[name := ds.(idxD := -1)];
          }
        }
      }
    }

    method GetIndex(name: string, value: string) returns (index: int, valueIndexed: bool)
      requires Valid()
      ensures (index, valueIndexed) == Lookup(Model(), name, value)
    {
      var indexD, indexS := -1, -1;
      if name in indexMap {
        indexD := DynamicIndex(indexSequence, indexMap[name].idxD);
        indexS := indexMap[name].idxS;
      }
      if indexD != -1 && indexD < |dynamicTable| && name == dynamicTable[indexD].name {
        assert 0 <= indexD;
        return indexD + DynamicStartIndex, dynamicTable[indexD].value == value;
      }
      if indexS != -1 && indexS < StaticTableSize && name == Entries[indexS].name {
        return indexS + 1, Entries[indexS].value == value;
      }
      return -1, false;
    }
  }
}

=== FILE: hpackvectors.dfy ===
/** The header-block examples of RFC 7541, Appendix C, that use no Huffman
  * coding (C.2.1 to C.2.4, and the request sequence of C.3), read by the
  * decoder model: each block decodes to the listed header list and leaves
  * the listed dynamic table. The octets and strings are those of the RFC.
  */
module HPackVectors {
  import opened Common
  import opened H2Utils
  import opened StaticTable
  import opened HPackTable
  import opened HPacker

  // ---------------------------------------------------------------------
  // Reading one representation

  /** Each character of `TextOf(b)` is its octet. */
  lemma {:induction false} TextOfAt(b: Bytes)
    ensures forall i :: 0 <= i < |b| ==> TextOf(b)[i] == b[i] as char
  {
    if b != [] {
      TextOfAt(b[1..]);
    }
  }

  /** A string without Huffman coding and shorter than 127 octets: one
    * length octet, then its octets. */
  lemma PlainString(h: HuffmanCode, body: Bytes, rest: Bytes)
    requires |body| < 127
    ensures DecodedString(h, [|body| as byte] + body + rest) == Some((1 + |body|, TextOf(body)))
  {
    hide DecodedString, TextOf, IntegerBytes, Continuation;
    assert Pow2(7) == 128;
    IntegerBytesShape(7, 0, |body|);
    var p := IntegerBytes(7, 0, |body|);
    assert p == [p[0]] + p[1..];
    assert HighBits(0, 7) == 0;
    assert p[1..] == [];
    assert p[0] as int == |body|;
    assert p == [|body| as byte];
    assert LengthAndBody(0, body) == [|body| as byte] + body;
    LengthAndBodyRead(h, 0, body, rest);
  }

  /** An indexed field `0x80 + index`, the index below 127. */
  lemma IndexedField(d: Table, h: HuffmanCode, index: nat, kv: KeyValuePair, rest: Bytes)
    requires index < 127 && EntryAt(d, index) == Some(kv)
    ensures Yields(DecodedField(d, h, [(0x80 + index) as byte] + rest), 1, kv, d)
  {
    hide DecodedField;
    assert Pow2(7) == 128;
    IntegerBytesShape(7, 0x80, index);
    var p := IntegerBytes(7, 0x80, index);
    assert p == [p[0]] + p[1..];
    IndexedRoundTrip(d, h, index, kv, rest);
  }

  /** The first octet of a literal with an indexed name: `first + index`,
    * the index below `2^n - 1`. */
  lemma IndexedNamePrefix(first: byte, n: nat, index: nat, tail: Bytes)
    requires (first, n) == (0x40, 6) || (first, n) == (0x00, 4)
    requires index < Pow2(n) - 1
    ensures DecodedPrefix([(first + index) as byte] + tail) == Some((1, PrefixOf(first).0, index))
  {
    hide DecodedPrefix, DecodedInteger, IntegerBytes, Continuation;
    IntegerBytesShape(n, first, index);
    var p := IntegerBytes(n, first, index);
    assert p == [p[0]] + p[1..];
    assert HighBits(first, n) == first as int by {
      assert Pow2(4) == 16 && Pow2(6) == 64;
    }
    assert p == [(first + index) as byte];
    PrefixRoundTrip(first, n, index, tail);
  }

  /** A literal whose name is the entry at `index` (below `2^n - 1`), its
    * value a plain string. */
  lemma IndexedNameField(d: Table, h: HuffmanCode, first: byte, n: nat, index: nat, value: Bytes, rest: Bytes)
    requires (first, n) == (0x40, 6) || (first, n) == (0x00, 4)
    requires 1 <= index < Pow2(n) - 1 && EntryAt(d, index).Some? && |value| < 127
    ensures var name := EntryAt(d, index).value.name;
      var kv := KeyValuePair(name, TextOf(value));
      Yields(DecodedField(d, h, [(first + index) as byte] + ([|value| as byte] + value + rest)), 2 + |value|, kv,
             if first == 0x40 then Add(d, kv.name, kv.value).1 else d)
  {
    hide DecodedField, DecodedString, DecodedPrefix, Add, EntryAt, DecodedInteger, TextOf, IntegerBytes, Continuation;
    var tail := [|value| as byte] + value + rest;
    var s := [(first + index) as byte] + tail;
    IndexedNamePrefix(first, n, index, tail);
    var kind := PrefixOf(first).0;
    var name := EntryAt(d, index).value.name;
    assert LiteralName(d, h, s, 1, index) == Some((1, name));
    assert s[1..] == tail;
    PlainString(h, value, rest);
    LiteralStep(d, h, s, 1, kind, index, 1, name, 1 + |value|, TextOf(value));
  }

  /** A literal whose name and value are plain strings, after `first`. */
  lemma NewNameField(d: Table, h: HuffmanCode, first: byte, name: Bytes, value: Bytes, rest: Bytes)
    requires first == 0x40 || first == 0x10
    requires |name| < 127 && |value| < 127
    ensures var kv := KeyValuePair(TextOf(name), TextOf(value));
      Yields(DecodedField(d, h, [first] + ([|name| as byte] + name) + ([|value| as byte] + value) + rest),
             3 + |name| + |value|, kv, if first == 0x40 then Add(d, kv.name, kv.value).1 else d)
  {
    hide DecodedField, DecodedString, DecodedPrefix, Add, EntryAt, DecodedInteger, TextOf, IntegerBytes, Continuation;
    var sn := [|name| as byte] + name;
    var sv := [|value| as byte] + value;
    assert sn + (sv + rest) == [|name| as byte] + name + (sv + rest);
    PlainString(h, name, sv + rest);
    PlainString(h, value, rest);
    LiteralRead(d, h, first, sn, sv, rest, TextOf(name), TextOf(value));
  }

  /** A decoder's table takes a field that fits without evicting
    * anything, in front of the entries it holds. */
  lemma AddFits(t: Table, kv: KeyValuePair)
    requires !t.isEncoder && 0 <= t.size && EntrySize(kv) + t.size <= t.limit
    ensures Add(t, kv.name, kv.value) == (true, t.(dynamic := [kv] + t.dynamic, size := t.size + EntrySize(kv)))
  {
  }

  /** `b` read as text is `t`, character by character. */
  lemma TextIs(b: Bytes, t: string)
    requires |b| == |t| && forall i :: 0 <= i < |b| ==> b[i] as char == t[i]
    ensures TextOf(b) == t
  {
    hide TextOf;
    TextOfAt(b);
  }

  /** A representation that yields `kv`, then a rest that decodes. */
  lemma DecodeYield(t: Table, h: HuffmanCode, s: Bytes, k: nat, kv: KeyValuePair, t': Table, r: Decoded)
    requires Yields(DecodedField(t, h, s), k, kv, t')
    requires DecodeBlock(t', h, s[k..]) == r && r.ok
    ensures DecodeBlock(t, h, s) == Decoded(true, [kv] + r.headers, r.table)
  {
  }

  /** The empty block decodes to nothing and leaves the table alone. */
  lemma DecodeEmpty(t: Table, h: HuffmanCode)
    ensures DecodeBlock(t, h, []) == Decoded(true, [], t)
  {
  }

  // ---------------------------------------------------------------------
  // The octets of the examples' strings

  const CustomKey: Bytes := [0x63, 0x75, 0x73, 0x74, 0x6f, 0x6d, 0x2d, 0x6b, 0x65, 0x79]
  const CustomHeader: Bytes := [0x63, 0x75, 0x73, 0x74, 0x6f, 0x6d, 0x2d, 0x68, 0x65, 0x61, 0x64, 0x65, 0x72]
  const SamplePath: Bytes := [0x2f, 0x73, 0x61, 0x6d, 0x70, 0x6c, 0x65, 0x2f, 0x70, 0x61, 0x74, 0x68]
  const Password: Bytes := [0x70, 0x61, 0x73, 0x73, 0x77, 0x6f, 0x72, 0x64]
  const Secret: Bytes := [0x73, 0x65, 0x63, 0x72, 0x65, 0x74]
  const WwwExampleCom: Bytes := [0x77, 0x77, 0x77, 0x2e, 0x65, 0x78, 0x61, 0x6d, 0x70, 0x6c, 0x65, 0x2e, 0x63, 0x6f, 0x6d]
  const NoCache: Bytes := [0x6e, 0x6f, 0x2d, 0x63, 0x61, 0x63, 0x68, 0x65]
  const CustomValue: Bytes := [0x63, 0x75, 0x73, 0x74, 0x6f, 0x6d, 0x2d, 0x76, 0x61, 0x6c, 0x75, 0x65]

  lemma Texts()
    ensures TextOf(CustomKey) == "custom-key" && TextOf(CustomHeader) == "custom-header"
    ensures TextOf(SamplePath) == "/sample/path"
    ensures TextOf(Password) == "password" && TextOf(Secret) == "secret"
    ensures TextOf(WwwExampleCom) == "www.example.com" && TextOf(NoCache) == "no-cache"
    ensures TextOf(CustomValue) == "custom-value"
  {
    hide TextOf;
    TextIs(CustomKey, "custom-key");
    TextIs(CustomHeader, "custom-header");
    TextIs(SamplePath, "/sample/path");
    TextIs(Password, "password");
    TextIs(Secret, "secret");
    TextIs(WwwExampleCom, "www.example.com");
    TextIs(NoCache, "no-cache");
    TextIs(CustomValue, "custom-value");
  }

  // ---------------------------------------------------------------------
  // C.2: one representation each

  /** C.2.1, a literal with indexing and a new name: the field enters the
    * empty dynamic table, which then holds 55 octets. */
  lemma LiteralWithIndexingExample(h: HuffmanCode)
    ensures DecodeBlock(InitialTable(), h, [0x40, 0x0a] + CustomKey + [0x0d] + CustomHeader)
      == Decoded(true, [KeyValuePair("custom-key", "custom-header")],
                 InitialTable().(dynamic := [KeyValuePair("custom-key", "custom-header")], size := 55))
  {
    hide DecodeBlock, DecodedField, Add, TextOf;
    var t := InitialTable();
    var s := [0x40, 0x0a] + CustomKey + [0x0d] + CustomHeader;
    Texts();
    assert s == [0x40] + ([|CustomKey| as byte] + CustomKey) + ([|CustomHeader| as byte] + CustomHeader) + [];
    NewNameField(t, h, 0x40, CustomKey, CustomHeader, []);
    var kv := KeyValuePair("custom-key", "custom-header");
    var t1 := Add(t, kv.name, kv.value).1;
    assert InitialTable().dynamic == [] && InitialTable().size == 0 && InitialTable().limit == 4096 && !InitialTable().isEncoder;
    AddFits(t, kv);
    assert t1 == t.(dynamic := [kv], size := 55);
    assert s[|s|..] == [];
    DecodeEmpty(t1, h);
    DecodeYield(t, h, s, |s|, kv, t1, Decoded(true, [], t1));
  }

  /** C.2.2, a literal without indexing whose name is static entry 4
    * (`:path`): the table is left alone. */
  lemma LiteralWithoutIndexingExample(t: Table, h: HuffmanCode)
    ensures DecodeBlock(t, h, [0x04, 0x0c] + SamplePath) == Decoded(true, [KeyValuePair(":path", "/sample/path")], t)
  {
    hide DecodeBlock, DecodedField, Add, TextOf;
    var s := [0x04, 0x0c] + SamplePath;
    Texts();
    assert Pow2(4) == 16;
    assert s == [(0x00 + 4) as byte] + ([|SamplePath| as byte] + SamplePath + []);
    IndexedNameField(t, h, 0x00, 4, 4, SamplePath, []);
    var kv := KeyValuePair(":path", "/sample/path");
    assert s[|s|..] == [];
    DecodeEmpty(t, h);
    DecodeYield(t, h, s, |s|, kv, t, Decoded(true, [], t));
  }

  /** C.2.3, a never-indexed literal with a new name, which the decoder
    * reads as a literal without indexing: the table is left alone. */
  lemma NeverIndexedExample(t: Table, h: HuffmanCode)
    ensures DecodeBlock(t, h, [0x10, 0x08] + Password + [0x06] + Secret) == Decoded(true, [KeyValuePair("password", "secret")], t)
  {
    hide DecodeBlock, DecodedField, Add, TextOf;
    var s := [0x10, 0x08] + Password + [0x06] + Secret;
    Texts();
    assert s == [0x10] + ([|Password| as byte] + Password) + ([|Secret| as byte] + Secret) + [];
    NewNameField(t, h, 0x10, Password, Secret, []);
    var kv := KeyValuePair("password", "secret");
    assert s[|s|..] == [];
    DecodeEmpty(t, h);
    DecodeYield(t, h, s, |s|, kv, t, Decoded(true, [], t));
  }

  /** C.2.4, an indexed field: static entry 2. */
  lemma IndexedExample(t: Table, h: HuffmanCode)
    ensures DecodeBlock(t, h, [0x82]) == Decoded(true, [KeyValuePair(":method", "GET")], t)
  {
    hide DecodeBlock, DecodedField;
    IndexedField(t, h, 2, KeyValuePair(":method", "GET"), []);
    assert [(0x80 + 2) as byte] + [] == [0x82];
    assert [0x82][1..] == [];
    DecodeEmpty(t, h);
    DecodeYield(t, h, [0x82], 1, KeyValuePair(":method", "GET"), t, Decoded(true, [], t));
  }

  // ---------------------------------------------------------------------
  // C.3: three requests on one connection

  /** The decoder's table after the first request of C.3. */
  function AfterFirstRequest(): Table
  {
    InitialTable().(dynamic := [KeyValuePair(":authority", "www.example.com")], size := 57)
  }

  /** The decoder's table after the second request of C.3. */
  function AfterSecondRequest(): Table
  {
    InitialTable().(dynamic := [KeyValuePair("cache-control", "no-cache"), KeyValuePair(":authority", "www.example.com")],
                    size := 110)
  }

  /** The decoder's table after the third request of C.3. */
  function AfterThirdRequest(): Table
  {
    InitialTable().(dynamic := [KeyValuePair("custom-key", "custom-value"), KeyValuePair("cache-control", "no-cache"),
                                KeyValuePair(":authority", "www.example.com")],
                    size := 164)
  }

  /** The indexed fields `:method GET`, then `:scheme` and `:path` from
    * static entries `scheme` and `path`, in front of a rest decoding to
    * `r`. */
  lemma RequestLine(t: Table, h: HuffmanCode, scheme: nat, path: nat, rest: Bytes, r: Decoded)
    requires scheme in {6, 7} && path in {4, 5}
    requires DecodeBlock(t, h, rest) == r && r.ok
    ensures DecodeBlock(t, h, [0x82, (0x80 + scheme) as byte, (0x80 + path) as byte] + rest)
      == Decoded(true, [Entries[1], Entries[scheme - 1], Entries[path - 1]] + r.headers, r.table)
  {
    hide DecodeBlock, DecodedField;
    var s2 := [(0x80 + path) as byte] + rest;
    var s1 := [(0x80 + scheme) as byte] + s2;
    var s0 := [0x82 as byte] + s1;
    assert s0 == [0x82, (0x80 + scheme) as byte, (0x80 + path) as byte] + rest;
    IndexedField(t, h, path, Entries[path - 1], rest);
    assert s2[1..] == rest;
    DecodeYield(t, h, s2, 1, Entries[path - 1], t, r);
    var r2 := Decoded(true, [Entries[path - 1]] + r.headers, r.table);
    IndexedField(t, h, scheme, Entries[scheme - 1], s2);
    assert s1[1..] == s2;
    DecodeYield(t, h, s1, 1, Entries[scheme - 1], t, r2);
    var r1 := Decoded(true, [Entries[scheme - 1]] + r2.headers, r.table);
    IndexedField(t, h, 2, Entries[1], s1);
    assert s0[1..] == s1;
    DecodeYield(t, h, s0, 1, Entries[1], t, r1);
  }

  /** C.3.1: `:authority` enters the empty table. */
  lemma FirstRequestExample(h: HuffmanCode)
    ensures DecodeBlock(InitialTable(), h, [0x82, 0x86, 0x84, 0x41, 0x0f] + WwwExampleCom)
      == Decoded(true, [KeyValuePair(":method", "GET"), KeyValuePair(":scheme", "http"), KeyValuePair(":path", "/"),
                        KeyValuePair(":authority", "www.example.com")], AfterFirstRequest())
  {
    hide DecodeBlock, DecodedField, Add, TextOf;
    var t := InitialTable();
    Texts();
    var rest := [0x41, 0x0f] + WwwExampleCom;
    assert Pow2(6) == 64;
    assert rest == [(0x40 + 1) as byte] + ([|WwwExampleCom| as byte] + WwwExampleCom + []);
    IndexedNameField(t, h, 0x40, 6, 1, WwwExampleCom, []);
    var kv := KeyValuePair(":authority", "www.example.com");
    AddFits(t, kv);
    var t1 := AfterFirstRequest();
    assert rest[|rest|..] == [];
    DecodeEmpty(t1, h);
    DecodeYield(t, h, rest, |rest|, kv, t1, Decoded(true, [], t1));
    RequestLine(t, h, 6, 4, rest, Decoded(true, [kv], t1));
    assert [0x82, 0x86, 0x84, 0x41, 0x0f] + WwwExampleCom == [0x82, (0x80 + 6) as byte, (0x80 + 4) as byte] + rest;
  }

  /** C.3.2 after its request line: `:authority` from dynamic entry 62,
    * then `cache-control: no-cache`, with its name from static entry 24,
    * entering the table. */
  lemma SecondRequestTail(h: HuffmanCode)
    ensures DecodeBlock(AfterFirstRequest(), h, [0xbe, 0x58, 0x08] + NoCache)
      == Decoded(true, [KeyValuePair(":authority", "www.example.com"), KeyValuePair("cache-control", "no-cache")],
                 AfterSecondRequest())
  {
    hide DecodeBlock, DecodedField, Add, TextOf;
    var t := AfterFirstRequest();
    Texts();
    var rest2 := [0x58, 0x08] + NoCache;
    assert Pow2(6) == 64;
    assert rest2 == [(0x40 + 24) as byte] + ([|NoCache| as byte] + NoCache + []);
    IndexedNameField(t, h, 0x40, 6, 24, NoCache, []);
    var kv := KeyValuePair("cache-control", "no-cache");
    AddFits(t, kv);
    var t2 := AfterSecondRequest();
    assert rest2[|rest2|..] == [];
    DecodeEmpty(t2, h);
    DecodeYield(t, h, rest2, |rest2|, kv, t2, Decoded(true, [], t2));
    var auth := KeyValuePair(":authority", "www.example.com");
    var rest := [0xbe] + rest2;
    IndexedField(t, h, 62, auth, rest2);
    assert rest[1..] == rest2;
    DecodeYield(t, h, rest, 1, auth, t, Decoded(true, [kv], t2));
    assert [0xbe, 0x58, 0x08] + NoCache == rest;
  }

  /** C.3.2: `:authority` comes from the dynamic table, and
    * `cache-control: no-cache` enters it. */
  lemma SecondRequestExample(h: HuffmanCode)
    ensures DecodeBlock(AfterFirstRequest(), h, [0x82, 0x86, 0x84, 0xbe, 0x58, 0x08] + NoCache)
      == Decoded(true, [KeyValuePair(":method", "GET"), KeyValuePair(":scheme", "http"), KeyValuePair(":path", "/"),
                        KeyValuePair(":authority", "www.example.com"), KeyValuePair("cache-control", "no-cache")],
                 AfterSecondRequest())
  {
    hide DecodeBlock, DecodedField, Add, TextOf, AfterFirstRequest, AfterSecondRequest;
    var rest := [0xbe, 0x58, 0x08] + NoCache;
    SecondRequestTail(h);
    var auth := KeyValuePair(":authority", "www.example.com");
    var kv := KeyValuePair("cache-control", "no-cache");
    RequestLine(AfterFirstRequest(), h, 6, 4, rest, Decoded(true, [auth, kv], AfterSecondRequest()));
    assert [0x82, 0x86, 0x84, 0xbe, 0x58, 0x08] + NoCache == [0x82, (0x80 + 6) as byte, (0x80 + 4) as byte] + rest;
  }

  /** C.3.3 after its request line: `:authority` from dynamic entry 63,
    * then `custom-key: custom-value`, with a new name, entering the
    * table. */
  lemma ThirdRequestTail(h: HuffmanCode)
    ensures DecodeBlock(AfterSecondRequest(), h, [0xbf, 0x40, 0x0a] + CustomKey + [0x0c] + CustomValue)
      == Decoded(true, [KeyValuePair(":authority", "www.example.com"), KeyValuePair("custom-key", "custom-value")],
                 AfterThirdRequest())
  {
    hide DecodeBlock, DecodedField, Add, TextOf;
    var t := AfterSecondRequest();
    var kv := KeyValuePair("custom-key", "custom-value");
    var t3 := AfterThirdRequest();
    var rest2 := [0x40, 0x0a] + CustomKey + [0x0c] + CustomValue;
    ThirdRequestField(h);
    var auth := KeyValuePair(":authority", "www.example.com");
    var rest := [0xbf] + rest2;
    IndexedField(t, h, 63, auth, rest2);
    assert rest[1..] == rest2;
    DecodeYield(t, h, rest, 1, auth, t, Decoded(true, [kv], t3));
    assert [0xbf, 0x40, 0x0a] + CustomKey + [0x0c] + CustomValue == rest;
  }

  /** The last field of C.3.3: `custom-key: custom-value` enters the
    * table, which then holds 164 octets. */
  lemma ThirdRequestField(h: HuffmanCode)
    ensures DecodeBlock(AfterSecondRequest(), h, [0x40, 0x0a] + CustomKey + [0x0c] + CustomValue)
      == Decoded(true, [KeyValuePair("custom-key", "custom-value")], AfterThirdRequest())
  {
    hide DecodeBlock, DecodedField, Add, TextOf;
    var t := AfterSecondRequest();
    Texts();
    var rest2 := [0x40, 0x0a] + CustomKey + [0x0c] + CustomValue;
    assert rest2 == [0x40] + ([|CustomKey| as byte] + CustomKey) + ([|CustomValue| as byte] + CustomValue) + [];
    NewNameField(t, h, 0x40, CustomKey, CustomValue, []);
    var kv := KeyValuePair("custom-key", "custom-value");
    AddFits(t, kv);
    var t3 := AfterThirdRequest();
    assert rest2[|rest2|..] == [];
    DecodeEmpty(t3, h);
    DecodeYield(t, h, rest2, |rest2|, kv, t3, Decoded(true, [], t3));
  }

  /** C.3.3: `:scheme https` and `:path /index.html`, `:authority` from
    * the dynamic table, and `custom-key: custom-value` enters it. */
  lemma ThirdRequestExample(h: HuffmanCode)
    ensures DecodeBlock(AfterSecondRequest(), h, [0x82, 0x87, 0x85, 0xbf, 0x40, 0x0a] + CustomKey + [0x0c] + CustomValue)
      == Decoded(true, [KeyValuePair(":method", "GET"), KeyValuePair(":scheme", "https"), KeyValuePair(":path", "/index.html"),
                        KeyValuePair(":authority", "www.example.com"), KeyValuePair("custom-key", "custom-value")],
                 AfterThirdRequest())
  {
    hide DecodeBlock, DecodedField, Add, TextOf, AfterSecondRequest, AfterThirdRequest;
    var rest := [0xbf, 0x40, 0x0a] + CustomKey + [0x0c] + CustomValue;
    ThirdRequestTail(h);
    var auth := KeyValuePair(":authority", "www.example.com");
    var kv := KeyValuePair("custom-key", "custom-value");
    RequestLine(AfterSecondRequest(), h, 7, 5, rest, Decoded(true, [auth, kv], AfterThirdRequest()));
    assert [0x82, 0x87, 0x85, 0xbf, 0x40, 0x0a] + CustomKey + [0x0c] + CustomValue
      == [0x82, (0x80 + 7) as byte, (0x80 + 5) as byte] + rest;
  }
}

=== FILE: http2request.dfy ===
/** The header transforms of an HTTP/2 request
  * (Sources/http/v2/Http2Request.swift): the header list sent with the
  * request, the response header list read back as a status code and a
  * field map, and the Content-Length clamp on sent data.
  *
  * Text is counted one octet per character, as `utf8.count` counts ASCII.
  */
module Http2Request {
  import opened Common
  import opened H2Utils
  import opened HttpHeader

  /** `kH2HeaderMethod`, `kH2HeaderScheme`, `kH2HeaderAuthority`,
    * `kH2HeaderPath`, `kH2HeaderStatus`. */
  const MethodField: string := ":method"
  const SchemeField: string := ":scheme"
  const AuthorityField: string := ":authority"
  const PathField: string := ":path"
  const StatusField: string := ":status"

  /** `kH2HeaderCookie` is not part of this model; it is taken to be the
    * lower-case field name HTTP/2 uses (section 8.1.2.5 of RFC 7540). */
  const CookieField: string := "cookie"

  /** The name under which the joined cookie is stored. */
  const JoinedCookieName: string := "Cookie"

  /** A pseudo-header name starts with ':'. */
  predicate IsPseudo(name: string)
  {
    |name| > 0 && name[0] == ':'
  }

  // ---------------------------------------------------------------------
  // processH2ResponseHeaders

  /** Whether the status code of a response header list can be read; where
    * it cannot, the source's `Int(_)!` stops the program. */
  predicate StatusReadable(headers: seq<KeyValuePair>)
  {
    |headers| == 0 || headers[0].name != StatusField || ParseInt(headers[0].value, 10).Some?
  }

  /** The loop of `processH2ResponseHeaders` after `headers[1..n]`: the
    * fields kept so far and the cookie text. */
  datatype Gathered = Gathered(fields: map<string, string>, cookie: string)

  /** A cookie value joined to the cookie text: "; " goes between the two
    * unless the text is still empty. */
  function AddCookie(cookie: string, value: string): (r: string)
    ensures cookie != "" ==> r == cookie + "; " + value
    ensures cookie == "" ==> r == value
  {
    (if cookie != "" then cookie + "; " else cookie) + value
  }

  function Gather(headers: seq<KeyValuePair>, n: nat): (g: Gathered)
    requires 1 <= n <= |headers|
    ensures forall k :: k in g.fields ==> !IsPseudo(k) && k != CookieField
    decreases n
  {
    if n == 1 then Gathered(map[], "")
    else
      var g := Gather(headers, n - 1);
      var h := headers[n - 1];
      if h.name == CookieField then g.(cookie := AddCookie(g.cookie, h.value))
      else if !IsPseudo(h.name) then g.(fields := g.fields[h.name := h.value])
      else g
  }

  /** `processH2ResponseHeaders` with the status read safely: an empty
    * list, a first field other than ":status", or a status that is not a
    * number gives (-1, [:]). Otherwise the status is the number, cookie
    * fields are joined under "Cookie" when the result is not empty, other
    * pseudo-headers are dropped and a later field overwrites an earlier
    * one of the same name. */
  function ResponseHeaders(headers: seq<KeyValuePair>): (r: (int, map<string, string>))
    ensures (|headers| == 0 || headers[0].name != StatusField) ==> r == (-1, map[])
    ensures |headers| > 0 && headers[0].name == StatusField && ParseInt(headers[0].value, 10).None? ==>
      r == (-1, map[])
    ensures |headers| > 0 && headers[0].name == StatusField && ParseInt(headers[0].value, 10).Some? ==>
      r.0 == ParseInt(headers[0].value, 10).value
    ensures forall k :: k in r.1 ==> !IsPseudo(k) && k != CookieField
  {
    if |headers| == 0 || headers[0].name != StatusField then (-1, map[])
    else
      match ParseInt(headers[0].value, 10)
        case None => (-1, map[])
        case Some(statusCode) =>
          var g := Gather(headers, |headers|);
          (statusCode, if g.cookie != "" then g.fields[JoinedCookieName := g.cookie] else g.fields)
  }

  /** `processH2ResponseHeaders` as the source has it: the status is
    * `Int(value)!`, defined only where it can be read. */
  function ResponseHeadersAsWritten(headers: seq<KeyValuePair>): (r: (int, map<string, string>))
    requires StatusReadable(headers)
    ensures r == ResponseHeaders(headers)
  {
    if |headers| == 0 || headers[0].name != StatusField then (-1, map[])
    else
      var statusCode := ParseInt(headers[0].value, 10).value;
      var g := Gather(headers, |headers|);
      (statusCode, if g.cookie != "" then g.fields[JoinedCookieName := g.cookie] else g.fields)
  }

  /** A ":status" that is not a number stops the source; read safely it
    * makes the list malformed. */
  lemma UnreadableStatus()
    ensures !StatusReadable([KeyValuePair(StatusField, "abc")])
    ensures ResponseHeaders([KeyValuePair(StatusField, "abc")]) == (-1, map[])
  {
    assert DigitValue('c') == Some(12);
    assert DigitsValue("abc", 10) == None;
  }

  /** The values of the cookie fields among `headers[1..n]`, in order. */
  function CookieValues(headers: seq<KeyValuePair>, n: nat): seq<string>
    requires 1 <= n <= |headers|
    decreases n
  {
    if n == 1 then []
    else CookieValues(headers, n - 1) + (if headers[n - 1].name == CookieField then [headers[n - 1].value] else [])
  }

  /** Values joined with "; " between each two. */
  function JoinValues(values: seq<string>): (r: string)
    decreases |values|
  {
    if |values| == 0 then ""
    else if |values| == 1 then values[0]
    else JoinValues(values[..|values| - 1]) + "; " + values[|values| - 1]
  }

  /** The values from the first non-empty one on: the empty values
    * before it leave the cookie text empty. */
  function FromFirstNonEmpty(values: seq<string>): (r: seq<string>)
    ensures r == [] || r[0] != ""
    decreases |values|
  {
    if values == [] then []
    else if values[0] == "" then FromFirstNonEmpty(values[1..])
    else values
  }

  /** One more value at the end: taken when the text has begun or the
    * value is not empty. */
  lemma {:induction false} FromFirstNonEmptySnoc(values: seq<string>, v: string)
    ensures FromFirstNonEmpty(values + [v]) ==
      if FromFirstNonEmpty(values) == [] then (if v == "" then [] else [v])
      else FromFirstNonEmpty(values) + [v]
    decreases |values|
  {
    if values != [] {
      assert (values + [v])[1..] == values[1..] + [v];
      if values[0] == "" {
        FromFirstNonEmptySnoc(values[1..], v);
      }
    } else {
      assert [v][1..] == [];
    }
  }

  /** Nothing is taken exactly when every value is empty. */
  lemma {:induction false} FromFirstNonEmptyNone(values: seq<string>)
    ensures FromFirstNonEmpty(values) == [] <==> forall i :: 0 <= i < |values| ==> values[i] == ""
    decreases |values|
  {
    if values != [] && values[0] == "" {
      FromFirstNonEmptyNone(values[1..]);
      assert forall i :: 1 <= i < |values| ==> values[i] == values[1..][i - 1];
    }
  }

  /** The cookie text is the cookie values joined in order by "; " from
    * the first non-empty one on (so ["a", "", "b"] gives "a; ; b" and
    * ["", "a"] gives "a"), and empty exactly when every cookie value is. */
  lemma {:induction false} CookiesJoined(headers: seq<KeyValuePair>, n: nat)
    requires 1 <= n <= |headers|
    ensures Gather(headers, n).cookie == JoinValues(FromFirstNonEmpty(CookieValues(headers, n)))
    ensures Gather(headers, n).cookie == "" <==> FromFirstNonEmpty(CookieValues(headers, n)) == []
    decreases n
  {
    if n > 1 {
      CookiesJoined(headers, n - 1);
      var vs := CookieValues(headers, n - 1);
      var h := headers[n - 1];
      if h.name == CookieField {
        assert CookieValues(headers, n) == vs + [h.value];
        FromFirstNonEmptySnoc(vs, h.value);
        var ws := FromFirstNonEmpty(vs);
        if ws != [] {
          var us := ws + [h.value];
          assert us[..|us| - 1] == ws;
          assert JoinValues(ws) != "" by {
            JoinValuesFirst(ws);
          }
        }
      } else {
        assert vs + [] == vs;
        assert CookieValues(headers, n) == vs;
        assert Gather(headers, n).cookie == Gather(headers, n - 1).cookie;
      }
    }
  }

  /** An empty value after the first non-empty one still adds "; ", and
    * empty values before it add nothing. */
  lemma CookieJoinExamples()
    ensures JoinValues(FromFirstNonEmpty(["a", "", "b"])) == "a; ; b"
    ensures JoinValues(FromFirstNonEmpty(["", "a"])) == "a"
  {
    assert ["a", "", "b"][..2] == ["a", ""];
    assert ["a", ""][..1] == ["a"];
    assert ["", "a"][1..] == ["a"];
  }

  /** Joined values whose first is not empty are not empty. */
  lemma {:induction false} JoinValuesFirst(values: seq<string>)
    requires values != [] && values[0] != ""
    ensures JoinValues(values) != ""
    decreases |values|
  {
    if |values| > 1 {
      JoinValuesFirst(values[..|values| - 1]);
    }
  }

  /** The last field among `headers[1..n]` with the given name. */
  function LastNamed(headers: seq<KeyValuePair>, n: nat, name: string): (r: Option<nat>)
    requires 1 <= n <= |headers|
    ensures r.Some? ==> 1 <= r.value < n && headers[r.value].name == name
    ensures r.Some? ==> forall i :: r.value < i < n ==> headers[i].name != name
    ensures r.None? ==> forall i :: 1 <= i < n ==> headers[i].name != name
    decreases n
  {
    if n == 1 then None
    else if headers[n - 1].name == name then Some(n - 1)
    else LastNamed(headers, n - 1, name)
  }

  /** A field that is neither a pseudo-header nor a cookie is kept exactly
    * when the list has one of that name, with the value of the last. */
  lemma {:induction false} LastFieldWins(headers: seq<KeyValuePair>, n: nat, name: string)
    requires 1 <= n <= |headers| && !IsPseudo(name) && name != CookieField
    ensures name in Gather(headers, n).fields <==> LastNamed(headers, n, name).Some?
    ensures name in Gather(headers, n).fields ==>
      Gather(headers, n).fields[name] == headers[LastNamed(headers, n, name).value].value
    decreases n
  {
    if n > 1 {
      LastFieldWins(headers, n - 1, name);
    }
  }

  /** The response map: every name in it other than "Cookie" comes from
    * the last field of that name, and the joined cookie, when there is
    * one, is under "Cookie". */
  lemma ResponseFields(headers: seq<KeyValuePair>, name: string)
    requires |headers| > 0 && headers[0].name == StatusField && ParseInt(headers[0].value, 10).Some?
    requires !IsPseudo(name) && name != CookieField && name != JoinedCookieName
    ensures var r := ResponseHeaders(headers);
      && (name in r.1 <==> LastNamed(headers, |headers|, name).Some?)
      && (name in r.1 ==> r.1[name] == headers[LastNamed(headers, |headers|, name).value].value)
  {
    LastFieldWins(headers, |headers|, name);
  }

  /** The cookie in the response map: when some cookie value is not
    * empty, "Cookie" holds the values joined as `CookiesJoined` says;
    * otherwise "Cookie" is there only as a field of that name. */
  lemma ResponseCookie(headers: seq<KeyValuePair>)
    requires |headers| > 0 && headers[0].name == StatusField && ParseInt(headers[0].value, 10).Some?
    ensures var r := ResponseHeaders(headers);
      var vs := CookieValues(headers, |headers|);
      && ((exists i :: 0 <= i < |vs| && vs[i] != "") ==>
            JoinedCookieName in r.1 && r.1[JoinedCookieName] == JoinValues(FromFirstNonEmpty(vs)))
      && ((forall i :: 0 <= i < |vs| ==> vs[i] == "") ==>
            (JoinedCookieName in r.1 <==> LastNamed(headers, |headers|, JoinedCookieName).Some?))
  {
    CookiesJoined(headers, |headers|);
    FromFirstNonEmptyNone(CookieValues(headers, |headers|));
    LastFieldWins(headers, |headers|, JoinedCookieName);
  }

  /** `processH2ResponseHeaders`, with the status read safely. */
  method ProcessH2ResponseHeaders(headers: seq<KeyValuePair>) returns (statusCode: int, rspHeaders: map<string, string>)
    ensures (statusCode, rspHeaders) == ResponseHeaders(headers)
  {
    if |headers| == 0 {
      return -1, map[];
    }
    if headers[0].name != StatusField {
      return -1, map[];
    }
    var sc := ParseInt(headers[0].value, 10);
    if sc.None? {
      return -1, map[];
    }
    statusCode := sc.value;
    rspHeaders := map[];
    var cookie := "";
    for i := 1 to |headers|
      invariant Gathered(rspHeaders, cookie) == Gather(headers, i)
    {
      if headers[i].name == CookieField {
        if cookie != "" {
          cookie := cookie + "; ";
        }
        cookie := cookie + headers[i].value;
      } else if !IsPseudo(headers[i].name) {
        rspHeaders := rspHeaders[headers[i].name := headers[i].value];
      }
    }
    if cookie != "" {
      rspHeaders := rspHeaders[JoinedCookieName := cookie];
    }
  }

  // ---------------------------------------------------------------------
  // buildHeaders

  /** What `URL` gives the request: scheme, path, query and host. */
  datatype Url = Url(scheme: Option<string>, path: string, query: Option<string>, host: Option<string>)

  /** The ":path" value: the path, "/" for an empty one, and "?query"
    * when there is a query. */
  function RequestPath(url: Url): (p: string)
    ensures |p| > 0
  {
    var u := if url.path == "" then "/" else url.path;
    match url.query
      case None => u
      case Some(q) => u + "?" + q
  }

  /** The pseudo-header fields that open every request: method, scheme
    * ("http" if the URL has none), path, then authority if there is a
    * host. */
  function PseudoFields(verb: string, url: Url): (r: seq<KeyValuePair>)
    ensures |r| == if url.host.Some? then 4 else 3
    ensures r[0] == KeyValuePair(MethodField, verb)
    ensures r[1] == KeyValuePair(SchemeField, if url.scheme.Some? then url.scheme.value else "http")
    ensures r[2] == KeyValuePair(PathField, RequestPath(url))
    ensures url.host.Some? ==> r[3] == KeyValuePair(AuthorityField, url.host.value)
    ensures forall i :: 0 <= i < |r| ==> IsPseudo(r[i].name)
  {
    var scheme := if url.scheme.Some? then url.scheme.value else "http";
    var fixed := [KeyValuePair(MethodField, verb), KeyValuePair(SchemeField, scheme), KeyValuePair(PathField, RequestPath(url))];
    if url.host.Some? then fixed + [KeyValuePair(AuthorityField, url.host.value)] else fixed
  }

  /** The regular fields, in the order the map was visited. */
  function MapFields(headers: map<string, string>, order: seq<string>): (r: seq<KeyValuePair>)
    requires forall k :: k in order ==> k in headers
    ensures |r| == |order|
    ensures forall i :: 0 <= i < |order| ==> r[i] == KeyValuePair(order[i], headers[order[i]])
    decreases |order|
  {
    if order == [] then []
    else MapFields(headers, order[..|order| - 1]) + [KeyValuePair(order[|order| - 1], headers[order[|order| - 1]])]
  }

  /** The size HPACK is told: name and value octets over all fields. */
  function FieldsSize(fields: seq<KeyValuePair>): (n: nat)
    decreases |fields|
  {
    if fields == [] then 0
    else FieldsSize(fields[..|fields| - 1]) + |fields[|fields| - 1].name| + |fields[|fields| - 1].value|
  }

  lemma {:induction false} FieldsSizeAppend(a: seq<KeyValuePair>, b: seq<KeyValuePair>)
    ensures FieldsSize(a + b) == FieldsSize(a) + FieldsSize(b)
    decreases |b|
  {
    if b == [] {
      assert a + b == a;
    } else {
      var c := a + b;
      assert c[..|c| - 1] == a + b[..|b| - 1];
      FieldsSizeAppend(a, b[..|b| - 1]);
    }
  }

  lemma MapFieldsSnoc(headers: map<string, string>, order: seq<string>, k: string)
    requires k in headers && forall j :: j in order ==> j in headers
    ensures MapFields(headers, order + [k]) == MapFields(headers, order) + [KeyValuePair(k, headers[k])]
  {
    assert (order + [k])[..|order|] == order;
  }

  lemma FieldsSizeOne(f: KeyValuePair)
    ensures FieldsSize([f]) == |f.name| + |f.value|
  {
    assert [f][..0] == [];
  }

  /** The pseudo-header fields count their names and values once each. */
  lemma PseudoSize(verb: string, url: Url)
    ensures var scheme := if url.scheme.Some? then url.scheme.value else "http";
      var host := if url.host.Some? then |AuthorityField| + |url.host.value| else 0;
      FieldsSize(PseudoFields(verb, url)) ==
        |MethodField| + |verb| + |SchemeField| + |scheme| + |PathField| + |RequestPath(url)| + host
  {
    var p := PseudoFields(verb, url);
    assert p[..3] == [p[0]] + [p[1]] + [p[2]];
    FieldsSizeOne(p[0]);
    FieldsSizeOne(p[1]);
    FieldsSizeOne(p[2]);
    FieldsSizeAppend([p[0]], [p[1]]);
    FieldsSizeAppend([p[0]] + [p[1]], [p[2]]);
    if url.host.Some? {
      assert p == p[..3] + [p[3]];
      FieldsSizeOne(p[3]);
      FieldsSizeAppend(p[..3], [p[3]]);
    } else {
      assert p == p[..3];
    }
  }

  class Http2Request {
    /** The inherited `HttpHeader` part. */
    const header: HttpHeader
    /** `method`. */
    var httpMethod: string
    var url: Url

    constructor (verb: string, url: Url)
      ensures fresh(header) && header.headers == map[] && httpMethod == verb && this.url == url
    {
      header := new HttpHeader();
      httpMethod := verb;
      this.url := url;
    }

    /** `buildHeaders`: the framing is derived first; the list is the
      * pseudo-header fields then the regular ones, and the size is the
      * octets of all names and values. */
    method BuildHeaders() returns (hdrList: seq<KeyValuePair>, hdrSize: nat, ghost order: seq<string>)
      modifies header`contentLength, header`isChunked, header`hasBody
      ensures header.Framed() == FramingOf(header.headers)
      ensures Enumerates(order, header.headers.Keys) && forall k :: k in order ==> k in header.headers
      ensures hdrList == PseudoFields(httpMethod, url) + MapFields(header.headers, order)
      ensures hdrSize == FieldsSize(hdrList)
    {
      header.ProcessHeader();
      hdrList, hdrSize := PseudoHeaders(httpMethod, url);
      hdrList, hdrSize, order := AppendFields(header.headers, hdrList, hdrSize);
    }

    /** The pseudo-header part of `buildHeaders`. */
    static method PseudoHeaders(verb: string, url: Url) returns (hdrList: seq<KeyValuePair>, hdrSize: nat)
      ensures hdrList == PseudoFields(verb, url) && hdrSize == FieldsSize(hdrList)
    {
      hide FieldsSize;
      hdrList := [KeyValuePair(MethodField, verb)];
      hdrSize := |MethodField| + |verb|;
      var scheme := "http";
      if url.scheme.Some? {
        scheme := url.scheme.value;
      }
      hdrList := hdrList + [KeyValuePair(SchemeField, scheme)];
      hdrSize := hdrSize + |SchemeField| + |scheme|;
      var u := "/";
      if url.path != "" {
        u := url.path;
      }
      if url.query.Some? {
        u := u + "?" + url.query.value;
      }
      hdrList := hdrList + [KeyValuePair(PathField, u)];
      hdrSize := hdrSize + |PathField| + |u|;
      if url.host.Some? {
        hdrList := hdrList + [KeyValuePair(AuthorityField, url.host.value)];
        hdrSize := hdrSize + |AuthorityField| + |url.host.value|;
      }
      PseudoSize(verb, url);
    }

    /** The loop of `buildHeaders` over the regular fields, visited in
      * some order that lists each once. */
    static method AppendFields(headers: map<string, string>, start: seq<KeyValuePair>, startSize: nat)
      returns (hdrList: seq<KeyValuePair>, hdrSize: nat, ghost order: seq<string>)
      requires startSize == FieldsSize(start)
      ensures Enumerates(order, headers.Keys) && forall k :: k in order ==> k in headers
      ensures hdrList == start + MapFields(headers, order)
      ensures hdrSize == FieldsSize(hdrList)
    {
      hide FieldsSize, MapFields;
      hdrList, hdrSize := start, startSize;
      order := [];
      var rest := headers;
      while rest != map[]
        invariant forall k :: k in rest ==> k in headers && rest[k] == headers[k]
        invariant forall k :: k in headers ==> (k in rest <==> k !in order)
        invariant forall k :: k in order ==> k in headers
        invariant forall i, j :: 0 <= i < j < |order| ==> order[i] != order[j]
        invariant hdrList == start + MapFields(headers, order)
        invariant hdrSize == FieldsSize(hdrList)
        decreases |rest.Keys|
      {
        var k :| k in rest;
        var field := KeyValuePair(k, rest[k]);
        MapFieldsSnoc(headers, order, k);
        FieldsSizeAppend(hdrList, [field]);
        FieldsSizeOne(field);
        hdrList := hdrList + [field];
        hdrSize := hdrSize + |k| + |field.value|;
        order := order + [k];
        rest := rest - {k};
      }
    }
  }

  // ---------------------------------------------------------------------
  // sendData_i

  /** How many of `count` octets `sendData_i` passes to the stream: all of
    * them, unless a Content-Length is known and they would go past it; then
    * only what is left of it. */
  function SendLength(contentLength: Option<int>, bodyBytesSent: int, count: nat): (slen: int)
    ensures slen <= count
    ensures contentLength.Some? ==> bodyBytesSent + slen <= contentLength.value
    ensures contentLength.None? ==> slen == count
    ensures contentLength.Some? && bodyBytesSent + count <= contentLength.value ==> slen == count
  {
    if contentLength.Some? && bodyBytesSent + count > contentLength.value then contentLength.value - bodyBytesSent
    else count
  }
}

=== FILE: httpchunked.dfy ===
/** Chunked transfer coding end to end: what `HttpMessage` hands its
  * sender for a run of chunks is read back by `HttpParser` as the same
  * data, in the same pieces, followed by the end of the message
  * (section 4.1 of RFC 7230).
  */
module HttpChunked {
  import opened Common
  import opened HttpHeader
  import opened HttpParser
  import opened HttpMessage

  /** The callbacks a parser makes for each chunk. */
  function DataEvents(chunks: seq<Bytes>): (r: seq<Event>)
    ensures |r| == |chunks|
    ensures forall i :: 0 <= i < |chunks| ==> r[i] == BodyData(chunks[i])
  {
    if chunks == [] then [] else [BodyData(chunks[0])] + DataEvents(chunks[1..])
  }

  /** A chunk-size line written by `sendChunk` is read back by `getLine`
    * as the size in hexadecimal, and that is the size. */
  lemma SizeLineRead(n: nat, rest: Bytes)
    requires n <= INT_MAX
    ensures GetLine(OctetsOf(HexString(n)) + [CR, LF] + rest) == Some(GotLine(HexString(n), |HexString(n)| + 2))
    ensures ChunkSize(HexString(n)) == Some(n)
  {
    hide GetLine, TextOf, ParseInt, OctetsOf;
    var h := HexString(n);
    HexOctets(n);
    TextOctetsRoundTrip(h);
    GetLineCRLF(OctetsOf(h), rest);
    ParseHexString(n);
  }

  /** The octets of a hexadecimal numeral are its characters' codes, none
    * of them LF. */
  lemma HexOctets(n: nat)
    ensures IsOctetText(HexString(n)) && LF !in OctetsOf(HexString(n))
  {
    hide OctetsOf;
    var h := HexString(n);
    RadixStringDigits(n, 16);
    assert forall i :: 0 <= i < |h| ==> '0' <= h[i] <= 'f';
    OctetsOfAt(h);
    forall i | 0 <= i < |h|
      ensures OctetsOf(h)[i] != LF
    {
      assert OctetsOf(h)[i] == h[i] as int;
    }
  }

  /** The state a parser is in between chunks. */
  ghost predicate BetweenChunks(s: PState)
  {
    Sane(s) && s.read == Body && s.framing.isChunked && s.chunk == Size && s.saved == ""
  }

  /** `data[pos..]` starts with `w`. */
  predicate At(data: Bytes, pos: nat, w: Bytes)
  {
    pos + |w| <= |data| && data[pos..pos + |w|] == w
  }

  /** The size line of a chunk. */
  lemma SizeRoundOf(s: PState, c: Bytes, data: Bytes, pos: nat)
    requires BetweenChunks(s) && 0 < |c| <= INT_MAX && At(data, pos, ChunkFrame(c))
    ensures var k := |HexString(|c|)|;
      ChunkRound(s, data, pos) == Next(s.(chunkSize := |c|, chunk := Data), pos + k + 2, [])
  {
    hide GetLine, TextOf, ParseInt, OctetsOf, HexString, Chunks, ChunkSize, SaveRest, TrailerRound;
    var h := HexString(|c|);
    var k := |h|;
    var f := ChunkFrame(c);
    assert f == OctetsOf(h) + [CR, LF] + (c + CRLFOctets);
    assert data[pos..] == OctetsOf(h) + [CR, LF] + data[pos + k + 2..] by {
      assert data[pos..] == data[pos..pos + |f|] + data[pos + |f|..];
      assert data[pos..pos + k + 2] == f[..k + 2] == OctetsOf(h) + [CR, LF];
      assert data[pos..] == data[pos..pos + k + 2] + data[pos + k + 2..];
    }
    SizeLineRead(|c|, data[pos + k + 2..]);
    assert s.saved + h == h;
    assert s.(saved := "") == s;
  }

  /** Where the data of a chunk and the CR LF after it lie. */
  lemma DataAt(c: Bytes, data: Bytes, pos: nat, p: nat)
    requires At(data, pos, ChunkFrame(c)) && p == pos + |HexString(|c|)| + 2
    ensures p + |c| + 2 <= |data| && data[p..p + |c|] == c && data[p + |c|] == CR && data[p + |c| + 1] == LF
  {
    hide OctetsOf, HexString;
    var f := ChunkFrame(c);
    var k := |HexString(|c|)|;
    var head := OctetsOf(HexString(|c|)) + CRLFOctets;
    var tail := c + CRLFOctets;
    assert f == head + tail && |head| == k + 2;
    assert f[k + 2..] == tail;
    var w := data[pos..pos + |f|];
    assert w == f;
    assert data[p..pos + |f|] == w[k + 2..] == tail;
    assert data[p..p + |c|] == tail[..|c|] == c;
    assert data[p + |c|] == tail[|c|] == CR;
    assert data[p + |c| + 1] == tail[|c| + 1] == LF;
  }

  /** The data of a chunk and the CR LF after it. */
  lemma DataRoundsOf(s: PState, c: Bytes, data: Bytes, pos: nat, p: nat)
    requires BetweenChunks(s) && 0 < |c| <= INT_MAX && At(data, pos, ChunkFrame(c))
    requires p == pos + |HexString(|c|)| + 2
    ensures var s1 := s.(chunkSize := |c|, chunk := Data);
      var s2 := s.(total := s.total + |c|, chunkSize := 0);
      Chunks(s1, data, p) == Prepend([BodyData(c)], Chunks(s2, data, p + |c| + 2))
  {
    hide GetLine, TextOf, ParseInt, OctetsOf, HexString, Chunks, SizeRound, TrailerRound, ChunkFrame, At;
    DataAt(c, data, pos, p);
    var s1 := s.(chunkSize := |c|, chunk := Data);
    var s2 := s1.(total := s1.total + |c|, chunkSize := 0, chunk := DataCR);
    var s3 := s2.(chunk := DataLF);
    var s4 := s3.(chunk := Size);
    assert ChunkRound(s1, data, p) == Next(s2, p + |c|, [BodyData(c)]);
    ChunksNext(s1, data, p);
    assert ChunkRound(s2, data, p + |c|) == Next(s3, p + |c| + 1, []);
    ChunksNext(s2, data, p + |c|);
    assert ChunkRound(s3, data, p + |c| + 1) == Next(s4, p + |c| + 2, []);
    ChunksNext(s3, data, p + |c| + 1);
    assert s4 == s.(total := s.total + |c|, chunkSize := 0);
  }

  /** One chunk: its data is reported and the parser is between chunks
    * again, after the frame. */
  lemma OneChunkRead(s: PState, c: Bytes, data: Bytes, pos: nat)
    requires BetweenChunks(s) && 0 < |c| <= INT_MAX && At(data, pos, ChunkFrame(c))
    ensures Chunks(s, data, pos) ==
      Prepend([BodyData(c)], Chunks(s.(total := s.total + |c|, chunkSize := 0), data, pos + |ChunkFrame(c)|))
  {
    hide GetLine, TextOf, ParseInt, OctetsOf, HexString, Chunks, ChunkRound, ChunkFrame;
    var k := |HexString(|c|)|;
    SizeRoundOf(s, c, data, pos);
    ChunksNext(s, data, pos);
    DataRoundsOf(s, c, data, pos, pos + k + 2);
    var r := Chunks(s.(total := s.total + |c|, chunkSize := 0), data, pos + |ChunkFrame(c)|);
    assert [] + ([BodyData(c)] + r.events) == [BodyData(c)] + r.events;
  }

  /** The last chunk and the empty trailer complete the message. */
  lemma LastChunkRead(s: PState, data: Bytes, pos: nat)
    requires BetweenChunks(s) && At(data, pos, LastChunk)
    ensures Chunks(s, data, pos) == Parsed(s.(read := Done, chunk := Trailer, chunkSize := 0), pos + 5, [Complete])
  {
    hide ChunkRound, Chunks;
    var s1 := s.(chunkSize := 0, chunk := Trailer);
    LastSizeRound(s, data, pos);
    ChunksNext(s, data, pos);
    TrailerEndRound(s1, data, pos + 3);
    ChunksExit(s1, data, pos + 3);
  }

  /** The size line "0" of the last chunk leads to the trailer. */
  lemma LastSizeRound(s: PState, data: Bytes, pos: nat)
    requires BetweenChunks(s) && At(data, pos, LastChunk)
    ensures ChunkRound(s, data, pos) == Next(s.(chunkSize := 0, chunk := Trailer), pos + 3, [])
  {
    hide GetLine, ParseInt, ChunkSize, Chunks, SaveRest, Saved, TrailerRound;
    assert HexString(0) == "0";
    assert OctetsOf("0") == [48];
    assert data[pos..] == OctetsOf(HexString(0)) + [CR, LF] + data[pos + 3..] by {
      assert data[pos..pos + 3] == LastChunk[..3] == [48, CR, LF];
      assert data[pos..] == data[pos..pos + 3] + data[pos + 3..];
    }
    SizeLineRead(0, data[pos + 3..]);
    assert "" + "0" == "0";
    assert s.(saved := "") == s;
  }

  /** The empty trailer line ends the message. */
  lemma TrailerEndRound(s: PState, data: Bytes, pos: nat)
    requires Sane(s) && s.read == Body && s.framing.isChunked && s.chunk == Trailer && s.saved == ""
    requires 3 <= pos && At(data, pos - 3, LastChunk)
    ensures ChunkRound(s, data, pos) == Exit(Parsed(s.(read := Done), pos + 2, [Complete]))
  {
    hide GetLine, ParseInt, ChunkSize, Chunks, SaveRest, Saved, SizeRound;
    assert data[pos..] == [] + [CR, LF] + data[pos + 2..] by {
      assert data[pos..pos + 2] == data[pos - 3..pos + 2][3..] == [CR, LF];
      assert data[pos..] == data[pos..pos + 2] + data[pos + 2..];
    }
    GetLineCRLF([], data[pos + 2..]);
    assert TextOf([]) == "";
    assert s.(saved := "") == s;
  }

  /** Chunks of data, as `sendChunk` frames them, followed by the last
    * chunk: the parser reports each chunk's data in turn and then the end
    * of the message, counts every octet, and takes exactly the frames. */
  lemma {:induction false} ChunkedWireRead(s: PState, chunks: seq<Bytes>, data: Bytes, pos: nat)
    requires BetweenChunks(s)
    requires forall i :: 0 <= i < |chunks| ==> 0 < |chunks[i]| <= INT_MAX
    requires At(data, pos, ChunkedWire(chunks))
    ensures Chunks(s, data, pos) ==
      Parsed(s.(read := Done, chunk := Trailer, chunkSize := 0, total := s.total + TotalLength(chunks)),
             pos + |ChunkedWire(chunks)|, DataEvents(chunks) + [Complete])
    decreases |chunks|
  {
    hide GetLine, TextOf, ParseInt, OctetsOf, HexString, Chunks, ChunkRound, ChunkFrame;
    if chunks == [] {
      LastChunkRead(s, data, pos);
    } else {
      var c := chunks[0];
      var f := ChunkFrame(c);
      var w := ChunkedWire(chunks);
      assert w == f + ChunkedWire(chunks[1..]);
      assert At(data, pos, f) by {
        assert data[pos..pos + |f|] == data[pos..pos + |w|][..|f|];
      }
      assert At(data, pos + |f|, ChunkedWire(chunks[1..])) by {
        assert data[pos + |f|..pos + |w|] == data[pos..pos + |w|][|f|..];
      }
      OneChunkRead(s, c, data, pos);
      var s2 := s.(total := s.total + |c|, chunkSize := 0);
      ChunkedWireRead(s2, chunks[1..], data, pos + |f|);
      assert DataEvents(chunks) == [BodyData(c)] + DataEvents(chunks[1..]);
    }
  }

  /** The whole body in one call to `parse`. */
  lemma ChunkedBodyParsed(env: Env, s: PState, chunks: seq<Bytes>)
    requires BetweenChunks(s)
    requires forall i :: 0 <= i < |chunks| ==> 0 < |chunks[i]| <= INT_MAX
    ensures var data := ChunkedWire(chunks);
      ParseOf(env, s, data) ==
        Parsed(s.(read := Done, chunk := Trailer, chunkSize := 0, total := s.total + TotalLength(chunks)),
               |data|, DataEvents(chunks) + [Complete])
  {
    var data := ChunkedWire(chunks);
    assert data[0..|data|] == data;
    ChunkedWireRead(s, chunks, data, 0);
  }

  /** End to end: a chunked message sends `chunks` and then its last
    * chunk, each send accepted; a parser between chunks that is handed
    * what the sender got reports the same chunks and the end of the
    * message, and both sides count the same number of body octets. */
  lemma ChunkedRoundTrip(env: Env, f: Framing, sentBefore: int, done: bool, answer: int,
                         s: PState, chunks: seq<Bytes>)
    requires f.isChunked && answer > 0 && BetweenChunks(s)
    requires forall i :: 0 <= i < |chunks| ==> 0 < |chunks[i]| <= INT_MAX
    ensures var o := SendChunks(f, sentBefore, done, chunks, answer);
      var r := ParseOf(env, s, Concat(o.0));
      && o.2 && r.s.read == Done
      && r.used == |Concat(o.0)|
      && r.events == DataEvents(chunks) + [Complete]
      && r.s.total - s.total == o.1 - sentBefore == TotalLength(chunks)
  {
    SendChunksWire(f, sentBefore, done, chunks, answer);
    ChunkedBodyParsed(env, s, chunks);
  }
}

=== FILE: httpheader.dfy ===
/** The header map of an HTTP/1.x message (Sources/http/HttpHeader.swift):
  * adding and looking up fields, deriving the body framing from
  * Content-Length and Transfer-Encoding, and writing the message head.
  *
  * A Swift dictionary has no defined iteration order, so the head writers
  * return, as a ghost value, the order in which they visited the fields;
  * their contract holds for that order, which lists every field once.
  */
module HttpHeader {
  import opened Common

  /** `kContentLength`, `kTransferEncoding`, `kUpgrade`, `kConnection`. */
  const ContentLengthName: string := "Content-Length"
  const TransferEncodingName: string := "Transfer-Encoding"
  const UpgradeName: string := "Upgrade"
  const ConnectionName: string := "Connection"

  const CRLF: string := "\r\n"

  /** Swift's `"\(n)"` for an `Int`. */
  function IntText(n: int): (s: string)
    ensures s != [] && (s[0] == '-' <==> n < 0)
  {
    if n < 0 then "-" + DecimalString(-n) else DecimalString(n)
  }

  /** What `processHeader` derives from the fields. */
  datatype Framing = Framing(contentLength: Option<int>, isChunked: bool, hasBody: bool)

  function FramingOf(headers: map<string, string>): (r: Framing)
    ensures r.hasBody <==> r.isChunked || (r.contentLength.Some? && r.contentLength.value > 0)
  {
    var cl := if ContentLengthName in headers then ParseInt(headers[ContentLengthName], 10) else None;
    var chunked := TransferEncodingName in headers && EqualsIgnoreCase(headers[TransferEncodingName], "chunked");
    Framing(cl, chunked, chunked || (cl.Some? && cl.value > 0))
  }

  /** A Content-Length written as a positive decimal number announces a
    * body of exactly that many octets. */
  lemma LengthAnnouncesBody(headers: map<string, string>, n: nat)
    requires 0 < n <= INT_MAX
    requires ContentLengthName in headers && headers[ContentLengthName] == DecimalString(n)
    ensures FramingOf(headers).contentLength == Some(n) && FramingOf(headers).hasBody
  {
    ParseDecimalString(n);
  }

  /** A Content-Length that is not a number is dropped: without chunked
    * transfer coding the message then has no body. */
  lemma MalformedLengthDropped(headers: map<string, string>)
    requires ContentLengthName in headers && ParseInt(headers[ContentLengthName], 10).None?
    ensures FramingOf(headers).contentLength.None?
    ensures FramingOf(headers).hasBody <==> FramingOf(headers).isChunked
  {
  }

  /** `order` lists every key of a map exactly once. */
  ghost predicate Enumerates(order: seq<string>, keys: set<string>)
  {
    && (forall i, j :: 0 <= i < j < |order| ==> order[i] != order[j])
    && (forall k :: k in keys <==> k in order)
  }

  function FieldLine(name: string, value: string): string
  {
    name + ": " + value + CRLF
  }

  /** One `name: value` line per field, in the order given. */
  function HeaderLines(headers: map<string, string>, order: seq<string>): (r: string)
    requires forall k :: k in order ==> k in headers
    decreases |order|
  {
    if order == [] then ""
    else
      var k := order[|order| - 1];
      HeaderLines(headers, order[..|order| - 1]) + FieldLine(k, headers[k])
  }

  function RequestLine(verb: string, url: string, ver: string): string
  {
    verb + " " + url + " " + ver + CRLF
  }

  /** The status line: the description and the space before it are left
    * out when the description is empty. */
  function StatusLine(statusCode: int, desc: string, ver: string): string
  {
    ver + " " + IntText(statusCode) + (if desc != "" then " " + desc else "") + CRLF
  }

  /** Whether a response with this status may carry a body: all but 1xx,
    * 204 and 304 (section 3.3.3 of RFC 7230). */
  predicate StatusAllowsBody(statusCode: int)
  {
    !((100 <= statusCode <= 199) || statusCode == 204 || statusCode == 304)
  }

  class HttpHeader {
    var headers: map<string, string>
    var contentLength: Option<int>
    var isChunked: bool
    /** `hasBody_`. */
    var hasBody: bool

    constructor ()
      ensures headers == map[] && contentLength.None? && !isChunked && !hasBody
    {
      headers := map[];
      contentLength := None;
      isChunked := false;
      hasBody := false;
    }

    function Framed(): Framing
      reads this`contentLength, this`isChunked, this`hasBody
    {
      Framing(contentLength, isChunked, hasBody)
    }

    /** A field with an empty name is ignored; otherwise the value replaces
      * any earlier one under the same name. */
    method AddHeader(name: string, value: string)
      modifies this`headers
      ensures name == "" ==> headers == old(headers)
      ensures name != "" ==> headers == old(headers)[name := value]
    {
      if name != "" {
        headers := headers[name := value];
      }
    }

    /** The `Int` overload: the value written in decimal. */
    method AddIntHeader(name: string, value: int)
      modifies this`headers
      ensures name == "" ==> headers == old(headers)
      ensures name != "" ==> headers == old(headers)[name := IntText(value)]
    {
      AddHeader(name, IntText(value));
    }

    /** Names are compared exactly, as dictionary keys are. */
    function HasHeader(name: string): (r: bool)
      reads this`headers
      ensures r <==> name in headers
    {
      name in headers
    }

    method ProcessHeader()
      modifies this`contentLength, this`isChunked, this`hasBody
      ensures Framed() == FramingOf(headers)
    {
      var val := if ContentLengthName in headers then Some(headers[ContentLengthName]) else None;
      if val.Some? {
        contentLength := ParseInt(val.value, 10);
      } else {
        contentLength := None;
      }
      val := if TransferEncodingName in headers then Some(headers[TransferEncodingName]) else None;
      if val.Some? {
        isChunked := EqualsIgnoreCase(val.value, "chunked");
      } else {
        isChunked := false;
      }
      hasBody := isChunked || (contentLength.Some? && contentLength.value > 0);
    }

    /** The loop over the fields shared by both head writers: `start`
      * followed by one line per field, in the order the map was visited. */
    method AppendHeaderLines(start: string) returns (out: string, ghost order: seq<string>)
      ensures Enumerates(order, headers.Keys)
      ensures forall k :: k in order ==> k in headers
      ensures out == start + HeaderLines(headers, order)
    {
      out := start;
      order := [];
      var rest := headers;
      while rest != map[]
        invariant forall k :: k in rest ==> k in headers && rest[k] == headers[k]
        invariant forall k :: k in headers ==> (k in rest <==> k !in order)
        invariant forall k :: k in order ==> k in headers
        invariant forall i, j :: 0 <= i < j < |order| ==> order[i] != order[j]
        invariant out == start + HeaderLines(headers, order)
        decreases |rest.Keys|
      {
        var k :| k in rest;
        assert (order + [k])[..|order|] == order;
        ghost var lines := HeaderLines(headers, order);
        assert HeaderLines(headers, order + [k]) == lines + FieldLine(k, headers[k]);
        assert start + lines + FieldLine(k, headers[k]) == start + (lines + FieldLine(k, headers[k]));
        out := out + FieldLine(k, rest[k]);
        order := order + [k];
        rest := rest - {k};
      }
    }

    /** The request head: request line, one line per field, empty line.
      * The framing is derived from the fields first. */
    method BuildRequestHeader(verb: string, url: string, ver: string) returns (req: string, ghost order: seq<string>)
      modifies this`contentLength, this`isChunked, this`hasBody
      ensures Framed() == FramingOf(headers)
      ensures Enumerates(order, headers.Keys) && forall k :: k in order ==> k in headers
      ensures req == RequestLine(verb, url, ver) + HeaderLines(headers, order) + CRLF
    {
      ProcessHeader();
      var lines;
      lines, order := AppendHeaderLines(verb + " " + url + " " + ver + CRLF);
      req := lines + CRLF;
    }

    /** The response head; afterwards the message has a body if its fields
      * announce one or its status allows one. */
    method BuildResponseHeader(statusCode: int, desc: string, ver: string) returns (rsp: string, ghost order: seq<string>)
      modifies this`contentLength, this`isChunked, this`hasBody
      ensures contentLength == FramingOf(headers).contentLength && isChunked == FramingOf(headers).isChunked
      ensures hasBody <==> FramingOf(headers).hasBody || StatusAllowsBody(statusCode)
      ensures Enumerates(order, headers.Keys) && forall k :: k in order ==> k in headers
      ensures rsp == StatusLine(statusCode, desc, ver) + HeaderLines(headers, order) + CRLF
    {
      hide FramingOf, HeaderLines, IntText;
      ProcessHeader();
      var line := ver + " " + IntText(statusCode);
      if desc != "" {
        line := line + " " + desc;
      }
      line := line + CRLF;
      assert line == StatusLine(statusCode, desc, ver);
      var lines;
      lines, order := AppendHeaderLines(line);
      rsp := lines + CRLF;
      hasBody := hasBody || !((100 <= statusCode && statusCode <= 199) || 204 == statusCode || 304 == statusCode);
    }

    method Reset()
      modifies this
      ensures headers == map[] && contentLength.None? && !isChunked && !hasBody
    {
      headers := map[];
      contentLength := None;
      isChunked := false;
      hasBody := false;
    }
  }
}

=== FILE: httpmessage.dfy ===
/** Sending the body of an HTTP/1.x message (Sources/http/HttpMessage.swift):
  * as it is, counted against the Content-Length, or in chunked transfer
  * coding (section 4.1 of RFC 7230).
  *
  * The sender (`MessageSender`) is a sink whose answer, the count it
  * reports, is a parameter of each send; what it was handed is kept in the
  * ghost log `sent`.
  */
module HttpMessage {
  import opened Common
  import opened HttpHeader

  /** `kCRLF`. */
  const CRLFOctets: Bytes := [13, 10]

  /** "0\r\n\r\n": the last chunk and the empty trailer. */
  const LastChunk: Bytes := [48, 13, 10, 13, 10]

  /** One chunk on the wire: its size in hexadecimal, CR LF, the data,
    * CR LF. */
  function ChunkFrame(data: Bytes): (r: Bytes)
    ensures |r| == |HexString(|data|)| + |data| + 4
    ensures r[|r| - 2..] == CRLFOctets
  {
    OctetsOf(HexString(|data|)) + CRLFOctets + data + CRLFOctets
  }

  /** A chunk of no data comes out as the last chunk. */
  lemma EmptyChunkIsLast()
    ensures ChunkFrame([]) == LastChunk
  {
    assert HexString(0) == "0";
  }

  /** What one `sendData` call does: what it returns, the new count of
    * body octets and completion flag, and what it hands the sender. */
  datatype Outcome = Outcome(ret: int, bodyBytesSent: int, completed: bool, wire: Option<Bytes>)

  /** `sendData`. Without chunked coding: nothing to send returns 0; a
    * send the sender accepts counts what it reports, and reaching the
    * Content-Length completes the message. With chunked coding
    * (`sendChunk`): no data and length 0 sends the last chunk, which
    * completes the message and returns 0; other data goes out as one
    * chunk and counts its full length once the sender accepts it. A
    * sender's answer of 0 or less is returned as it is and changes
    * nothing. */
  function SendOutcome(f: Framing, sentBefore: int, done: bool, data: Option<Bytes>, len: nat, answer: int): (o: Outcome)
    requires data.Some? ==> len <= |data.value|
    requires f.isChunked && data.None? ==> len == 0
    ensures answer <= 0 ==> o.bodyBytesSent == sentBefore && o.completed == done
    ensures answer <= 0 && o.wire.Some? ==> o.ret == answer
    ensures done ==> o.completed
    ensures !f.isChunked && data.None? ==> o == Outcome(0, sentBefore, done, None)
    ensures !f.isChunked && data.Some? ==>
      && o.wire == Some(data.value[..len]) && o.ret == answer
      && o.bodyBytesSent == sentBefore + Max(answer, 0)
      && (o.completed <==> done || (answer > 0 && f.contentLength.Some? && o.bodyBytesSent >= f.contentLength.value))
    ensures f.isChunked && data.None? ==>
      && o.wire == Some(LastChunk) && o.bodyBytesSent == sentBefore
      && (o.completed <==> done || answer > 0) && (answer > 0 ==> o.ret == 0)
    ensures f.isChunked && data.Some? ==>
      && o.wire == Some(ChunkFrame(data.value[..len])) && o.completed == done
      && (answer > 0 ==> o.ret == len && o.bodyBytesSent == sentBefore + len)
  {
    if f.isChunked then
      if data.None? && len == 0 then
        Outcome(if answer > 0 then 0 else answer, sentBefore, done || answer > 0, Some(LastChunk))
      else
        var frame := ChunkFrame(data.value[..len]);
        if answer > 0 then Outcome(len, sentBefore + len, done, Some(frame))
        else Outcome(answer, sentBefore, done, Some(frame))
    else if data.None? then Outcome(0, sentBefore, done, None)
    else
      var sent := if answer > 0 then sentBefore + answer else sentBefore;
      var completed := done || (answer > 0 && f.contentLength.Some? && sent >= f.contentLength.value);
      Outcome(answer, sent, completed, Some(data.value[..len]))
  }

  /** A body sent in full against a Content-Length: each send accepted
    * whole, the message is complete exactly when the count reaches the
    * length. */
  lemma CompletesAtLength(f: Framing, sentBefore: int, data: Bytes)
    requires !f.isChunked && |data| > 0 && f.contentLength.Some?
    ensures var o := SendOutcome(f, sentBefore, false, Some(data), |data|, |data|);
      o.completed <==> sentBefore + |data| >= f.contentLength.value
  {
  }

  /** What a run of chunked sends hands the sender: each chunk in turn,
    * then the last chunk. */
  function ChunkedWire(chunks: seq<Bytes>): (r: Bytes)
    ensures |r| >= |LastChunk|
  {
    if chunks == [] then LastChunk else ChunkFrame(chunks[0]) + ChunkedWire(chunks[1..])
  }

  /** The sends of `chunks` followed by the closing send, all accepted,
    * from a message with `sentBefore` octets counted: what they hand the
    * sender, the count and the completion they leave. */
  function SendChunks(f: Framing, sentBefore: int, done: bool, chunks: seq<Bytes>, answer: int): (o: (seq<Bytes>, int, bool))
    requires f.isChunked && answer > 0
    decreases |chunks|
  {
    if chunks == [] then
      var last := SendOutcome(f, sentBefore, done, None, 0, answer);
      ([last.wire.value], last.bodyBytesSent, last.completed)
    else
      var first := SendOutcome(f, sentBefore, done, Some(chunks[0]), |chunks[0]|, answer);
      var rest := SendChunks(f, first.bodyBytesSent, first.completed, chunks[1..], answer);
      ([first.wire.value] + rest.0, rest.1, rest.2)
  }

  /** The total length of some chunks. */
  function TotalLength(chunks: seq<Bytes>): (n: nat)
    ensures chunks == [] ==> n == 0
  {
    if chunks == [] then 0 else |chunks[0]| + TotalLength(chunks[1..])
  }

  /** Flattening a sequence of octet strings. */
  function Concat(parts: seq<Bytes>): (r: Bytes)
  {
    if parts == [] then [] else parts[0] + Concat(parts[1..])
  }

  /** Sending chunks one by one and then the closing send puts exactly
    * `ChunkedWire(chunks)` on the wire, counts every octet of data and
    * completes the message. */
  lemma {:induction false} SendChunksWire(f: Framing, sentBefore: int, done: bool, chunks: seq<Bytes>, answer: int)
    requires f.isChunked && answer > 0
    ensures var o := SendChunks(f, sentBefore, done, chunks, answer);
      Concat(o.0) == ChunkedWire(chunks) && o.1 == sentBefore + TotalLength(chunks) && o.2
    decreases |chunks|
  {
    var o := SendChunks(f, sentBefore, done, chunks, answer);
    if chunks == [] {
      assert o.0 == [LastChunk];
      assert Concat(o.0) == LastChunk + Concat([]);
    } else {
      var first := SendOutcome(f, sentBefore, done, Some(chunks[0]), |chunks[0]|, answer);
      assert chunks[0][..|chunks[0]|] == chunks[0];
      SendChunksWire(f, first.bodyBytesSent, first.completed, chunks[1..], answer);
      var rest := SendChunks(f, first.bodyBytesSent, first.completed, chunks[1..], answer);
      assert o.0 == [first.wire.value] + rest.0;
      assert ([first.wire.value] + rest.0)[1..] == rest.0;
    }
  }

  class HttpMessage {
    /** The inherited `HttpHeader` part. */
    const header: HttpHeader
    var bodyBytesSent: int
    var completed: bool
    /** What the sender was handed, oldest first. */
    ghost var sent: seq<Bytes>

    constructor ()
      ensures fresh(header) && header.headers == map[] && header.contentLength.None?
      ensures !header.isChunked && !header.hasBody
      ensures bodyBytesSent == 0 && !completed && sent == []
    {
      header := new HttpHeader();
      bodyBytesSent := 0;
      completed := false;
      sent := [];
    }

    /** `isCompleted`. */
    function IsCompleted(): (r: bool)
      reads this`completed
      ensures r == completed
    {
      completed
    }

    /** `sendData`: `len` octets of `data`, `answer` being what the sender
      * reports. */
    method SendData(data: Option<Bytes>, len: nat, answer: int) returns (ret: int)
      requires data.Some? ==> len <= |data.value|
      requires header.isChunked && data.None? ==> len == 0
      modifies this`bodyBytesSent, this`completed, this`sent
      ensures var o := SendOutcome(header.Framed(), old(bodyBytesSent), old(completed), data, len, answer);
        && ret == o.ret && bodyBytesSent == o.bodyBytesSent && completed == o.completed
        && sent == old(sent) + (if o.wire.Some? then [o.wire.value] else [])
    {
      if header.isChunked {
        ret := SendChunk(data, len, answer);
        return;
      }
      if data.None? {
        return 0;
      }
      sent := sent + [data.value[..len]];
      ret := answer;
      if ret > 0 {
        bodyBytesSent := bodyBytesSent + ret;
        if header.contentLength.Some? && bodyBytesSent >= header.contentLength.value {
          completed := true;
        }
      }
    }

    /** `sendChunk`. */
    method SendChunk(data: Option<Bytes>, len: nat, answer: int) returns (ret: int)
      requires header.isChunked
      requires data.Some? ==> len <= |data.value|
      requires data.None? ==> len == 0
      modifies this`bodyBytesSent, this`completed, this`sent
      ensures var o := SendOutcome(header.Framed(), old(bodyBytesSent), old(completed), data, len, answer);
        && ret == o.ret && bodyBytesSent == o.bodyBytesSent && completed == o.completed
        && o.wire.Some? && sent == old(sent) + [o.wire.value]
    {
      if data.None? && len == 0 {
        sent := sent + [LastChunk];
        if answer > 0 {
          completed := true;
          return 0;
        }
        return answer;
      }
      var str := OctetsOf(HexString(len)) + CRLFOctets;
      sent := sent + [str + data.value[..len] + CRLFOctets];
      if answer > 0 {
        bodyBytesSent := bodyBytesSent + len;
        return len;
      }
      return answer;
    }

    /** `reset`: the header is emptied and nothing counts as sent. */
    method Reset()
      modifies this, header
      ensures header.headers == map[] && header.contentLength.None? && !header.isChunked && !header.hasBody
      ensures bodyBytesSent == 0 && !completed && sent == old(sent)
    {
      header.Reset();
      bodyBytesSent := 0;
      completed := false;
    }
  }
}

=== FILE: httpparser.dfy ===
/** The incremental HTTP/1.x message parser (Sources/http/HttpParser.swift;
  * sections 3 and 4.1 of RFC 7230): the start line, the header fields up
  * to the empty line, then a body framed by Content-Length, by chunked
  * transfer coding, or by the end of the connection.
  *
  * The parser keeps its progress between calls, so a message may arrive
  * in any number of pieces. The value `PState` gathers that progress;
  * `Parse` and the functions it calls state what one call to `parse` does
  * to it and which delegate callbacks it makes, and the class
  * `HttpParser` runs the loops of the source, proved to do exactly that.
  * The delegate is the ghost log `events`.
  *
  * Octets become text one character per octet. Percent decoding and URL
  * parsing are Foundation calls; they are the two functions of an `Env`.
  */
module HttpParser {
  import opened Common
  import opened HttpHeader

  const CR: byte := 13
  const LF: byte := 10

  /** `kMaxHttpHeadSize`: the most text kept while waiting for a line end. */
  const MaxHttpHeadSize: nat := 10 * 1024 * 1024

  datatype ReadState = Line | Head | Body | Done | Error
  datatype ChunkState = Size | Data | DataCR | DataLF | Trailer

  /** The delegate's callbacks. */
  datatype Event =
    | BodyData(data: Bytes)  // onHttpData
    | HeaderComplete         // onHttpHeaderComplete
    | Complete               // onHttpComplete
    | Failed                 // onHttpError

  /** `removingPercentEncoding` and whether `URL(string:)` succeeds. */
  datatype Env = Env(percentDecode: string -> Option<string>, urlParses: string -> bool)

  /** Everything `parse` reads or writes: the parser's own fields and the
    * header fields and framing it inherits. `url` is the text `URL(string:)`
    * accepted, if it did. */
  datatype PState = PState(
    read: ReadState, chunk: ChunkState, chunkSize: int, saved: string, total: int,
    isPaused: bool, isUpgrade: bool, isRequest: bool,
    httpMethod: string, urlString: string, statusCode: int, version: string, url: Option<string>,
    headers: map<string, string>, framing: Framing)

  /** What the parser keeps true between calls: a chunk size is never
    * negative, the saved text stays within `kMaxHttpHeadSize`, no body is
    * counted before the header ends, the framing is the one
    * `processHeader` derives, and a body with a Content-Length is never
    * read past it. */
  ghost predicate Sane(s: PState)
  {
    && s.chunkSize >= 0 && s.total >= 0 && |s.saved| <= MaxHttpHeadSize
    && (s.framing.hasBody <==> s.framing.isChunked || (s.framing.contentLength.Some? && s.framing.contentLength.value > 0))
    && (s.read == Line || s.read == Head ==> s.total == 0)
    && (s.framing.hasBody && !s.framing.isChunked && s.framing.contentLength.Some? ==>
          s.total <= s.framing.contentLength.value)
    && (s.read == Body && !s.framing.isChunked && s.framing.contentLength.Some? ==>
          s.total <= s.framing.contentLength.value)
  }

  /** The state `reset` leaves; `method`, `version` and `url` keep their
    * values. */
  function ResetState(s: PState): (r: PState)
    ensures Sane(r) && r.read == Line && r.headers == map[]
  {
    s.(read := Line, chunk := Size, chunkSize := 0, total := 0, isPaused := false, isUpgrade := false,
       isRequest := false, saved := "", statusCode := 0, urlString := "",
       headers := map[], framing := Framing(None, false, false))
  }

  /** A fresh parser. */
  function InitialState(): (r: PState)
    ensures Sane(r) && r.read == Line
  {
    ResetState(PState(Line, Size, 0, "", 0, false, false, false, "", "", 0, "HTTP/1.1", None,
                      map[], Framing(None, false, false)))
  }

  // ---------------------------------------------------------------------
  // Lines

  /** The position of the first LF. */
  function LineEnd(b: Bytes): (k: Option<nat>)
    ensures k.Some? ==> k.value < |b| && b[k.value] == LF && LF !in b[..k.value]
    ensures k.None? ==> LF !in b
  {
    if b == [] then None
    else if b[0] == LF then Some(0)
    else match LineEnd(b[1..])
      case None => None
      case Some(j) =>
        assert b[..j + 1] == [b[0]] + b[1..][..j];
        Some(j + 1)
  }

  datatype GotLine = GotLine(line: string, used: nat)

  /** `getLine`: the text before the first LF, less a CR just before it,
    * and the octets up to and including the LF; nothing while there is
    * no LF. */
  function GetLine(b: Bytes): (r: Option<GotLine>)
    ensures r.None? <==> LF !in b
    ensures r.Some? ==> 0 < r.value.used <= |b| && b[r.value.used - 1] == LF && LF !in b[..r.value.used - 1]
  {
    match LineEnd(b)
      case None => None
      case Some(k) =>
        var end := if k > 0 && b[k - 1] == CR then k - 1 else k;
        Some(GotLine(TextOf(b[..end]), k + 1))
  }

  /** Every octet is ASCII. */
  predicate IsAscii(b: Bytes)
  {
    forall i :: 0 <= i < |b| ==> b[i] < 0x80
  }

  /** `getLine` as written: the whole buffer is read as ASCII text, which
    * fails, answering as if there were no line, when any octet of it is
    * above 0x7f; the octets taken are counted in characters, in which
    * CR LF is one, plus one: that is right after a CR LF, but one octet
    * past a bare LF. */
  function GetLineAsWritten(b: Bytes): (r: Option<GotLine>)
  {
    if !IsAscii(b) then None
    else match LineEnd(b)
      case None => None
      case Some(k) =>
        var crlf := k > 0 && b[k - 1] == CR;
        Some(GotLine(TextOf(b[..if crlf then k - 1 else k]), if crlf then k + 1 else k + 2))
  }

  /** Against `GetLine`: the written version finds a line exactly when
    * `GetLine` does and the buffer is ASCII; the line is the same, and so
    * is the count after CR LF, while after a bare LF it takes one octet
    * more. */
  lemma GetLineAsWrittenVsIntended(b: Bytes)
    ensures GetLineAsWritten(b).Some? <==> GetLine(b).Some? && IsAscii(b)
    ensures GetLineAsWritten(b).Some? ==>
      var g := GetLine(b).value;
      && GetLineAsWritten(b).value.line == g.line
      && GetLineAsWritten(b).value.used == g.used + (if g.used >= 2 && b[g.used - 2] == CR then 0 else 1)
  {
    if IsAscii(b) && LineEnd(b).Some? {
      assert GetLine(b).value.used == LineEnd(b).value + 1;
    }
  }

  /** "a" and a bare LF: `getLine` claims three octets of a two-octet
    * buffer, where two are meant; with CR LF the count is right. */
  lemma GetLineBareLFOverruns()
    ensures GetLineAsWritten([0x61, LF]) == Some(GotLine("a", 3))
    ensures GetLine([0x61, LF]) == Some(GotLine("a", 2))
    ensures GetLineAsWritten([0x61, CR, LF]) == GetLine([0x61, CR, LF]) == Some(GotLine("a", 3))
  {
    assert [0x61, LF][..1] == [0x61];
    assert [0x61, CR, LF][..1] == [0x61];
    assert TextOf([0x61]) == "a";
    assert IsAscii([0x61, LF]) && IsAscii([0x61, CR, LF]);
    assert LineEnd([0x61, LF]) == Some(1);
    assert LineEnd([0x61, CR, LF]) == Some(2);
  }

  /** A line ended by CR LF, or by a bare LF, is read back whole. */
  lemma GetLineOf(u: Bytes, rest: Bytes, crlf: bool)
    requires LF !in u && (!crlf ==> (u == [] || u[|u| - 1] != CR))
    ensures var b := u + (if crlf then [CR, LF] else [LF]) + rest;
      GetLine(b) == Some(GotLine(TextOf(u), |u| + if crlf then 2 else 1))
  {
    if crlf {
      GetLineCRLF(u, rest);
    } else {
      GetLineLF(u, rest);
    }
  }

  lemma GetLineCRLF(u: Bytes, rest: Bytes)
    requires LF !in u
    ensures GetLine(u + [CR, LF] + rest) == Some(GotLine(TextOf(u), |u| + 2))
  {
    hide TextOf, LineEnd;
    var b := u + [CR, LF] + rest;
    var k := |u| + 1;
    assert b[k] == LF && b[k - 1] == CR;
    assert b[..k] == u + [CR];
    assert LF !in u + [CR];
    LineEndFirst(b, k);
    assert GetLine(b) == Some(GotLine(TextOf(b[..k - 1]), k + 1));
    assert b[..k - 1] == u;
  }

  lemma GetLineLF(u: Bytes, rest: Bytes)
    requires LF !in u && (u == [] || u[|u| - 1] != CR)
    ensures GetLine(u + [LF] + rest) == Some(GotLine(TextOf(u), |u| + 1))
  {
    hide TextOf, LineEnd;
    var b := u + [LF] + rest;
    var k := |u|;
    assert b[..k] == u;
    LineEndFirst(b, k);
  }

  lemma LineEndFirst(b: Bytes, k: nat)
    requires k < |b| && b[k] == LF && LF !in b[..k]
    ensures LineEnd(b) == Some(k)
  {
  }

  /** `saveData`: the octets kept as text for the next call, unless that
    * would take the saved text past `kMaxHttpHeadSize`. */
  function Saved(s: PState, b: Bytes): (r: Option<PState>)
    ensures r.Some? <==> |b| + |s.saved| <= MaxHttpHeadSize
    ensures r.Some? ==> r.value == s.(saved := s.saved + TextOf(b))
  {
    if |b| + |s.saved| > MaxHttpHeadSize then None else Some(s.(saved := s.saved + TextOf(b)))
  }

  /** The start line: at least three space-separated tokens after
    * trimming. A first token of at most five characters, or one not
    * starting with "HTTP/" in any case, makes a request; otherwise it is a
    * response. Only the fields of the start line change, as far as the
    * source gets before it fails. */
  function StartLine(env: Env, s: PState, line: string): (r: (PState, bool))
    ensures |Split(Trim(line), ' ')| < 3 ==> r == (s, false)
    ensures r.0 == s.(isRequest := r.0.isRequest, httpMethod := r.0.httpMethod, version := r.0.version,
                      urlString := r.0.urlString, url := r.0.url, statusCode := r.0.statusCode)
  {
    var tokens := Split(Trim(line), ' ');
    if |tokens| < 3 then (s, false)
    else
      var isRequest := if 5 >= |tokens[0]| then true else !EqualsIgnoreCase(tokens[0][..5], "HTTP/");
      var s1 := s.(isRequest := isRequest);
      if isRequest then RequestFields(env, s1, tokens) else ResponseFields(s1, tokens)
  }

  /** A request line: method, URL and version; the URL must percent-decode
    * and parse. */
  function RequestFields(env: Env, s: PState, tokens: seq<string>): (r: (PState, bool))
    requires |tokens| >= 3
    ensures r.0.httpMethod == tokens[0] && r.0.version == tokens[2]
    ensures r.1 <==> env.percentDecode(tokens[1]).Some? && env.urlParses(env.percentDecode(tokens[1]).value)
    ensures r.1 ==> r.0.urlString == env.percentDecode(tokens[1]).value && r.0.url == Some(r.0.urlString)
    ensures r.0 == s.(httpMethod := r.0.httpMethod, version := r.0.version, urlString := r.0.urlString, url := r.0.url)
  {
    var s2 := s.(httpMethod := tokens[0], version := tokens[2]);
    match env.percentDecode(tokens[1])
      case None => (s2, false)
      case Some(u) =>
        var ok := env.urlParses(u);
        (s2.(urlString := u, url := if ok then Some(u) else None), ok)
  }

  /** A status line: version and a decimal status code. */
  function ResponseFields(s: PState, tokens: seq<string>): (r: (PState, bool))
    requires |tokens| >= 3
    ensures r.0.version == tokens[0]
    ensures r.1 <==> ParseInt(tokens[1], 10).Some?
    ensures r.1 ==> r.0.statusCode == ParseInt(tokens[1], 10).value
    ensures r.0 == s.(version := r.0.version, statusCode := r.0.statusCode)
  {
    var s2 := s.(version := tokens[0]);
    match ParseInt(tokens[1], 10)
      case None => (s2, false)
      case Some(sc) => (s2.(statusCode := sc), true)
  }

  /** A header line: the name before the first ':' and the value after
    * it, both trimmed; no ':' makes the line malformed. */
  function HeadLine(line: string): (r: Option<(string, string)>)
    ensures r.None? <==> ':' !in line
  {
    match IndexOf(line, ':')
      case None => None
      case Some(k) => Some((Trim(line[..k]), Trim(line[k + 1..])))
  }

  /** `super.addHeader`: a field with an empty name is dropped. */
  function AddField(s: PState, field: (string, string)): (r: PState)
    ensures r == s.(headers := r.headers)
    ensures r.headers == if field.0 == "" then s.headers else s.headers[field.0 := field.1]
  {
    if field.0 == "" then s else s.(headers := s.headers[field.0 := field.1])
  }

  /** `onHeaderComplete`: the framing is derived from the fields, and an
    * Upgrade field marks the message as an upgrade. */
  function HeaderDone(s: PState): (r: PState)
    requires Sane(s) && s.read == Head
    ensures Sane(r) && r.read == Head && r.framing == FramingOf(s.headers)
    ensures r.isUpgrade <==> s.isUpgrade || UpgradeName in s.headers
  {
    s.(framing := FramingOf(s.headers), isUpgrade := s.isUpgrade || UpgradeName in s.headers)
  }

  /** The chunk-size line: a hexadecimal number. Swift's `Int(_:radix:)`
    * also takes a sign; a negative size is refused here (see
    * `ChunkSizeAsWritten`). */
  function ChunkSize(line: string): (r: Option<nat>)
    ensures r.Some? ==> ParseInt(line, 16) == Some(r.value as int)
    ensures r.None? ==> ParseInt(line, 16).None? || ParseInt(line, 16).value < 0
  {
    match ParseInt(line, 16)
      case None => None
      case Some(v) => if v < 0 then None else Some(v)
  }

  /** The chunk-size line as the source reads it: whatever `Int(_:radix:)`
    * gives, a negative number included. */
  function ChunkSizeAsWritten(line: string): (r: Option<int>)
    ensures r == ParseInt(line, 16)
  {
    ParseInt(line, 16)
  }

  // ---------------------------------------------------------------------
  // One call to `parse`

  /** The new state, the octets taken, the callbacks made. */
  datatype Parsed = Parsed(s: PState, used: nat, events: seq<Event>)

  function Prepend(events: seq<Event>, r: Parsed): Parsed
  {
    r.(events := events + r.events)
  }

  function ChunkRank(c: ChunkState): nat
  {
    if c == Data then 1 else 0
  }

  /** One round of a loop: the loop goes on from `pos` in state `s`, or
    * the function it is in returns `r`. */
  datatype Round =
    | Next(s: PState, pos: nat, events: seq<Event>)
    | Exit(r: Parsed)

  /** Where `getLine` finds no line end: the rest is saved, and the call
    * returns having taken everything, or the saved text would grow too
    * long and the parser fails where it stands. */
  function SaveRest(s: PState, data: Bytes, pos: nat): (r: Parsed)
    requires Sane(s) && s.read in {Line, Head, Body} && pos <= |data|
    ensures Sane(r.s) && r.events == []
    ensures r.s.read == Error ==> r.used == pos
    ensures r.s.read != Error ==> r.s.read == s.read && r.used == |data| && r.s.chunk == s.chunk
    ensures r.s == s.(read := r.s.read, saved := r.s.saved)
  {
    match Saved(s, data[pos..])
      case None => Parsed(s.(read := Error), pos, [])
      case Some(s2) => Parsed(s2, |data|, [])
  }

  /** What `saveData` leaves, in the terms of `SaveRest`. */
  lemma SavedRest(s: PState, data: Bytes, pos: nat)
    requires Sane(s) && s.read in {Line, Head, Body} && pos <= |data|
    ensures Saved(s, data[pos..]).None? ==> SaveRest(s, data, pos) == Parsed(s.(read := Error), pos, [])
    ensures Saved(s, data[pos..]).Some? ==> SaveRest(s, data, pos) == Parsed(Saved(s, data[pos..]).value, |data|, [])
  {
  }

  /** One round of the loop of `parseChunk`, at `data[pos]`. */
  function ChunkRound(s: PState, data: Bytes, pos: nat): (r: Round)
    requires Sane(s) && s.read == Body && s.framing.isChunked && pos < |data|
    ensures r.Next? ==> && Sane(r.s) && r.s.read == Body && r.s.framing.isChunked
                        && pos <= r.pos <= |data| && (r.pos > pos || ChunkRank(r.s.chunk) < ChunkRank(s.chunk))
    ensures r.Exit? ==> && Sane(r.r.s) && pos <= r.r.used <= |data| && r.r.s.read in {Body, Done, Error}
                        && (r.r.s.read == Body ==> r.r.used == |data|)
  {
    match s.chunk
      case Size => SizeRound(s, data, pos)
      case Data =>
        if s.chunkSize <= |data| - pos then
          var p := pos + s.chunkSize;
          Next(s.(total := s.total + s.chunkSize, chunkSize := 0, chunk := DataCR), p, [BodyData(data[pos..p])])
        else
          Exit(Parsed(s.(total := s.total + (|data| - pos), chunkSize := s.chunkSize - (|data| - pos)), |data|,
                      [BodyData(data[pos..])]))
      case DataCR =>
        if data[pos] != CR then Exit(Parsed(s.(read := Error), pos, []))
        else Next(s.(chunk := DataLF), pos + 1, [])
      case DataLF =>
        if data[pos] != LF then Exit(Parsed(s.(read := Error), pos, []))
        else Next(s.(chunk := Size), pos + 1, [])
      case Trailer => TrailerRound(s, data, pos)
  }

  /** The chunk-size line: an empty one, or one that is not a size, is an
    * error; size zero leads to the trailer. */
  function SizeRound(s: PState, data: Bytes, pos: nat): (r: Round)
    requires Sane(s) && s.read == Body && s.framing.isChunked && pos < |data|
    ensures r.Next? ==> && Sane(r.s) && r.s.read == Body && r.s.framing.isChunked
                        && pos < r.pos <= |data| && r.s.chunk in {Data, Trailer}
    ensures r.Exit? ==> && Sane(r.r.s) && pos <= r.r.used <= |data| && r.r.s.read in {Body, Error}
                        && (r.r.s.read == Body ==> r.r.used == |data|)
  {
    match GetLine(data[pos..])
      case None => Exit(SaveRest(s, data, pos))
      case Some(g) =>
        var p := pos + g.used;
        var line := s.saved + g.line;
        var s1 := s.(saved := "");
        if line == "" then Exit(Parsed(s1.(read := Error), p, []))
        else
          match ChunkSize(line)
            case None => Exit(Parsed(s1.(read := Error), p, []))
            case Some(cs) => Next(s1.(chunkSize := cs, chunk := if cs == 0 then Trailer else Data), p, [])
  }

  /** A trailer line: skipped, except the empty one that ends the message. */
  function TrailerRound(s: PState, data: Bytes, pos: nat): (r: Round)
    requires Sane(s) && s.read == Body && s.framing.isChunked && s.chunk == Trailer && pos < |data|
    ensures r.Next? ==> && Sane(r.s) && r.s.read == Body && r.s.framing.isChunked
                        && pos < r.pos <= |data| && r.s.chunk == Trailer && r.events == []
    ensures r.Exit? ==> && Sane(r.r.s) && pos <= r.r.used <= |data| && r.r.s.read in {Body, Done, Error}
                        && (r.r.s.read == Body ==> r.r.used == |data|)
  {
    match GetLine(data[pos..])
      case None => Exit(SaveRest(s, data, pos))
      case Some(g) =>
        var p := pos + g.used;
        var line := s.saved + g.line;
        var s1 := s.(saved := "");
        if line == "" then Exit(Parsed(s1.(read := Done), p, [Complete]))
        else Next(s1, p, [])
  }

  /** `parseChunk` on `data[pos..]`; `used` counts from the start of
    * `data`. Size lines and trailer lines are read with `getLine`; the
    * data of a chunk is reported as it arrives; CR then LF must follow
    * it. The empty line after the zero-size chunk ends the message. */
  function Chunks(s: PState, data: Bytes, pos: nat): (r: Parsed)
    requires Sane(s) && s.read == Body && s.framing.isChunked && pos <= |data|
    ensures Sane(r.s) && pos <= r.used <= |data|
    ensures r.s.read in {Body, Done, Error}
    ensures r.s.read == Body ==> r.used == |data|
    decreases |data| - pos, ChunkRank(s.chunk)
  {
    if pos == |data| then Parsed(s, |data|, [])
    else
      match ChunkRound(s, data, pos)
        case Next(s2, p, events) => Prepend(events, Chunks(s2, data, p))
        case Exit(r) => r
  }

  /** The body part of `parseHttp` on `data[pos..]`: chunked, up to the
    * Content-Length, or everything (until the connection ends). */
  function BodyPart(s: PState, data: Bytes, pos: nat): (r: Parsed)
    requires Sane(s) && s.read == Body && pos <= |data|
    ensures Sane(r.s) && pos <= r.used <= |data|
    ensures r.s.read in {Body, Done, Error}
  {
    if s.framing.isChunked then Chunks(s, data, pos)
    else if s.framing.contentLength.Some? && s.framing.contentLength.value - s.total <= |data| - pos then
      var clen := s.framing.contentLength.value;
      var p := pos + (clen - s.total);
      Parsed(s.(total := clen, read := Done), p, [BodyData(data[pos..p]), Complete])
    else if pos < |data| then
      Parsed(s.(total := s.total + (|data| - pos)), |data|, [BodyData(data[pos..])])
    else Parsed(s, |data|, [])
  }

  /** How the header loop of `parseHttp` ends: `parseHttp` returns, or the
    * loop breaks to read the body from `pos`. */
  datatype HeadEnd =
    | Returned(r: Parsed)
    | Broke(s: PState, pos: nat, events: seq<Event>)

  /** The empty line: the header is complete; a pause requested by then
    * stops the call there; a message with a body and no upgrade goes on
    * to the body; any other is complete at once. */
  function HeaderEnd(s: PState, p: nat): (r: HeadEnd)
    requires Sane(s) && s.read == Head
    ensures r.Returned? ==> Sane(r.r.s) && r.r.used == p && r.r.s.read in {Head, Done}
    ensures r.Broke? ==> Sane(r.s) && r.s.read == Body && r.pos == p && r.events == [HeaderComplete]
    ensures r.Broke? <==> !s.isPaused && FramingOf(s.headers).hasBody && !s.isUpgrade && UpgradeName !in s.headers
    ensures s.isPaused ==> r.Returned? && r.r.s.read == Head && r.r.events == [HeaderComplete]
    ensures r.Returned? && !s.isPaused ==> r.r.s.read == Done && r.r.events == [HeaderComplete, Complete]
  {
    var s2 := HeaderDone(s);
    if s2.isPaused then Returned(Parsed(s2, p, [HeaderComplete]))
    else if s2.framing.hasBody && !s2.isUpgrade then Broke(s2.(read := Body), p, [HeaderComplete])
    else Returned(Parsed(s2.(read := Done), p, [HeaderComplete, Complete]))
  }

  datatype HeadRoundResult =
    | Another(s: PState, pos: nat)
    | Finished(e: HeadEnd)

  /** One round of the header loop of `parseHttp`, at `data[pos..]`: a
    * header line is added, or the loop ends. */
  function HeadRound(s: PState, data: Bytes, pos: nat): (r: HeadRoundResult)
    requires Sane(s) && s.read == Head && pos <= |data|
    ensures r.Another? ==> Sane(r.s) && r.s.read == Head && pos < r.pos <= |data|
    ensures r.Finished? && r.e.Returned? ==>
      Sane(r.e.r.s) && pos <= r.e.r.used <= |data| && r.e.r.s.read in {Head, Done, Error}
    ensures r.Finished? && r.e.Broke? ==>
      Sane(r.e.s) && r.e.s.read == Body && pos <= r.e.pos <= |data| && r.e.events == [HeaderComplete]
  {
    match GetLine(data[pos..])
      case None => Finished(Returned(SaveRest(s, data, pos)))
      case Some(g) =>
        LineRound(s.(saved := ""), s.saved + g.line, pos + g.used)
  }

  /** The header loop's step on a whole `line` ending at `p`: the empty
    * line ends the header, any other is a header field or an error. */
  function LineRound(s: PState, line: string, p: nat): (r: HeadRoundResult)
    requires Sane(s) && s.read == Head
    ensures r.Another? ==> Sane(r.s) && r.s.read == Head && r.pos == p
    ensures r.Finished? && r.e.Returned? ==> Sane(r.e.r.s) && r.e.r.used == p && r.e.r.s.read in {Head, Done, Error}
    ensures r.Finished? && r.e.Broke? ==> Sane(r.e.s) && r.e.s.read == Body && r.e.pos == p && r.e.events == [HeaderComplete]
  {
    if line == "" then Finished(HeaderEnd(s, p))
    else
      match HeadLine(line)
        case None => Finished(Returned(Parsed(s.(read := Error), p, [])))
        case Some(field) => Another(AddField(s, field), p)
  }

  /** The header loop of `parseHttp` from `data[pos..]`. */
  function HeadLines(s: PState, data: Bytes, pos: nat): (r: HeadEnd)
    requires Sane(s) && s.read == Head && pos <= |data|
    ensures r.Returned? ==> Sane(r.r.s) && pos <= r.r.used <= |data| && r.r.s.read in {Head, Done, Error}
    ensures r.Broke? ==> Sane(r.s) && r.s.read == Body && pos <= r.pos <= |data| && r.events == [HeaderComplete]
    decreases |data| - pos
  {
    match HeadRound(s, data, pos)
      case Another(s2, p) => HeadLines(s2, data, p)
      case Finished(e) => e
  }

  /** The head loop, and the body after it when the loop breaks. */
  function HeadThenBody(s: PState, data: Bytes, pos: nat): (r: Parsed)
    requires Sane(s) && s.read == Head && pos <= |data|
    ensures Sane(r.s) && pos <= r.used <= |data|
  {
    match HeadLines(s, data, pos)
      case Returned(r) => r
      case Broke(s2, p, events) => Prepend(events, BodyPart(s2, data, p))
  }

  /** `parseHttp` while the start line is due. */
  function StartThenRest(env: Env, s: PState, data: Bytes): (r: Parsed)
    requires Sane(s) && s.read == Line
    ensures Sane(r.s) && r.used <= |data|
  {
    match StartRound(env, s, data)
      case Next(s2, p, _) => HeadThenBody(s2, data, p)
      case Exit(r) => r
  }

  /** The start-line part of `parseHttp`: the line is parsed and the
    * header follows, or the call returns. */
  function StartRound(env: Env, s: PState, data: Bytes): (r: Round)
    requires Sane(s) && s.read == Line
    ensures r.Next? ==> Sane(r.s) && r.s.read == Head && r.pos <= |data| && r.events == []
    ensures r.Exit? ==> Sane(r.r.s) && r.r.used <= |data| && r.r.events == []
  {
    match GetLine(data)
      case None => Exit(SaveRest(s, data, 0))
      case Some(g) =>
        var line := s.saved + g.line;
        var s1 := s.(saved := "");
        var (s2, ok) := StartLine(env, s1, line);
        if !ok then Exit(Parsed(s2.(read := Error), g.used, []))
        else Next(s2.(read := Head), g.used, [])
  }

  /** `parseHttp`: the start line if it is still due, then header lines,
    * then the body. */
  function ParseHttpOf(env: Env, s: PState, data: Bytes): (r: Parsed)
    requires Sane(s)
    ensures Sane(r.s) && r.used <= |data|
  {
    if s.read == Line then StartThenRest(env, s, data)
    else if s.read == Head then HeadThenBody(s, data, 0)
    else if s.read == Body then BodyPart(s, data, 0)
    else Parsed(s, 0, [])
  }

  /** `parse`: nothing once the message is done or has failed; everything
    * when the body runs to the end of the connection; otherwise
    * `parseHttp`, with the error callback when it fails. */
  function ParseOf(env: Env, s: PState, data: Bytes): (r: Parsed)
    requires Sane(s)
    ensures Sane(r.s) && r.used <= |data|
    ensures s.read == Done || s.read == Error ==> r == Parsed(s, 0, [])
  {
    if s.read == Done || s.read == Error then Parsed(s, 0, [])
    else if s.read == Body && !s.framing.isChunked && s.framing.contentLength.None? then
      Parsed(s.(total := s.total + |data|), |data|, [BodyData(data)])
    else
      var r := ParseHttpOf(env, s, data);
      if r.s.read == Error then r.(events := r.events + [Failed]) else r
  }

  // ---------------------------------------------------------------------
  // Upgrades and the end of the connection

  /** Some comma-separated token of `tokens`, trimmed, equals `t` in any
    * case. */
  predicate HasToken(tokens: seq<string>, t: string)
  {
    exists i :: 0 <= i < |tokens| && EqualsIgnoreCase(Trim(tokens[i]), t)
  }

  /** What `isUpgradeTo` checks. */
  predicate UpgradesTo(s: PState, proto: string)
  {
    && UpgradeName in s.headers && EqualsIgnoreCase(s.headers[UpgradeName], proto)
    && ConnectionName in s.headers && HasToken(Split(s.headers[ConnectionName], ','), UpgradeName)
    && (s.isRequest || s.statusCode == 101)
    && (s.isRequest && proto == "h2c" ==> HasToken(Split(s.headers[ConnectionName], ','), "HTTP2-Settings"))
  }

  /** `readUntillEOF`: a response with neither Content-Length nor chunked
    * coding whose status allows a body. */
  predicate ReadsUntilEOF(s: PState)
  {
    !s.isRequest && s.framing.contentLength.None? && !s.framing.isChunked && StatusAllowsBody(s.statusCode)
  }

  /** `resume`: the body is read next if there is one and no upgrade;
    * otherwise the message is complete. */
  function Resumed(s: PState): (r: (PState, seq<Event>))
    requires Sane(s)
    ensures Sane(r.0) && !r.0.isPaused && r.0.read in {Body, Done}
    ensures r.0.read == Body <==> s.framing.hasBody && !s.isUpgrade
    ensures r.1 == (if r.0.read == Done then [Complete] else [])
    ensures r.0 == s.(isPaused := false, read := r.0.read)
  {
    if s.framing.hasBody && !s.isUpgrade then (s.(isPaused := false, read := Body), [])
    else (s.(isPaused := false, read := Done), [Complete])
  }

  /** `PrependTwice`: events gathered in two steps. */
  lemma PrependTwice(a: seq<Event>, b: seq<Event>, r: Parsed)
    ensures Prepend(a, Prepend(b, r)) == Prepend(a + b, r)
  {
    assert a + (b + r.events) == (a + b) + r.events;
  }

  lemma ChunksNext(s: PState, data: Bytes, pos: nat)
    requires Sane(s) && s.read == Body && s.framing.isChunked && pos < |data| && ChunkRound(s, data, pos).Next?
    ensures var g := ChunkRound(s, data, pos);
      Chunks(s, data, pos) == Prepend(g.events, Chunks(g.s, data, g.pos))
  {
  }

  lemma ChunksExit(s: PState, data: Bytes, pos: nat)
    requires Sane(s) && s.read == Body && s.framing.isChunked && pos < |data| && ChunkRound(s, data, pos).Exit?
    ensures Chunks(s, data, pos) == ChunkRound(s, data, pos).r
  {
  }

  lemma ChunksEnd(s: PState, data: Bytes)
    requires Sane(s) && s.read == Body && s.framing.isChunked
    ensures Chunks(s, data, |data|) == Parsed(s, |data|, [])
  {
  }

  lemma HeadLinesNext(s: PState, data: Bytes, pos: nat)
    requires Sane(s) && s.read == Head && pos <= |data| && HeadRound(s, data, pos).Another?
    ensures var g := HeadRound(s, data, pos);
      HeadLines(s, data, pos) == HeadLines(g.s, data, g.pos)
  {
  }

  lemma HeadLinesExit(s: PState, data: Bytes, pos: nat)
    requires Sane(s) && s.read == Head && pos <= |data| && HeadRound(s, data, pos).Finished?
    ensures HeadLines(s, data, pos) == HeadRound(s, data, pos).e
  {
  }

  // ---------------------------------------------------------------------
  // What `parse` promises

  /** A body framed by Content-Length: the call takes what is left of the
    * body and no more, counts it, reports exactly the octets it took, and
    * completes the message exactly when the count reaches the length. */
  lemma ContentLengthBody(env: Env, s: PState, data: Bytes)
    requires Sane(s) && s.read == Body && !s.framing.isChunked && s.framing.contentLength.Some?
    ensures var clen := s.framing.contentLength.value;
      var r := ParseOf(env, s, data);
      && r.used == Min(|data|, clen - s.total)
      && r.s == s.(total := s.total + r.used, read := r.s.read)
      && r.s.total <= clen
      && (r.s.read == Done <==> s.total + |data| >= clen)
      && (r.s.read != Done ==> r.s.read == Body)
      && (r.s.read == Done ==> r.events == [BodyData(data[..r.used]), Complete])
      && (r.s.read != Done && |data| > 0 ==> r.events == [BodyData(data)])
      && (r.s.read != Done && |data| == 0 ==> r.events == [])
  {
    assert data[0..] == data;
  }

  /** A body read until the connection ends: every call takes and
    * reports everything. */
  lemma UntilEOFBody(env: Env, s: PState, data: Bytes)
    requires Sane(s) && s.read == Body && !s.framing.isChunked && s.framing.contentLength.None?
    ensures ParseOf(env, s, data) == Parsed(s.(total := s.total + |data|), |data|, [BodyData(data)])
  {
  }

  /** The chunk size "-1" is taken by `Int(_:radix:)` as written; the
    * corrected reading refuses it. */
  lemma NegativeChunkSize()
    ensures ChunkSizeAsWritten("-1") == Some(-1)
    ensures ChunkSize("-1").None?
  {
    assert DigitsValue("1", 16) == Some(1);
  }

  // ---------------------------------------------------------------------
  // The parser

  class HttpParser {
    const env: Env
    /** The inherited `HttpHeader` part: fields and framing. */
    const header: HttpHeader
    var totalBytesRead: int
    var readState: ReadState
    var chunkState: ChunkState
    var chunkSize: int
    var savedString: string
    var isPaused: bool
    var isUpgrade: bool
    var isRequest: bool
    /** `method`. */
    var httpMethod: string
    var urlString: string
    var statusCode: int
    var version: string
    var url: Option<string>
    /** The delegate's callbacks, oldest first. */
    ghost var events: seq<Event>

    function State(): PState
      reads this, header
    {
      PState(readState, chunkState, chunkSize, savedString, totalBytesRead, isPaused, isUpgrade, isRequest,
             httpMethod, urlString, statusCode, version, url, header.headers, header.Framed())
    }

    ghost predicate Valid()
      reads this, header
    {
      Sane(State())
    }

    /** The parser has done `r`: its state is `r.s` and it made the
      * callbacks `r.events`. */
    twostate predicate Did(r: Parsed)
      reads this, header
    {
      State() == r.s && events == old(events) + r.events
    }

    /** One round of a loop: it goes on from `next` in the state `g`
      * leaves, or the function returns `next` having done `g.r`. */
    twostate predicate DidRound(g: Round, next: nat, exit: bool)
      reads this, header
    {
      && (exit <==> g.Exit?)
      && (g.Next? ==> State() == g.s && next == g.pos && events == old(events) + g.events)
      && (g.Exit? ==> State() == g.r.s && next == g.r.used && events == old(events) + g.r.events)
    }

    /** How the header loop ended: `parseHttp` returns `next`, or goes on
      * to the body at `next`. */
    twostate predicate DidHead(e: HeadEnd, next: nat, stop: bool)
      reads this, header
    {
      && (stop <==> e.Returned?)
      && (e.Returned? ==> State() == e.r.s && next == e.r.used && events == old(events) + e.r.events)
      && (e.Broke? ==> State() == e.s && next == e.pos && events == old(events) + e.events)
    }

    constructor (env: Env)
      ensures Valid() && State() == InitialState() && events == [] && this.env == env
    {
      this.env := env;
      header := new HttpHeader();
      totalBytesRead := 0;
      readState := Line;
      chunkState := Size;
      chunkSize := 0;
      savedString := "";
      isPaused := false;
      isUpgrade := false;
      isRequest := false;
      httpMethod := "";
      urlString := "";
      statusCode := 0;
      version := "HTTP/1.1";
      url := None;
      events := [];
    }

    method Reset()
      modifies this, header
      ensures Valid() && State() == ResetState(old(State())) && events == old(events)
    {
      header.Reset();
      readState := Line;
      chunkState := Size;
      chunkSize := 0;
      totalBytesRead := 0;
      isPaused := false;
      isUpgrade := false;
      isRequest := false;
      savedString := "";
      statusCode := 0;
      urlString := "";
    }

    /** `complete`: the message has been read to its end. */
    function IsComplete(): (r: bool)
      reads this, header
      ensures r <==> State().read == Done
    {
      readState == Done
    }

    /** `error`: the parser has met an error and reads nothing more. */
    function HasFailed(): (r: bool)
      reads this, header
      ensures r <==> State().read == Error
    {
      readState == Error
    }

    method Pause()
      requires Valid()
      modifies this`isPaused
      ensures Valid() && State() == old(State()).(isPaused := true)
    {
      isPaused := true;
    }

    method Resume()
      requires Valid()
      modifies this`isPaused, this`readState, this`events
      ensures Valid() && State() == Resumed(old(State())).0
      ensures events == old(events) + Resumed(old(State())).1
    {
      isPaused := false;
      if header.hasBody && !isUpgrade {
        readState := Body;
      } else {
        readState := Done;
        events := events + [Complete];
      }
    }

    /** The search loops of `isUpgradeTo`: some token, trimmed, equals `t`
      * in any case. */
    static method FindToken(tokens: seq<string>, t: string) returns (found: bool)
      ensures found <==> HasToken(tokens, t)
    {
      found := false;
      for i := 0 to |tokens|
        invariant !found
        invariant forall j :: 0 <= j < i ==> !EqualsIgnoreCase(Trim(tokens[j]), t)
      {
        var str := Trim(tokens[i]);
        if EqualsIgnoreCase(str, t) {
          found := true;
          return;
        }
      }
    }

    /** `isUpgradeTo`: the Upgrade field names `proto`, Connection lists
      * "Upgrade", a response has status 101, and an h2c request also lists
      * "HTTP2-Settings". */
    method IsUpgradeTo(proto: string) returns (r: bool)
      ensures r <==> UpgradesTo(State(), proto)
    {
      var headers := header.headers;
      if UpgradeName !in headers {
        return false;
      }
      var upgrade := headers[UpgradeName];
      if !EqualsIgnoreCase(upgrade, proto) {
        return false;
      }
      if ConnectionName !in headers {
        return false;
      }
      var connection := headers[ConnectionName];
      var tokens := Split(connection, ',');
      var hasUpgrade := FindToken(tokens, UpgradeName);
      if !hasUpgrade {
        return false;
      }
      if !isRequest && statusCode != 101 {
        return false;
      }
      if isRequest && proto == "h2c" {
        var hasHttp2Settings := FindToken(tokens, "HTTP2-Settings");
        if !hasHttp2Settings {
          return false;
        }
      }
      return true;
    }

    predicate ReadUntilEOF()
      reads this, header
    {
      ReadsUntilEOF(State())
    }

    /** `setEOF`: the connection has ended; a body read until then is
      * complete. */
    method SetEOF() returns (r: bool)
      requires Valid()
      modifies this`readState, this`events
      ensures Valid()
      ensures r <==> ReadsUntilEOF(old(State())) && old(readState) == Body
      ensures State() == if r then old(State()).(read := Done) else old(State())
      ensures events == old(events) + if r then [Complete] else []
    {
      if ReadUntilEOF() && readState == Body {
        readState := Done;
        events := events + [Complete];
        return true;
      }
      return false;
    }

    /** `saveData`. */
    method SaveData(b: Bytes) returns (ok: bool)
      modifies this`savedString
      ensures ok <==> Saved(old(State()), b).Some?
      ensures State() == if ok then Saved(old(State()), b).value else old(State())
    {
      if |b| + |savedString| > MaxHttpHeadSize {
        return false;
      }
      savedString := savedString + TextOf(b);
      return true;
    }

    /** A line read by `getLine`, joined to the saved text, which is
      * cleared. */
    method TakeLine(l: string) returns (line: string)
      modifies this`savedString
      ensures line == old(savedString) + l && State() == old(State()).(saved := "")
    {
      line := l;
      if savedString != "" {
        line := savedString + line;
        savedString := "";
      }
    }

    /** `parseStartLine`. */
    method ParseStartLine(line: string) returns (ok: bool)
      modifies this`isRequest, this`httpMethod, this`version, this`urlString, this`url, this`statusCode
      ensures (State(), ok) == StartLine(env, old(State()), line)
    {
      hide Trim, Split, EqualsIgnoreCase, Sane, RequestFields, ResponseFields;
      var trimmed := Trim(line);
      var tokens := Split(trimmed, ' ');
      if |tokens| < 3 {
        return false;
      }
      var str := "HTTP/";
      if |str| >= |tokens[0]| {
        isRequest := true;
      } else {
        isRequest := !EqualsIgnoreCase(tokens[0][..|str|], str);
      }
      if isRequest {
        ok := ParseRequestLine(tokens);
      } else {
        ok := ParseStatusLine(tokens);
      }
    }

    method ParseRequestLine(tokens: seq<string>) returns (ok: bool)
      requires |tokens| >= 3
      modifies this`httpMethod, this`version, this`urlString, this`url
      ensures (State(), ok) == RequestFields(env, old(State()), tokens)
    {
      httpMethod := tokens[0];
      version := tokens[2];
      var decoded := env.percentDecode(tokens[1]);
      if decoded.None? {
        return false;
      }
      urlString := decoded.value;
      url := if env.urlParses(urlString) then Some(urlString) else None;
      if url.None? {
        return false;
      }
      return true;
    }

    method ParseStatusLine(tokens: seq<string>) returns (ok: bool)
      requires |tokens| >= 3
      modifies this`version, this`statusCode
      ensures (State(), ok) == ResponseFields(old(State()), tokens)
    {
      version := tokens[0];
      var sc := ParseInt(tokens[1], 10);
      if sc.None? {
        return false;
      }
      statusCode := sc.value;
      return true;
    }

    /** `parseHeadLine`. */
    method ParseHeadLine(line: string) returns (ok: bool)
      modifies header`headers
      ensures ok <==> HeadLine(line).Some?
      ensures State() == if ok then AddField(old(State()), HeadLine(line).value) else old(State())
    {
      hide Trim, IndexOf, Sane;
      var range := IndexOf(line, ':');
      if range.None? {
        return false;
      }
      var index := range.value;
      var name := Trim(line[..index]);
      var value := Trim(line[index + 1..]);
      assert HeadLine(line) == Some((name, value));
      header.AddHeader(name, value);
      return true;
    }

    /** `onHeaderComplete`. */
    method OnHeaderComplete()
      requires Valid() && readState == Head
      modifies header`contentLength, header`isChunked, header`hasBody, this`isUpgrade, this`events
      ensures State() == HeaderDone(old(State())) && events == old(events) + [HeaderComplete]
    {
      header.ProcessHeader();
      if UpgradeName in header.headers {
        isUpgrade := true;
      }
      events := events + [HeaderComplete];
    }

    // -------------------------------------------------------------------
    // `parse` and the loops it runs

    /** `parse`. */
    method Parse(data: Bytes) returns (used: nat)
      requires Valid()
      modifies this, header
      ensures Valid()
      ensures Did(ParseOf(env, old(State()), data)) && used == ParseOf(env, old(State()), data).used
      ensures old(readState) in {Done, Error} ==> used == 0 && State() == old(State()) && events == old(events)
    {
      hide ParseHttpOf, Sane;
      if readState == Done || readState == Error {
        return 0;
      }
      if readState == Body && !header.isChunked && header.contentLength.None? {
        totalBytesRead := totalBytesRead + |data|;
        events := events + [BodyData(data)];
        assert ParseOf(env, old(State()), data) == Parsed(State(), |data|, [BodyData(data)]);
        return |data|;
      }
      used := ParseHttp(data);
      if readState == Error {
        events := events + [Failed];
      }
    }

    /** `parseHttp`. */
    method ParseHttp(data: Bytes) returns (used: nat)
      requires Valid()
      modifies this, header
      ensures Valid()
      ensures Did(ParseHttpOf(env, old(State()), data)) && used == ParseHttpOf(env, old(State()), data).used
    {
      hide Chunks, HeadLines, StartRound, BodyPart, Sane;
      var pos := 0;
      if readState == Line {
        var stop;
        pos, stop := ReadStartLine(data);
        if stop {
          return pos;
        }
      }
      if readState == Head {
        var stop;
        pos, stop := ReadHeadLines(data, pos);
        if stop {
          return pos;
        }
      }
      if readState == Body {
        used := ReadBody(data, pos);
        return;
      }
      return pos;
    }

    /** The start-line part of `parseHttp`. */
    method ReadStartLine(data: Bytes) returns (next: nat, stop: bool)
      requires Valid() && readState == Line
      modifies this`readState, this`savedString, this`isRequest, this`httpMethod, this`version, this`urlString,
        this`url, this`statusCode
      ensures Valid() && DidRound(StartRound(env, old(State()), data), next, stop)
    {
      hide StartLine, Sane, GetLine, TextOf, Saved, SaveRest;
      var ret := GetLine(data);
      if ret.None? {
        var ok := SaveData(data);
        if !ok {
          readState := Error;
        }
        SavedRest(old(State()), data, 0);
        return if ok then |data| else 0, true;
      }
      var line := TakeLine(ret.value.line);
      ghost var s1 := State();
      var ok := ParseStartLine(line);
      ghost var s2 := State();
      assert (s2, ok) == StartLine(env, s1, line);
      if !ok {
        readState := Error;
        assert StartRound(env, old(State()), data) == Exit(Parsed(s2.(read := Error), ret.value.used, []));
        return ret.value.used, true;
      }
      readState := Head;
      assert StartRound(env, old(State()), data) == Next(s2.(read := Head), ret.value.used, []);
      return ret.value.used, false;
    }

    /** The header loop of `parseHttp`. */
    method ReadHeadLines(data: Bytes, pos0: nat) returns (next: nat, stop: bool)
      requires Valid() && readState == Head && pos0 <= |data|
      modifies this, header
      ensures Valid() && DidHead(HeadLines(old(State()), data, pos0), next, stop)
    {
      hide HeadLines, HeadRound, Sane;
      var pos := pos0;
      ghost var target := HeadLines(State(), data, pos);
      while true
        invariant Valid() && readState == Head && pos0 <= pos <= |data|
        invariant HeadLines(State(), data, pos) == target && events == old(events)
        decreases |data| - pos
      {
        ghost var s0 := State();
        ghost var p0 := pos;
        var fin;
        pos, fin, stop := ReadHeadRound(data, pos);
        if fin {
          HeadLinesExit(s0, data, p0);
          return pos, stop;
        }
        HeadLinesNext(s0, data, p0);
      }
    }

    /** One round of the header loop. */
    method ReadHeadRound(data: Bytes, pos: nat) returns (next: nat, fin: bool, stop: bool)
      requires Valid() && readState == Head && pos <= |data|
      modifies this, header
      ensures Valid()
      ensures var g := HeadRound(old(State()), data, pos);
        && (fin <==> g.Finished?)
        && (g.Another? ==> State() == g.s && next == g.pos && events == old(events))
        && (g.Finished? ==> DidHead(g.e, next, stop))
    {
      hide Sane, HeaderDone, AddField, HeadLine, Saved, GetLine, TextOf, SaveRest;
      var ret := GetLine(data[pos..]);
      if ret.None? {
        var ok := SaveData(data[pos..]);
        if !ok {
          readState := Error;
        }
        SavedRest(old(State()), data, pos);
        return if ok then |data| else pos, true, true;
      }
      var p := pos + ret.value.used;
      var line := TakeLine(ret.value.line);
      ghost var s1 := State();
      if line == "" {
        assert HeadRound(old(State()), data, pos) == Finished(HeaderEnd(s1, p));
        stop := EndHead(p);
        return p, true, stop;
      }
      var ok := ParseHeadLine(line);
      if !ok {
        readState := Error;
        assert HeadRound(old(State()), data, pos) == Finished(Returned(Parsed(State(), p, [])));
        return p, true, true;
      }
      assert HeadRound(old(State()), data, pos) == Another(State(), p);
      return p, false, false;
    }

    /** The empty line that ends the header. */
    method EndHead(p: nat) returns (stop: bool)
      requires Valid() && readState == Head
      modifies header`contentLength, header`isChunked, header`hasBody, this`isUpgrade, this`events, this`readState
      ensures Valid() && DidHead(HeaderEnd(old(State()), p), p, stop)
    {
      hide Sane, HeaderDone;
      OnHeaderComplete();
      if isPaused {
        assert HeaderEnd(old(State()), p) == Returned(Parsed(State(), p, [HeaderComplete]));
        return true;
      }
      if header.hasBody && !isUpgrade {
        readState := Body;
        assert HeaderEnd(old(State()), p) == Broke(State(), p, [HeaderComplete]);
        return false;
      }
      readState := Done;
      events := events + [Complete];
      assert HeaderEnd(old(State()), p) == Returned(Parsed(State(), p, [HeaderComplete, Complete]));
      return true;
    }

    /** The body part of `parseHttp`. */
    method ReadBody(data: Bytes, pos: nat) returns (used: nat)
      requires Valid() && readState == Body && pos <= |data|
      modifies this
      ensures Valid()
      ensures Did(BodyPart(old(State()), data, pos)) && used == BodyPart(old(State()), data, pos).used
    {
      hide Chunks;
      if header.isChunked {
        used := ParseChunk(data, pos);
        return;
      }
      if header.contentLength.Some? && header.contentLength.value - totalBytesRead <= |data| - pos {
        var clen := header.contentLength.value;
        var notifySize := clen - totalBytesRead;
        var p := pos + notifySize;
        totalBytesRead := totalBytesRead + notifySize;
        readState := Done;
        events := events + [BodyData(data[pos..p]), Complete];
        return p;
      }
      if pos < |data| {
        totalBytesRead := totalBytesRead + (|data| - pos);
        events := events + [BodyData(data[pos..])];
      }
      return |data|;
    }

    /** `parseChunk` on `data[pos0..]`. */
    method ParseChunk(data: Bytes, pos0: nat) returns (used: nat)
      requires Valid() && readState == Body && header.isChunked && pos0 <= |data|
      modifies this
      ensures Valid()
      ensures Did(Chunks(old(State()), data, pos0)) && used == Chunks(old(State()), data, pos0).used
    {
      hide Chunks, ChunkRound, Sane;
      var pos := pos0;
      ghost var done: seq<Event> := [];
      ghost var target := Chunks(State(), data, pos);
      while pos < |data|
        invariant Valid() && readState == Body && header.isChunked && pos0 <= pos <= |data|
        invariant target == Prepend(done, Chunks(State(), data, pos)) && events == old(events) + done
        decreases |data| - pos, ChunkRank(chunkState)
      {
        ghost var s0 := State();
        ghost var p0 := pos;
        ghost var e0 := events;
        var exit;
        pos, exit := ReadChunkRound(data, pos);
        ghost var g := ChunkRound(s0, data, p0);
        if exit {
          ChunksExit(s0, data, p0);
          assert events == old(events) + done + g.r.events;
          return pos;
        }
        ChunksNext(s0, data, p0);
        PrependTwice(done, g.events, Chunks(State(), data, pos));
        done := done + g.events;
      }
      ChunksEnd(State(), data);
      return |data|;
    }

    /** One round of the loop of `parseChunk`. */
    method ReadChunkRound(data: Bytes, pos: nat) returns (next: nat, exit: bool)
      requires Valid() && readState == Body && header.isChunked && pos < |data|
      modifies this
      ensures Valid() && DidRound(ChunkRound(old(State()), data, pos), next, exit)
    {
      hide SizeRound, TrailerRound;
      match chunkState {
        case Size =>
          next, exit := ReadChunkSize(data, pos);
        case Data =>
          if chunkSize <= |data| - pos {
            var notifySize := chunkSize;
            var p := pos + notifySize;
            totalBytesRead := totalBytesRead + notifySize;
            chunkSize := 0;
            chunkState := DataCR;
            events := events + [BodyData(data[pos..p])];
            return p, false;
          }
          totalBytesRead := totalBytesRead + (|data| - pos);
          chunkSize := chunkSize - (|data| - pos);
          events := events + [BodyData(data[pos..])];
          return |data|, true;
        case DataCR =>
          if data[pos] != CR {
            readState := Error;
            return pos, true;
          }
          chunkState := DataLF;
          return pos + 1, false;
        case DataLF =>
          if data[pos] != LF {
            readState := Error;
            return pos, true;
          }
          chunkState := Size;
          return pos + 1, false;
        case Trailer =>
          next, exit := ReadTrailerLine(data, pos);
      }
    }

    /** The chunk-size line. */
    method ReadChunkSize(data: Bytes, pos: nat) returns (next: nat, exit: bool)
      requires Valid() && readState == Body && header.isChunked && chunkState == Size && pos < |data|
      modifies this
      ensures Valid() && DidRound(SizeRound(old(State()), data, pos), next, exit)
    {
      hide Sane, Saved, ChunkSize, GetLine, TextOf, SaveRest;
      var ret := GetLine(data[pos..]);
      if ret.None? {
        var ok := SaveData(data[pos..]);
        if !ok {
          readState := Error;
        }
        SavedRest(old(State()), data, pos);
        return if ok then |data| else pos, true;
      }
      var p := pos + ret.value.used;
      var line := TakeLine(ret.value.line);
      if line == "" {
        readState := Error;
        assert SizeRound(old(State()), data, pos) == Exit(Parsed(State(), p, []));
        return p, true;
      }
      var cs := ChunkSize(line);
      if cs.None? {
        readState := Error;
        assert SizeRound(old(State()), data, pos) == Exit(Parsed(State(), p, []));
        return p, true;
      }
      chunkSize := cs.value;
      chunkState := if chunkSize == 0 then Trailer else Data;
      assert SizeRound(old(State()), data, pos) == Next(State(), p, []);
      return p, false;
    }

    /** A trailer line. */
    method ReadTrailerLine(data: Bytes, pos: nat) returns (next: nat, exit: bool)
      requires Valid() && readState == Body && header.isChunked && chunkState == Trailer && pos < |data|
      modifies this
      ensures Valid() && DidRound(TrailerRound(old(State()), data, pos), next, exit)
    {
      hide Sane, Saved, GetLine, TextOf, SaveRest;
      var ret := GetLine(data[pos..]);
      if ret.None? {
        var ok := SaveData(data[pos..]);
        if !ok {
          readState := Error;
        }
        SavedRest(old(State()), data, pos);
        return if ok then |data| else pos, true;
      }
      var p := pos + ret.value.used;
      var line := TakeLine(ret.value.line);
      if line == "" {
        ghost var g := TrailerRound(old(State()), data, pos);
        assert g == Exit(Parsed(old(State()).(saved := "", read := Done), p, [Complete]));
        assert Sane(g.r.s);
        readState := Done;
        events := events + [Complete];
        assert State() == g.r.s;
        return p, true;
      }
      assert TrailerRound(old(State()), data, pos) == Next(State(), p, []);
      return p, false;
    }
  }
}

=== FILE: statictable.dfy ===
/** The HPACK static table and the constants around it
  * (Sources/http/v2/hpack/StaticTable.swift; RFC 7541, Appendix A).
  */
module StaticTable {
  import opened H2Utils

  /** The per-entry overhead of RFC 7541, section 4.1. */
  const TableEntrySizeExtra: nat := 32
  const StaticTableSize: nat := 61
  /** The index of the first dynamic-table entry. */
  const DynamicStartIndex: nat := 62

  /** The 61 entries, in ten-entry blocks: index `i` is `Entries[i - 1]`. */
  const Entries: seq<KeyValuePair> :=
    Block1 + Block2 + Block3 + Block4 + Block5 + Block6 + Block7

  const Block1: seq<KeyValuePair> := [
    KeyValuePair(":authority", ""),
    KeyValuePair(":method", "GET"),
    KeyValuePair(":method", "POST"),
    KeyValuePair(":path", "/"),
    KeyValuePair(":path", "/index.html"),
    KeyValuePair(":scheme", "http"),
    KeyValuePair(":scheme", "https"),
    KeyValuePair(":status", "200"),
    KeyValuePair(":status", "204"),
    KeyValuePair(":status", "206")
  ]
  const Block2: seq<KeyValuePair> := [
    KeyValuePair(":status", "304"),
    KeyValuePair(":status", "400"),
    KeyValuePair(":status", "404"),
    KeyValuePair(":status", "500"),
    KeyValuePair("accept-charset", ""),
    KeyValuePair("accept-encoding", "gzip, deflate"),
    KeyValuePair("accept-language", ""),
    KeyValuePair("accept-ranges", ""),
    KeyValuePair("accept", ""),
    KeyValuePair("access-control-allow-origin", "")
  ]
  const Block3: seq<KeyValuePair> := [
    KeyValuePair("age", ""),
    KeyValuePair("allow", ""),
    KeyValuePair("authorization", ""),
    KeyValuePair("cache-control", ""),
    KeyValuePair("content-disposition", ""),
    KeyValuePair("content-encoding", ""),
    KeyValuePair("content-language", ""),
    KeyValuePair("content-length", ""),
    KeyValuePair("content-location", ""),
    KeyValuePair("content-range", "")
  ]
  const Block4: seq<KeyValuePair> := [
    KeyValuePair("content-type", ""),
    KeyValuePair("cookie", ""),
    KeyValuePair("date", ""),
    KeyValuePair("etag", ""),
    KeyValuePair("expect", ""),
    KeyValuePair("expires", ""),
    KeyValuePair("from", ""),
    KeyValuePair("host", ""),
    KeyValuePair("if-match", ""),
    KeyValuePair("if-modified-since", "")
  ]
  const Block5: seq<KeyValuePair> := [
    KeyValuePair("if-none-match", ""),
    KeyValuePair("if-range", ""),
    KeyValuePair("if-unmodified-since", ""),
    KeyValuePair("last-modified", ""),
    KeyValuePair("link", ""),
    KeyValuePair("location", ""),
    KeyValuePair("max-forwards", ""),
    KeyValuePair("proxy-authenticate", ""),
    KeyValuePair("proxy-authorization", ""),
    KeyValuePair("range", "")
  ]
  const Block6: seq<KeyValuePair> := [
    KeyValuePair("referer", ""),
    KeyValuePair("refresh", ""),
    KeyValuePair("retry-after", ""),
    KeyValuePair("server", ""),
    KeyValuePair("set-cookie", ""),
    KeyValuePair("strict-transport-security", ""),
    KeyValuePair("transfer-encoding", ""),
    KeyValuePair("user-agent", ""),
    KeyValuePair("vary", ""),
    KeyValuePair("via", "")
  ]
  const Block7: seq<KeyValuePair> := [
    KeyValuePair("www-authenticate", "")
  ]

  /** No static name is shorter than three characters ("age", "via"). */
  lemma NamesAtLeastThree(e: KeyValuePair)
    requires e in Entries
    ensures |e.name| >= 3
  {
    assert e in Block1 || e in Block2 || e in Block3 || e in Block4 || e in Block5 || e in Block6 || e in Block7;
  }

  /** The table has one entry per static index 1..61, the dynamic indexes
    * start right after it, and two of its well-known entries sit where
    * RFC 7541 puts them. */
  lemma StaticTableShape()
    ensures |Entries| == StaticTableSize && DynamicStartIndex == StaticTableSize + 1
    ensures Entries[2 - 1] == KeyValuePair(":method", "GET")
    ensures Entries[8 - 1] == KeyValuePair(":status", "200")
  {
  }
}

=== FILE: wshandler.dfy ===
/** WebSocket framing (Sources/ws/WSHandler.swift; sections 5.2 and 5.3 of
  * RFC 6455): the frame header the sender writes, the resumable decoder of
  * received frames and payload masking.
  *
  * The decoder keeps its progress in a `DecodeContext` between calls, so a
  * frame may arrive in any number of pieces. `Run` states what one call
  * does to a context and a piece of input; `WSHandler.DecodeFrame` is the
  * loop of the source proved to do exactly that. The data callback is the
  * ghost log `delivered` of the payloads handed to it, already unmasked.
  */
module WSHandler {
  import opened Common

  /** `kMaxFrameDataLength`. */
  const MaxFrameDataLength: nat := 10 * 1024 * 1024

  datatype WSError = NoErr | Incomplete | HandshakeFailed | InvalidParam | InvalidState | InvalidFrame | InvalidLength | Closed

  datatype Opcode = Continue | Text | Binary | Close | Ping | Pong
  {
    function Code(): byte
    {
      match this
        case Continue => 0
        case Text => 1
        case Binary => 2
        case Close => 8
        case Ping => 9
        case Pong => 10
    }
  }

  /** Bit 63, which a 64-bit extended length must leave clear. */
  const TopBit: nat := 0x8000_0000_0000_0000

  /** The close opcode's value. */
  const CloseCode: byte := 8

  // ---------------------------------------------------------------------
  // Sending: the frame header

  /** The octets `encodeFrameheader` writes for a payload of `frameSize`
    * octets: FIN and the opcode, then the length in 7 bits, in 16 bits
    * after 126, or in 64 bits after 127, of which the source writes only
    * the low 32 (the upper four octets are zero). */
  function HeaderOctets(op: Opcode, frameSize: nat): (r: Bytes)
    ensures |r| == (if frameSize <= 125 then 2 else if frameSize <= 0xFFFF then 4 else 10)
    ensures r[0] == 0x80 + op.Code()
    ensures r[1] == (if frameSize <= 125 then frameSize else if frameSize <= 0xFFFF then 126 else 127)
  {
    var first := 0x80 + op.Code();
    if frameSize <= 125 then [first, frameSize]
    else if frameSize <= 0xFFFF then [first, 126, (frameSize / 0x100) % 0x100, frameSize % 0x100]
    else
      [first, 127, 0, 0, 0, 0, (frameSize / 0x100_0000) % 0x100, (frameSize / 0x1_0000) % 0x100,
       (frameSize / 0x100) % 0x100, frameSize % 0x100]
  }

  /** `encodeFrameheader`: the header written at the start of `hdrBuffer`,
    * the rest of the buffer untouched, and its size returned. Swift's
    * `UInt8(frameSize)` traps on a negative size. */
  method EncodeFrameHeader(op: Opcode, frameSize: int, hdrBuffer: array<byte>) returns (hdrSize: nat)
    requires 0 <= frameSize && hdrBuffer.Length >= 10
    modifies hdrBuffer
    ensures hdrSize == |HeaderOctets(op, frameSize)|
    ensures hdrBuffer[..hdrSize] == HeaderOctets(op, frameSize)
    ensures hdrBuffer[hdrSize..] == old(hdrBuffer[hdrSize..])
  {
    var firstByte := 0x80 + op.Code();
    var secondByte := 0;
    hdrSize := 2;
    if frameSize <= 125 {
      secondByte := frameSize;
    } else if frameSize <= 0xFFFF {
      hdrSize := hdrSize + 2;
      secondByte := 126;
    } else {
      hdrSize := hdrSize + 8;
      secondByte := 127;
    }
    hdrBuffer[0] := firstByte;
    hdrBuffer[1] := secondByte;
    if secondByte == 126 {
      hdrBuffer[2] := (frameSize / 0x100) % 0x100;
      hdrBuffer[3] := frameSize % 0x100;
    } else if secondByte == 127 {
      hdrBuffer[2] := 0;
      hdrBuffer[3] := 0;
      hdrBuffer[4] := 0;
      hdrBuffer[5] := 0;
      hdrBuffer[6] := (frameSize / 0x100_0000) % 0x100;
      hdrBuffer[7] := (frameSize / 0x1_0000) % 0x100;
      hdrBuffer[8] := (frameSize / 0x100) % 0x100;
      hdrBuffer[9] := frameSize % 0x100;
    }
  }

  // ---------------------------------------------------------------------
  // Masking (section 5.3 of RFC 6455)

  /** Bitwise exclusive or of the low `n` bits of `a` and `b`. */
  function XorBits(a: nat, b: nat, n: nat): (r: nat)
    ensures r < Pow2(n)
  {
    if n == 0 then 0 else (if a % 2 == b % 2 then 0 else 1) + 2 * XorBits(a / 2, b / 2, n - 1)
  }

  /** `^` on octets. */
  function BXor(a: byte, b: byte): byte
  {
    assert Pow2(8) == 0x100 by {
      assert Pow2(4) == 16;
    }
    XorBits(a, b, 8)
  }

  lemma {:induction false} XorBitsTwice(a: nat, k: nat, n: nat)
    requires a < Pow2(n)
    ensures XorBits(XorBits(a, k, n), k, n) == a
  {
    if n > 0 {
      var x := XorBits(a, k, n);
      assert x % 2 == (if a % 2 == k % 2 then 0 else 1) && x / 2 == XorBits(a / 2, k / 2, n - 1);
      XorBitsTwice(a / 2, k / 2, n - 1);
    }
  }

  lemma XorTwice(a: byte, k: byte)
    ensures BXor(BXor(a, k), k) == a
  {
    assert Pow2(8) == 0x100 by {
      assert Pow2(4) == 16;
    }
    XorBitsTwice(a, k, 8);
  }

  /** Octet `i` XORed with key octet `i % 4`. */
  function MaskWith(key: seq<byte>, data: Bytes): (r: Bytes)
    requires |key| == 4
    ensures |r| == |data|
    ensures forall i :: 0 <= i < |data| ==> r[i] == BXor(data[i], key[i % 4])
  {
    seq(|data|, i requires 0 <= i < |data| => BXor(data[i], key[i % 4]))
  }

  /** Masking twice with the same key gives the data back. */
  lemma MaskTwice(key: seq<byte>, data: Bytes)
    requires |key| == 4
    ensures MaskWith(key, MaskWith(key, data)) == data
  {
    var m := MaskWith(key, data);
    forall i | 0 <= i < |data| ensures MaskWith(key, m)[i] == data[i] {
      XorTwice(data[i], key[i % 4]);
    }
  }

  // ---------------------------------------------------------------------
  // The decoder's context

  datatype DecodeState = Hdr1 | Hdr2 | HdrEx | MasKey | Data | DClosed | DError
  {
    /** The order in which a call may pass through states without taking
      * an octet. */
    function Rank(): nat
    {
      match this
        case HdrEx => 3
        case MasKey => 2
        case Data => 1
        case _ => 0
    }
  }

  /** The decoder is partway through a frame: its header is started, or
    * its payload (possibly empty) not yet handed on. */
  predicate MidFrame(st: DecodeState)
  {
    st in {Hdr2, HdrEx, MasKey, Data}
  }

  /** Neither closed nor failed. */
  predicate Live(st: DecodeState)
  {
    st != DClosed && st != DError
  }

  /** `FrameHeader` of the decoder: `plen` is the 7-bit length, `xpl` the
    * extended length, `length` the payload length. */
  datatype FrameHead = FrameHead(fin: bool, opcode: byte, mask: bool, plen: nat, xpl: nat, maskey: seq<byte>, length: nat)

  datatype DecodeContext = DecodeContext(hdr: FrameHead, state: DecodeState, buf: Bytes, pos: nat)

  /** The decoder's context and the handler's `opcode`, the opcode of the
    * last frame whose first octet was accepted. */
  datatype Decoder = Decoder(dctx: DecodeContext, opcode: byte)

  function NewHead(): FrameHead
  {
    FrameHead(false, 0, false, 0, 0, [0, 0, 0, 0], 0)
  }

  function NewDecoder(): Decoder
  {
    Decoder(DecodeContext(NewHead(), Hdr1, [], 0), Opcode.Binary.Code())
  }

  /** `DecodeContext.reset`: everything but the masking key. */
  function Reset(c: DecodeContext): DecodeContext
  {
    DecodeContext(FrameHead(false, 0, false, 0, 0, c.hdr.maskey, 0), Hdr1, [], 0)
  }

  /** The octets of extended length that follow a 7-bit length of 126 or
    * 127. */
  function ExpectLen(plen: nat): nat
  {
    if plen == 126 then 2 else if plen == 127 then 8 else 0
  }

  /** What the context keeps between steps: a four-octet key, a 7-bit
    * length, partial counts below what each state expects, a payload
    * buffer no longer than the payload. */
  predicate Sane(d: Decoder)
  {
    var c := d.dctx;
    && |c.hdr.maskey| == 4 && c.hdr.plen < 128
    && (c.state == HdrEx ==> c.pos <= ExpectLen(c.hdr.plen) && (ExpectLen(c.hdr.plen) > 0 ==> c.pos < ExpectLen(c.hdr.plen)))
    && (c.state == MasKey ==> c.pos < 4)
    && (c.state == Data ==> |c.buf| <= c.hdr.length)
  }

  function Pow256(n: nat): (r: nat)
    ensures r >= 1
  {
    if n == 0 then 1 else 0x100 * Pow256(n - 1)
  }

  /** Octets `k`, `k + 1`, ... of an `e`-octet big-endian length added to
    * `x`. The source ORs each octet in at its own shift; the shifts are
    * distinct and `xpl` starts at zero, so the OR is this sum. */
  function Acc(x: nat, bytes: Bytes, e: nat, k: nat): nat
    requires k + |bytes| <= e
    decreases |bytes|
  {
    if bytes == [] then x else Acc(x + bytes[0] * Pow256(e - k - 1), bytes[1..], e, k + 1)
  }

  /** The payload as the data callback gets it: unmasked when a key came
    * with it. */
  function Unmasked(h: FrameHead, data: Bytes): Bytes
    requires |h.maskey| == 4
  {
    if !h.mask || |data| == 0 then data else MaskWith(h.maskey, data)
  }

  // ---------------------------------------------------------------------
  // One round of the loop of `decodeFrame`

  datatype Stepped =
    | Go(d: Decoder, used: nat, out: seq<Bytes>)
    | Stop(d: Decoder, err: WSError, out: seq<Bytes>)

  /** The first octet: FIN, the opcode, and the reserved bits, which must
    * be zero. */
  function FirstOctet(d: Decoder, b: byte): (r: Stepped)
    requires Sane(d)
    ensures Sane(r.d) && r.out == []
    ensures r.Stop? <==> (b / 16) % 8 != 0
    ensures r.Stop? ==> r.err == InvalidFrame && r.d.dctx.state == DError && r.d.opcode == d.opcode
    ensures r.Go? ==> r.d.dctx.state == Hdr2 && r.d.opcode == b % 16 && r.used == 1
  {
    var h := d.dctx.hdr.(fin := b >= 0x80, opcode := b % 16);
    if (b / 16) % 8 != 0 then Stop(Decoder(d.dctx.(hdr := h, state := DError), d.opcode), InvalidFrame, [])
    else Go(Decoder(d.dctx.(hdr := h, state := Hdr2), h.opcode), 1, [])
  }

  /** The second octet: the mask bit and the 7-bit length. */
  function SecondOctet(d: Decoder, b: byte): (r: Stepped)
    requires Sane(d)
    ensures Sane(r.d) && r.Go? && r.used == 1 && r.out == [] && r.d.dctx.state == HdrEx
    ensures r.d.dctx.hdr.plen == b % 0x80 && r.d.dctx.hdr.mask == (b >= 0x80)
  {
    var h := d.dctx.hdr.(mask := b >= 0x80, plen := b % 0x80, xpl := 0);
    Go(Decoder(DecodeContext(h, HdrEx, [], 0), d.opcode), 1, [])
  }

  /** The extended length: the whole of it when enough octets are there,
    * checked to be at least 126, below 2^63 and within
    * `kMaxFrameDataLength`; otherwise what there is, kept for the next
    * call. */
  function ExtendedLength(d: Decoder, s: Bytes): (r: Stepped)
    requires Sane(d) && d.dctx.state == HdrEx && s != []
    ensures Sane(r.d) && r.out == []
    ensures r.Go? ==> r.used <= |s| && r.d.dctx.state == MasKey
    ensures r.Stop? ==> r.err in {InvalidLength, Incomplete} && (r.err == Incomplete <==> r.d.dctx.state == HdrEx)
    ensures r.Stop? ==> r.d.dctx.state in {HdrEx, DError}
  {
    var c := d.dctx;
    var e := ExpectLen(c.hdr.plen);
    if e == 0 then Go(Decoder(c.(hdr := c.hdr.(length := c.hdr.plen), state := MasKey), d.opcode), 0, [])
    else if |s| + c.pos >= e then
      var n := e - c.pos;
      var xpl := Acc(c.hdr.xpl, s[..n], e, c.pos);
      var h := c.hdr.(xpl := xpl);
      if xpl < 126 || xpl >= TopBit then Stop(Decoder(c.(hdr := h, pos := 0, state := DError), d.opcode), InvalidLength, [])
      else if xpl > MaxFrameDataLength then
        Stop(Decoder(c.(hdr := h.(length := xpl), pos := 0, state := DError), d.opcode), InvalidLength, [])
      else Go(Decoder(c.(hdr := h.(length := xpl), pos := 0, state := MasKey), d.opcode), n, [])
    else Stop(Decoder(c.(hdr := c.hdr.(xpl := Acc(c.hdr.xpl, s, e, c.pos)), pos := c.pos + |s|), d.opcode), Incomplete, [])
  }

  /** The header is complete: the payload buffer empties; a close frame
    * with no payload closes the decoder at once. */
  function HeaderDone(d: Decoder, c: DecodeContext, used: nat): (r: Stepped)
    requires |c.hdr.maskey| == 4 && c.hdr.plen < 128
    ensures Sane(r.d) && r.out == []
    ensures r.Go? ==> r.used == used && r.d.dctx.state == Data
    ensures r.Stop? ==> r.err == Closed && r.d.dctx.state == DClosed
  {
    var c2 := c.(buf := [], state := Data);
    if c.hdr.opcode == CloseCode && c.hdr.length == 0 then Stop(Decoder(c2.(state := DClosed), d.opcode), Closed, [])
    else Go(Decoder(c2, d.opcode), used, [])
  }

  /** `key` with the octets from `k` on replaced by `bytes`. */
  function Patched(key: seq<byte>, k: nat, bytes: Bytes): (r: seq<byte>)
    requires k + |bytes| <= |key|
    ensures |r| == |key|
  {
    key[..k] + bytes + key[k + |bytes|..]
  }

  lemma PatchedTwice(key: seq<byte>, k: nat, u: Bytes, v: Bytes)
    requires k + |u| + |v| <= |key|
    ensures Patched(Patched(key, k, u), k + |u|, v) == Patched(key, k, u + v)
  {
    var p := Patched(key, k, u);
    assert p[..k + |u|] == key[..k] + u;
    assert p[k + |u| + |v|..] == key[k + |u| + |v|..];
  }

  /** Patching one octet is updating it. */
  lemma PatchedOne(key: seq<byte>, k: nat, b: byte)
    requires k < |key|
    ensures Patched(key, k, [b]) == key[k := b]
  {
  }

  /** The masking key, when the mask bit is set: all four octets, or what
    * there is, kept for the next call. */
  function MaskingKey(d: Decoder, s: Bytes): (r: Stepped)
    requires Sane(d) && d.dctx.state == MasKey && s != []
    ensures Sane(r.d) && r.out == []
    ensures r.Go? ==> r.used <= |s| && r.d.dctx.state == Data
    ensures r.Stop? ==> r.err in {Closed, Incomplete} && (r.err == Incomplete <==> r.d.dctx.state == MasKey)
    ensures r.Stop? ==> r.d.dctx.state in {MasKey, DClosed}
  {
    var c := d.dctx;
    if c.hdr.mask then
      var n := Min(|s|, 4 - c.pos);
      var key := Patched(c.hdr.maskey, c.pos, s[..n]);
      var c1 := c.(hdr := c.hdr.(maskey := key), pos := c.pos + n);
      if c.pos + n < 4 then Stop(Decoder(c1, d.opcode), Incomplete, [])
      else HeaderDone(d, c1.(pos := 0), n)
    else HeaderDone(d, c, 0)
  }

  /** The payload: handed on whole, straight from the input when nothing
    * is buffered or after the buffered part; otherwise buffered. A close
    * frame closes the decoder instead. */
  function Payload(d: Decoder, s: Bytes): (r: Stepped)
    requires Sane(d) && d.dctx.state == Data && s != []
    ensures Sane(r.d)
    ensures r.Go? ==> r.used <= |s| && r.d.dctx.state == Hdr1 && |r.out| == 1
    ensures r.Stop? ==> r.out == [] && r.err in {Closed, Incomplete} && (r.err == Incomplete <==> r.d.dctx.state == Data)
    ensures r.Stop? ==> r.d.dctx.state in {Data, DClosed}
  {
    var c := d.dctx;
    var h := c.hdr;
    if h.opcode == CloseCode then Stop(Decoder(c.(state := DClosed), d.opcode), Closed, [])
    else if |c.buf| == 0 && |s| >= h.length then Go(Decoder(Reset(c), d.opcode), h.length, [Unmasked(h, s[..h.length])])
    else if |s| + |c.buf| >= h.length then
      var n := h.length - |c.buf|;
      Go(Decoder(Reset(c), d.opcode), n, [Unmasked(h, c.buf + s[..n])])
    else Stop(Decoder(c.(buf := c.buf + s), d.opcode), Incomplete, [])
  }

  /** One round of the loop on the input `s` still to read. */
  function Step(d: Decoder, s: Bytes): (r: Stepped)
    requires Sane(d) && s != []
    ensures Sane(r.d)
    ensures r.Go? ==> r.used <= |s| && (r.used > 0 || r.d.dctx.state.Rank() < d.dctx.state.Rank())
    ensures r.Stop? ==> r.err != NoErr && (r.err == Incomplete ==> r.out == [])
    ensures r.Go? ==> Live(r.d.dctx.state)
    ensures r.Stop? ==> r.d.dctx.state != Hdr1 && (r.err == Incomplete <==> MidFrame(r.d.dctx.state))
  {
    match d.dctx.state
      case Hdr1 => FirstOctet(d, s[0])
      case Hdr2 => SecondOctet(d, s[0])
      case HdrEx => ExtendedLength(d, s)
      case MasKey => MaskingKey(d, s)
      case Data => Payload(d, s)
      case _ => Stop(d, InvalidFrame, [])
  }

  datatype Ran = Ran(d: Decoder, err: WSError, out: seq<Bytes>)

  /** What `decodeFrame` does with the input `s`: the context it leaves,
    * its result and the payloads it hands on. The result is `noErr`
    * exactly when the decoder is left at a frame boundary; from a live
    * decoder it is `incomplete` exactly when the input ends inside a
    * frame, which includes a frame whose empty payload is still to be
    * handed on (that happens on the next call). */
  function Run(d: Decoder, s: Bytes): (r: Ran)
    requires Sane(d)
    ensures Sane(r.d)
    ensures r.err == NoErr <==> r.d.dctx.state == Hdr1
    ensures Live(d.dctx.state) ==> (r.err == Incomplete <==> MidFrame(r.d.dctx.state))
    decreases |s|, d.dctx.state.Rank()
  {
    if s == [] then Ran(d, if d.dctx.state == Hdr1 then NoErr else Incomplete, [])
    else
      match Step(d, s)
        case Go(d2, n, out) =>
          var r := Run(d2, s[n..]);
          Ran(r.d, r.err, out + r.out)
        case Stop(d2, e, out) => Ran(d2, e, out)
  }

  // ---------------------------------------------------------------------
  // Properties of the decoder

  /** `Run` past one round that goes on. */
  lemma RunGo(d: Decoder, s: Bytes)
    requires Sane(d) && s != [] && Step(d, s).Go?
    ensures var g := Step(d, s);
      var r := Run(g.d, s[g.used..]);
      Run(d, s) == Ran(r.d, r.err, g.out + r.out)
  {
  }

  /** `Run` at a round that stops. */
  lemma RunStop(d: Decoder, s: Bytes)
    requires Sane(d) && s != [] && Step(d, s).Stop?
    ensures Run(d, s) == Ran(Step(d, s).d, Step(d, s).err, Step(d, s).out)
  {
  }

  /** `Run` once the input is used up. */
  lemma RunEmpty(d: Decoder)
    requires Sane(d)
    ensures Run(d, []) == Ran(d, if d.dctx.state == Hdr1 then NoErr else Incomplete, [])
  {
  }

  /** A close frame (opcode 8) with a 7-bit length: once its header is in
    * and one more octet is there, the decoder closes and reports
    * `closed`, handing nothing on, whatever the payload and whatever
    * follows; when the length is 0 and no mask is set the octet after the
    * header is not looked at. */
  lemma CloseFrameCloses(fin: bool, mask: bool, n: nat, key: Bytes, rest: Bytes)
    requires n < 126 && |key| == (if mask then 4 else 0) && rest != []
    ensures var s := [if fin then 0x88 else 0x08, (if mask then 0x80 else 0) + n] + key + rest;
      var r := Run(NewDecoder(), s);
      r.err == Closed && r.out == [] && r.d.dctx.state == DClosed
  {
    hide Run;
    var b0: byte := if fin then 0x88 else 0x08;
    var b1: byte := (if mask then 0x80 else 0) + n;
    var t := key + rest;
    var s := [b0] + ([b1] + t);
    assert s == [b0, b1] + key + rest;
    var d0 := NewDecoder();
    assert (b0 / 16) % 8 == 0 && b0 % 16 == CloseCode;
    assert Step(d0, s) == FirstOctet(d0, b0);
    RunGo(d0, s);
    var d1 := Step(d0, s).d;
    assert Step(d0, s).used == 1 && Step(d0, s).out == [];
    assert d1.dctx.state == Hdr2 && d1.dctx.hdr.opcode == CloseCode;
    assert s[1..] == [b1] + t;
    CloseLengthCloses(d1, b1, t, mask, n, |key|);
  }

  /** The second octet of a close frame's header, with the key and one
    * more octet after it: the decoder closes. */
  lemma CloseLengthCloses(d: Decoder, b1: byte, t: Bytes, mask: bool, n: nat, k: nat)
    requires Sane(d) && d.dctx.state == Hdr2 && d.dctx.hdr.opcode == CloseCode
    requires n < 126 && b1 as int == (if mask then 0x80 else 0) + n
    requires k == (if mask then 4 else 0) && |t| > k
    ensures var r := Run(d, [b1] + t);
      r.err == Closed && r.out == [] && r.d.dctx.state == DClosed
  {
    hide Run;
    var s := [b1] + t;
    assert Step(d, s) == SecondOctet(d, b1);
    RunGo(d, s);
    var d2 := Step(d, s).d;
    assert Step(d, s).used == 1 && Step(d, s).out == [];
    assert b1 % 0x80 == n && (b1 >= 0x80) == mask;
    assert s[1..] == t;
    CloseHeaderCloses(d2, t, mask, n, k);
  }

  /** The rest of a close frame's header after its second octet, with one
    * more octet there: the decoder closes. */
  lemma CloseHeaderCloses(d: Decoder, t: Bytes, mask: bool, n: nat, k: nat)
    requires Sane(d) && d.dctx.state == HdrEx && d.dctx.hdr.opcode == CloseCode
    requires d.dctx.hdr.plen == n && n < 126 && d.dctx.hdr.mask == mask && d.dctx.pos == 0
    requires k == (if mask then 4 else 0) && |t| > k
    ensures var r := Run(d, t);
      r.err == Closed && r.out == [] && r.d.dctx.state == DClosed
  {
    hide Run;
    RunGo(d, t);
    var d3 := Step(d, t).d;
    assert Step(d, t).used == 0;
    assert d3.dctx.state == MasKey && d3.dctx.hdr.length == n && d3.dctx.pos == 0 && d3.dctx.hdr.opcode == CloseCode;
    if n > 0 {
      RunGo(d3, t);
      var g := Step(d3, t);
      assert g.used == k && g.d.dctx.state == Data && g.d.dctx.hdr.opcode == CloseCode;
      RunStop(g.d, t[k..]);
    } else {
      RunStop(d3, t);
    }
  }

  /** Two calls, the second on what the first left. */
  function Then(r: Ran, b: Bytes): Ran
    requires Sane(r.d)
  {
    var r2 := Run(r.d, b);
    Ran(r2.d, r2.err, r.out + r2.out)
  }

  lemma {:induction false} AccSplit(x: nat, u: Bytes, v: Bytes, e: nat, k: nat)
    requires k + |u| + |v| <= e
    ensures Acc(x, u + v, e, k) == Acc(Acc(x, u, e, k), v, e, k + |u|)
    decreases |u|
  {
    if u == [] {
      assert u + v == v;
    } else {
      var x2 := x + u[0] * Pow256(e - k - 1);
      assert (u + v)[0] == u[0] && (u + v)[1..] == u[1..] + v;
      assert Acc(x, u + v, e, k) == Acc(x2, u[1..] + v, e, k + 1);
      assert Acc(x, u, e, k) == Acc(x2, u[1..], e, k + 1);
      AccSplit(x2, u[1..], v, e, k + 1);
    }
  }

  /** A round that goes on with all its octets in `a` goes on the same way
    * when more input follows. */
  lemma StepExtends(d: Decoder, a: Bytes, b: Bytes)
    requires Sane(d) && a != [] && Step(d, a).Go?
    ensures Step(d, a + b) == Step(d, a)
  {
    hide Acc, Unmasked;
    var s := a + b;
    assert s[0] == a[0];
    var c := d.dctx;
    match c.state {
      case HdrEx =>
        var e := ExpectLen(c.hdr.plen);
        if e > 0 {
          assert s[..e - c.pos] == a[..e - c.pos];
        }
      case MasKey =>
        if c.hdr.mask {
          assert s[..Min(|s|, 4 - c.pos)] == a[..Min(|a|, 4 - c.pos)];
        }
      case Data =>
        var n := c.hdr.length - |c.buf|;
        if |c.buf| == 0 && |a| >= c.hdr.length {
          assert s[..c.hdr.length] == a[..c.hdr.length];
        } else {
          assert s[..n] == a[..n];
        }
      case _ =>
    }
  }

  /** A round that stopped `k` octets earlier. */
  function Later(r: Stepped, k: nat): Stepped
  {
    if r.Go? then r.(used := r.used + k) else r
  }

  /** A round that stops for more input resumes, on the next call, exactly
    * where the same round on the joined input would have gone. */
  lemma ResumeExtendedLength(d: Decoder, a: Bytes, b: Bytes)
    requires Sane(d) && d.dctx.state == HdrEx && a != [] && b != []
    requires ExtendedLength(d, a).Stop? && ExtendedLength(d, a).err == Incomplete
    ensures ExtendedLength(d, a).d.dctx.state == HdrEx
    ensures ExtendedLength(d, a + b) == Later(ExtendedLength(ExtendedLength(d, a).d, b), |a|)
  {
    hide Acc;
    var c := d.dctx;
    var e := ExpectLen(c.hdr.plen);
    var s := a + b;
    assert |a| + c.pos < e;
    if |s| + c.pos >= e {
      var n := e - c.pos;
      assert s[..n] == a + b[..n - |a|];
      AccSplit(c.hdr.xpl, a, b[..n - |a|], e, c.pos);
    } else {
      AccSplit(c.hdr.xpl, a, b, e, c.pos);
    }
  }

  lemma HeaderDoneLater(d: Decoder, d2: Decoder, c: DecodeContext, u: nat, k: nat)
    requires |c.hdr.maskey| == 4 && c.hdr.plen < 128 && d.opcode == d2.opcode
    ensures HeaderDone(d, c, u + k) == Later(HeaderDone(d2, c, u), k)
  {
  }

  lemma ResumeMaskingKey(d: Decoder, a: Bytes, b: Bytes)
    requires Sane(d) && d.dctx.state == MasKey && a != [] && b != []
    requires MaskingKey(d, a).Stop? && MaskingKey(d, a).err == Incomplete
    ensures MaskingKey(d, a).d.dctx.state == MasKey
    ensures MaskingKey(d, a + b) == Later(MaskingKey(MaskingKey(d, a).d, b), |a|)
  {
    hide HeaderDone, Patched;
    var c := d.dctx;
    var s := a + b;
    assert c.hdr.mask && |a| + c.pos < 4;
    var k := c.pos;
    var n := Min(|s|, 4 - k);
    var n2 := Min(|b|, 4 - (k + |a|));
    assert n == |a| + n2;
    assert s[..n] == a + b[..n2] && a[..|a|] == a;
    PatchedTwice(c.hdr.maskey, k, a, b[..n2]);
    var d2 := MaskingKey(d, a).d;
    if k + n == 4 {
      HeaderDoneLater(d, d2, d2.dctx.(hdr := d2.dctx.hdr.(maskey := Patched(c.hdr.maskey, k, s[..n])), pos := 0), n2, |a|);
    }
  }

  lemma ResumePayload(d: Decoder, a: Bytes, b: Bytes)
    requires Sane(d) && d.dctx.state == Data && a != [] && b != []
    requires Payload(d, a).Stop? && Payload(d, a).err == Incomplete
    ensures Payload(d, a).d.dctx.state == Data
    ensures Payload(d, a + b) == Later(Payload(Payload(d, a).d, b), |a|)
  {
    hide Unmasked;
    var c := d.dctx;
    var h := c.hdr;
    var s := a + b;
    var buf2 := c.buf + a;
    assert |a| + |c.buf| < h.length && h.opcode != CloseCode;
    if |s| + |c.buf| >= h.length {
      var n := h.length - |c.buf|;
      assert c.buf + s[..n] == buf2 + b[..n - |a|];
      if |c.buf| == 0 {
        assert s[..h.length] == buf2 + b[..n - |a|];
      }
    } else {
      assert c.buf + s == buf2 + b;
    }
  }

  /** A round that stops for more input, followed by a call on more
    * input, is the round on the joined input. */
  lemma {:induction false} ResumeStep(d: Decoder, a: Bytes, b: Bytes)
    requires Sane(d) && a != [] && Step(d, a).Stop? && Step(d, a).err == Incomplete
    ensures Run(d, a + b) == Run(Step(d, a).d, b)
  {
    hide Acc, Unmasked, Run;
    var d2 := Step(d, a).d;
    RunStop(d, a);
    if b == [] {
      assert a + b == a;
      assert d2.dctx.state != Hdr1;
      RunEmpty(d2);
    } else {
      var s := a + b;
      match d.dctx.state {
        case HdrEx => ResumeExtendedLength(d, a, b);
        case MasKey => ResumeMaskingKey(d, a, b);
        case Data => ResumePayload(d, a, b);
        case _ =>
      }
      assert Step(d, s) == Later(Step(d2, b), |a|);
      match Step(d2, b) {
        case Go(d3, n, out) =>
          assert s[n + |a|..] == b[n..];
          RunGo(d, s);
          RunGo(d2, b);
        case Stop(d3, e, out) =>
          RunStop(d, s);
          RunStop(d2, b);
      }
    }
  }

  /** Splitting the input between two calls changes nothing: the second
    * call, on what the first left, ends where one call on the joined
    * input ends, having handed on the same payloads. */
  lemma {:induction false} DecodeSplit(d: Decoder, a: Bytes, b: Bytes)
    requires Sane(d) && Run(d, a).err in {NoErr, Incomplete}
    ensures Run(d, a + b) == Then(Run(d, a), b)
    decreases |a|, d.dctx.state.Rank()
  {
    hide Acc, Unmasked, FirstOctet, SecondOctet, ExtendedLength, MaskingKey, Payload, Step, Run;
    if a == [] {
      assert a + b == b;
      RunEmpty(d);
    } else {
      match Step(d, a) {
        case Go(d2, n, out) =>
          StepExtends(d, a, b);
          RunGo(d, a);
          RunGo(d, a + b);
          assert (a + b)[n..] == a[n..] + b;
          DecodeSplit(d2, a[n..], b);
        case Stop(d2, e, out) =>
          RunStop(d, a);
          ResumeStep(d, a, b);
      }
    }
  }

  /** Reserved bits in the first octet are an error. */
  lemma ReservedBitsRejected(d: Decoder, s: Bytes)
    requires Sane(d) && d.dctx.state == Hdr1 && s != [] && (s[0] / 16) % 8 != 0
    ensures Run(d, s).err == InvalidFrame && Run(d, s).d.dctx.state == DError && Run(d, s).out == []
  {
  }

  /** A big-endian number. */
  function BigEndian(bytes: Bytes): nat
  {
    Acc(0, bytes, |bytes|, 0)
  }

  /** Given the extended length, the decoder refuses the frame with
    * `invalidLength` exactly when the length is below 126, has bit 63 set
    * or exceeds `kMaxFrameDataLength`, and otherwise takes it as the
    * payload length and waits for the masking key. The 64-bit form is
    * checked against 126 only, so a length that would fit in 16 bits is
    * accepted in 64. */
  lemma ExtendedLengthChecked(d: Decoder, s: Bytes)
    requires Sane(d) && d.dctx.state == HdrEx && d.dctx.pos == 0 && d.dctx.hdr.xpl == 0
    requires ExpectLen(d.dctx.hdr.plen) > 0 && |s| == ExpectLen(d.dctx.hdr.plen)
    ensures var v := BigEndian(s);
      var r := Run(d, s);
      && (r.err == InvalidLength <==> v < 126 || v >= TopBit || v > MaxFrameDataLength)
      && (r.err == InvalidLength ==> r.d.dctx.state == DError)
      && (r.err != InvalidLength ==> r.err == Incomplete && r.d.dctx.state == MasKey && r.d.dctx.hdr.length == v)
      && r.out == []
  {
    hide Acc;
    assert s[..|s|] == s;
  }

  lemma {:induction false} AccZeros(x: nat, z: Bytes, e: nat, k: nat)
    requires k + |z| <= e && forall i :: 0 <= i < |z| ==> z[i] == 0
    ensures Acc(x, z, e, k) == x
    decreases |z|
  {
    if z != [] {
      assert z[0] == 0;
      AccZeros(x, z[1..], e, k + 1);
    }
  }

  lemma AccTwo(t: Bytes)
    requires |t| == 2
    ensures Acc(0, t, 2, 0) == t[0] as int * 0x100 + t[1]
  {
    var t0: int, t1: int := t[0], t[1];
    assert Pow256(1) == 0x100;
    assert Acc(0, t, 2, 0) == Acc(t0 * 0x100, t[1..], 2, 1);
    assert t[1..][0] == t1 && t[1..][1..] == [];
    assert Acc(t0 * 0x100, t[1..], 2, 1) == Acc(t0 * 0x100 + t1, [], 2, 2);
  }

  lemma AccLastFour(t: Bytes)
    requires |t| == 4
    ensures Acc(0, t, 8, 4) == t[0] as int * 0x100_0000 + t[1] as int * 0x1_0000 + t[2] as int * 0x100 + t[3]
  {
    var t0: int, t1: int, t2: int, t3: int := t[0], t[1], t[2], t[3];
    assert Pow256(1) == 0x100 && Pow256(2) == 0x1_0000 && Pow256(3) == 0x100_0000;
    var u1, u2, u3 := t[1..], t[2..], t[3..];
    assert u1[0] == t1 && u1[1..] == u2 && u2[0] == t2 && u2[1..] == u3 && u3[0] == t3 && u3[1..] == [];
    assert Acc(0, t, 8, 4) == Acc(t0 * 0x100_0000, u1, 8, 5);
    assert Acc(t0 * 0x100_0000, u1, 8, 5) == Acc(t0 * 0x100_0000 + t1 * 0x1_0000, u2, 8, 6);
    assert Acc(t0 * 0x100_0000 + t1 * 0x1_0000, u2, 8, 6) == Acc(t0 * 0x100_0000 + t1 * 0x1_0000 + t2 * 0x100, u3, 8, 7);
  }

  lemma DivDiv(n: nat)
    ensures n / 0x100 / 0x100 == n / 0x1_0000 && n / 0x1_0000 / 0x100 == n / 0x100_0000
  {
  }

  /** The length octets `encodeFrameheader` writes spell the length, for
    * lengths that fit in 32 bits. */
  lemma LengthOctets(op: Opcode, n: nat)
    requires n < 0x1_0000_0000
    ensures var hdr := HeaderOctets(op, n);
      var e := ExpectLen(hdr[1] % 0x80);
      && e == |hdr| - 2
      && (e == 0 ==> hdr[1] == n)
      && (e > 0 ==> Acc(0, hdr[2..], e, 0) == n)
  {
    hide Acc;
    var hdr := HeaderOctets(op, n);
    var t := hdr[2..];
    DivDiv(n);
    if n <= 125 {
    } else if n <= 0xFFFF {
      AccTwo(t);
    } else {
      assert t[..4] == [0, 0, 0, 0];
      AccSplit(0, t[..4], t[4..], 8, 0);
      assert Acc(0, t[..4], 8, 0) == 0 by {
        AccZeros(0, t[..4], 8, 0);
      }
      AccLastFour(t[4..]);
      assert t[..4] + t[4..] == t;
    }
  }

  /** The decoder once it has read the header `encodeFrameheader` writes
    * for an unmasked frame, waiting for the masking key. */
  function HeaderRead(op: Opcode, n: nat): Decoder
  {
    var plen := if n <= 125 then n else if n <= 0xFFFF then 126 else 127;
    Decoder(DecodeContext(FrameHead(true, op.Code(), false, plen, if n <= 125 then 0 else n, [0, 0, 0, 0], n), MasKey, [], 0), op.Code())
  }

  /** Reading the header: the octets after it are left as they are, as
    * long as there are some (a short header with nothing after it leaves
    * the decoder before the length is taken). */
  lemma ReadEncodedHeader(op: Opcode, n: nat, t: Bytes)
    requires n <= MaxFrameDataLength && t != []
    ensures Run(NewDecoder(), HeaderOctets(op, n) + t) == Run(HeaderRead(op, n), t)
  {
    hide Acc, HeaderOctets, Run, FirstOctet, SecondOctet, ExtendedLength, Payload, MaskingKey, MaskWith, Unmasked;
    var hdr := HeaderOctets(op, n);
    var s2 := hdr[2..] + t;
    assert hdr + t == [hdr[0], hdr[1]] + s2;
    assert hdr[0] % 16 == op.Code() && (hdr[0] / 16) % 8 == 0 && hdr[1] < 0x80;
    ReadTwoOctets(Decoder(DecodeContext(NewHead(), Hdr1, [], 0), Opcode.Binary.Code()), hdr[0], hdr[1], s2);
    var d2 := Decoder(DecodeContext(FrameHead(true, op.Code(), false, hdr[1], 0, [0, 0, 0, 0], 0), HdrEx, [], 0), op.Code());
    LengthOfEncodedHeader(op, n, t);
    RunGo(d2, s2);
  }

  lemma LengthOfEncodedHeader(op: Opcode, n: nat, t: Bytes)
    requires n <= MaxFrameDataLength && t != []
    ensures var hdr := HeaderOctets(op, n);
      var d2 := Decoder(DecodeContext(FrameHead(true, op.Code(), false, hdr[1], 0, [0, 0, 0, 0], 0), HdrEx, [], 0), op.Code());
      var g := ExtendedLength(d2, hdr[2..] + t);
      g == Go(HeaderRead(op, n), |hdr| - 2, []) && (hdr[2..] + t)[|hdr| - 2..] == t
  {
    hide Acc, HeaderOctets;
    var hdr := HeaderOctets(op, n);
    LengthOctets(op, n);
    var s2 := hdr[2..] + t;
    var e := ExpectLen(hdr[1]);
    assert s2[..e] == hdr[2..] && s2[e..] == t;
  }

  /** The first two octets of a header with no reserved bit set. */
  lemma ReadTwoOctets(d: Decoder, b0: byte, b1: byte, t: Bytes)
    requires Sane(d) && d.dctx.state == Hdr1 && (b0 / 16) % 8 == 0
    ensures var h := d.dctx.hdr.(fin := b0 >= 0x80, opcode := b0 % 16, mask := b1 >= 0x80, plen := b1 % 0x80, xpl := 0);
      Run(d, [b0, b1] + t) == Run(Decoder(DecodeContext(h, HdrEx, [], 0), b0 % 16), t)
  {
    hide Run;
    var s := [b0, b1] + t;
    RunGo(d, s);
    var d1 := FirstOctet(d, b0).d;
    assert s[1..] == [b1] + t;
    RunGo(d1, s[1..]);
    assert s[1..][1..] == t;
  }

  /** A received header as `encodeFrameheader` writes it, unmasked, with
    * a payload within `kMaxFrameDataLength` and an opcode other than
    * close, is decoded back: its payload is handed on, its opcode becomes
    * the handler's, and the decoder goes on with what follows as a fresh
    * decoder would. An empty payload is handed on only once some octet
    * follows it. */
  lemma DecodeEncodedFrame(op: Opcode, payload: Bytes, rest: Bytes)
    requires op != Close && |payload| <= MaxFrameDataLength
    requires payload != [] || rest != []
    ensures var r := Run(NewDecoder(), HeaderOctets(op, |payload|) + payload + rest);
      var after := Run(NewDecoder().(opcode := op.Code()), rest);
      && r.out == [payload] + after.out && r.err == after.err && r.d == after.d
  {
    hide Acc, MaskWith, HeaderOctets;
    var n := |payload|;
    var s3 := payload + rest;
    assert HeaderOctets(op, n) + payload + rest == HeaderOctets(op, n) + s3;
    ReadEncodedHeader(op, n, s3);
    var d3 := HeaderRead(op, n);
    var d4 := MaskingKey(d3, s3).d;
    assert Run(d3, s3) == Run(d4, s3);
    assert s3[..n] == payload && s3[n..] == rest;
    var d5 := Payload(d4, s3).d;
    assert d5 == NewDecoder().(opcode := op.Code());
    assert Run(d4, s3) == Ran(Run(d5, rest).d, Run(d5, rest).err, [payload] + Run(d5, rest).out);
  }
  lemma AccSnoc(x: nat, u: Bytes, b: byte, e: nat, k: nat)
    requires k + |u| + 1 <= e
    ensures Acc(x, u + [b], e, k) == Acc(x, u, e, k) + b * Pow256(e - k - |u| - 1)
  {
    AccSplit(x, u, [b], e, k);
    var y := Acc(x, u, e, k);
    assert Acc(y, [b], e, k + |u|) == Acc(y + b * Pow256(e - k - |u| - 1), [], e, k + |u| + 1);
  }

  // ---------------------------------------------------------------------
  // The handler

  /** The decoding half of `WSHandler`: the context, the opcode of the
    * current message and, for the data callback, the log of the payloads
    * handed to it. */
  class WSHandler {
    var dctx: DecodeContext
    var opcode: byte
    ghost var delivered: seq<Bytes>

    constructor ()
      ensures Current() == NewDecoder() && delivered == []
    {
      dctx := DecodeContext(NewHead(), Hdr1, [], 0);
      opcode := Opcode.Binary.Code();
      delivered := [];
    }

    function Current(): Decoder
      reads this`dctx, this`opcode
    {
      Decoder(dctx, opcode)
    }

    /** The handler has done round `g`: its decoder is the one `g` leaves
      * and the payloads `g` hands on went to the data callback. */
    twostate predicate Did(g: Stepped)
      reads this`dctx, this`opcode, this`delivered
    {
      Current() == g.d && delivered == old(delivered) + g.out
    }

    /** `handleDataMask`: the first `len` octets of `data` unmasked in
      * place when the header carries a key. */
    static method HandleDataMask(hdr: FrameHead, data: array<byte>, len: nat)
      requires |hdr.maskey| == 4 && len <= data.Length
      modifies data
      ensures data[..] == Unmasked(hdr, old(data[..len])) + old(data[len..])
    {
      if hdr.mask && len != 0 {
        for i := 0 to len
          invariant data[..i] == MaskWith(hdr.maskey, old(data[..len]))[..i]
          invariant data[i..] == old(data[i..])
        {
          data[i] := BXor(data[i], hdr.maskey[i % 4]);
          assert data[..i + 1] == data[..i] + [data[i]];
        }
        assert data[..] == data[..len] + data[len..];
      } else {
        assert data[..] == data[..len] + data[len..];
      }
    }

    /** A payload unmasked the way `decodeFrame` hands it on. */
    static method Unmask(hdr: FrameHead, payload: Bytes) returns (r: Bytes)
      requires |hdr.maskey| == 4
      ensures r == Unmasked(hdr, payload)
    {
      var a := new byte[|payload|](i requires 0 <= i < |payload| => payload[i]);
      assert a[..] == payload;
      assert a[..a.Length] == payload && a[a.Length..] == [];
      HandleDataMask(hdr, a, a.Length);
      r := a[..];
    }

    method ReadFirstOctet(b: byte) returns (stop: Option<WSError>)
      requires Sane(Current()) && dctx.state == Hdr1
      modifies this`dctx, this`opcode
      ensures var g := FirstOctet(old(Current()), b);
        Current() == g.d && (g.Go? <==> stop.None?) && (g.Stop? ==> stop == Some(g.err))
    {
      dctx := dctx.(hdr := dctx.hdr.(fin := b >= 0x80, opcode := b % 16));
      if (b / 16) % 8 != 0 {
        dctx := dctx.(state := DError);
        stop := Some(InvalidFrame);
      } else {
        opcode := dctx.hdr.opcode;
        dctx := dctx.(state := Hdr2);
        stop := None;
      }
    }

    method ReadSecondOctet(b: byte)
      requires Sane(Current()) && dctx.state == Hdr2
      modifies this`dctx
      ensures Current() == SecondOctet(old(Current()), b).d
    {
      dctx := dctx.(hdr := dctx.hdr.(mask := b >= 0x80, plen := b % 0x80, xpl := 0));
      dctx := dctx.(pos := 0, buf := [], state := HdrEx);
    }

    /** The `hdrex` case: the length octets, `(expectLen - dctx.pos - 1) * 8`
      * bits up, OR (here, add) into `xpl`. */
    method ReadExtendedLength(data: Bytes, pos: nat) returns (used: nat, stop: Option<WSError>)
      requires Sane(Current()) && dctx.state == HdrEx && pos < |data|
      modifies this`dctx
      ensures var g := ExtendedLength(old(Current()), data[pos..]);
        && Current() == g.d && (g.Go? <==> stop.None?)
        && (g.Go? ==> used == g.used) && (g.Stop? ==> stop == Some(g.err))
    {
      hide Acc;
      ghost var c0 := dctx;
      ghost var s := data[pos..];
      var e := ExpectLen(dctx.hdr.plen);
      used, stop := 0, None;
      if e > 0 {
        var p := pos;
        if |data| - pos + dctx.pos >= e {
          p := TakeLengthOctets(data, pos, e);
          assert data[pos..p] == s[..e - c0.pos];
          dctx := dctx.(pos := 0);
          if dctx.hdr.xpl < 126 || dctx.hdr.xpl >= TopBit {
            dctx := dctx.(state := DError);
            stop := Some(InvalidLength);
          } else {
            dctx := dctx.(hdr := dctx.hdr.(length := dctx.hdr.xpl));
            if dctx.hdr.length > MaxFrameDataLength {
              dctx := dctx.(state := DError);
              stop := Some(InvalidLength);
            } else {
              dctx := dctx.(state := MasKey);
              used := p - pos;
            }
          }
        } else {
          p := TakeLengthOctets(data, pos, e);
          assert data[pos..p] == s;
          stop := Some(Incomplete);
        }
      } else {
        dctx := dctx.(hdr := dctx.hdr.(length := dctx.hdr.plen), state := MasKey);
      }
    }

    /** The two loops of the `hdrex` case, the one that runs until the
      * length is complete and the one that runs until the input ends, as
      * one loop that runs until either happens. */
    method TakeLengthOctets(data: Bytes, pos: nat, e: nat) returns (p: nat)
      requires pos <= |data| && dctx.pos <= e
      modifies this`dctx
      ensures p - pos == Min(|data| - pos, e - old(dctx.pos)) && dctx.pos == old(dctx.pos) + (p - pos)
      ensures dctx == old(dctx).(hdr := old(dctx).hdr.(xpl := Acc(old(dctx).hdr.xpl, data[pos..p], e, old(dctx).pos)), pos := dctx.pos)
    {
      ghost var c0 := dctx;
      p := pos;
      while dctx.pos < e && p < |data|
        invariant pos <= p <= |data| && p - pos == dctx.pos - c0.pos && c0.pos <= dctx.pos <= e
        invariant dctx == c0.(hdr := c0.hdr.(xpl := Acc(c0.hdr.xpl, data[pos..p], e, c0.pos)), pos := dctx.pos)
      {
        AccSnoc(c0.hdr.xpl, data[pos..p], data[p], e, c0.pos);
        assert data[pos..p + 1] == data[pos..p] + [data[p]];
        dctx := dctx.(hdr := dctx.hdr.(xpl := dctx.hdr.xpl + data[p] * Pow256(e - dctx.pos - 1)), pos := dctx.pos + 1);
        p := p + 1;
      }
    }

    /** The `maskey` case: up to four key octets copied in one by one. */
    method ReadMaskingKey(data: Bytes, pos: nat) returns (used: nat, stop: Option<WSError>)
      requires Sane(Current()) && dctx.state == MasKey && pos < |data|
      modifies this`dctx
      ensures var g := MaskingKey(old(Current()), data[pos..]);
        && Current() == g.d && (g.Go? <==> stop.None?)
        && (g.Go? ==> used == g.used) && (g.Stop? ==> stop == Some(g.err))
    {
      ghost var c0 := dctx;
      used, stop := 0, None;
      var p := pos;
      if dctx.hdr.mask {
        var copyLen := |data| - pos;
        if copyLen + dctx.pos > 4 {
          copyLen := 4 - dctx.pos;
        }
        p := CopyKeyOctets(data, pos, copyLen);
        assert data[pos..p] == data[pos..][..copyLen];
        if dctx.pos < 4 {
          stop := Some(Incomplete);
        } else {
          dctx := dctx.(pos := 0);
        }
      }
      if stop.None? {
        dctx := dctx.(buf := [], state := Data);
        if dctx.hdr.opcode == CloseCode && dctx.hdr.length == 0 {
          dctx := dctx.(state := DClosed);
          stop := Some(Closed);
        }
        used := p - pos;
      }
    }

    /** The copy loop of the `maskey` case. */
    method CopyKeyOctets(data: Bytes, pos: nat, copyLen: nat) returns (p: nat)
      requires pos + copyLen <= |data| && dctx.pos + copyLen <= |dctx.hdr.maskey|
      modifies this`dctx
      ensures p == pos + copyLen
      ensures dctx == old(dctx).(hdr := old(dctx).hdr.(maskey := Patched(old(dctx).hdr.maskey, old(dctx).pos, data[pos..p])), pos := old(dctx).pos + copyLen)
    {
      ghost var c0 := dctx;
      p := pos;
      for i := 0 to copyLen
        invariant p == pos + i && dctx.pos == c0.pos + i
        invariant dctx == c0.(hdr := c0.hdr.(maskey := Patched(c0.hdr.maskey, c0.pos, data[pos..p])), pos := dctx.pos)
      {
        hide Patched;
        PatchedTwice(c0.hdr.maskey, c0.pos, data[pos..p], [data[p]]);
        PatchedOne(dctx.hdr.maskey, dctx.pos, data[p]);
        assert data[pos..p + 1] == data[pos..p] + [data[p]];
        dctx := dctx.(hdr := dctx.hdr.(maskey := dctx.hdr.maskey[dctx.pos := data[p]]), pos := dctx.pos + 1);
        p := p + 1;
      }
    }

    /** The `data` case. */
    method ReadPayload(data: Bytes, pos: nat) returns (used: nat, stop: Option<WSError>)
      requires Sane(Current()) && dctx.state == Data && pos < |data|
      modifies this`dctx, this`delivered
      ensures var g := Payload(old(Current()), data[pos..]);
        && Did(g) && (g.Go? <==> stop.None?)
        && (g.Go? ==> used == g.used) && (g.Stop? ==> stop == Some(g.err))
    {
      used, stop := 0, None;
      var remain := |data| - pos;
      if dctx.hdr.opcode == CloseCode {
        dctx := dctx.(state := DClosed);
        stop := Some(Closed);
      } else if |dctx.buf| == 0 && remain >= dctx.hdr.length {
        var notifyData := Unmask(dctx.hdr, data[pos..pos + dctx.hdr.length]);
        assert data[pos..pos + dctx.hdr.length] == data[pos..][..dctx.hdr.length];
        used := dctx.hdr.length;
        delivered := delivered + [notifyData];
        dctx := Reset(dctx);
      } else if remain + |dctx.buf| >= dctx.hdr.length {
        var copyLen := dctx.hdr.length - |dctx.buf|;
        assert data[pos..pos + copyLen] == data[pos..][..copyLen];
        ghost var h := dctx.hdr;
        dctx := dctx.(buf := dctx.buf + data[pos..pos + copyLen]);
        used := copyLen;
        var notifyData := Unmask(dctx.hdr, dctx.buf);
        delivered := delivered + [notifyData];
        dctx := Reset(dctx);
      } else {
        dctx := dctx.(buf := dctx.buf + data[pos..]);
        stop := Some(Incomplete);
      }
    }

    /** One round of the loop of `decodeFrame`. */
    method Round(data: Bytes, pos: nat) returns (used: nat, stop: Option<WSError>)
      requires Sane(Current()) && pos < |data|
      modifies this`dctx, this`opcode, this`delivered
      ensures var g := Step(old(Current()), data[pos..]);
        && Did(g) && (g.Go? <==> stop.None?)
        && (g.Go? ==> used == g.used) && (g.Stop? ==> stop == Some(g.err))
    {
      assert data[pos..][0] == data[pos];
      used, stop := 0, None;
      match dctx.state {
        case Hdr1 =>
          stop := ReadFirstOctet(data[pos]);
          used := 1;
        case Hdr2 =>
          ReadSecondOctet(data[pos]);
          used := 1;
        case HdrEx =>
          used, stop := ReadExtendedLength(data, pos);
        case MasKey =>
          used, stop := ReadMaskingKey(data, pos);
        case Data =>
          used, stop := ReadPayload(data, pos);
        case _ =>
          stop := Some(InvalidFrame);
      }
    }

    /** `decodeFrame`: the input read round by round until it runs out or
      * a round stops; proved to do what `Run` says. */
    method DecodeFrame(data: Bytes) returns (err: WSError)
      requires Sane(Current())
      modifies this`dctx, this`opcode, this`delivered
      ensures var r := Run(old(Current()), data);
        Current() == r.d && err == r.err && delivered == old(delivered) + r.out
    {
      hide Run, Step, FirstOctet, SecondOctet, ExtendedLength, MaskingKey, Payload, Acc, Unmasked, Sane;
      ghost var d0 := Current();
      ghost var out: seq<Bytes> := [];
      var pos := 0;
      var done := false;
      err := NoErr;
      while pos < |data| && !done
        invariant pos <= |data| && Sane(Current()) && delivered == old(delivered) + out
        invariant !done ==> Run(d0, data) == Ran(Run(Current(), data[pos..]).d, Run(Current(), data[pos..]).err, out + Run(Current(), data[pos..]).out)
        invariant done ==> Run(d0, data) == Ran(Current(), err, out)
        decreases !done, |data| - pos, Current().dctx.state.Rank()
      {
        ghost var cur := Current();
        ghost var s := data[pos..];
        var used, stop := Round(data, pos);
        ghost var g := Step(cur, s);
        if stop.Some? {
          RunStop(cur, s);
          err := stop.value;
          done := true;
          out := out + g.out;
        } else {
          RunGo(cur, s);
          assert data[pos + used..] == s[used..];
          pos := pos + used;
          out := out + g.out;
        }
      }
      if !done {
        assert data[pos..] == [];
        RunEmpty(Current());
        err := if dctx.state == Hdr1 then NoErr else Incomplete;
      }
    }
  }
}
